=== FILE: README.md ===
# ZX Spectrum emulator core in Dafny

This project models the emulator core of the ZX Spectrum 48K, 128K and +2 machines in `src/zx/zx.c`, together with the host audio ring buffer in `src/zx/zx.audio.c`. It covers:

- **Z80 CPU.** The register file and the flag byte. The ALU, DAA, the accumulator rotates and the CB, ED, DD, FD and DD CB / FD CB pages. The refresh register rule, the EI delay, and the interrupt in modes 0/1 and 2.
- **The machine around the CPU.** Banked memory with the 0x7FFD paging latch, read-only ROM and the screen-dirty flag. The ULA ports (keyboard matrix, EAR, border, beeper, border stripes) and the floating bus. The AY-3-8912 sound chip: registers, tone, noise, envelope and the sample mixer.
- **The tape.** The tape deck with its pilot, sync, data and pause phases, and the TAP and TZX loaders, including the block skipper.
- **.z80 snapshots.** The run-length code, the version 3 writer and the version 1/2/3 reader, with the runtime cleanup after a load.
- **Audio.** The audio sampling of `audio_tick` and the slice loop of `execute_one`. On the host side, the ring buffer of stereo frames, its mono-to-stereo writer and its consume step.

Everything is modelled as pure functions over immutable datatypes:

- Byte-level machine values are `bv8`/`bv16`.
- Lengths, counters and sample values are `int`/`nat`.
- A 16 KB bank is a `seq<bv8>` of length 16384.

The 16-bit wrap-around of PC, SP, the register pairs and the address space comes from the bit-vector types. Each failure a loader reports becomes an outcome constructor.

In four places the source does something its authors evidently did not intend. These are the screen-dirty flag on a memory write, the level a held envelope stays at, the bit count of a tape block's last byte, and the PC read of a short .z80 file. For each one the model states the code as written, and the running machine uses the corrected rule. "## Findings" lists the four, and "## Left out" names the members that run the corrected rule.

The modules follow the source:

| module | source |
|---|---|
| `Bits` | pair packing and little-endian fields |
| `Alu` | the `alu_*` helpers, DAA, rotates, the CB operations |
| `Z80` | the register file |
| `Memory` | `update_memory_mapping`, `mem_read`/`mem_write` |
| `Board` | ports, ULA, floating bus, reset |
| `Ay` | the sound chip |
| `Ops` | fetch, memory, port and stack access steps |
| `Base` | the unprefixed table |
| `Calls` | stack partners |
| `CbPage` | `execute_cb` |
| `EdPage` | `execute_ed` |
| `IndexPage` | `execute_index` |
| `Interrupts` | `handle_interrupt` |
| `Mixer` | `audio_tick` |
| `Timing` | the slice loop of `execute_one` |
| `Emulator` | `execute_one_core`, `execute_one`, `zx_run_frame`, `zx_reset`, `zx_new` |
| `Tape` | the `tape_*` engine |
| `TapeFile` | the TAP and TZX loaders |
| `Rle` | `z80_rle_decompress` |
| `Snapshot` | `.z80` save, load and cleanup |
| `Ring` | `zx.audio.c` |
| `Common` | an optional value, the smaller of two counts, and regrouping a concatenation |

The I/O the core does not own is passed in as parameters:

- the EAR level;
- the AY register-read and floating-bus values through the `Io` record;
- the open/closed state of the audio device.

## Model

| member | source | states |
|---|---|---|
| Bits.WordOfParts | src/zx/zx.c:430-461 | Splitting a register pair into its high and low byte and joining them again gives the pair back, as the BC()/SET_BC macros assume |
| Bits.ParityCounts | src/zx/zx.c:597-609 | The parity used for the P/V flag is even exactly when the byte has an even number of set bits, which is the property the 256-entry parity table encodes |
| Bits.SignExtend | src/zx/zx.c:1594-1600 | A relative displacement widens to 16 bits with its low byte kept and its high byte 0x00 or 0xFF by its sign |
| Bits.AddDisp | src/zx/zx.c:1594-1600 | Adding a signed displacement moves a 16-bit address by exactly the sign-extended displacement, modulo 2^16 |
| Bits.Byte | src/zx/zx.c:2333-2336 | A number below 256 (such as the RST target 8*y) is represented by a byte whose value is that number |
| Alu.FlagsRoundTrip | src/zx/zx.c:31-36 | Packing the flags into the F byte at the FLAG_* bit positions and unpacking them again loses nothing, in both directions |
| Alu.Add8Value | src/zx/zx.c:1266-1280 | ADD/ADC leave a + b + carry modulo 256 in A |
| Alu.Add8Carry | src/zx/zx.c:1266-1280 | ADD/ADC set C exactly when the true sum a + b + carry exceeds 255 |
| Alu.Add8Half | src/zx/zx.c:1266-1280 | ADD/ADC set H exactly when the low nibbles and the carry sum past 15 |
| Alu.Add8Overflow | src/zx/zx.c:1266-1280 | ADD/ADC set P/V exactly when both operands have the same sign and the result has the other sign |
| Alu.Add8Spec | src/zx/zx.c:1266-1280 | Value, carry, half-carry, overflow, sign and zero of ADD/ADC together against their arithmetic meaning |
| Alu.Sub8Value | src/zx/zx.c:1281-1295 | SUB/SBC leave a - b - carry modulo 256 in A |
| Alu.Sub8Carry | src/zx/zx.c:1281-1295 | SUB/SBC set C exactly when b + carry exceeds a (a borrow) |
| Alu.Sub8Half | src/zx/zx.c:1281-1295 | SUB/SBC set H exactly when the low nibble borrows |
| Alu.Sub8Overflow | src/zx/zx.c:1281-1295 | SUB/SBC set P/V exactly when the operands differ in sign and the result's sign differs from a's |
| Alu.Sub8Spec | src/zx/zx.c:1281-1295 | Value, borrow, half-borrow, overflow, sign and zero of SUB/SBC together against their arithmetic meaning |
| Alu.CompareMeaning | src/zx/zx.c:1296-1299 | CP sets Z exactly when A equals the operand and C exactly when A is below it (unsigned) |
| Alu.And8 | src/zx/zx.c:1300-1305 | AND leaves a & b with S/Z/P from the result, H set and N, C clear |
| Alu.Or8 | src/zx/zx.c:1306-1311 | OR leaves a \| b with S/Z/P from the result and H, N, C clear |
| Alu.Xor8 | src/zx/zx.c:1312-1317 | XOR leaves a ^ b with S/Z/P from the result and H, N, C clear |
| Alu.IncAsAdd | src/zx/zx.c:1318-1327 | INC r is ADD r,1 with the old carry flag kept |
| Alu.DecAsSub | src/zx/zx.c:1328-1338 | DEC r is SUB r,1 with the old carry flag kept |
| Alu.Add16 | src/zx/zx.c:1339-1348 | ADD HL,rr leaves HL + rr modulo 2^16 and keeps S, Z and P/V |
| Alu.Add16Half | src/zx/zx.c:1339-1348 | ADD HL,rr sets H exactly when the low 12 bits carry |
| Alu.AdcHlOverflow | src/zx/zx.c:1381-1421 | ADC HL,rr sets P/V exactly on a signed 16-bit overflow |
| Alu.SbcHlOverflow | src/zx/zx.c:1349-1380 | SBC HL,rr sets P/V exactly on a signed 16-bit overflow |
| Alu.Daa | src/zx/zx.c:1686-1722 | DAA sets C when A is above 0x99 or C was set, keeps N, and sets S/Z/P from the result |
| Alu.DaaOfSum | src/zx/zx.c:1686-1722 | DAA after an addition of two packed-BCD bytes yields the BCD digits of their decimal sum and the decimal carry |
| Alu.DaaOfDifference | src/zx/zx.c:1686-1722 | DAA after a subtraction of two packed-BCD bytes yields the BCD digits of their decimal difference and the decimal borrow |
| Alu.DaaAfterAdd | src/zx/zx.c:1686-1722 | ADD then DAA on BCD operands is decimal addition |
| Alu.DaaAfterSub | src/zx/zx.c:1686-1722 | SUB then DAA on BCD operands is decimal subtraction |
| Alu.RotateInverse | src/zx/zx.c:1484-1491 | RRCA undoes RLCA, and RRA undoes RLA when given the flags RLA left |
| Alu.Cpl | src/zx/zx.c:1770-1775 | CPL complements every bit of A and sets H and N |
| Alu.CarryFlagOps | src/zx/zx.c:1820-1879 | CCF twice restores the carry and SCF then CCF leaves it clear |
| Alu.CbShift | src/zx/zx.c:2806-2863 | The CB rotate and shift group takes C from the bit shifted out (bit 7 leftward, bit 0 rightward) and S/Z/P from the result |
| Alu.CbShiftLeftFill | src/zx/zx.c:2814-2863 | RLC refills bit 0 from bit 7, RL from the carry, SLA with 0 and SLL with 1 |
| Alu.CbShiftRightFill | src/zx/zx.c:2814-2863 | RRC refills bit 7 from bit 0, RR from the carry, SRA keeps the sign bit, SRL clears it |
| Alu.CbRotateInverse | src/zx/zx.c:2814-2863 | RRC undoes RLC, and RR undoes RL given the flags RL left |
| Alu.BitTest | src/zx/zx.c:2865-2874 | BIT n sets Z and P/V exactly when bit n is clear, S only for a set bit 7, H set, C kept |
| Alu.Res | src/zx/zx.c:2876-2878 | RES n clears bit n and changes no other bit |
| Alu.Set | src/zx/zx.c:2880-2882 | SET n sets bit n and changes no other bit |
| Memory.MapFor | src/zx/zx.c:467-515 | The paging latch maps ROM (bit 4 on 128K) at 0x0000, read-only, bank 5 at 0x4000, bank 2 at 0x8000 and the bank in bits 0-2 at 0xC000 (bank 0 on the 48K) |
| Memory.WritableIsRam | src/zx/zx.c:467-515 | A region is writable exactly when it shows a RAM bank |
| Memory.ReadAfterWrite | src/zx/zx.c:516-531 | A byte written to a writable address reads back |
| Memory.Write | src/zx/zx.c:522-531 | A write to a ROM region changes nothing |
| Memory.WriteFrame | src/zx/zx.c:516-531 | A write changes only the one cell the address maps to, seen through any address |
| Memory.WriteOtherBank | src/zx/zx.c:522-531 | A write leaves every bank other than the written one as it was |
| Memory.ScreenAlias | src/zx/zx.c:467-515 | With bank 5 paged at 0xC000, a write at 0x4000+k reads back at 0xC000+k |
| Memory.ReadWordAfterWriteWord | src/zx/zx.c:553-561 | A word written (low byte first) to two writable bytes reads back as the same word |
| Ay.WriteRegister | src/zx/zx.c:976-1012 | A register write with register 0-15 selected stores the value masked to the register's width; writing register 13 restarts the envelope with the attack bit of the shape; a selection above 15 changes nothing |
| Ay.WriteRegisterMasks | src/zx/zx.c:976-1012 | Register writes keep every register within its width |
| Ay.ReadAfterWriteRegister | src/zx/zx.c:970-1012 | Reading the selected register returns the value written, masked, which equals the value exactly when the value fits the mask |
| Ay.ReadRegister | src/zx/zx.c:970-975 | A read of register 0-15 returns it and a selection above 15 reads 0xFF |
| Ay.NoiseStepShifts | src/zx/zx.c:1083-1089 | One noise clock shifts the 17-bit register right with bit0 XOR bit3 fed into bit 16, and never reaches zero |
| Ay.EnvelopeVolume | src/zx/zx.c:1013-1018 | The envelope volume is the step while attacking and 15 minus the step while decaying |
| Ay.HoldAsWrittenCounterexample | src/zx/zx.c:1032-1052 | As written, shape 0 ends a decay and then holds at volume 15, and shape 13 ends an attack and then holds at volume 0 |
| Ay.HoldLevelIntended | src/zx/zx.c:1032-1052 | With the hold level corrected, the end of a ramp holds at 0 for shapes 0-7 and at the shape's final level otherwise, and holding is a fixed point |
| Ay.RepeatRestarts | src/zx/zx.c:1045-1052 | A repeating shape restarts at step 0 at the end of a ramp, reversing direction when bit 1 (alternate) is set |
| Ay.ToneClock | src/zx/zx.c:1067-1076 | A tone counter counts up to its period, then resets and flips the output |
| Ay.ClocksInvariant | src/zx/zx.c:1063-1096 | Any number of chip clocks keeps the generator state well formed (step below 16, nonzero 17-bit noise register) |
| Ay.CorrectionOnlyWhereItStops | src/zx/zx.c:1020-1055 | The corrected envelope clock differs from ay_update_envelope as written only on the clock that ends a ramp of a shape that stops there |
| Ay.Tick | src/zx/zx.c:1057-1097 | ay_tick changes nothing on the 48K and leaves the T-state accumulator at (accum + t) mod 16 on the AY models |
| Ay.TickSplits | src/zx/zx.c:1057-1097 | Ticking t1 then t2 T-states is ticking t1 + t2, so how execute_one slices an instruction does not matter |
| Ay.VolTable | src/zx/zx.c:968 | The volume table maps 0 to 0, 15 to 255 and never exceeds 255 |
| Ay.ChannelLevel | src/zx/zx.c:1107-1133 | A channel contributes nothing exactly when it is gated off or at volume 0, and full level exactly when audible at volume 15 |
| Ay.SampleExtremes | src/zx/zx.c:1100-1138 | The mixed AY sample lies in 0..6000, is 0 exactly when every channel is silent and 6000 exactly when all three are at full level |
| Z80.SetPair | src/zx/zx.c:430-461 | Setting register pair p stores the word in it and leaves the other pairs, A and F unchanged |
| Z80.ExchangesInvolutive | src/zx/zx.c:1492-1502 | EX AF,AF' and EXX each undo themselves, and they commute |
| Z80.FieldsCompose | src/zx/zx.c:2806-2811 | An opcode is recovered from its x, y and z fields |
| Z80.Refresh | src/zx/zx.c:1438 | The refresh of R keeps bit 7 and counts the low seven bits up modulo 128 |
| Z80.RefreshesCount | src/zx/zx.c:1438 | n refreshes advance the 7-bit counter by n modulo 128 and never touch bit 7 |
| Z80.RefreshPeriod | src/zx/zx.c:1438 | R returns to its value every 128 refreshes |
| Board.Remap | src/zx/zx.c:467-515 | Re-deriving the mapping keeps RAM, ROM and the latch and marks the screen dirty when the shown screen changes |
| Board.MemWrite | src/zx/zx.c:522-552 | A memory write changes the addressed byte if its region is writable and nothing else but the dirty flag; ROM writes are ignored. The dirty flag is set when it was set before, or when a writable write lands in the first 6912 bytes of bank 5 or 7 (corrected rule) |
| Board.MemWriteAgrees | src/zx/zx.c:522-552 | The corrected write changes memory exactly as mem_write as written does, and sets the dirty flag whenever mem_write's own test would |
| Board.ShownScreenWriteMarksDirty | src/zx/zx.c:542-551 | Any write into the first 6912 bytes of the bank on display, through whichever region shows it, marks the screen dirty |
| Board.MarksCoverAsWritten | src/zx/zx.c:542-551 | Every write the code as written marks dirty is still marked by the corrected rule |
| Board.AsWrittenMissesScreen | src/zx/zx.c:542-551 | As written, a write to bank 5 through 0xC000 changes a displayed byte yet leaves the screen clean |
| Board.RomReadOnly | src/zx/zx.c:525-528 | A write to a region that is not writable leaves the machine unchanged |
| Board.ScreenOffsetInjective | src/zx/zx.c:406-411 | The bitmap address of pixel row y and column x is different for every distinct (y, x) on the screen |
| Board.ScreenOffsetFields | src/zx/zx.c:406-411 | The bitmap address interleaves the row's third, character row and pixel line as the Spectrum screen layout does |
| Board.FloatingBus | src/zx/zx.c:381-420 | An unattached port reads the screen byte the ULA fetches during the display fetch windows and the last bus value otherwise, and remembers what it returned |
| Board.FloatingBusStable | src/zx/zx.c:381-420 | Reading the floating bus twice at the same T-state returns the same value |
| Board.KeyboardRead | src/zx/zx.c:1145-1169 | A ULA port read has bit j low exactly when some key in column j is down on a half-row the high address byte selects |
| Board.UlaByte | src/zx/zx.c:1145-1169 | A ULA port read keeps bits 5 and 7 high and has bit 6 equal to the EAR level |
| Board.KeyDownReads | src/zx/zx.c:5194-5207 | After a key goes down, a read selecting its half-row shows its column low |
| Board.KeyUpUndoesKeyDown | src/zx/zx.c:5194-5222 | Releasing a key just pressed restores the machine |
| Board.PortRead | src/zx/zx.c:1145-1189 | Port reads decode ULA (A0 low), Kempston 0x1F (reads 0), the AY register on the 128K models, and the floating bus otherwise |
| Board.UlaWrite | src/zx/zx.c:1192-1208 | An OUT to the ULA sets the border from bits 0-2 and the beeper from bit 4; with the tape running, a border change repaints the stripes from the current line to the end of the frame |
| Board.PortWrite | src/zx/zx.c:1190-1239 | Writes decode the ULA, the paging latch (ignored once locked) and the AY ports, and leave memory and paging alone otherwise |
| Board.PagingWriteLocks | src/zx/zx.c:1214-1222 | A paging write with bit 5 set locks the latch and maps memory by the value written |
| Board.LockedThroughout | src/zx/zx.c:1214-1222 | Once paging is locked, no sequence of port writes changes the latch or the memory |
| Board.AySelectReads | src/zx/zx.c:1176-1237 | After selecting a register at 0xFFFD, a read of 0xFFFD returns that register |
| Board.AyWriteReads | src/zx/zx.c:1176-1237 | Selecting a register, writing 0xBFFD and reading 0xFFFD returns the value written, masked to the register's width |
| Board.Reset | src/zx/zx.c:4133-4181 | zx_reset unlocks paging with latch 0, clears beeper and T-states, marks the screen dirty, resets the AY and keeps RAM and ROM |
| Board.ResetUnlocks | src/zx/zx.c:4133-4181 | After a reset, the paging latch accepts the next write even if it was locked before |
| Ops.PushTop | src/zx/zx.c:578-590 | A value pushed onto a stack in RAM is the value on top of the stack |
| Ops.PushPop | src/zx/zx.c:578-590 | A pop after a push returns the pushed value and restores the CPU |
| Base.CondPairs | src/zx/zx.c:2285-2300 | The eight condition codes pair up as NZ/Z, NC/C, PO/PE, P/M, each the negation of the other |
| Base.RelativeJump | src/zx/zx.c:1594-1660 | JR jumps by the signed displacement from the next instruction (12 T-states) when taken and falls through (7 T-states) otherwise |
| Base.Djnz | src/zx/zx.c:1544-1560 | DJNZ decrements B and jumps (13 T-states) unless B reaches zero (8 T-states) |
| Base.PairOps | src/zx/zx.c:1454-1510 | LD rr,nn loads the immediate word; ADD HL,rr adds with 16-bit flags |
| Base.Indirect | src/zx/zx.c:1459-1850 | LD (BC)/(DE)/(nn),A, LD (nn),HL and their loads move A or HL through the addressed memory |
| Base.StepPair | src/zx/zx.c:1464-1468 | INC rr and DEC rr change the pair by one and touch no flags |
| Base.StepByte | src/zx/zx.c:1469-1478 | INC r/DEC r and INC (HL)/DEC (HL) change the operand by one and keep the carry |
| Base.Load | src/zx/zx.c:1880-2075 | LD r,r' copies between registers and (HL) with 4 or 7 T-states, and opcode 0x76 is HALT |
| Base.Arith | src/zx/zx.c:2077-2284 | The ALU block applies the operation picked by y to A and the operand |
| Base.Return | src/zx/zx.c:2285-2350 | RET pops PC when its condition holds and costs 5 T-states otherwise |
| Base.PopAndMore | src/zx/zx.c:2293-2296 | POP rr loads the pair from the stack top and raises SP by 2 |
| Base.Call | src/zx/zx.c:2312-2381 | CALL pushes the return address after the operand and jumps when taken (17 T-states); otherwise it skips the operand (10 T-states) |
| Base.Restart | src/zx/zx.c:2333-2336 | RST p pushes the address of the next instruction and jumps to 8*y |
| Base.ExDeHl | src/zx/zx.c:2606-2611 | EX DE,HL swaps the two pairs and leaves everything else |
| Base.ExStack | src/zx/zx.c:2549-2566 | EX (SP),HL swaps HL with the word on top of the stack |
| Base.Halt | src/zx/zx.c:2044-2046 | HALT sets the halted state and nothing else in the control state |
| Base.DisableInterrupts | src/zx/zx.c:2662-2665 | DI clears both interrupt flip-flops and any pending EI |
| Base.EnableInterrupts | src/zx/zx.c:2717-2719 | EI only arms the delay; the flip-flops are untouched |
| Calls.PushThenPop | src/zx/zx.c:2293-2327 | POP rr after PUSH rr of the same pair leaves the CPU as it was |
| Calls.CallThenReturn | src/zx/zx.c:2347-2381 | RET after CALL nn resumes after the call's operand with SP restored |
| Calls.RestartThenReturn | src/zx/zx.c:2333-2350 | RET after RST resumes at the next instruction with SP restored |
| Calls.ExDeHlTwice | src/zx/zx.c:2606-2611 | EX DE,HL twice is the identity |
| CbPage.CbOp | src/zx/zx.c:2806-2891 | The CB page takes 8 T-states on a register and 12 (BIT) or 15 on (HL); BIT only sets flags, the rest store the result back |
| CbPage.StoreThenOperand | src/zx/zx.c:2754-2805 | Storing a value in operand k (a register or (HL) in RAM) and reading the operand back returns it |
| CbPage.SetThenBit | src/zx/zx.c:2865-2882 | BIT b after SET b on the same operand reports the bit set |
| CbPage.ResThenBit | src/zx/zx.c:2865-2882 | BIT b after RES b on the same operand reports the bit clear |
| CbPage.ShiftStores | src/zx/zx.c:2806-2863 | A rotate/shift stores its result in its operand and keeps the other operands |
| CbPage.RotateBack | src/zx/zx.c:2806-2863 | RRC undoes RLC on any operand |
| EdPage.EdOp | src/zx/zx.c:2892-3354 | Opcodes outside the ED page's listed quarters are 8 T-state no-ops |
| EdPage.InC | src/zx/zx.c:2896-2929 | IN r,(C) loads the port read at BC and sets S/Z/P from it, keeping the carry |
| EdPage.AdcSbc | src/zx/zx.c:2953-2980 | ADC HL,rr and SBC HL,rr put the 16-bit result with carry into HL |
| EdPage.PairMemory | src/zx/zx.c:2981-3024 | LD (nn),rr writes the pair and LD rr,(nn) loads it, 20 T-states |
| EdPage.ReturnN | src/zx/zx.c:3037-3054 | RETN/RETI pop PC and copy IFF2 into IFF1 |
| EdPage.ModeOf | src/zx/zx.c:3055-3070 | IM 0/1/2 and their mirrors select modes 0, 0, 1, 2 by bits 3-4 |
| EdPage.Column7 | src/zx/zx.c:3071-3092 | LD I,A and LD R,A copy A; LD A,I and LD A,R copy the register into A with P/V from IFF2 |
| EdPage.DigitsRotate | src/zx/zx.c:3093-3112 | RLD undoes RRD and RRD undoes RLD on A and (HL), and both keep the high digit of A |
| EdPage.Copy | src/zx/zx.c:3113-3124 | LDI/LDD copy (HL) to (DE), step HL and DE, decrement BC and report whether BC stays nonzero in P/V |
| EdPage.CompareRegs | src/zx/zx.c:3125-3136 | CPI/CPD compare A with (HL), set Z on a match and keep the carry |
| EdPage.Block | src/zx/zx.c:3201-3324 | The repeating block instructions step PC back to repeat (21 T-states) while the count lasts and, for the compares, no match was found |
| EdPage.LdirPass | src/zx/zx.c:3201-3216 | One LDIR pass copies one byte, and repeats exactly while BC is nonzero |
| EdPage.CpirStopsOnMatch | src/zx/zx.c:3217-3232 | CPIR stops at once with Z set when (HL) matches A |
| EdPage.EdControl | src/zx/zx.c:2892-3354 | The ED page never changes the saved opcode, the EI delay or HALT, and only LD R,A writes R |
| IndexPage.Index | src/zx/zx.c:3355-3960 | An opcode the DD/FD page does not list leaves PC on it for 4 T-states, so the prefix acts as a no-op |
| IndexPage.AddIndex | src/zx/zx.c:3369-3417 | ADD IX,rr adds into the index register with 16-bit flags, 15 T-states |
| IndexPage.WordOp | src/zx/zx.c:3418-3481 | LD IX,nn, LD (nn),IX, LD IX,(nn), INC IX and DEC IX act on the index register only |
| IndexPage.MemoryStep | src/zx/zx.c:3482-3497 | INC (IX+d) and DEC (IX+d) change the displaced byte by one, 23 T-states |
| IndexPage.Quarter3 | src/zx/zx.c:3926-3952 | POP IX, PUSH IX, JP (IX), LD SP,IX and EX (SP),IX act as their HL forms on the index register |
| IndexPage.PushThenPopIndex | src/zx/zx.c:3926-3943 | PUSH IX then POP IX on a writable stack leaves the CPU as it was; the PUSH takes 15 T-states and the POP 14 |
| IndexPage.IndexActsAsHl | src/zx/zx.c:3926-3952 | With the index register equal to HL, JP (IX), LD SP,IX and PUSH IX leave the same state as the unprefixed JP (HL), LD SP,HL and PUSH HL |
| IndexPage.IndexCbOp | src/zx/zx.c:3825-3925 | DD CB: BIT only sets flags (20 T-states); rotates write memory and copy to the register; RES/SET write memory only (23 T-states) |
| Interrupts.Interrupt | src/zx/zx.c:4007-4058 | An interrupt always ends HALT; when enabled it clears IFF1 and the EI delay and runs mode 0/1 or 2, and mode 3 only clears them |
| Interrupts.Mode1 | src/zx/zx.c:4024-4030 | Mode 0/1 pushes PC and jumps to 0x0038 in 13 T-states |
| Interrupts.Mode2 | src/zx/zx.c:4031-4056 | Mode 2 pushes PC and jumps to the word read from page I at the vector byte and the next byte of the same page |
| Interrupts.TableWraps | src/zx/zx.c:4050-4054 | The second table byte stays in page I, so vector 0xFF reads its high byte from I:00 |
| Interrupts.InterruptReturns | src/zx/zx.c:4024-4030 | After a mode 1 interrupt, PC is 0x0038 and the interrupted PC is on top of the stack |
| Interrupts.Mode2Returns | src/zx/zx.c:4031-4056 | After a mode 2 interrupt, the interrupted PC is on top of the stack |
| Emulator.Core | src/zx/zx.c:1422-1430 | A halted CPU only refreshes R for 4 T-states; otherwise the instruction at PC runs |
| Emulator.Execute | src/zx/zx.c:1432-1446 | Each instruction saves its opcode and refreshes R once, unless it is LD R,A |
| Emulator.Controls | src/zx/zx.c:2662-2719 | Across the unprefixed table only DI and EI change the EI delay, and none changes the saved opcode |
| Emulator.Finish | src/zx/zx.c:3969-4000 | After an instruction, the AY, the tape and the audio have seen exactly its T-states, and the EI delay settles |
| Emulator.EiWaits | src/zx/zx.c:3989-3998 | EI does not enable interrupts in the step that runs it |
| Emulator.EiTakesEffect | src/zx/zx.c:3989-3998 | The step after EI sets both flip-flops and clears the delay |
| Emulator.DiCancels | src/zx/zx.c:2662-2665 | DI ends with both flip-flops clear and nothing pending |
| Emulator.Advance | src/zx/zx.c:5154-5161 | Each pass of the frame loop adds at least 4 T-states and fires the interrupt once the counter reaches line 64 |
| Emulator.FrameLoop | src/zx/zx.c:5154-5161 | The frame loop runs until the frame's T-state length, and fires the interrupt when the frame started before line 64 |
| Emulator.RunFrame | src/zx/zx.c:5135-5165 | A frame fires its interrupt, reaches its T-state length, and produces at most one frame's worth of samples |
| Emulator.ResetCpu | src/zx/zx.c:4133-4181 | Reset puts PC at 0, SP at 0xFFFF, A and F at 0xFF, interrupts off in mode 0, not halted; the other registers keep their values |
| Emulator.Reset | src/zx/zx.c:4133-4181 | zx_reset resets CPU, board, tape deck and audio |
| Emulator.New | src/zx/zx.c:4066-4125 | A new machine starts at PC 0 with interrupts off, an empty tape and empty audio |
| Tape.AtEndAsWritten | src/zx/zx.c:658-673 | For a last-byte count of 0..8 the end-of-block test is the one the code computes with its as-written count |
| Tape.CurrentBit | src/zx/zx.c:750-758 | The bit played is the block's byte at the head, most significant bit first, and 0 at the block's end |
| Tape.BitPulse | src/zx/zx.c:796-810 | A data pulse lasts bit1 (default 1710) for a one and bit0 (default 855) for a zero |
| Tape.UsedBitsCounterexample | src/zx/zx.c:658-673 | As written, a last-byte bit count above 8 lets a position with bit index 8 count as inside the block, where the shift 7 - bit_idx is negative |
| Tape.UsedBitsIntended | src/zx/zx.c:658-673 | With the count limited to 1..8, every position not at the end has a byte to read and a shift in 0..7 |
| Tape.PilotCount | src/zx/zx.c:728-733 | A standard block plays 8063 pilot pulses for a header (flag below 0x80) and 3223 for data; a turbo block its own count |
| Tape.StartIn | src/zx/zx.c:674-749 | Starting a block gives a stop for an empty block without pause, a pause of pauseMs*3500 T-states for an empty block with one, and the first tone otherwise |
| Tape.StopIsFixed | src/zx/zx.c:674-749 | Starting the current block again changes nothing |
| Tape.EnterPause | src/zx/zx.c:829-850 | After the data, a block with a defined pause waits its own length, lowering EAR only when that length is nonzero; a TAP block lowers EAR and waits 200000 T-states before another block, or 3500000 (about one second) after the last |
| Tape.TwoPulsesPerBit | src/zx/zx.c:796-810 | Each data bit is two pulses of equal length: after the first the head stays on the same bit |
| Tape.PilotEnds | src/zx/zx.c:762-773 | The pilot counts down one pulse at a time and hands over to sync 1 when it runs out |
| Tape.Edge | src/zx/zx.c:953-959 | Each pulse boundary toggles EAR (except into a pause) and keeps the head inside the tape |
| Tape.RunSplits | src/zx/zx.c:924-960 | Playing a then b T-states is playing a + b, so how execute_one slices an instruction does not change the tape |
| Tape.TickSplits | src/zx/zx.c:910-961 | tape_tick over a then b T-states equals tape_tick over a + b |
| Tape.StoppedIsFixed | src/zx/zx.c:924-929 | Once the deck stops at the end of the tape, more T-states leave it there |
| Tape.Tick | src/zx/zx.c:910-913 | A deck that is not playing is left as it is |
| Tape.Rewind | src/zx/zx.c:642-655 | Rewinding puts the head on block 0, stopped, with EAR high and autostart cleared |
| Tape.Play | src/zx/zx.c:4239-4258 | Stopping raises EAR and halts the deck; playing a stopped deck starts the current block |
| TapeFile.ParseTap | src/zx/zx.c:4296-4345 | Every TAP block is a standard block with pilot and sync, no turbo timing and less than 64 KB of data |
| TapeFile.TapRecord | src/zx/zx.c:4300-4345 | A length-prefixed record is read as one block followed by whatever the rest parses to |
| TapeFile.TapRoundTrip | src/zx/zx.c:4296-4345 | Parsing the TAP encoding of a list of blocks gives those blocks back |
| TapeFile.TapTruncatedTail | src/zx/zx.c:4300-4304 | A trailing record whose length runs past the end of the file is dropped silently |
| TapeFile.LoadTapEncoded | src/zx/zx.c:4287-4355 | Loading a TAP file replaces the tape with a fresh stopped deck holding exactly its records as standard blocks, and reports a load exactly when there is at least one record |
| TapeFile.Turbo | src/zx/zx.c:4631-4674 | A turbo block longer than 0xFFFF bytes makes the loader fail with its out-of-memory error |
| TapeFile.PureData | src/zx/zx.c:4675-4723 | A pure data block longer than 0xFFFF fails the load, and otherwise consumes the pending tone and sync |
| TapeFile.PauseBlock | src/zx/zx.c:4724-4741 | A pause block becomes one empty block with that pause and clears all pending state |
| TapeFile.PulseSequence | src/zx/zx.c:4750-4764 | A pulse sequence sets the pending sync exactly when it has at least one pulse |
| TapeFile.SkipBlock | src/zx/zx.c:4401-4570 | The skipper knows a fixed set of block ids, and for each one it skips its header plus the length stored in that header |
| TapeFile.TextSkipped | src/zx/zx.c:4509-4517 | A text description block is skipped by its length byte |
| TapeFile.SkipReadsOnlyTheBlock | src/zx/zx.c:4401-4570 | The skip length depends only on the block's own bytes, not on what follows |
| TapeFile.SkipCutShort | src/zx/zx.c:4401-4570 | A block cut short before its end reports truncation |
| TapeFile.TzxStep | src/zx/zx.c:4604-4790 | An unknown block id fails the load with Unsupported, and a parse step never reports a header error |
| TapeFile.StandardRoundTrip | src/zx/zx.c:4605-4630 | A standard-speed block encoded with its pause parses back to that block |
| TapeFile.StandardsRoundTrip | src/zx/zx.c:4604-4790 | A sequence of standard blocks parses back to the same sequence |
| TapeFile.LoadTzx | src/zx/zx.c:4571-4802 | A bad header reports an error and leaves the tape unchanged; any other error frees the blocks; a load leaves a fresh stopped deck |
| TapeFile.UnknownIdFails | src/zx/zx.c:4779-4788 | An unsupported block id empties the tape and reports its id |
| TapeFile.LoadStandards | src/zx/zx.c:4571-4802 | A TZX file of standard blocks loads exactly those blocks onto a fresh deck |
| TapeFile.ToneStep | src/zx/zx.c:4742-4749 | A pure tone block records the pending pilot length and count and produces no block |
| TapeFile.SyncStep | src/zx/zx.c:4750-4764 | A two-pulse sequence records both sync lengths and produces no block |
| TapeFile.PreambleApplies | src/zx/zx.c:4675-4764 | Tone, then pulses, then pure data make one block with that pilot and sync |
| Mixer.Sample | src/zx/zx.c:887-904 | A sample is the beeper level plus the AY sample plus the tape level, and stays within the clip bounds |
| Mixer.Drain | src/zx/zx.c:882-907 | One sample is produced per 3500000 of accumulated phase, appended at the end of the buffer until the buffer is full |
| Mixer.AudioTick | src/zx/zx.c:875-908 | audio_tick advances the AY by t and the phase by 44100*t, and appends exactly the due samples, in order, after the existing ones |
| Mixer.PhaseSplits | src/zx/zx.c:878-884 | Advancing the phase by t1 then t2 is advancing by t1 + t2, and the samples due add up |
| Mixer.FrameFits | src/zx/zx.c:875-908 | The samples due in one instruction are fewer than a frame's buffer |
| Timing.Chunk | src/zx/zx.c:3978-3982 | A slice is at most the remaining T-states, cut short at the playing tape's pulse end |
| Timing.Slices | src/zx/zx.c:3978-3987 | Handing an instruction's T-states over in slices is the same as ticking the AY, the tape and the phase by the whole count at once |
| Timing.Prime | src/zx/zx.c:3975-3976 | The tape_tick(0) before slicing starts an autostarting deck without changing what later ticks produce |
| Rle.RunCountIsLength | src/zx/zx.c:308-331 | The count byte of an encoded run is the run's length (1..255) |
| Rle.DecompressEncode | src/zx/zx.c:308-331 | Decompressing the encoding of any image, with or without the version 1 end marker, gives the image back |
| Rle.MarkerStops | src/zx/zx.c:313-316 | In a version 1 stream, the end marker stops decompression at once |
| Rle.RunCut | src/zx/zx.c:318-324 | A run longer than the output space is cut at the buffer's end |
| Snapshot.PageRoundTrip | src/zx/zx.c:4819-4841 | The page number the writer gives a bank selects that same bank when loaded |
| Snapshot.ApplyPage | src/zx/zx.c:4819-4841 | A page applies exactly when it names a bank of the machine: 8, 4, 5 on the 48K and 3..10 on the 128K models |
| Snapshot.Save | src/zx/zx.c:4843-4945 | The saved file is a 30-byte header with PC 0, the extended header and one 16 KB block per bank |
| Snapshot.SaveLayout | src/zx/zx.c:4843-4945 | The file has the header, an extended header of length 54 carrying PC, and the pages |
| Snapshot.HeaderRoundTrip | src/zx/zx.c:4845-4884 | Loading the header of a saved file restores every register, IFF1, IFF2 and the mode |
| Snapshot.BorderRoundTrip | src/zx/zx.c:4845-4884 | The border colour survives its packing into the flags byte at offset 12 |
| Snapshot.ExtRoundTrip | src/zx/zx.c:4886-4917 | The extended header restores PC, the model, the paging latch and the AY registers |
| Snapshot.ModelRoundTrip | src/zx/zx.c:5062-5076 | The hardware code the writer uses for a model maps back to the same model |
| Snapshot.Cleanup | src/zx/zx.c:333-363 | The runtime cleanup resets timing, the AY generators, audio and the deck, and keeps the CPU, memory, paging and loaded blocks |
| Snapshot.CleanupIdempotent | src/zx/zx.c:333-363 | Cleaning up twice is cleaning up once |
| Snapshot.LoadV1 | src/zx/zx.c:4960-5042 | A version 1 file loads a 48K image, raw or compressed, failing when it is short or the decompression fails |
| Snapshot.LoadV2 | src/zx/zx.c:5044-5131 | A version 2/3 file fails on a missing or truncated extended header without change, and otherwise loads its pages and sets PC from bytes 32 and 33 |
| Snapshot.LoadPc | src/zx/zx.c:5058-5059 | PC is taken from bytes 32 (low) and 33 (high) whenever the file holds them, and is 0 for a shorter file |
| Snapshot.LoadZ80 | src/zx/zx.c:4948-5131 | A file shorter than 30 bytes is rejected without change; a nonzero PC in the header selects version 1 |
| Snapshot.PcReadPastEnd | src/zx/zx.c:5051-5059 | As written, a version 2 file with an empty extended header passes both checks yet PC is read past the end |
| Snapshot.PcIntended | src/zx/zx.c:5051-5059 | Wherever the as-written read stays inside the file, the loaded PC is the one it reads. When the extended header holds PC, that PC is the header's field. Only a file with a header shorter than two bytes and no bytes 32-33 loads 0 |
| Snapshot.SavedBanksLoad | src/zx/zx.c:5093-5122 | Loading the saved pages restores every RAM bank of the machine |
| Snapshot.SaveLoad | src/zx/zx.c:4843-5131 | Loading a saved file succeeds and restores registers, model, paging, border and RAM, keeping the target's ROM |
| Snapshot.V1CompressedLoads | src/zx/zx.c:4960-5042 | A version 1 file with a compressed image loads that image into banks 5, 2 and 0 with the header's PC |
| Ring.Reset | src/zx/zx.audio.c:45-49 | ring_reset empties the ring |
| Ring.DropOldest | src/zx/zx.audio.c:51-58 | Dropping n frames leaves the held frames after the oldest n, emptying the ring when n covers them all |
| Ring.WriteFrames | src/zx/zx.audio.c:60-82 | Writing frames leaves the newest 8192 of what was held followed by what was written |
| Ring.NewestTwice | src/zx/zx.audio.c:60-82 | Keeping the newest frames twice, with a write in between, equals keeping them once at the end |
| Ring.Contiguous | src/zx/zx.audio.c:84-93 | The contiguous read returns the oldest held frames up to the end of the store, nonempty exactly when the ring is |
| Ring.Consume | src/zx/zx.audio.c:395-397 | Consuming n written frames removes the oldest n |
| Ring.ConsumeTwiceEmpties | src/zx/zx.audio.c:84-93 | Two contiguous reads, each consumed in full, empty the ring |
| Ring.Duplicate | src/zx/zx.audio.c:437-440 | The mono-to-stereo loop writes each sample to both the left and the right slot |
| Ring.AudioWrite | src/zx/zx.audio.c:412-445 | audio.write adds the mono samples as stereo frames, keeping the newest 8192, and does nothing while the device is closed |

## Left out

- The Lua bindings (argument checking, userdata, result pushing), `zx_poll_stdin`, and the getters that only copy state out: they are glue around the core.
- The sound device in `zx.audio.c`: opening ALSA, the hardware parameter ioctls, delay queries and the flush loop's ioctl. The model keeps the consume step those feed (`Ring.Consume`); what the device accepts is a parameter.
- Debug counters (PC history, IM2 page write tracking, keyboard read count, paging write count, last port read): they never influence emulation.
- Allocation failures (`malloc`/`realloc` returning NULL): memory is unbounded in the model. The TZX "out of memory" answer to a block longer than 0xFFFF is not an allocation failure and is modelled.
- The 256-entry parity table is not transcribed. Parity is computed by folding the bits, and `Bits.ParityCounts` ties it to the bit count.
- The byte decoding of `audio.write`'s little-endian string into samples: the model takes the samples as integers.
- The T-states of an accepted interrupt (13 or 19) are added to the frame counter but not handed to the AY, the mixer or the tape, as in the source.
- HALT state and a pending EI are not part of the .z80 format, so `Snapshot.SaveLoad` does not restore them.
- `Rle.Encode` is a reference encoder used to state the decompressor's round trip. The writer itself stores banks uncompressed, as the source does.
- The frame length is derived from the machine model; the source stores it in a separate field kept in step with the model.
- Ring.WriteFrames: its contents are stated only for writes of at most 8192 frames, because the only caller, `zx_audio_write`, writes at most 2048 frames at a time.
- Ring.AudioWrite: states the ring as it stands before the closing non-blocking flush of `zx_audio_write`. That flush is `Ring.Consume` of as many frames as the sound device accepts, and what the device accepts is outside the model.
- Emulator.RunFrame: states the interrupt, the T-state length and the sample bound, but not the exact state after the frame, because that is the composition of the per-step functions already specified.
- Board.MemWrite: marks the screen dirty for any writable write into the first 6912 bytes of bank 5 or bank 7. The source marks only region 1, or region 3 when the latch selects bank 7 (`Board.MemWriteAsWritten`; see Findings). The memory change is the source's.
- Ay.Tick: a held envelope stays at the corrected level, 0 for shapes 0-7 and the level the last ramp ended on for hold shapes. The source holds at another level (`Ay.UpdateEnvelopeAsWritten`; see Findings). `Ay.CorrectionOnlyWhereItStops` shows every other clock runs as written.
- Tape.CurrentBit: a last-byte count above 8 is read as 8. The source keeps it and then shifts by a negative amount, which C leaves undefined, so no bit value can be stated for it. `Tape.AtEndAsWritten` shows the model follows the source for counts 0..8.
- Snapshot.LoadV2: a 32- or 33-byte file loads PC 0. The source reads bytes 32 and 33 past the end of its buffer there (see Findings). Every other file gets the PC the source reads.
- Snapshot.LoadV1: the version 1 path ignores the model of the target machine and always selects the 48K, as the source does; no further claim is made about the contents of partially failed loads beyond what the source leaves changed.

## Findings

| source | as written | input that shows it | evidently intended | confidence | as-written member | corrected member |
|---|---|---|---|---|---|---|
| src/zx/zx.c:1035-1045 | Shapes 0-7 hold at step 0, which reads as volume 15 while decaying; hold shapes compute the final step by the attack direction, so shape 13 holds at 0 and shape 15 at 15 | envelope shape 0 with the ramp ending (attack false, step 15): next volume is 15 | a single-cycle shape ends silent; a hold shape stays at the level its last ramp ended on, except the alternate-hold shapes 11 and 15, which flip to the opposite level and hold there | not executed | Ay.HoldAsWrittenCounterexample | Ay.HoldLevelIntended |
| src/zx/zx.c:658-673 | The last byte's bit count is only mapped 0 to 8, so a TZX count of 9..255 is kept and positions past bit 7 are not the end | one-byte block with used_bits 9 at bit index 8: not at end, `7 - bit_idx` is negative | counts outside 1..8 are read as 8 | not executed | Tape.UsedBitsCounterexample | Tape.UsedBitsIntended |
| src/zx/zx.c:542-551 | A write through region 3 marks the screen dirty only when bank 7 is paged there, not bank 5 | 128K, latch 5 (bank 5 at 0xC000, normal screen), write at 0xC000: screen byte changes, dirty stays clear | any write to the displayed screen bank marks the screen dirty | not executed | Board.AsWrittenMissesScreen | Board.ShownScreenWriteMarksDirty |
| src/zx/zx.c:5051-5059 | PC is read from bytes 32 and 33 whatever the extended header's length, even when the file ends before them | 32-byte file with PC 0 at offset 6 and extended length 0: passes both checks, then reads bytes 32 and 33 past the end | the read stays inside the file; a file too short to hold PC loads 0 | not executed | Snapshot.PcReadPastEnd | Snapshot.PcIntended |

=== FILE: alu.dfy ===
/** The Z80 arithmetic and logic unit: the 8- and 16-bit ALU helpers, DAA, the
    accumulator rotates and the CB-group shift, rotate and bit operations.
    Every operation is a pure function from operands (and the incoming flags)
    to a result and the new flags. */
module Alu {
  import opened Bits

  /** The F register, one field per bit: S (7), Z (6), the undocumented copies
      of result bits 5 and 3, H (4), PV (2), N (1) and C (0). */
  datatype Flags = Flags(s: bool, z: bool, f5: bool, h: bool, f3: bool, pv: bool, n: bool, c: bool)

  function Flag(b: bool, mask: bv8): bv8
  {
    if b then mask else 0
  }

  /** The byte the F register holds (FLAG_S 0x80, FLAG_Z 0x40, FLAG_H 0x10,
      FLAG_PV 0x04, FLAG_N 0x02, FLAG_C 0x01). */
  function PackFlags(f: Flags): (b: bv8)
    ensures (b & 0x01 != 0) == f.c && (b & 0x40 != 0) == f.z
  {
    Flag(f.s, 0x80) | Flag(f.z, 0x40) | Flag(f.f5, 0x20) | Flag(f.h, 0x10)
    | Flag(f.f3, 0x08) | Flag(f.pv, 0x04) | Flag(f.n, 0x02) | Flag(f.c, 0x01)
  }

  function UnpackFlags(b: bv8): (f: Flags)
    ensures f.c == (b & 0x01 != 0) && f.n == (b & 0x02 != 0) && f.pv == (b & 0x04 != 0)
    ensures f.h == (b & 0x10 != 0) && f.z == (b & 0x40 != 0) && f.s == (b & 0x80 != 0)
  {
    Flags(b & 0x80 != 0, b & 0x40 != 0, b & 0x20 != 0, b & 0x10 != 0,
          b & 0x08 != 0, b & 0x04 != 0, b & 0x02 != 0, b & 0x01 != 0)
  }

  /** F survives a trip through its byte form in both directions (POP AF after PUSH AF). */
  lemma FlagsRoundTrip(f: Flags, b: bv8)
    ensures UnpackFlags(PackFlags(f)) == f
    ensures PackFlags(UnpackFlags(b)) == b
  {
  }

  /** An 8-bit result together with the flags it leaves behind. */
  datatype ByteOut = ByteOut(value: bv8, flags: Flags)

  /** A 16-bit result together with the flags it leaves behind. */
  datatype WordOut = WordOut(value: bv16, flags: Flags)

  function Bit7(v: bv8): bool
  {
    v & 0x80 != 0
  }

  /** The byte with only bit `n` set (the C expression `1 << n`). */
  function Mask(n: nat): (m: bv8)
    requires n < 8
    ensures m != 0
  {
    match n
    case 0 => 0x01
    case 1 => 0x02
    case 2 => 0x04
    case 3 => 0x08
    case 4 => 0x10
    case 5 => 0x20
    case 6 => 0x40
    case _ => 0x80
  }

  function Bit(v: bv8, n: nat): bool
    requires n < 8
  {
    v & Mask(n) != 0
  }

  function CarryBit(c: bool): (r: bv8)
    ensures r <= 1 && (r == 1 <==> c)
  {
    if c then 1 else 0
  }

  /** Sign, zero and parity flags of a byte; the parity table is even parity. */
  predicate SzpAgree(f: Flags, v: bv8)
  {
    f.s == Bit7(v) && f.z == (v == 0) && f.pv == EvenParity(v)
  }

  // ---------------------------------------------------------------- 8-bit add and subtract

  /** The 16-bit sum alu_add_impl forms before truncating it. */
  function AddWide(a: bv8, b: bv8, carry: bool): bv16
  {
    a as bv16 + b as bv16 + CarryBit(carry) as bv16
  }

  /** alu_add_impl as written: the sum is formed in 16 bits and the flags come from it. */
  function Add8(a: bv8, b: bv8, carry: bool): (r: ByteOut)
    ensures r.flags.s == Bit7(r.value) && r.flags.z == (r.value == 0)
    ensures !r.flags.n && !r.flags.f3 && !r.flags.f5
  {
    ByteOut(Lo(AddWide(a, b, carry)),
            Flags(Bit7(Lo(AddWide(a, b, carry))), Lo(AddWide(a, b, carry)) == 0, false,
                  (a ^ b ^ Lo(AddWide(a, b, carry))) & 0x10 != 0, false,
                  ((a ^ !b) & (a ^ Lo(AddWide(a, b, carry)))) & 0x80 != 0, false,
                  AddWide(a, b, carry) > 0xFF))
  }

  lemma Add8Value(a: bv8, b: bv8, carry: bool)
    ensures Add8(a, b, carry).value == a + b + CarryBit(carry)
  {
  }

  /** A carry out of bit 7 exactly when `b` is more than the room left
      above `a`, or fills it with a carry coming in. */
  lemma Add8Carry(a: bv8, b: bv8, carry: bool)
    ensures Add8(a, b, carry).flags.c <==> b > 0xFF - a || (carry && b == 0xFF - a)
  {
  }

  lemma Add8CarryNoCarry(a: bv8, b: bv8)
    ensures Add8(a, b, false).flags.c == (a as bv16 + b as bv16 > 0xFF)
  {
  }

  lemma Add8Half(a: bv8, b: bv8, carry: bool)
    ensures Add8(a, b, carry).flags.h <==> (a & 0xF) + (b & 0xF) + CarryBit(carry) > 0xF
  {
  }

  lemma Add8Overflow(a: bv8, b: bv8, carry: bool)
    ensures var r := Add8(a, b, carry);
            r.flags.pv <==> Bit7(a) == Bit7(b) && Bit7(r.value) != Bit7(a)
  {
  }

  /** ADD and ADC against the textbook definition of an 8-bit adder: the
      value wraps modulo 256, C is the carry out of bit 7, H the carry out of
      bit 3, PV signed overflow (two operands of one sign giving the other). */
  lemma {:induction false} Add8Spec(a: bv8, b: bv8, carry: bool)
    ensures var r := Add8(a, b, carry);
            && r.value == a + b + CarryBit(carry)
            && (r.flags.c <==> b > 0xFF - a || (carry && b == 0xFF - a))
            && (r.flags.h <==> (a & 0xF) + (b & 0xF) + CarryBit(carry) > 0xF)
            && (r.flags.pv <==> Bit7(a) == Bit7(b) && Bit7(r.value) != Bit7(a))
  {
    Add8Value(a, b, carry);
    Add8Carry(a, b, carry);
    Add8Half(a, b, carry);
    Add8Overflow(a, b, carry);
  }

  /** alu_sub_impl as written (also CP, which keeps only the flags, and NEG = 0 - A). */
  function Sub8(a: bv8, b: bv8, carry: bool): (r: ByteOut)
    ensures r.flags.s == Bit7(r.value) && r.flags.z == (r.value == 0)
    ensures r.flags.n && !r.flags.f3 && !r.flags.f5
  {
    ByteOut(Lo(SubWide(a, b, carry)),
            Flags(Bit7(Lo(SubWide(a, b, carry))), Lo(SubWide(a, b, carry)) == 0, false,
                  (a ^ b ^ Lo(SubWide(a, b, carry))) & 0x10 != 0, false,
                  ((a ^ b) & (a ^ Lo(SubWide(a, b, carry)))) & 0x80 != 0, true,
                  SubWide(a, b, carry) > 0xFF))
  }

  /** The 16-bit difference alu_sub_impl forms: it wraps below zero, so a borrow
      shows as a value above 0xFF. */
  function SubWide(a: bv8, b: bv8, carry: bool): bv16
  {
    a as bv16 - b as bv16 - CarryBit(carry) as bv16
  }

  lemma Sub8Value(a: bv8, b: bv8, carry: bool)
    ensures Sub8(a, b, carry).value == a - b - CarryBit(carry)
  {
  }

  lemma Sub8Carry(a: bv8, b: bv8, carry: bool)
    ensures Sub8(a, b, carry).flags.c <==> a < b || (carry && a == b)
  {
  }

  lemma Sub8BorrowNoCarry(a: bv8, b: bv8)
    ensures Sub8(a, b, false).flags.c == (a < b)
  {
  }

  lemma Sub8Half(a: bv8, b: bv8, carry: bool)
    ensures Sub8(a, b, carry).flags.h <==> (a & 0xF) < (b & 0xF) + CarryBit(carry)
  {
  }

  lemma Sub8Overflow(a: bv8, b: bv8, carry: bool)
    ensures var r := Sub8(a, b, carry);
            r.flags.pv <==> Bit7(a) != Bit7(b) && Bit7(r.value) != Bit7(a)
  {
  }

  /** SUB, SBC, CP and NEG against the textbook subtractor: C is a borrow out
      of bit 7, H a borrow out of bit 3, PV signed overflow. */
  lemma {:induction false} Sub8Spec(a: bv8, b: bv8, carry: bool)
    ensures var r := Sub8(a, b, carry);
            && r.value == a - b - CarryBit(carry)
            && (r.flags.c <==> a < b || (carry && a == b))
            && (r.flags.h <==> (a & 0xF) < (b & 0xF) + CarryBit(carry))
            && (r.flags.pv <==> Bit7(a) != Bit7(b) && Bit7(r.value) != Bit7(a))
  {
    Sub8Value(a, b, carry);
    Sub8Carry(a, b, carry);
    Sub8Half(a, b, carry);
    Sub8Overflow(a, b, carry);
  }

  /** CP x sets Z exactly when A equals x, and C exactly when A is below x (unsigned). */
  lemma {:induction false} CompareMeaning(a: bv8, x: bv8)
    ensures Sub8(a, x, false).flags.z <==> a == x
    ensures Sub8(a, x, false).flags.c <==> a < x
  {
    Sub8Value(a, x, false);
    Sub8Carry(a, x, false);
  }

  // ---------------------------------------------------------------- logic

  function And8(a: bv8, b: bv8): (r: ByteOut)
    ensures r.value == a & b && SzpAgree(r.flags, r.value)
    ensures r.flags.h && !r.flags.n && !r.flags.c
  {
    ByteOut(a & b, Szp(a & b).(h := true))
  }

  function Or8(a: bv8, b: bv8): (r: ByteOut)
    ensures r.value == a | b && SzpAgree(r.flags, r.value)
    ensures !r.flags.h && !r.flags.n && !r.flags.c
  {
    ByteOut(a | b, Szp(a | b))
  }

  function Xor8(a: bv8, b: bv8): (r: ByteOut)
    ensures r.value == a ^ b && SzpAgree(r.flags, r.value)
    ensures !r.flags.h && !r.flags.n && !r.flags.c
  {
    ByteOut(a ^ b, Szp(a ^ b))
  }

  /** szp_flags: S, Z and parity of a byte with every other flag clear. */
  function Szp(v: bv8): (f: Flags)
    ensures SzpAgree(f, v)
    ensures !f.h && !f.n && !f.c && !f.f3 && !f.f5
  {
    Flags(Bit7(v), v == 0, false, false, false, EvenParity(v), false, false)
  }

  /** The eight accumulator operations of opcodes 0x80-0xBF and the immediate
      forms, selected by bits 3-5: ADD, ADC, SUB, SBC, AND, XOR, OR, CP. */
  function AluOp(op: nat, a: bv8, b: bv8, f: Flags): (r: ByteOut)
    requires op < 8
    ensures op == 7 ==> r.value == a && r.flags == Sub8(a, b, false).flags
    ensures op < 4 ==> r.flags.n == (op >= 2)
  {
    match op
    case 0 => Add8(a, b, false)
    case 1 => Add8(a, b, f.c)
    case 2 => Sub8(a, b, false)
    case 3 => Sub8(a, b, f.c)
    case 4 => And8(a, b)
    case 5 => Xor8(a, b)
    case 6 => Or8(a, b)
    case _ => ByteOut(a, Sub8(a, b, false).flags)
  }

  // ---------------------------------------------------------------- increment and decrement

  /** alu_inc_impl: C is kept, H on a carry out of the low nibble, PV when 0x7F wraps to 0x80. */
  function Inc8(v: bv8, f: Flags): (r: ByteOut)
    ensures r.value == v + 1
    ensures r.flags.c == f.c && !r.flags.n
  {
    ByteOut(v + 1, Flags(Bit7(v + 1), v + 1 == 0, false, v & 0x0F == 0x0F, false, v == 0x7F, false, f.c))
  }

  /** alu_dec_impl: C is kept, H on a borrow into the low nibble, PV when 0x80 wraps to 0x7F. */
  function Dec8(v: bv8, f: Flags): (r: ByteOut)
    ensures r.value == v - 1
    ensures r.flags.c == f.c && r.flags.n
  {
    ByteOut(v - 1, Flags(Bit7(v - 1), v - 1 == 0, false, v & 0x0F == 0, false, v == 0x80, true, f.c))
  }

  /** INC gives the same value and flags as adding one, except that it leaves C alone. */
  lemma {:induction false} IncAsAdd(v: bv8, f: Flags)
    ensures Inc8(v, f) == Add8(v, 1, false).(flags := Add8(v, 1, false).flags.(c := f.c))
  {
    Add8Spec(v, 1, false);
  }

  /** DEC gives the same value and flags as subtracting one, except that it leaves C alone. */
  lemma {:induction false} DecAsSub(v: bv8, f: Flags)
    ensures Dec8(v, f) == Sub8(v, 1, false).(flags := Sub8(v, 1, false).flags.(c := f.c))
  {
    Sub8Spec(v, 1, false);
  }

  // ---------------------------------------------------------------- 16-bit arithmetic

  function Bit15(w: bv16): bool
  {
    w & 0x8000 != 0
  }

  /** alu_add16_impl (ADD HL/IX/IY, rr): S, Z and PV kept, N cleared, H from bit 12
      of `d ^ v ^ sum`, C from a 32-bit sum above 0xFFFF. The stored word is the
      sum truncated to 16 bits. */
  function Add16(d: bv16, v: bv16, f: Flags): (r: WordOut)
    ensures r.value == d + v
    ensures r.flags.s == f.s && r.flags.z == f.z && r.flags.pv == f.pv
    ensures !r.flags.n && !r.flags.f3 && !r.flags.f5
  {
    WordOut(d + v, Flags(f.s, f.z, false, ((d ^ v ^ (d + v)) >> 8) & 0x10 != 0, false, f.pv, false,
                         d as bv32 + v as bv32 > 0xFFFF))
  }

  /** H of ADD HL, rr is the carry out of bit 11: the low twelve bits overflow. */
  lemma Add16Half(d: bv16, v: bv16, f: Flags)
    ensures Add16(d, v, f).flags.h <==> (d & 0xFFF) + (v & 0xFFF) > 0xFFF
  {
  }

  /** The word ADC HL stores: the 32-bit sum truncated to 16 bits. */
  function AdcWord(hl: bv16, v: bv16, c: bool): bv16
  {
    hl + v + CarryBit(c) as bv16
  }

  /** alu_adc_hl_impl: every flag set from the 16-bit result; H from a 12-bit
      sum, C from a 32-bit sum above 0xFFFF, bits 3 and 5 of the result's
      high byte (bits 11 and 13 of the word) copied. */
  function AdcHl(hl: bv16, v: bv16, f: Flags): (r: WordOut)
    ensures r.value == hl + v + CarryBit(f.c) as bv16
    ensures r.flags.s == Bit15(r.value) && r.flags.z == (r.value == 0) && !r.flags.n
    ensures r.flags.f3 == (r.value & 0x0800 != 0) && r.flags.f5 == (r.value & 0x2000 != 0)
  {
    WordOut(AdcWord(hl, v, f.c),
            Flags(AdcWord(hl, v, f.c) & 0x8000 != 0, AdcWord(hl, v, f.c) == 0, AdcWord(hl, v, f.c) & 0x2000 != 0,
                  (hl & 0x0FFF) + (v & 0x0FFF) + CarryBit(f.c) as bv16 > 0x0FFF,
                  AdcWord(hl, v, f.c) & 0x0800 != 0,
                  (!(hl ^ v)) & (hl ^ AdcWord(hl, v, f.c)) & 0x8000 != 0, false,
                  hl as bv32 + v as bv32 + CarryBit(f.c) as bv32 > 0xFFFF))
  }

  /** PV of ADC HL is signed overflow: both operands of one sign, the result of the other. */
  lemma AdcHlOverflow(hl: bv16, v: bv16, f: Flags)
    ensures var r := AdcHl(hl, v, f);
            r.flags.pv <==> Bit15(hl) == Bit15(v) && Bit15(r.value) != Bit15(hl)
  {
  }

  /** The word SBC HL stores: the 32-bit difference truncated to 16 bits. */
  function SbcWord(hl: bv16, v: bv16, c: bool): bv16
  {
    hl - v - CarryBit(c) as bv16
  }

  /** alu_sbc_hl_impl: N set, C when the 32-bit difference has any upper bit
      set (a borrow), H on a borrow out of the low 12 bits. */
  function SbcHl(hl: bv16, v: bv16, f: Flags): (r: WordOut)
    ensures r.value == hl - v - CarryBit(f.c) as bv16
    ensures r.flags.s == Bit15(r.value) && r.flags.z == (r.value == 0) && r.flags.n
    ensures r.flags.f3 == (r.value & 0x0800 != 0) && r.flags.f5 == (r.value & 0x2000 != 0)
  {
    WordOut(SbcWord(hl, v, f.c),
            Flags(SbcWord(hl, v, f.c) & 0x8000 != 0, SbcWord(hl, v, f.c) == 0, SbcWord(hl, v, f.c) & 0x2000 != 0,
                  (hl & 0x0FFF) < (v & 0x0FFF) + CarryBit(f.c) as bv16,
                  SbcWord(hl, v, f.c) & 0x0800 != 0,
                  (hl ^ v) & (hl ^ SbcWord(hl, v, f.c)) & 0x8000 != 0, true,
                  (hl as bv32 - v as bv32 - CarryBit(f.c) as bv32) & 0xFFFF_0000 != 0))
  }

  /** PV of SBC HL is signed overflow: operands of opposite signs and a result
      whose sign differs from HL's. */
  lemma SbcHlOverflow(hl: bv16, v: bv16, f: Flags)
    ensures var r := SbcHl(hl, v, f);
            r.flags.pv <==> Bit15(hl) != Bit15(v) && Bit15(r.value) != Bit15(hl)
  {
  }

  // ---------------------------------------------------------------- DAA

  /** DAA as written: a correction of 0x06 and/or 0x60 chosen from the nibbles
      and the incoming H and C, added after an addition or subtracted after a
      subtraction (N set). */
  function Daa(a: bv8, f: Flags): (r: ByteOut)
    ensures r.flags.c <==> a > 0x99 || f.c
    ensures r.flags.n == f.n && SzpAgree(r.flags, r.value)
  {
    ByteOut(DaaValue(a, f), Szp(DaaValue(a, f)).(h := DaaHalf(a, f), n := f.n, c := a > 0x99 || f.c))
  }

  /** The corrected accumulator: up after an addition, down after a subtraction. */
  function DaaValue(a: bv8, f: Flags): bv8
  {
    if f.n then a - DaaCorrection(a, f.h, f.c) else a + DaaCorrection(a, f.h, f.c)
  }

  /** H after DAA: a half borrow when a low-nibble correction meets a digit below
      6 after a subtraction, a half carry when the low nibble exceeded 9 after an
      addition. */
  function DaaHalf(a: bv8, f: Flags): bool
  {
    if f.n then f.h && (a & 0x0F) < 6 else (a & 0x0F) > 9
  }

  /** The amount DAA adds or subtracts: 0x06 for the units digit, 0x60 for the tens. */
  function DaaCorrection(a: bv8, h: bool, c: bool): (r: bv8)
    ensures r & 0x0F == 0 || r & 0x0F == 0x06
    ensures r & 0xF0 == 0x60 <==> a > 0x99 || c
  {
    (if (a & 0x0F) > 9 || h then 0x06 else 0) | (if a > 0x99 || c then 0x60 else 0)
  }

  /** A byte whose two nibbles are both decimal digits. */
  predicate IsBcd(x: bv8)
  {
    x & 0xF <= 9 && x >> 4 <= 9
  }

  /** Two decimal digits and whether the operation carried (or borrowed) out of the tens. */
  datatype BcdResult = BcdResult(digits: bv8, carry: bool)

  /** A digit sum or difference brought back into 0-9 (at most one ten too many). */
  function DecimalDigit(d: bv8): bv8
  {
    if d >= 10 then d - 10 else d
  }

  /** Sum of the units digits. */
  function UnitsSum(x: bv8, y: bv8): bv8
  {
    (x & 0xF) + (y & 0xF)
  }

  /** Sum of the tens digits plus the decimal carry from the units. */
  function TensSum(x: bv8, y: bv8): bv8
  {
    (x >> 4) + (y >> 4) + (if UnitsSum(x, y) >= 10 then 1 else 0)
  }

  /** Decimal addition of two BCD bytes, digit by digit as on paper. */
  function BcdAdd(x: bv8, y: bv8): (r: BcdResult)
    requires IsBcd(x) && IsBcd(y)
    ensures IsBcd(r.digits)
  {
    BcdResult((DecimalDigit(TensSum(x, y)) << 4) | DecimalDigit(UnitsSum(x, y)), TensSum(x, y) >= 10)
  }

  /** Whether the units digit of `x` is below that of `y` (a decimal borrow). */
  function UnitsBorrow(x: bv8, y: bv8): bool
  {
    x & 0xF < y & 0xF
  }

  /** Whether the tens digits, less the units borrow, go below zero. */
  function TensBorrow(x: bv8, y: bv8): bool
  {
    (x >> 4) < (y >> 4) + (if UnitsBorrow(x, y) then 1 else 0)
  }

  /** Decimal subtraction of two BCD bytes, digit by digit with borrows. */
  function BcdSub(x: bv8, y: bv8): (r: BcdResult)
    requires IsBcd(x) && IsBcd(y)
    ensures IsBcd(r.digits)
  {
    BcdResult(
      ((if TensBorrow(x, y) then (x >> 4) + 10 - (y >> 4) - (if UnitsBorrow(x, y) then 1 else 0)
        else (x >> 4) - (y >> 4) - (if UnitsBorrow(x, y) then 1 else 0)) << 4)
      | (if UnitsBorrow(x, y) then (x & 0xF) + 10 - (y & 0xF) else (x & 0xF) - (y & 0xF)),
      TensBorrow(x, y))
  }

  /** The decimal step behind DaaAfterAdd: correcting the binary sum of two BCD
      bytes, given the half carry and carry that addition produced, yields the
      decimal sum. */
  lemma DaaAddDigits(x: bv8, y: bv8, h: bool, c: bool)
    requires IsBcd(x) && IsBcd(y)
    requires h == ((x & 0xF) + (y & 0xF) > 0xF)
    requires c == (x as bv16 + y as bv16 > 0xFF)
    ensures (x + y) + DaaCorrection(x + y, h, c) == BcdAdd(x, y).digits
    ensures (x + y > 0x99 || c) == BcdAdd(x, y).carry
  {
  }

  /** The decimal step behind DaaAfterSub: correcting the binary difference of two
      BCD bytes, given the half borrow and borrow, yields the decimal difference. */
  lemma DaaSubDigits(x: bv8, y: bv8, h: bool, c: bool)
    requires IsBcd(x) && IsBcd(y)
    requires h == ((x & 0xF) < (y & 0xF))
    requires c == (x < y)
    ensures (x - y) - DaaCorrection(x - y, h, c) == BcdSub(x, y).digits
    ensures (x - y > 0x99 || c) == BcdSub(x, y).carry
  {
  }

  /** DAA applied to the outcome of adding two BCD bytes gives their decimal sum. */
  lemma DaaOfSum(x: bv8, y: bv8, s: ByteOut)
    requires IsBcd(x) && IsBcd(y)
    requires s.value == x + y && !s.flags.n
    requires s.flags.h == ((x & 0xF) + (y & 0xF) > 0xF)
    requires s.flags.c == (x as bv16 + y as bv16 > 0xFF)
    ensures DaaValue(s.value, s.flags) == BcdAdd(x, y).digits
    ensures (s.value > 0x99 || s.flags.c) == BcdAdd(x, y).carry
  {
    DaaAddDigits(x, y, s.flags.h, s.flags.c);
  }

  /** DAA applied to the outcome of subtracting two BCD bytes gives their decimal difference. */
  lemma DaaOfDifference(x: bv8, y: bv8, s: ByteOut)
    requires IsBcd(x) && IsBcd(y)
    requires s.value == x - y && s.flags.n
    requires s.flags.h == ((x & 0xF) < (y & 0xF))
    requires s.flags.c == (x < y)
    ensures DaaValue(s.value, s.flags) == BcdSub(x, y).digits
    ensures (s.value > 0x99 || s.flags.c) == BcdSub(x, y).carry
  {
    DaaSubDigits(x, y, s.flags.h, s.flags.c);
  }

  /** ADD then DAA adds two BCD bytes as decimal numbers, C being the decimal carry. */
  lemma {:induction false} DaaAfterAdd(x: bv8, y: bv8)
    requires IsBcd(x) && IsBcd(y)
    ensures var s := Add8(x, y, false);
            var d := Daa(s.value, s.flags);
            d.value == BcdAdd(x, y).digits && (d.flags.c <==> BcdAdd(x, y).carry)
  {
    var s := Add8(x, y, false);
    Add8Value(x, y, false);
    Add8Half(x, y, false);
    Add8CarryNoCarry(x, y);
    DaaOfSum(x, y, s);
  }

  /** SUB then DAA subtracts two BCD bytes as decimal numbers, C being the decimal borrow. */
  lemma {:induction false} DaaAfterSub(x: bv8, y: bv8)
    requires IsBcd(x) && IsBcd(y)
    ensures var s := Sub8(x, y, false);
            var d := Daa(s.value, s.flags);
            d.value == BcdSub(x, y).digits && (d.flags.c <==> BcdSub(x, y).carry)
  {
    var s := Sub8(x, y, false);
    Sub8Value(x, y, false);
    Sub8Half(x, y, false);
    Sub8BorrowNoCarry(x, y);
    DaaOfDifference(x, y, s);
  }

  // ---------------------------------------------------------------- accumulator rotates and flag instructions

  /** The flag rule shared by RLCA, RRCA, RLA and RRA: S, Z and PV kept, H and N
      cleared, C the bit shifted out, bits 3 and 5 copied from the new A. */
  predicate RotateAFlags(r: ByteOut, f: Flags, out: bool)
  {
    r.flags == f.(h := false, n := false, c := out, f3 := Bit(r.value, 3), f5 := Bit(r.value, 5))
  }

  function AccFlags(f: Flags, carry: bool, v: bv8): Flags
  {
    f.(f5 := Bit(v, 5), h := false, f3 := Bit(v, 3), n := false, c := carry)
  }

  function Rlca(a: bv8, f: Flags): (r: ByteOut)
    ensures Bit(r.value, 0) == Bit7(a) && r.value >> 1 == a & 0x7F
    ensures RotateAFlags(r, f, Bit7(a))
  {
    ByteOut((a << 1) | (a >> 7), AccFlags(f, a >> 7 == 1, (a << 1) | (a >> 7)))
  }

  function Rrca(a: bv8, f: Flags): (r: ByteOut)
    ensures Bit7(r.value) == Bit(a, 0) && r.value & 0x7F == a >> 1
    ensures RotateAFlags(r, f, Bit(a, 0))
  {
    ByteOut((a >> 1) | (a << 7), AccFlags(f, a & 0x01 == 1, (a >> 1) | (a << 7)))
  }

  function Rla(a: bv8, f: Flags): (r: ByteOut)
    ensures Bit(r.value, 0) == f.c && r.value >> 1 == a & 0x7F
    ensures RotateAFlags(r, f, Bit7(a))
  {
    ByteOut((a << 1) | CarryBit(f.c), AccFlags(f, a >> 7 == 1, (a << 1) | CarryBit(f.c)))
  }

  function Rra(a: bv8, f: Flags): (r: ByteOut)
    ensures Bit7(r.value) == f.c && r.value & 0x7F == a >> 1
    ensures RotateAFlags(r, f, Bit(a, 0))
  {
    ByteOut((a >> 1) | (CarryBit(f.c) << 7), AccFlags(f, a & 0x01 == 1, (a >> 1) | (CarryBit(f.c) << 7)))
  }

  /** RRCA undoes RLCA, and RRA undoes RLA because the bit RLA shifts out is
      held in C and shifted back in. */
  lemma RotateInverse(a: bv8, f: Flags)
    ensures Rrca(Rlca(a, f).value, f).value == a
    ensures Rra(Rla(a, f).value, Rla(a, f).flags).value == a
  {
  }

  /** CPL: A complemented, H and N set, every other flag kept. */
  function Cpl(a: bv8, f: Flags): (r: ByteOut)
    ensures r.value ^ a == 0xFF
    ensures r.flags == f.(h := true, n := true)
  {
    ByteOut(!a, f.(h := true, n := true))
  }

  /** SCF: C set, H and N cleared, S/Z/PV kept, bits 3 and 5 from A. */
  function Scf(a: bv8, f: Flags): (r: Flags)
    ensures r.c && !r.h && !r.n && r.s == f.s && r.z == f.z && r.pv == f.pv
    ensures r.f3 == Bit(a, 3) && r.f5 == Bit(a, 5)
  {
    AccFlags(f, true, a)
  }

  /** CCF: C complemented, H takes the old C, N cleared, bits 3 and 5 from A. */
  function Ccf(a: bv8, f: Flags): (r: Flags)
    ensures r.c == !f.c && r.h == f.c && !r.n && r.s == f.s && r.z == f.z && r.pv == f.pv
    ensures r.f3 == Bit(a, 3) && r.f5 == Bit(a, 5)
  {
    AccFlags(f, !f.c, a).(h := f.c)
  }

  /** CCF twice restores C; SCF then CCF leaves C clear. */
  lemma {:induction false} CarryFlagOps(a: bv8, f: Flags)
    ensures Ccf(a, Ccf(a, f)).c == f.c
    ensures !Ccf(a, Scf(a, f)).c
  {
  }

  // ---------------------------------------------------------------- CB group

  /** The eight CB shifts and rotates selected by bits 3-5 of the opcode: RLC,
      RRC, RL, RR, SLA, SRA, SLL (shifts in a one) and SRL. C is the bit shifted
      out and every other flag comes from the result (szp_flags, no bits 3/5). */
  function CbShift(op: nat, v: bv8, f: Flags): (r: ByteOut)
    requires op < 8
    ensures r.flags.c == (if op % 2 == 0 then Bit7(v) else Bit(v, 0))
    ensures r.flags == Szp(r.value).(c := r.flags.c)
    ensures r.value == CbShiftValue(op, v, f.c)
  {
    ByteOut(CbShiftValue(op, v, f.c),
            Szp(CbShiftValue(op, v, f.c)).(c := (if op % 2 == 0 then v >> 7 else v & 0x01) == 1))
  }

  /** The shifted byte of each CB shift; the left shifts are the even ones. */
  function CbShiftValue(op: nat, v: bv8, c: bool): bv8
    requires op < 8
  {
    match op
    case 0 => (v << 1) | (v >> 7)
    case 1 => (v >> 1) | (v << 7)
    case 2 => (v << 1) | CarryBit(c)
    case 3 => (v >> 1) | (CarryBit(c) << 7)
    case 4 => v << 1
    case 5 => (v >> 1) | (v & 0x80)
    case 6 => (v << 1) | 0x01
    case _ => v >> 1
  }

  /** Every CB shift moves the other seven bits one place: left for the even
      operations, right for the odd ones. */
  lemma CbShiftMoves(op: nat, v: bv8, c: bool)
    requires op < 8
    ensures op % 2 == 0 ==> CbShiftValue(op, v, c) >> 1 == v & 0x7F
    ensures op % 2 == 1 ==> CbShiftValue(op, v, c) & 0x7F == v >> 1
  {
  }

  /** The bit each left CB shift (RLC, RL, SLA, SLL) moves into bit 0. */
  lemma CbShiftLeftFill(v: bv8, c: bool)
    ensures Bit(CbShiftValue(0, v, c), 0) == Bit7(v) && Bit(CbShiftValue(2, v, c), 0) == c
    ensures !Bit(CbShiftValue(4, v, c), 0) && Bit(CbShiftValue(6, v, c), 0)
  {
  }

  /** The bit each right CB shift (RRC, RR, SRA, SRL) moves into bit 7. */
  lemma CbShiftRightFill(v: bv8, c: bool)
    ensures Bit7(CbShiftValue(1, v, c)) == Bit(v, 0) && Bit7(CbShiftValue(3, v, c)) == c
    ensures Bit7(CbShiftValue(5, v, c)) == Bit7(v) && !Bit7(CbShiftValue(7, v, c))
  {
  }

  /** RRC undoes RLC, and RR undoes RL when given the carry RL produced. */
  lemma CbRotateInverse(v: bv8, f: Flags)
    ensures CbShift(1, CbShift(0, v, f).value, f).value == v
    ensures var l := CbShift(2, v, f); CbShift(3, l.value, l.flags).value == v
  {
  }

  /** BIT n: Z and PV set iff the bit is clear, S iff bit 7 is tested and set,
      H set, N cleared, C kept, bits 3 and 5 from the tested value. */
  function BitTest(n: nat, v: bv8, f: Flags): (r: Flags)
    requires n < 8
    ensures r.z == !Bit(v, n) && r.pv == !Bit(v, n)
    ensures r.s == (n == 7 && Bit(v, n))
    ensures r.h && !r.n && r.c == f.c
    ensures r.f3 == Bit(v, 3) && r.f5 == Bit(v, 5)
  {
    Flags(n == 7 && v & 0x80 != 0, v & Mask(n) == 0, v & 0x20 != 0, true, v & 0x08 != 0, v & Mask(n) == 0, false, f.c)
  }

  /** RES n: bit n cleared, the other seven kept. */
  function Res(n: nat, v: bv8): (r: bv8)
    requires n < 8
    ensures !Bit(r, n)
    ensures forall k :: 0 <= k < 8 && k != n ==> Bit(r, k) == Bit(v, k)
  {
    v & !Mask(n)
  }

  /** SET n: bit n set, the other seven kept. */
  function Set(n: nat, v: bv8): (r: bv8)
    requires n < 8
    ensures Bit(r, n)
    ensures forall k :: 0 <= k < 8 && k != n ==> Bit(r, k) == Bit(v, k)
  {
    v | Mask(n)
  }
}

=== FILE: ay.dfy ===
/** The AY-3-8912 sound chip of the 128K and +2 machines: sixteen registers,
    three square-wave tone generators, a noise generator driven by a 17-bit
    shift register, an envelope generator and the integer sample mixer. */
module Ay {
  import opened Bits
  import opened Memory

  // One chip clock per 16 CPU T-states (AY_CLOCK_DIVIDER); the literal is
  // written out in the arithmetic below.

  type Regs = s: seq<bv8> | |s| == 16 witness seq(16, _ => 0 as bv8)

  /** One tone generator: its period counter and its square-wave output. */
  datatype Channel = Channel(counter: bv16, output: bool)

  /** The three tone generators, channels A, B and C. */
  datatype Tone = Tone(a: Channel, b: Channel, c: Channel)

  /** The noise generator: its counter, the 17-bit shift register and the output bit. */
  datatype Noise = Noise(counter: bv8, shift: bv32, output: bool)

  /** The envelope generator: period counter, step 0-15, hold and direction,
      and the divide-by-16 prescaler. */
  datatype Envelope = Envelope(counter: bv16, step: bv8, holding: bool, attack: bool, div: bv8)

  /** The generator state the chip clock advances. */
  datatype Gen = Gen(tone: Tone, noise: Noise, env: Envelope)

  /** AYState: the registers, the selected register, the generators, and the
      T-states not yet turned into chip clocks. */
  datatype AyState = AyState(regs: Regs, selected: bv8, gen: Gen, accum: nat)

  /** The generator invariant: the shift register is running and the envelope
      step is one of its sixteen levels. */
  predicate GenOk(g: Gen)
  {
    LfsrOk(g.noise) && g.env.step < 16
  }

  /** The chip as create, reset and snapshot load leave it: everything zero
      except the shift register, which must not be zero. */
  function Initial(): (ay: AyState)
    ensures GenOk(ay.gen)
  {
    AyState(seq(16, _ => 0), 0,
            Gen(Tone(Channel(0, false), Channel(0, false), Channel(0, false)), Noise(0, 1, false), Envelope(0, 0, false, false, 0)), 0)
  }

  // ---------------------------------------------------------------- registers

  /** The bits a register keeps: 4 for the tone-high and shape registers,
      5 for the noise period and the three volumes, all 8 otherwise. */
  function RegMask(reg: nat): bv8
  {
    match reg
    case 1 => 0x0F
    case 3 => 0x0F
    case 5 => 0x0F
    case 6 => 0x1F
    case 8 => 0x1F
    case 9 => 0x1F
    case 10 => 0x1F
    case 13 => 0x0F
    case _ => 0xFF
  }

  /** A selected register number as a sequence index. */
  function RegIndex(sel: bv8): (k: nat)
    requires sel <= 15
    ensures k < 16
  {
    sel as nat
  }

  /** ay_read_register: the selected register, or 0xFF past register 15. */
  function ReadRegister(ay: AyState): (v: bv8)
    ensures ay.selected > 15 ==> v == 0xFF
    ensures ay.selected <= 15 ==> v == ay.regs[RegIndex(ay.selected)]
  {
    if ay.selected > 15 then 0xFF else ay.regs[RegIndex(ay.selected)]
  }

  /** The envelope as a write to the shape register leaves it: restarted, not
      holding, attacking when bit 2 of the shape is set. */
  function RestartEnvelope(e: Envelope, shape: bv8): (r: Envelope)
    ensures r.counter == 0 && r.step == 0 && !r.holding && r.attack == (shape & 0x04 != 0)
    ensures r.div == e.div
  {
    e.(counter := 0, step := 0, holding := false, attack := shape & 0x04 != 0)
  }

  /** ay_write_register: the value, masked to the register's width, goes to
      the selected register; a write to the shape register also restarts the
      envelope. */
  function WriteRegister(ay: AyState, v: bv8): (r: AyState)
    ensures ay.selected > 15 ==> r == ay
    ensures ay.selected <= 15 ==> r.regs == ay.regs[RegIndex(ay.selected) := v & RegMask(RegIndex(ay.selected))]
    ensures ay.selected == 13 ==> r.gen == ay.gen.(env := RestartEnvelope(ay.gen.env, v))
    ensures ay.selected != 13 ==> r.gen == ay.gen
    ensures r.selected == ay.selected && r.accum == ay.accum
  {
    if ay.selected > 15 then ay
    else
      ay.(regs := ay.regs[RegIndex(ay.selected) := v & RegMask(RegIndex(ay.selected))],
          gen := if ay.selected == 13 then ay.gen.(env := RestartEnvelope(ay.gen.env, v)) else ay.gen)
  }

  /** Every register holds no more bits than its width allows. */
  predicate MasksHold(regs: Regs)
  {
    forall k :: 0 <= k < 16 ==> regs[k] <= RegMask(k)
  }

  /** Writing a register keeps every register within its width. */
  lemma {:induction false} WriteRegisterMasks(ay: AyState, v: bv8)
    requires MasksHold(ay.regs) && ay.selected <= 15
    ensures MasksHold(WriteRegister(ay, v).regs)
  {
    MasksKept(ay.regs, RegIndex(ay.selected), v);
  }

  /** Reading a register back gives the written value with the unused bits cleared. */
  lemma ReadAfterWriteRegister(ay: AyState, v: bv8)
    requires ay.selected <= 15
    ensures ReadRegister(WriteRegister(ay, v)) == v & RegMask(RegIndex(ay.selected))
    ensures v & RegMask(RegIndex(ay.selected)) == v <==> v <= RegMask(RegIndex(ay.selected))
  {
  }

  /** Storing a masked value keeps every register within its width. */
  lemma {:induction false} MasksKept(regs: Regs, sel: nat, v: bv8)
    requires MasksHold(regs) && sel < 16
    ensures MasksHold(regs[sel := v & RegMask(sel)])
  {
    MaskBound(v, RegMask(sel));
    var r := regs[sel := v & RegMask(sel)];
    forall k | 0 <= k < 16
      ensures r[k] <= RegMask(k)
    {
      if k != sel {
        assert r[k] == regs[k];
      }
    }
  }

  lemma MaskBound(v: bv8, mask: bv8)
    ensures v & mask <= mask
  {
  }

  // ---------------------------------------------------------------- noise

  /** The 17-bit shift register is running: nonzero and below 2^17. */
  predicate LfsrOk(n: Noise)
  {
    0 < n.shift < 0x2_0000
  }

  /** The feedback bit: the exclusive-or of bits 0 and 3. */
  function Feedback(s: bv32): (b: bv32)
    ensures b <= 1
  {
    (s & 1) ^ ((s >> 3) & 1)
  }

  /** One shift of the noise register: the feedback enters at bit 16. */
  function NoiseStep(s: bv32): (r: bv32)
  {
    (s >> 1) | (Feedback(s) << 16)
  }

  lemma NoiseStepLow(s: bv32)
    requires s < 0x2_0000
    ensures NoiseStep(s) & 0xFFFF == s >> 1
  {
  }

  lemma NoiseStepHigh(s: bv32)
    requires s < 0x2_0000
    ensures NoiseStep(s) >> 16 == Feedback(s)
  {
  }

  lemma NoiseStepBound(s: bv32)
    requires s < 0x2_0000
    ensures NoiseStep(s) < 0x2_0000
  {
  }

  lemma NoiseStepNonzero(s: bv32)
    requires 0 < s < 0x2_0000
    ensures NoiseStep(s) != 0
  {
  }

  /** The shift moves bits 1-16 down one place and puts the feedback on top;
      a running register stays running (the only state that would shift to
      zero, 1, has feedback 1). */
  lemma {:induction false} NoiseStepShifts(s: bv32)
    requires 0 < s < 0x2_0000
    ensures NoiseStep(s) & 0xFFFF == s >> 1 && NoiseStep(s) >> 16 == Feedback(s)
    ensures 0 < NoiseStep(s) < 0x2_0000
  {
    NoiseStepLow(s);
    NoiseStepHigh(s);
    NoiseStepBound(s);
    NoiseStepNonzero(s);
  }

  /** The noise generator for one chip clock: on reaching the period the shift
      register steps and its bit 0 becomes the noise output. */
  function NoiseClock(regs: Regs, n: Noise): (r: Noise)
    ensures LfsrOk(n) ==> LfsrOk(r)
  {
    if n.counter + 1 >= NoisePeriod(regs) then
      NoiseAdvance(n)
    else
      n.(counter := n.counter + 1)
  }

  function NoiseAdvance(n: Noise): (r: Noise)
    ensures LfsrOk(n) ==> LfsrOk(r)
    ensures r.output == (r.shift & 1 == 1) && r.counter == 0
  {
    if LfsrOk(n) then NoiseStepShifts(n.shift); Noise(0, NoiseStep(n.shift), NoiseStep(n.shift) & 1 == 1)
    else Noise(0, NoiseStep(n.shift), NoiseStep(n.shift) & 1 == 1)
  }

  /** The noise period: register 6's five bits; zero counts as one. */
  function NoisePeriod(regs: Regs): (p: bv8)
    ensures 0 < p < 32
  {
    if regs[6] & 0x1F == 0 then 1 else regs[6] & 0x1F
  }

  // ---------------------------------------------------------------- envelope

  /** ay_get_envelope_volume: the step counts up when attacking and down otherwise. */
  function EnvelopeVolume(e: Envelope): (v: bv8)
    requires e.step < 16
    ensures v < 16
    ensures e.attack ==> v == e.step
    ensures !e.attack ==> v + e.step == 15
  {
    if e.attack then e.step else 15 - e.step
  }

  /** The envelope period from registers 11 and 12; zero counts as one. */
  function EnvPeriod(regs: Regs): (p: bv16)
    ensures p != 0
  {
    if Word(regs[12], regs[11]) == 0 then 1 else Word(regs[12], regs[11])
  }

  /** The step the source holds at when a holding shape (bits 3 and 0 set)
      finishes its cycle. */
  function HoldStepAsWritten(shape: bv8, attack: bool): bv8
  {
    if shape & 0x02 != 0 then (if attack then 15 else 0) else (if attack then 0 else 15)
  }

  /** ay_update_envelope as written: one envelope clock. At the end of a
      cycle, shapes 0-7 hold at step 0, holding shapes hold at
      HoldStepAsWritten, and repeating shapes restart (flipping the direction
      when bit 1 is set). */
  function UpdateEnvelopeAsWritten(regs: Regs, e: Envelope): (r: Envelope)
    ensures e.holding ==> r == e
    ensures r.div == e.div
  {
    if e.holding then e
    else if e.counter + 1 < EnvPeriod(regs) then e.(counter := e.counter + 1)
    else if e.step + 1 < 16 then e.(counter := 0, step := e.step + 1)
    else if regs[13] & 0x08 == 0 then e.(counter := 0, holding := true, step := 0)
    else if regs[13] & 0x01 != 0 then
      e.(counter := 0, holding := true, step := HoldStepAsWritten(regs[13], e.attack))
    else if regs[13] & 0x02 != 0 then e.(counter := 0, step := 0, attack := !e.attack)
    else e.(counter := 0, step := 0)
  }

  /** The level a finished single-cycle or holding shape should rest at: 0 for
      shapes 0-7; for holding shapes the level the last ramp ended on (15 after
      an attack, 0 after a decay), flipped when the alternate bit is set. */
  function IntendedHoldLevel(shape: bv8, attack: bool): (level: bv8)
    ensures level == 0 || level == 15
  {
    if shape & 0x08 == 0 then 0
    else if (shape & 0x02 != 0) != attack then 15 else 0
  }

  /** The step that makes EnvelopeVolume show a given level in a given direction. */
  function StepForLevel(level: bv8, attack: bool): (s: bv8)
    requires level < 16
    ensures s < 16
  {
    if attack then level else 15 - level
  }

  /** ay_update_envelope with the hold level corrected: a finished cycle that
      holds rests on IntendedHoldLevel. */
  function UpdateEnvelope(regs: Regs, e: Envelope): (r: Envelope)
    ensures e.step < 16 ==> r.step < 16
    ensures e.holding ==> r == e
    ensures r.div == e.div
  {
    if e.holding then e
    else if e.counter + 1 < EnvPeriod(regs) then e.(counter := e.counter + 1)
    else if e.step + 1 < 16 then e.(counter := 0, step := e.step + 1)
    else if regs[13] & 0x08 == 0 || regs[13] & 0x01 != 0 then
      e.(counter := 0, holding := true, step := StepForLevel(IntendedHoldLevel(regs[13], e.attack), e.attack))
    else if regs[13] & 0x02 != 0 then e.(counter := 0, step := 0, attack := !e.attack)
    else e.(counter := 0, step := 0)
  }

  /** The last clock of a ramp: the counter is about to reach the period on step 15. */
  predicate RampEnds(regs: Regs, e: Envelope)
  {
    !e.holding && e.counter + 1 >= EnvPeriod(regs) && e.step == 15
  }

  /** As written, the decaying single-cycle shape 0 ends its ramp on volume 0
      and then holds at volume 15, and the attack-and-hold shape 13 ends its
      ramp on volume 15 and then holds at volume 0. */
  lemma HoldAsWrittenCounterexample(regs: Regs, e: Envelope)
    requires RampEnds(regs, e)
    ensures regs[13] == 0 && !e.attack ==>
              EnvelopeVolume(e) == 0 && EnvelopeVolume(UpdateEnvelopeAsWritten(regs, e)) == 15
    ensures regs[13] == 13 && e.attack ==>
              EnvelopeVolume(e) == 15 && EnvelopeVolume(UpdateEnvelopeAsWritten(regs, e)) == 0
  {
  }

  /** With the correction, a shape that stops at the end of its cycle holds at
      the intended level (0 for shapes 0-7) and stays there. */
  lemma {:induction false} HoldLevelIntended(regs: Regs, e: Envelope)
    requires RampEnds(regs, e)
    requires regs[13] & 0x08 == 0 || regs[13] & 0x01 != 0
    ensures UpdateEnvelope(regs, e).holding
    ensures EnvelopeVolume(UpdateEnvelope(regs, e)) == IntendedHoldLevel(regs[13], e.attack)
    ensures regs[13] & 0x08 == 0 ==> EnvelopeVolume(UpdateEnvelope(regs, e)) == 0
    ensures UpdateEnvelope(regs, UpdateEnvelope(regs, e)) == UpdateEnvelope(regs, e)
  {
    var l := IntendedHoldLevel(regs[13], e.attack);
    assert UpdateEnvelope(regs, e).step == StepForLevel(l, e.attack);
  }

  /** The correction touches only the clock that ends a ramp of a shape that
      stops there: on every other clock the envelope runs ay_update_envelope
      as written. */
  lemma CorrectionOnlyWhereItStops(regs: Regs, e: Envelope)
    requires e.step < 16
    requires !(RampEnds(regs, e) && (regs[13] & 0x08 == 0 || regs[13] & 0x01 != 0))
    ensures UpdateEnvelope(regs, e) == UpdateEnvelopeAsWritten(regs, e)
  {
  }

  /** A repeating shape restarts at step 0 at the end of each cycle, flipping
      direction exactly when the alternate bit is set. */
  lemma RepeatRestarts(regs: Regs, e: Envelope)
    requires RampEnds(regs, e) && regs[13] & 0x08 != 0 && regs[13] & 0x01 == 0
    ensures UpdateEnvelope(regs, e).step == 0 && !UpdateEnvelope(regs, e).holding
    ensures UpdateEnvelope(regs, e).attack == (e.attack != (regs[13] & 0x02 != 0))
  {
  }

  /** The envelope prescaler: every sixteenth chip clock clocks the envelope. */
  function EnvelopeClock(regs: Regs, e: Envelope): (r: Envelope)
    ensures e.step < 16 ==> r.step < 16
  {
    if e.div + 1 >= 16 then UpdateEnvelope(regs, e.(div := 0)) else e.(div := e.div + 1)
  }

  // ---------------------------------------------------------------- tones

  /** A tone channel's period: 12 bits from its two registers; zero counts as one. */
  function TonePeriod(regs: Regs, ch: nat): (p: bv16)
    requires ch < 3
    ensures p != 0 && p < 0x1000
  {
    if Word(regs[2 * ch + 1] & 0x0F, regs[2 * ch]) == 0 then 1 else Word(regs[2 * ch + 1] & 0x0F, regs[2 * ch])
  }

  /** One tone channel for one chip clock: count up, and on reaching the
      period restart and flip the output. */
  function ToneClock(period: bv16, c: Channel): (r: Channel)
    ensures c.counter + 1 >= period ==> r == Channel(0, !c.output)
    ensures c.counter + 1 < period ==> r == Channel(c.counter + 1, c.output)
  {
    if c.counter + 1 >= period then Channel(0, !c.output) else c.(counter := c.counter + 1)
  }

  /** A channel's generator by number. */
  function ChannelOf(t: Tone, ch: nat): Channel
    requires ch < 3
  {
    match ch
    case 0 => t.a
    case 1 => t.b
    case _ => t.c
  }

  /** The three tone generators for one chip clock, each against its own period. */
  function TonesClock(regs: Regs, t: Tone): (r: Tone)
  {
    Tone(ToneClock(TonePeriod(regs, 0), t.a), ToneClock(TonePeriod(regs, 1), t.b), ToneClock(TonePeriod(regs, 2), t.c))
  }

  // ---------------------------------------------------------------- clocking

  /** One chip clock, the body of ay_tick's loop: the three tones, the noise,
      then the envelope prescaler. */
  function Clock(regs: Regs, g: Gen): (r: Gen)
    ensures GenOk(g) ==> GenOk(r)
  {
    Gen(TonesClock(regs, g.tone),
        NoiseClock(regs, g.noise),
        EnvelopeClock(regs, g.env))
  }

  /** The chip clock for fixed register contents, as a step function. */
  function ClockWith(regs: Regs): Gen -> Gen
  {
    g => Clock(regs, g)
  }

  /** `n` applications of a step function. */
  function Iterate<T>(f: T -> T, x: T, n: nat): T
    decreases n
  {
    if n == 0 then x else Iterate(f, f(x), n - 1)
  }

  /** Iterating n1 times and then n2 times is iterating n1 + n2 times. */
  lemma {:induction false} IterateAdd<T>(f: T -> T, x: T, n1: nat, n2: nat)
    ensures Iterate(f, Iterate(f, x, n1), n2) == Iterate(f, x, n1 + n2)
    decreases n1
  {
    if n1 > 0 {
      IterateAdd(f, f(x), n1 - 1, n2);
    }
  }

  /** `n` chip clocks in a row (the registers do not change while ay_tick runs). */
  function Clocks(regs: Regs, g: Gen, n: nat): Gen
  {
    Iterate(ClockWith(regs), g, n)
  }

  /** Any number of chip clocks keep the generator invariant. */
  lemma {:induction false} ClocksInvariant(regs: Regs, g: Gen, n: nat)
    requires GenOk(g)
    ensures GenOk(Clocks(regs, g, n))
    decreases n
  {
    if n > 0 {
      ClocksInvariant(regs, Clock(regs, g), n - 1);
      assert Clocks(regs, g, n) == Clocks(regs, Clock(regs, g), n - 1);
    }
  }

  /** ay_tick: the 48K machine has no chip; otherwise the T-states are added to
      the accumulator and one chip clock runs per sixteen of them, leaving the
      remainder. */
  function Tick(ay: AyState, model: Model, t: nat): (r: AyState)
    ensures r.regs == ay.regs && r.selected == ay.selected
    ensures model == Spectrum48 ==> r == ay
    ensures model != Spectrum48 ==> r.accum == (ay.accum + t) % 16 && r.accum < 16
  {
    if model == Spectrum48 then ay
    else ay.(gen := Divided(ClockWith(ay.regs), ay.gen, ay.accum + t), accum := (ay.accum + t) % 16)
  }

  /** ay_tick keeps the generator invariant. */
  lemma {:induction false} TickInvariant(ay: AyState, model: Model, t: nat)
    requires GenOk(ay.gen)
    ensures GenOk(Tick(ay, model, t).gen)
  {
    if model != Spectrum48 {
      ClocksInvariant(ay.regs, ay.gen, (ay.accum + t) / 16);
      assert Tick(ay, model, t).gen == Clocks(ay.regs, ay.gen, (ay.accum + t) / 16);
    }
  }

  /** One step per whole sixteen of `total`. */
  function Divided<T>(f: T -> T, x: T, total: nat): T
  {
    Iterate(f, x, total / 16)
  }

  /** Ticking in two pieces is ticking once for their total: the accumulator
      carries the leftover T-states across calls. */
  lemma {:induction false} TickSplits(ay: AyState, model: Model, t1: nat, t2: nat)
    ensures Tick(Tick(ay, model, t1), model, t2) == Tick(ay, model, t1 + t2)
  {
    if model != Spectrum48 {
      DividedSplits(ClockWith(ay.regs), ay.gen, ay.accum + t1, t2);
    }
  }

  /** For any step function: the steps for `total`, then those for its
      remainder plus `t`, are the steps for `total + t`. */
  lemma {:induction false} DividedSplits<T>(f: T -> T, x: T, total: nat, t: nat)
    ensures Divided(f, Divided(f, x, total), total % 16 + t) == Divided(f, x, total + t)
    ensures (total % 16 + t) % 16 == (total + t) % 16
  {
    DivSplit(total, t);
    IterateAdd(f, x, total / 16, (total % 16 + t) / 16);
  }

  /** Carrying the remainder: whole sixteens of x + t are those of x plus those of (x % 16) + t. */
  lemma {:induction false} DivSplit(x: nat, t: nat)
    ensures (x + t) / 16 == x / 16 + (x % 16 + t) / 16
    ensures (x + t) % 16 == (x % 16 + t) % 16
  {
    var q, r := x / 16, x % 16;
    assert x + t == 16 * q + (r + t);
    var q2, r2 := (r + t) / 16, (r + t) % 16;
    assert x + t == 16 * (q + q2) + r2;
  }

  // ---------------------------------------------------------------- mixing

  /** ay_vol_table: the DAC level of each 4-bit volume. */
  function VolTable(v: bv8): (level: nat)
    requires v < 16
    ensures level <= 255
    ensures level == 0 <==> v == 0
    ensures level == 255 <==> v == 15
  {
    match v
    case 0 => 0
    case 1 => 1
    case 2 => 2
    case 3 => 3
    case 4 => 5
    case 5 => 7
    case 6 => 10
    case 7 => 15
    case 8 => 22
    case 9 => 31
    case 10 => 44
    case 11 => 63
    case 12 => 90
    case 13 => 127
    case 14 => 180
    case _ => 255
  }

  function ToneBit(ch: nat): bv8
    requires ch < 3
  {
    match ch
    case 0 => 0x01
    case 1 => 0x02
    case _ => 0x04
  }

  function NoiseBit(ch: nat): bv8
    requires ch < 3
  {
    match ch
    case 0 => 0x08
    case 1 => 0x10
    case _ => 0x20
  }

  /** A channel is heard when its tone is high or disabled and the noise is
      high or disabled (the mixer bits in register 7 are active low). */
  predicate Audible(ay: AyState, ch: nat)
    requires ch < 3
  {
    (ay.regs[7] & ToneBit(ch) != 0 || ChannelOf(ay.gen.tone, ch).output) &&
    (ay.regs[7] & NoiseBit(ch) != 0 || ay.gen.noise.output)
  }

  /** The 4-bit volume of a channel: its register, or the envelope when bit 4 is set. */
  function ChannelVolume(ay: AyState, ch: nat): (v: bv8)
    requires ch < 3 && ay.gen.env.step < 16
    ensures v < 16
    ensures ay.regs[8 + ch] & 0x10 == 0 ==> v == ay.regs[8 + ch] & 0x0F
  {
    if ay.regs[8 + ch] & 0x10 != 0 then EnvelopeVolume(ay.gen.env) else ay.regs[8 + ch] & 0x0F
  }

  /** The DAC level a channel contributes to the mix. */
  function ChannelLevel(ay: AyState, ch: nat): (level: nat)
    requires ch < 3 && ay.gen.env.step < 16
    ensures level <= 255
    ensures level == 0 <==> !Audible(ay, ch) || ChannelVolume(ay, ch) == 0
    ensures level == 255 <==> Audible(ay, ch) && ChannelVolume(ay, ch) == 15
  {
    if Audible(ay, ch) then VolTable(ChannelVolume(ay, ch)) else 0
  }

  /** ay_generate_sample: silent on the 48K machine; otherwise the three
      channel levels summed and scaled so that 765 becomes 6000. */
  function GenerateSample(ay: AyState, model: Model): (s: int)
    requires ay.gen.env.step < 16
    ensures 0 <= s <= 6000
    ensures model == Spectrum48 ==> s == 0
  {
    if model == Spectrum48 then 0
    else (ChannelLevel(ay, 0) + ChannelLevel(ay, 1) + ChannelLevel(ay, 2)) * 6000 / 765
  }

  /** The mix is silent exactly when no channel contributes, and at full scale
      exactly when all three are heard at volume 15. */
  lemma {:induction false} SampleExtremes(ay: AyState, model: Model)
    requires ay.gen.env.step < 16 && model != Spectrum48
    ensures GenerateSample(ay, model) == 0 <==>
              ChannelLevel(ay, 0) == 0 && ChannelLevel(ay, 1) == 0 && ChannelLevel(ay, 2) == 0
    ensures GenerateSample(ay, model) == 6000 <==>
              ChannelLevel(ay, 0) == 255 && ChannelLevel(ay, 1) == 255 && ChannelLevel(ay, 2) == 255
  {
    var total := ChannelLevel(ay, 0) + ChannelLevel(ay, 1) + ChannelLevel(ay, 2);
    assert total <= 765;
    if 0 < total < 765 {
      assert 6000 <= total * 6000 <= 764 * 6000;
    }
  }
}

=== FILE: base.dfy ===
/** The unprefixed opcode table of execute_one_core, laid out by the opcode
    fields: the first quarter (x = 0: relative jumps, 16-bit loads and
    arithmetic, indirect loads, INC/DEC, immediate loads, accumulator
    rotates), LD r,r' and HALT (x = 1), the accumulator operations (x = 2)
    and the last quarter (x = 3: returns, POP/PUSH, jumps, calls, immediate
    operations, RST and the odd ones out). Every function receives the state
    just after the opcode fetch, PC on the byte after the opcode. */
module Base {
  import opened Bits
  import opened Alu
  import opened Z80
  import opened Banks = Memory
  import opened Board
  import opened Ops

  /** The condition codes of bits 3-5: NZ, Z, NC, C, PO, PE, P, M. */
  function Cond(f: Flags, y: nat): bool
    requires y < 8
  {
    match y
    case 0 => !f.z
    case 1 => f.z
    case 2 => !f.c
    case 3 => f.c
    case 4 => !f.pv
    case 5 => f.pv
    case 6 => !f.s
    case _ => f.s
  }

  /** The conditions come in complementary pairs, each testing one flag. */
  lemma CondPairs(f: Flags, k: nat)
    requires k < 4
    ensures Cond(f, 2 * k + 1) == !Cond(f, 2 * k)
    ensures Cond(f, 2 * k + 1) == [f.z, f.c, f.pv, f.s][k]
  {
  }

  function Jump(s: State, w: bv16): (r: State)
    ensures r.cpu == s.cpu.(pc := w) && r.board == s.board
  {
    s.(cpu := s.cpu.(pc := w))
  }

  function WithCpu(s: State, c: Cpu): (r: State)
    ensures r.cpu == c && r.board == s.board
  {
    s.(cpu := c)
  }

  // ---------------------------------------------------------------- x = 0

  /** z = 0: NOP, EX AF,AF', DJNZ, JR and the four JR cc. */
  function Relatives(s: State, y: nat): (o: Out)
    requires y < 8
    ensures Plain(s, o) && o.s.board == s.board
    ensures y >= 3 ==> o == RelativeJump(s, y == 3 || Cond(s.cpu.main.f, y - 4))
  {
    match y
    case 0 => Out(s, 4)
    case 1 => Out(WithCpu(s, ExAf(s.cpu)), 4)
    case 2 => Djnz(s)
    case 3 => RelativeJump(s, true)
    case _ => RelativeJump(s, Cond(s.cpu.main.f, y - 4))
  }

  /** JR and JR cc: the displacement byte is fetched first; a jump lands at
      the address after it plus its signed value, a jump not taken continues
      after it. */
  function RelativeJump(s: State, taken: bool): (o: Out)
    ensures Plain(s, o) && o.s.board == s.board
    ensures o.s.cpu == s.cpu.(pc := o.s.cpu.pc)
    ensures taken ==> o.s.cpu.pc == AddDisp(s.cpu.pc + 1, Imm8(s)) && o.t == 12
    ensures !taken ==> o.s.cpu.pc == s.cpu.pc + 1 && o.t == 7
  {
    if taken then Out(Jump(s, Relative(s)), 12) else Out(Skip(s, 1), 7)
  }

  /** DJNZ: B counts down and the jump is taken unless it reached zero. */
  function Djnz(s: State): (o: Out)
    ensures Plain(s, o) && o.s.board == s.board
    ensures o.s.cpu.main == s.cpu.main.(b := s.cpu.main.b - 1)
    ensures s.cpu.main.b != 1 ==> o.s.cpu.pc == Relative(s) && o.t == 13
    ensures s.cpu.main.b == 1 ==> o.s.cpu.pc == s.cpu.pc + 1 && o.t == 8
  {
    if s.cpu.main.b - 1 != 0 then
      Out(WithCpu(s, s.cpu.(main := s.cpu.main.(b := s.cpu.main.b - 1), pc := Relative(s))), 13)
    else
      Out(WithCpu(s, s.cpu.(main := s.cpu.main.(b := s.cpu.main.b - 1), pc := s.cpu.pc + 1)), 8)
  }

  /** z = 1: LD rr,nn (q = 0) and ADD HL,rr (q = 1). */
  function PairOps(s: State, p: nat, q: nat): (o: Out)
    requires p < 4 && q < 2
    ensures Plain(s, o) && o.s.board == s.board
    ensures q == 0 ==> Pair(o.s.cpu, p) == Imm16(s) && o.s.cpu.pc == s.cpu.pc + 2 && o.t == 10
    ensures q == 1 ==> HL(o.s.cpu.main) == Add16(HL(s.cpu.main), Pair(s.cpu, p), s.cpu.main.f).value
    ensures q == 1 ==> o.s.cpu.pc == s.cpu.pc && o.t == 11
  {
    if q == 0 then Out(WithCpu(Skip(s, 2), SetPair(Skip(s, 2).cpu, p, Imm16(s))), 10)
    else
      Out(WithCpu(s, s.cpu.(main := SetHL(s.cpu.main, Add16(HL(s.cpu.main), Pair(s.cpu, p), s.cpu.main.f).value)
                                       .(f := Add16(HL(s.cpu.main), Pair(s.cpu, p), s.cpu.main.f).flags))), 11)
  }

  /** z = 2: A to and from (BC) and (DE), HL and A to and from an absolute
      address. */
  function Indirect(s: State, p: nat, q: nat): (o: Out)
    requires p < 4 && q < 2
    ensures Plain(s, o)
    ensures q == 1 ==> o.s.board == s.board
    ensures q == 1 && p < 2 ==> o.s.cpu == s.cpu.(main := s.cpu.main.(a := Rd(s, Pair(s.cpu, p))))
    ensures q == 1 && p == 2 ==> HL(o.s.cpu.main) == RdWord(s, Imm16(s))
    ensures q == 1 && p == 3 ==> o.s.cpu.main.a == Rd(s, Imm16(s))
    ensures q == 0 && p < 2 ==> o.s.board.mem == Write(s.board.mem, Pair(s.cpu, p), s.cpu.main.a)
    ensures q == 0 && p == 2 ==> o.s.board.mem == WriteWord(s.board.mem, Imm16(s), HL(s.cpu.main))
    ensures q == 0 && p == 3 ==> o.s.board.mem == Write(s.board.mem, Imm16(s), s.cpu.main.a)
    ensures q == 0 ==> o.s.cpu == s.cpu.(pc := o.s.cpu.pc)
  {
    if q == 0 then
      if p < 2 then Out(Wr(s, Pair(s.cpu, p), s.cpu.main.a), 7)
      else if p == 2 then Out(WrWord(Skip(s, 2), Imm16(s), HL(s.cpu.main)), 16)
      else Out(Wr(Skip(s, 2), Imm16(s), s.cpu.main.a), 13)
    else
      if p < 2 then Out(WithCpu(s, s.cpu.(main := s.cpu.main.(a := Rd(s, Pair(s.cpu, p))))), 7)
      else if p == 2 then Out(WithCpu(Skip(s, 2), Skip(s, 2).cpu.(main := SetHL(s.cpu.main, RdWord(s, Imm16(s))))), 16)
      else Out(WithCpu(Skip(s, 2), Skip(s, 2).cpu.(main := s.cpu.main.(a := Rd(s, Imm16(s))))), 13)
  }

  /** z = 3: INC rr and DEC rr, which touch no flags. */
  function StepPair(s: State, p: nat, q: nat): (o: Out)
    requires p < 4 && q < 2
    ensures Plain(s, o) && o.s.board == s.board && o.t == 6
    ensures Pair(o.s.cpu, p) == (if q == 0 then Pair(s.cpu, p) + 1 else Pair(s.cpu, p) - 1)
    ensures o.s.cpu.main.f == s.cpu.main.f && o.s.cpu.pc == s.cpu.pc
  {
    Out(WithCpu(s, SetPair(s.cpu, p, if q == 0 then Pair(s.cpu, p) + 1 else Pair(s.cpu, p) - 1)), 6)
  }

  /** z = 4 and 5: INC r and DEC r, (HL) included. */
  function StepByte(s: State, y: nat, dec: bool): (o: Out)
    requires y < 8
    ensures Plain(s, o) && o.s.cpu.pc == s.cpu.pc
    ensures y != 6 ==> o.s.board == s.board && o.t == 4
    ensures y != 6 ==> o.s.cpu == s.cpu.(main := Put(s.cpu.main, y, Get(o.s.cpu.main, y)).(f := o.s.cpu.main.f))
    ensures y != 6 ==> Get(o.s.cpu.main, y) == (if dec then Get(s.cpu.main, y) - 1 else Get(s.cpu.main, y) + 1)
    ensures y == 6 ==> o.s.board.mem == Write(s.board.mem, HL(s.cpu.main), (if dec then Operand(s, 6) - 1 else Operand(s, 6) + 1))
    ensures o.s.cpu.main.f.c == s.cpu.main.f.c
  {
    if y == 6 then StepMemory(s, StepValue(Operand(s, 6), s.cpu.main.f, dec))
    else StepRegister(s, y, StepValue(Get(s.cpu.main, y), s.cpu.main.f, dec))
  }

  function StepMemory(s: State, r: ByteOut): (o: Out)
    ensures Plain(s, o) && o.t == 11
    ensures o.s.cpu == s.cpu.(main := s.cpu.main.(f := r.flags))
    ensures o.s.board.mem == Write(s.board.mem, HL(s.cpu.main), r.value)
  {
    Out(SetFlags(Wr(s, HL(s.cpu.main), r.value), r.flags), 11)
  }

  function StepRegister(s: State, y: nat, r: ByteOut): (o: Out)
    requires y < 8 && y != 6
    ensures Plain(s, o) && o.t == 4 && o.s.board == s.board
    ensures o.s.cpu == s.cpu.(main := Put(s.cpu.main, y, r.value).(f := r.flags))
  {
    Out(WithCpu(s, s.cpu.(main := Put(s.cpu.main, y, r.value).(f := r.flags))), 4)
  }

  function StepValue(v: bv8, f: Flags, dec: bool): (r: ByteOut)
    ensures r.value == (if dec then v - 1 else v + 1) && r.flags.c == f.c
  {
    if dec then Dec8(v, f) else Inc8(v, f)
  }

  /** z = 6: LD r,n, (HL) included. */
  function LoadImm(s: State, y: nat): (o: Out)
    requires y < 8
    ensures Plain(s, o) && o.s.cpu.pc == s.cpu.pc + 1
    ensures y != 6 ==> o.s.cpu.main == Put(s.cpu.main, y, Imm8(s)) && o.s.board == s.board && o.t == 7
    ensures y == 6 ==> o.s.board.mem == Write(s.board.mem, HL(s.cpu.main), Imm8(s)) && o.t == 10
  {
    Out(Store(Skip(s, 1), y, Imm8(s)), if y == 6 then 10 else 7)
  }

  /** z = 7: RLCA, RRCA, RLA, RRA, DAA, CPL (y < 6) change A and F; SCF and
      CCF only F. */
  function Accumulator(s: State, y: nat): (o: Out)
    requires y < 8
    ensures Plain(s, o) && o.s.board == s.board && o.t == 4
    ensures y < 6 ==> o.s.cpu == s.cpu.(main := s.cpu.main.(a := AccOp(y, s.cpu.main.a, s.cpu.main.f).value,
                                                            f := AccOp(y, s.cpu.main.a, s.cpu.main.f).flags))
    ensures y >= 6 ==> o.s.cpu == s.cpu.(main := s.cpu.main.(f := CarryOp(y == 7, s.cpu.main.a, s.cpu.main.f)))
  {
    if y < 6 then Out(SetAcc(s, AccOp(y, s.cpu.main.a, s.cpu.main.f)), 4)
    else Out(SetFlags(s, CarryOp(y == 7, s.cpu.main.a, s.cpu.main.f)), 4)
  }

  function AccOp(y: nat, a: bv8, f: Flags): ByteOut
    requires y < 6
  {
    match y
    case 0 => Rlca(a, f)
    case 1 => Rrca(a, f)
    case 2 => Rla(a, f)
    case 3 => Rra(a, f)
    case 4 => Daa(a, f)
    case _ => Cpl(a, f)
  }

  function CarryOp(complement: bool, a: bv8, f: Flags): Flags
  {
    if complement then Ccf(a, f) else Scf(a, f)
  }

  // ---------------------------------------------------------------- x = 1 and x = 2

  /** LD r,r' with (HL) on either side, and HALT where both fields are 6:
      HALT only sets the halted latch, PC already past it. */
  function Load(s: State, y: nat, z: nat): (o: Out)
    requires y < 8 && z < 8
    ensures o.t >= 4 && o.s.cpu.r == s.cpu.r && o.s.cpu.i == s.cpu.i && o.s.board.model == s.board.model
    ensures Sound(s.board) ==> Sound(o.s.board)
    ensures y == 6 && z == 6 ==> o == Out(WithCpu(s, s.cpu.(ctl := s.cpu.ctl.(halted := true))), 4)
    ensures !(y == 6 && z == 6) ==> Plain(s, o) && o.s.cpu.pc == s.cpu.pc && o.s.cpu.main.f == s.cpu.main.f
    ensures y != 6 && z != 6 ==> o.s.cpu.main == Put(s.cpu.main, y, Get(s.cpu.main, z)) && o.t == 4
    ensures y != 6 && z == 6 ==> o.s.cpu.main == Put(s.cpu.main, y, Rd(s, HL(s.cpu.main))) && o.t == 7
    ensures y == 6 && z != 6 ==> o.s.board.mem == Write(s.board.mem, HL(s.cpu.main), Get(s.cpu.main, z)) && o.t == 7
  {
    if y == 6 && z == 6 then Out(WithCpu(s, s.cpu.(ctl := s.cpu.ctl.(halted := true))), 4)
    else Out(Store(s, y, Operand(s, z)), if y == 6 || z == 6 then 7 else 4)
  }

  /** ADD, ADC, SUB, SBC, AND, XOR, OR and CP on A and a register, the byte
      at (HL) (x = 2), or an immediate byte (x = 3, z = 6). */
  function Arith(s: State, y: nat, v: bv8, t: nat): (o: Out)
    requires y < 8 && t >= 4
    ensures Plain(s, o) && o.s.board == s.board && o.t == t
    ensures o.s.cpu == s.cpu.(main := s.cpu.main.(a := AluOp(y, s.cpu.main.a, v, s.cpu.main.f).value,
                                                  f := AluOp(y, s.cpu.main.a, v, s.cpu.main.f).flags))
  {
    Out(SetAcc(s, AluOp(y, s.cpu.main.a, v, s.cpu.main.f)), t)
  }

  // ---------------------------------------------------------------- x = 3

  /** RET and RET cc: the return address is popped from the stack. */
  function Return(s: State, taken: bool, t: nat): (o: Out)
    requires t >= 4
    ensures Plain(s, o) && o.s.board == s.board
    ensures taken ==> o.s.cpu == s.cpu.(pc := Top(s), sp := s.cpu.sp + 2) && o.t == t
    ensures !taken ==> o == Out(s, 5)
  {
    if taken then Out(WithCpu(s, s.cpu.(pc := Top(s), sp := s.cpu.sp + 2)), t) else Out(s, 5)
  }

  /** z = 1: POP rr (q = 0), and RET, EXX, JP (HL) and LD SP,HL (q = 1). */
  function PopAndMore(s: State, p: nat, q: nat): (o: Out)
    requires p < 4 && q < 2
    ensures Plain(s, o) && o.s.board == s.board
    ensures q == 0 ==> StackPair(o.s.cpu, p) == Top(s) && o.s.cpu.sp == s.cpu.sp + 2 && o.t == 10
    ensures q == 1 && p == 2 ==> o.s.cpu == s.cpu.(pc := HL(s.cpu.main)) && o.t == 4
    ensures q == 1 && p == 3 ==> o.s.cpu == s.cpu.(sp := HL(s.cpu.main)) && o.t == 6
  {
    if q == 0 then Out(WithCpu(s, SetStackPair(s.cpu.(sp := s.cpu.sp + 2), p, Top(s))), 10)
    else
      match p
      case 0 => Return(s, true, 10)
      case 1 => Out(WithCpu(s, Exx(s.cpu)), 4)
      case 2 => Out(Jump(s, HL(s.cpu.main)), 4)
      case _ => Out(WithCpu(s, s.cpu.(sp := HL(s.cpu.main))), 6)
  }

  /** JP nn and JP cc,nn: the address is always fetched. */
  function JumpTo(s: State, taken: bool): (o: Out)
    ensures Plain(s, o) && o.s.board == s.board && o.t == 10
    ensures o.s.cpu == s.cpu.(pc := if taken then Imm16(s) else s.cpu.pc + 2)
  {
    Out(Jump(s, if taken then Imm16(s) else s.cpu.pc + 2), 10)
  }

  /** CALL nn and CALL cc,nn: the address after the operand is pushed and
      PC takes the operand. */
  function Call(s: State, taken: bool): (o: Out)
    ensures Plain(s, o)
    ensures taken ==> o.s.cpu == s.cpu.(pc := Imm16(s), sp := s.cpu.sp - 2) && o.t == 17
    ensures taken ==> o.s.board.mem == WriteWord(s.board.mem, s.cpu.sp - 2, s.cpu.pc + 2)
    ensures !taken ==> o == Out(Skip(s, 2), 10)
  {
    if taken then Out(Jump(Push(Skip(s, 2), s.cpu.pc + 2), Imm16(s)), 17) else Out(Skip(s, 2), 10)
  }

  /** RST: a call to address 8 * y. */
  function Restart(s: State, y: nat): (o: Out)
    requires y < 8
    ensures Plain(s, o) && o.t == 11
    ensures o.s.cpu == s.cpu.(pc := Byte(8 * y) as bv16, sp := s.cpu.sp - 2)
    ensures o.s.board.mem == WriteWord(s.board.mem, s.cpu.sp - 2, s.cpu.pc)
  {
    Out(Jump(Push(s, s.cpu.pc), Byte(8 * y) as bv16), 11)
  }

  /** z = 3 other than CB: JP nn, OUT (n),A, IN A,(n), EX (SP),HL,
      EX DE,HL, DI and EI. DI clears both flip-flops and a pending EI, EI
      only arms the delay. */
  function Misc(s: State, y: nat, io: Io): (o: Out)
    requires y < 8 && y != 1
    ensures o.t >= 4 && o.s.cpu.r == s.cpu.r && o.s.cpu.i == s.cpu.i && o.s.board.model == s.board.model
    ensures Sound(s.board) ==> Sound(o.s.board)
    ensures y < 6 ==> Steady(s, o.s)
    ensures y == 6 ==> o == Out(WithCpu(s, s.cpu.(ctl := s.cpu.ctl.(iff1 := false, iff2 := false, eiDelay := false))), 4)
    ensures y == 7 ==> o == Out(WithCpu(s, s.cpu.(ctl := s.cpu.ctl.(eiDelay := true))), 4)
  {
    match y
    case 0 => JumpTo(s, true)
    case 2 => OutA(s, io)
    case 3 => InA(s, io)
    case 4 => ExStack(s)
    case 5 => ExDeHl(s)
    case 6 => Out(WithCpu(s, s.cpu.(ctl := s.cpu.ctl.(iff1 := false, iff2 := false, eiDelay := false))), 4)
    case _ => Out(WithCpu(s, s.cpu.(ctl := s.cpu.ctl.(eiDelay := true))), 4)
  }

  /** OUT (n),A: the port has A as its high byte and the operand as its low one. */
  function OutA(s: State, io: Io): (o: Out)
    ensures Plain(s, o) && o.t == 11
    ensures o.s == Output(Skip(s, 1), Word(s.cpu.main.a, Imm8(s)), s.cpu.main.a, io)
  {
    Out(Output(Skip(s, 1), Word(s.cpu.main.a, Imm8(s)), s.cpu.main.a, io), 11)
  }

  /** IN A,(n): the same port; only A changes, flags untouched. */
  function InA(s: State, io: Io): (o: Out)
    ensures Plain(s, o) && o.t == 11
    ensures o.s.cpu == s.cpu.(pc := s.cpu.pc + 1, main := s.cpu.main.(a := In(s, Word(s.cpu.main.a, Imm8(s)), io).value))
  {
    Out(WithCpu(In(Skip(s, 1), Word(s.cpu.main.a, Imm8(s)), io).s,
                s.cpu.(pc := s.cpu.pc + 1, main := s.cpu.main.(a := In(Skip(s, 1), Word(s.cpu.main.a, Imm8(s)), io).value))), 11)
  }

  /** EX DE,HL. */
  function ExDeHl(s: State): (o: Out)
    ensures Plain(s, o) && o.s.board == s.board && o.t == 4
    ensures HL(o.s.cpu.main) == DE(s.cpu.main) && DE(o.s.cpu.main) == HL(s.cpu.main)
    ensures o.s.cpu.main.a == s.cpu.main.a && o.s.cpu.main.f == s.cpu.main.f && BC(o.s.cpu.main) == BC(s.cpu.main)
    ensures o.s.cpu == s.cpu.(main := o.s.cpu.main)
  {
    Out(WithCpu(s, s.cpu.(main := SetHL(SetDE(s.cpu.main, HL(s.cpu.main)), DE(s.cpu.main)))), 4)
  }

  /** EX (SP),HL: the word on top of the stack and HL trade places. */
  function ExStack(s: State): (o: Out)
    ensures Plain(s, o) && o.t == 19
    ensures HL(o.s.cpu.main) == Top(s) && o.s.cpu.sp == s.cpu.sp && o.s.cpu.pc == s.cpu.pc
    ensures o.s.board.mem == WriteWord(s.board.mem, s.cpu.sp, HL(s.cpu.main))
  {
    Out(WithCpu(WrWord(s, s.cpu.sp, HL(s.cpu.main)), s.cpu.(main := SetHL(s.cpu.main, Top(s)))), 19)
  }

  /** z = 5 other than the prefixes: PUSH rr (q = 0) and CALL nn. */
  function PushOrCall(s: State, p: nat, q: nat): (o: Out)
    requires p < 4 && q < 2 && (q == 1 ==> p == 0)
    ensures Plain(s, o)
    ensures q == 0 ==> o.s.cpu == s.cpu.(sp := s.cpu.sp - 2) && o.t == 11
    ensures q == 0 ==> o.s.board.mem == WriteWord(s.board.mem, s.cpu.sp - 2, StackPair(s.cpu, p))
  {
    if q == 0 then Out(Push(s, StackPair(s.cpu, p)), 11) else Call(s, true)
  }

  /** One unprefixed instruction, the prefixes CB, ED, DD and FD excepted. */
  function Unprefixed(s: State, n: nat, io: Io): (o: Out)
    requires n < 256 && n != 0xCB && n != 0xED && n != 0xDD && n != 0xFD
    ensures o.t >= 4 && o.s.cpu.r == s.cpu.r && o.s.cpu.i == s.cpu.i && o.s.board.model == s.board.model
    ensures Sound(s.board) ==> Sound(o.s.board)
    ensures n != 0x76 && n != 0xF3 && n != 0xFB ==> o.s.cpu.ctl == s.cpu.ctl
  {
    FieldsCompose(n);
    var y, z := Y(n), Z(n);
    match X(n)
    case 0 =>
      (match z
       case 0 => Relatives(s, y)
       case 1 => PairOps(s, y / 2, y % 2)
       case 2 => Indirect(s, y / 2, y % 2)
       case 3 => StepPair(s, y / 2, y % 2)
       case 4 => StepByte(s, y, false)
       case 5 => StepByte(s, y, true)
       case 6 => LoadImm(s, y)
       case _ => Accumulator(s, y))
    case 1 => Load(s, y, z)
    case 2 => Arith(s, y, Operand(s, z), if z == 6 then 7 else 4)
    case _ =>
      (match z
       case 0 => Return(s, Cond(s.cpu.main.f, y), 11)
       case 1 => PopAndMore(s, y / 2, y % 2)
       case 2 => JumpTo(s, Cond(s.cpu.main.f, y))
       case 3 => Misc(s, y, io)
       case 4 => Call(s, Cond(s.cpu.main.f, y))
       case 5 => PushOrCall(s, y / 2, y % 2)
       case 6 => Arith(Skip(s, 1), y, Imm8(s), 7)
       case _ => Restart(s, y))
  }

  /** HALT, DI and EI are the only unprefixed opcodes that touch the
      control state: HALT sets the halted flag, DI clears both interrupt
      flip-flops and any pending EI, EI arms the one-instruction delay. */
  lemma Halt(s: State, io: Io)
    ensures Unprefixed(s, 0x76, io).s.cpu.ctl == s.cpu.ctl.(halted := true)
  {
  }

  lemma DisableInterrupts(s: State, io: Io)
    ensures Unprefixed(s, 0xF3, io).s.cpu.ctl == s.cpu.ctl.(iff1 := false, iff2 := false, eiDelay := false)
  {
  }

  lemma EnableInterrupts(s: State, io: Io)
    ensures Unprefixed(s, 0xFB, io).s.cpu.ctl == s.cpu.ctl.(eiDelay := true)
  {
  }
}

=== FILE: bits.dfy ===
/** Byte and word helpers shared by every component of the emulator core:
    register-pair packing, little-endian fields, signed displacements and parity. */
module Bits {

  /** Low byte of a 16-bit word. */
  function Lo(w: bv16): (r: bv8)
    ensures r as bv16 == w & 0xFF
  {
    (w & 0xFF) as bv8
  }

  /** High byte of a 16-bit word. */
  function Hi(w: bv16): (r: bv8)
    ensures r as bv16 == w >> 8
  {
    (w >> 8) as bv8
  }

  /** The word whose high byte is `hi` and low byte is `lo` (the BC(), DE(), HL() macros). */
  function Word(hi: bv8, lo: bv8): (w: bv16)
    ensures Hi(w) == hi && Lo(w) == lo
  {
    ((hi as bv16) << 8) | (lo as bv16)
  }

  lemma WordOfParts(w: bv16)
    ensures Word(Hi(w), Lo(w)) == w
  {
  }

  /** Unsigned value of a byte, as an integer. */
  function U8(b: bv8): (n: nat)
    ensures n < 256
  {
    b as nat
  }

  /** Two's-complement value of a byte (the C `(int8_t)` cast). */
  function S8(b: bv8): (n: int)
    ensures -128 <= n < 128
    ensures b < 0x80 ==> n == b as int
    ensures b >= 0x80 ==> n == b as int - 256
  {
    if b < 0x80 then b as int else b as int - 256
  }

  /** Sign extension of a byte to a word (the C `(int8_t)` cast widened to 16 bits). */
  function SignExtend(d: bv8): (w: bv16)
    ensures Lo(w) == d
    ensures d < 0x80 ==> Hi(w) == 0
    ensures d >= 0x80 ==> Hi(w) == 0xFF
  {
    if d < 0x80 then d as bv16 else (d as bv16) | 0xFF00
  }

  /** `w + (int8_t)d`, truncated to 16 bits: relative jumps and (IX+d) addressing. */
  function AddDisp(w: bv16, d: bv8): (r: bv16)
    ensures r - w == SignExtend(d)
  {
    w + SignExtend(d)
  }

  /** Number of one bits in a byte. */
  function PopCount(b: bv8): (n: nat)
    ensures n <= 8
  {
    ((b >> 0) & 1) as nat + ((b >> 1) & 1) as nat + ((b >> 2) & 1) as nat + ((b >> 3) & 1) as nat +
    ((b >> 4) & 1) as nat + ((b >> 5) & 1) as nat + ((b >> 6) & 1) as nat + ((b >> 7) & 1) as nat
  }

  /** Exclusive-or of the eight bits of a byte, in bit 0. */
  function XorBits(b: bv8): (r: bv8)
    ensures r <= 1
  {
    (b ^ (b >> 1) ^ (b >> 2) ^ (b >> 3) ^ (b >> 4) ^ (b >> 5) ^ (b >> 6) ^ (b >> 7)) & 1
  }

  /** Even parity, the property the 256-entry parity lookup table tabulates
      (an entry is 1 exactly when its index has an even number of one bits). */
  predicate EvenParity(b: bv8)
  {
    XorBits(b) == 0
  }

  /** The folded exclusive-or is even parity in the counting sense. */
  lemma ParityCounts(b: bv8)
    ensures EvenParity(b) <==> PopCount(b) % 2 == 0
  {
  }

  /** Little-endian 16-bit field at offset `i`. */
  function Le16(s: seq<bv8>, i: nat): (r: nat)
    requires i + 2 <= |s|
    ensures r < 0x1_0000
    ensures r == s[i] as nat + 256 * s[i + 1] as nat
  {
    s[i] as nat + 256 * s[i + 1] as nat
  }

  /** Little-endian 24-bit field at offset `i`. */
  function Le24(s: seq<bv8>, i: nat): (r: nat)
    requires i + 3 <= |s|
    ensures r < 0x100_0000
    ensures r == Le16(s, i) + 0x1_0000 * s[i + 2] as nat
  {
    s[i] as nat + 256 * s[i + 1] as nat + 0x1_0000 * s[i + 2] as nat
  }

  /** Little-endian 32-bit field at offset `i`. */
  function Le32(s: seq<bv8>, i: nat): (r: nat)
    requires i + 4 <= |s|
    ensures r < 0x1_0000_0000
    ensures r == Le24(s, i) + 0x100_0000 * s[i + 3] as nat
  {
    s[i] as nat + 256 * s[i + 1] as nat + 0x1_0000 * s[i + 2] as nat + 0x100_0000 * s[i + 3] as nat
  }

  /** The two bytes of a 16-bit value in little-endian order (wr16le). */
  function Bytes16(v: bv16): (s: seq<bv8>)
    ensures |s| == 2
    ensures Le16Word(s, 0) == v
  {
    [Lo(v), Hi(v)]
  }

  /** A 16-bit word read from a little-endian field. */
  function Le16Word(s: seq<bv8>, i: nat): (w: bv16)
    requires i + 2 <= |s|
    ensures Lo(w) == s[i] && Hi(w) == s[i + 1]
  {
    Word(s[i + 1], s[i])
  }

  /** The byte holding a small number. */
  function Byte(n: nat): (b: bv8)
    requires n < 256
    ensures b as nat == n
  {
    if n < 128 then Low7(n) else Low7(n - 128) | 0x80
  }

  /** The byte holding a number below 128, built a bit at a time: a single
      conversion of the whole number is far costlier to reason about. */
  function Low7(n: nat): (b: bv8)
    requires n < 128
    ensures b as nat == n && b < 0x80
  {
    if n < 64 then Low6(n) else Low6(n - 64) | 0x40
  }

  function Low6(n: nat): (b: bv8)
    requires n < 64
    ensures b as nat == n && b < 0x40
  {
    if n < 32 then Low5(n) else Low5(n - 32) | 0x20
  }

  function Low5(n: nat): (b: bv8)
    requires n < 32
    ensures b as nat == n && b < 0x20
  {
    if n < 16 then Low4(n) else Low4(n - 16) | 0x10
  }

  function Low4(n: nat): (b: bv8)
    requires n < 16
    ensures b as nat == n && b < 0x10
  {
    n as bv8
  }
}

=== FILE: board.dfy ===
/** The machine around the CPU: banked memory and the 0x7FFD paging latch,
    the ULA (border, beeper, keyboard matrix, border stripes, screen-dirty
    flag), the floating bus, and the AY chip behind its two ports. */
module Board {
  import opened Bits
  import opened Alu
  import opened Banks = Memory
  import Ay

  /** A bank store of the right shape. */
  type Mem = m: Banks.Memory | Sized(m) witness Blank(Spectrum48)

  /** The eight keyboard half-rows, active low, bits 0-4 used. */
  type Rows = s: seq<bv8> | |s| == 8 witness seq(8, _ => 0xFF as bv8)

  /** One border colour per scanline of the frame. */
  type Lines = s: seq<bv8> | |s| == 312 witness seq(312, _ => 0 as bv8)

  /** The 0x7FFD latch: the last value written, whether bit 5 has locked
      paging (`paging_disabled`), and whether the ULA shows the shadow
      screen in bank 7 (`active_screen`). */
  datatype Paging = Paging(port: bv8, locked: bool, shadow: bool)

  datatype Ula = Ula(border: bv8, beeper: bool, rows: Rows, lines: Lines, dirty: bool)

  /** The byte an IM2 acknowledge puts on the data bus: a fixed value, or
      whatever the floating bus holds. */
  datatype Vector = Vector(value: bv8, fixed: bool)

  /** Everything outside the CPU that instructions reach, and the frame's
      T-state counter the floating bus and the border stripes read. */
  datatype Board = Board(model: Model, mem: Mem, paging: Paging, ula: Ula, ay: Ay.AyState,
                         vector: Vector, lastBus: bv8, tstates: nat)

  /** A value read from the board, with the board as the read leaves it. */
  datatype Fetched = Fetched(value: bv8, board: Board)

  // ---------------------------------------------------------------- paging

  /** The map and the shown screen agree with the machine type and the latch,
      as update_memory_mapping leaves them. */
  predicate Wired(b: Board)
  {
    b.mem.layout == MapFor(b.model, b.paging.port) &&
    b.paging.shadow == (b.model != Spectrum48 && b.paging.port & 0x08 != 0)
  }

  /** The RAM bank the ULA displays: bank 7 on a 128K machine showing the
      shadow screen, bank 5 otherwise. */
  function ShownBank(b: Board): RamIndex
  {
    if b.model != Spectrum48 && b.paging.shadow then 7 else 5
  }

  /** update_memory_mapping: the map follows the machine and the latch; on
      the 128K machines bit 3 of the latch picks the screen, and a change of
      screen marks it dirty. Nothing else changes. */
  function Remap(b: Board): (r: Board)
    ensures Wired(r)
    ensures r.mem.ram == b.mem.ram && r.mem.rom == b.mem.rom
    ensures r.paging.port == b.paging.port && r.paging.locked == b.paging.locked
    ensures r.ula == b.ula.(dirty := r.ula.dirty) && (b.ula.dirty ==> r.ula.dirty)
    ensures r == b.(mem := r.mem, paging := r.paging, ula := r.ula)
  {
    b.(mem := b.mem.(layout := MapFor(b.model, b.paging.port)),
       paging := b.paging.(shadow := b.model != Spectrum48 && b.paging.port & 0x08 != 0),
       ula := b.ula.(dirty := b.ula.dirty || (b.model != Spectrum48 && (b.paging.port & 0x08 != 0) != b.paging.shadow)))
  }

  /** Switching the displayed screen always marks the screen dirty. */
  lemma ScreenSwitchMarksDirty(b: Board)
    requires ShownBank(Remap(b)) != ShownBank(b)
    ensures Remap(b).ula.dirty
  {
  }

  // ---------------------------------------------------------------- memory

  /** mem_read. */
  function MemRead(b: Board, addr: bv16): (v: bv8)
    ensures v == BankAt(b.mem, PageOf(b.mem.layout, Region(addr)))[Index(Offset(addr))]
  {
    Read(b.mem, addr)
  }

  /** mem_read16: low byte first; the high byte's address wraps at 0xFFFF. */
  function MemReadWord(b: Board, addr: bv16): (w: bv16)
    ensures Lo(w) == MemRead(b, addr) && Hi(w) == MemRead(b, addr + 1)
  {
    ReadWord(b.mem, addr)
  }

  /** The writes mem_write reports as screen writes, as written: offsets
      below 6912 in region 1, or in region 3 when the latch pages bank 7 there. */
  predicate MarksAsWritten(b: Board, addr: bv16)
  {
    Offset(addr) < 6912 &&
    (Region(addr) == 1 || (Region(addr) == 3 && b.model != Spectrum48 && b.paging.port & 0x07 == 7))
  }

  /** The screen writes as intended: any write landing in the first 6912
      bytes of bank 5 or bank 7, through whichever region shows the bank. */
  predicate Marks(b: Board, addr: bv16)
  {
    Offset(addr) < 6912 &&
    (PageOf(b.mem.layout, Region(addr)) == Ram(5) || PageOf(b.mem.layout, Region(addr)) == Ram(7))
  }

  /** mem_write as written: a write to a read-only region changes nothing;
      otherwise the byte changes and a write the code recognises as a screen
      write marks the screen dirty. */
  function MemWriteAsWritten(b: Board, addr: bv16, v: bv8): (r: Board)
    ensures !WritableOf(b.mem.layout, Region(addr)) ==> r == b
    ensures WritableOf(b.mem.layout, Region(addr)) ==>
              r == b.(mem := Write(b.mem, addr, v), ula := b.ula.(dirty := b.ula.dirty || MarksAsWritten(b, addr)))
  {
    if !WritableOf(b.mem.layout, Region(addr)) then b
    else b.(mem := Write(b.mem, addr, v), ula := b.ula.(dirty := b.ula.dirty || MarksAsWritten(b, addr)))
  }

  /** mem_write with the screen test corrected: a write to a read-only region
      changes nothing; otherwise the byte changes and a write into either
      screen bank marks the screen dirty. */
  function MemWrite(b: Board, addr: bv16, v: bv8): (r: Board)
    ensures !WritableOf(b.mem.layout, Region(addr)) ==> r == b
    ensures r == b.(mem := r.mem, ula := r.ula) && r.ula == b.ula.(dirty := r.ula.dirty)
    ensures r.mem.layout == b.mem.layout && r.mem.rom == b.mem.rom
    ensures MemRead(r, addr) == if WritableOf(b.mem.layout, Region(addr)) then v else MemRead(b, addr)
    ensures r.ula.dirty == (b.ula.dirty || (WritableOf(b.mem.layout, Region(addr)) && Marks(b, addr)))
  {
    if WritableOf(b.mem.layout, Region(addr)) then
      ReadAfterWrite(b.mem, addr, v);
      b.(mem := Write(b.mem, addr, v), ula := b.ula.(dirty := b.ula.dirty || Marks(b, addr)))
    else b
  }

  /** The corrected write changes memory exactly as mem_write does, and it
      marks the screen dirty whenever mem_write's own test would. */
  lemma MemWriteAgrees(b: Board, addr: bv16, v: bv8)
    ensures MemWrite(b, addr, v).mem == MemWriteAsWritten(b, addr, v).mem
    ensures Wired(b) && MemWriteAsWritten(b, addr, v).ula.dirty ==> MemWrite(b, addr, v).ula.dirty
  {
  }

  /** Region 0 always holds ROM: a write there changes nothing at all. */
  lemma RomReadOnly(b: Board, addr: bv16, v: bv8)
    requires Wired(b) && addr < 0x4000
    ensures MemWrite(b, addr, v) == b
  {
  }

  /** Every write into the displayed screen's 6912 bytes marks the screen
      dirty, whichever region it goes through. */
  lemma ShownScreenWriteMarksDirty(b: Board, addr: bv16, v: bv8)
    requires Wired(b) && Offset(addr) < 6912
    requires PageOf(b.mem.layout, Region(addr)) == Ram(ShownBank(b))
    ensures MemWrite(b, addr, v).ula.dirty
  {
  }

  /** The correction only adds screen writes: every write the code marks is
      still marked. */
  lemma MarksCoverAsWritten(b: Board, addr: bv16)
    requires Wired(b) && MarksAsWritten(b, addr)
    ensures Marks(b, addr)
  {
  }

  /** As written, a write to the displayed bank 5 through region 3 (latch
      value 5, normal screen) changes a displayed byte, seen at 0x4000, yet
      leaves the screen clean. */
  lemma AsWrittenMissesScreen(b: Board, k: bv16, v: bv8)
    requires Wired(b) && b.model != Spectrum48 && b.paging.port & 0x0F == 5 && !b.ula.dirty
    requires k < 6912 && v != MemRead(b, 0x4000 + k)
    ensures ShownBank(b) == 5
    ensures MemRead(MemWriteAsWritten(b, 0xC000 + k, v), 0x4000 + k) == v
    ensures !MemWriteAsWritten(b, 0xC000 + k, v).ula.dirty
  {
    ScreenAlias(b.paging.port, b.mem, k, v) by {
      assert b.mem.layout == MapFor(Spectrum128, b.paging.port);
    }
    WriteFrame(b.mem, 0xC000 + k, v, 0x4000 + k);
  }

  /** A write keeps the map wired to the latch. */
  lemma MemWriteWired(b: Board, addr: bv16, v: bv8)
    requires Wired(b)
    ensures Wired(MemWrite(b, addr, v))
  {
  }

  // ---------------------------------------------------------------- floating bus

  /** The frame length in T-states: 69888 on the 48K machine, 70908 on the others. */
  function FrameLength(model: Model): (n: nat)
    ensures n == 69888 || n == 70908
  {
    if model == Spectrum48 then 69888 else 70908
  }

  /** The T-state inside the current frame. */
  function FrameT(b: Board): (t: nat)
    ensures t < FrameLength(b.model)
  {
    if b.model == Spectrum48 then b.tstates % 69888 else b.tstates % 70908
  }

  /** The ULA is fetching bitmap bytes at T-state `t`: scanlines 64-255, the
      first 128 T-states of the line (one byte per four). */
  predicate Fetching(t: nat)
  {
    64 <= t / 224 < 256 && (t % 224) / 4 < 32
  }

  /** The bitmap offset of pixel line `y` (0-191), byte column `x` (0-31) in
      the Spectrum's interleaved screen layout. */
  function ScreenOffset(y: nat, x: nat): (o: nat)
    requires y < 192 && x < 32
    ensures o < 6144
  {
    (y / 64) * 2048 + (y % 8) * 256 + ((y % 64) / 8) * 32 + x
  }

  /** The layout is one-to-one: the offset's bit fields give back the third
      of the screen, the pixel row, the character row and the column. */
  lemma {:induction false} ScreenOffsetFields(y: nat, x: nat)
    requires y < 192 && x < 32
    ensures ScreenOffset(y, x) % 32 == x
    ensures (ScreenOffset(y, x) / 32) % 8 == (y % 64) / 8
    ensures (ScreenOffset(y, x) / 256) % 8 == y % 8
    ensures ScreenOffset(y, x) / 2048 == y / 64
  {
    var t, p, c := y / 64, y % 8, (y % 64) / 8;
    assert t < 3 && p < 8 && c < 8;
    var o := ScreenOffset(y, x);
    assert o == 2048 * t + 256 * p + 32 * c + x;
    assert o / 32 == 64 * t + 8 * p + c;
    assert o / 256 == 8 * t + p;
  }

  /** Two screen positions share an offset only when they are the same. */
  lemma {:induction false} ScreenOffsetInjective(y1: nat, x1: nat, y2: nat, x2: nat)
    requires y1 < 192 && x1 < 32 && y2 < 192 && x2 < 32
    requires ScreenOffset(y1, x1) == ScreenOffset(y2, x2)
    ensures y1 == y2 && x1 == x2
  {
    ScreenOffsetFields(y1, x1);
    ScreenOffsetFields(y2, x2);
    LineFields(y1);
    LineFields(y2);
  }

  /** A line number is its third, character row and pixel row together. */
  lemma LineFields(y: nat)
    ensures y == 64 * (y / 64) + 8 * ((y % 64) / 8) + y % 8
  {
  }

  /** The byte of the displayed screen at a bitmap offset. */
  function ShownByte(b: Board, o: nat): bv8
    requires o < 6144
  {
    BankAt(b.mem, Ram(ShownBank(b)))[o]
  }

  /** floating_bus_read: while the ULA fetches the bitmap, the byte under
      the beam in the displayed screen, which is latched; otherwise the
      last latched byte. */
  function FloatingBus(b: Board): (r: Fetched)
    ensures r.board == b.(lastBus := r.value)
    ensures !Fetching(FrameT(b)) ==> r.value == b.lastBus
    ensures Fetching(FrameT(b)) ==>
              r.value == ShownByte(b, ScreenOffset(FrameT(b) / 224 - 64, (FrameT(b) % 224) / 4))
  {
    if !Fetching(FrameT(b)) then Fetched(b.lastBus, b)
    else
      var v := ShownByte(b, ScreenOffset(FrameT(b) / 224 - 64, (FrameT(b) % 224) / 4));
      Fetched(v, b.(lastBus := v))
  }

  /** Two floating-bus reads at the same T-state see the same byte. */
  lemma FloatingBusStable(b: Board)
    ensures FloatingBus(FloatingBus(b).board) == FloatingBus(b)
  {
  }

  // ---------------------------------------------------------------- keyboard

  /** The AND of the half-rows, from row `k` on, whose select line (address
      bit 8 + row, so bit `row` of the high byte) is low. */
  function Matrix(rows: Rows, high: bv8, k: nat): bv8
    requires k <= 8
    decreases 8 - k
  {
    if k == 8 then 0xFF
    else (if high & Mask(k) == 0 then rows[k] else 0xFF) & Matrix(rows, high, k + 1)
  }

  /** A key is down in half-row `k`, column `j`, and the port selects that row. */
  predicate Pressed(rows: Rows, high: bv8, k: nat, j: nat)
    requires k < 8 && j < 8
  {
    high & Mask(k) == 0 && !Bit(rows[k], j)
  }

  /** One row of the matrix: bit `j` from row `k` on is low exactly when row
      `k` has that key down or a later row does. */
  lemma MatrixStep(rows: Rows, high: bv8, k: nat, j: nat)
    requires k < 8 && j < 8
    ensures !Bit(Matrix(rows, high, k), j) <==> Pressed(rows, high, k, j) || !Bit(Matrix(rows, high, k + 1), j)
  {
    var row := if high & Mask(k) == 0 then rows[k] else 0xFF;
    AndBit(row, Matrix(rows, high, k + 1), j);
    if high & Mask(k) != 0 {
      OnesBit(j);
    }
  }

  /** Bit `j` of the matrix reads low exactly when some selected half-row
      from `k` on has that key down. */
  lemma {:induction false} MatrixBit(rows: Rows, high: bv8, k: nat, j: nat)
    requires k <= 8 && j < 8
    ensures !Bit(Matrix(rows, high, k), j) <==> exists i :: k <= i < 8 && Pressed(rows, high, i, j)
    decreases 8 - k
  {
    if k < 8 {
      MatrixBit(rows, high, k + 1, j);
      MatrixStep(rows, high, k, j);
      if exists i :: k <= i < 8 && Pressed(rows, high, i, j) {
        var i :| k <= i < 8 && Pressed(rows, high, i, j);
        if i != k {
          assert k + 1 <= i;
        }
      }
    } else {
      OnesBit(j);
    }
  }

  /** A bit of an AND is low when either side's is. */
  lemma AndBit(x: bv8, y: bv8, j: nat)
    requires j < 8
    ensures Bit(x & y, j) == (Bit(x, j) && Bit(y, j))
  {
  }

  lemma OnesBit(j: nat)
    requires j < 8
    ensures Bit(0xFF, j)
  {
  }

  /** The ULA port's byte: the keyboard in bits 0-4, bits 5 and 7 high,
      bit 6 the EAR level. */
  function UlaByte(rows: Rows, high: bv8, ear: bool): (v: bv8)
    ensures v & 0x1F == Matrix(rows, high, 0) & 0x1F
    ensures Bit(v, 5) && Bit(v, 7) && Bit(v, 6) == ear
  {
    if ear then (Matrix(rows, high, 0) | 0xA0) | 0x40 else (Matrix(rows, high, 0) | 0xA0) & 0xBF
  }

  /** A key reads as down (its bit low) on a ULA port read exactly when it is
      held in a half-row the port's high byte selects. */
  lemma {:induction false} KeyboardRead(rows: Rows, high: bv8, ear: bool, j: nat)
    requires j < 5
    ensures !Bit(UlaByte(rows, high, ear), j) <==> exists i :: 0 <= i < 8 && Pressed(rows, high, i, j)
  {
    MatrixBit(rows, high, 0, j);
    LowBits(UlaByte(rows, high, ear), Matrix(rows, high, 0), j);
  }

  /** Two bytes that agree in bits 0-4 agree in each of those bits. */
  lemma LowBits(x: bv8, y: bv8, j: nat)
    requires j < 5 && x & 0x1F == y & 0x1F
    ensures Bit(x, j) == Bit(y, j)
  {
  }

  /** zx_key_down: a row 0-7 and column 0-4 clear that key's bit; anything
      else is ignored. */
  function KeyDown(b: Board, row: int, col: int): (r: Board)
    ensures !(0 <= row < 8 && 0 <= col < 5) ==> r == b
    ensures 0 <= row < 8 && 0 <= col < 5 ==>
              r == b.(ula := b.ula.(rows := b.ula.rows[row := b.ula.rows[row] & !Mask(col)]))
  {
    if 0 <= row < 8 && 0 <= col < 5 then b.(ula := b.ula.(rows := b.ula.rows[row := b.ula.rows[row] & !Mask(col)]))
    else b
  }

  /** zx_key_up: the matching bit set again. */
  function KeyUp(b: Board, row: int, col: int): (r: Board)
    ensures !(0 <= row < 8 && 0 <= col < 5) ==> r == b
    ensures 0 <= row < 8 && 0 <= col < 5 ==>
              r == b.(ula := b.ula.(rows := b.ula.rows[row := b.ula.rows[row] | Mask(col)]))
  {
    if 0 <= row < 8 && 0 <= col < 5 then b.(ula := b.ula.(rows := b.ula.rows[row := b.ula.rows[row] | Mask(col)]))
    else b
  }

  /** A key pressed reads as down through any port selecting its row. */
  lemma {:induction false} KeyDownReads(b: Board, row: nat, col: nat, high: bv8, ear: bool)
    requires row < 8 && col < 5 && high & Mask(row) == 0
    ensures !Bit(UlaByte(KeyDown(b, row, col).ula.rows, high, ear), col)
  {
    var rows := KeyDown(b, row, col).ula.rows;
    assert !Bit(rows[row], col);
    assert Pressed(rows, high, row, col);
    KeyboardRead(rows, high, ear, col);
  }

  /** Clearing a set bit and setting it again gives the byte back. */
  lemma ClearThenSet(x: bv8, n: nat)
    requires n < 8 && Bit(x, n)
    ensures (x & !Mask(n)) | Mask(n) == x
  {
    var m := Mask(n);
    assert m == 1 || m == 2 || m == 4 || m == 8 || m == 16 || m == 32 || m == 64 || m == 128;
  }

  /** Releasing a key that was up before it was pressed restores the rows. */
  lemma {:induction false} RowsRestored(rows: Rows, row: nat, col: nat)
    requires row < 8 && col < 5 && Bit(rows[row], col)
    ensures var down := rows[row := rows[row] & !Mask(col)];
            down[row := down[row] | Mask(col)] == rows
  {
    ClearThenSet(rows[row], col);
  }

  /** Releasing a key that was up before it was pressed restores the board. */
  lemma {:induction false} KeyUpUndoesKeyDown(b: Board, row: nat, col: nat)
    requires row < 8 && col < 5 && Bit(b.ula.rows[row], col)
    ensures KeyUp(KeyDown(b, row, col), row, col) == b
  {
    RowsRestored(b.ula.rows, row, col);
  }

  // ---------------------------------------------------------------- ports

  /** port_read: the ULA when address bit 0 is low; 0 for the Kempston
      joystick at 0x1F; the selected AY register on a 128K machine at
      A15=A14=1, A1=0; the floating bus for every other port. */
  function PortRead(b: Board, port: bv16, ear: bool): (r: Fetched)
    ensures r.board == b || r.board == b.(lastBus := r.value)
    ensures port & 1 == 0 ==> r == Fetched(UlaByte(b.ula.rows, Hi(port), ear), b)
    ensures port & 1 != 0 && port & 0xFF == 0x1F ==> r.value == 0
    ensures port & 1 != 0 && port & 0xFF != 0x1F && b.model != Spectrum48 && port & 0xC002 == 0xC000 ==>
              r.value == Ay.ReadRegister(b.ay)
  {
    if port & 1 == 0 then Fetched(UlaByte(b.ula.rows, Hi(port), ear), b)
    else if port & 0xFF == 0x1F then Fetched(0, b)
    else if b.model != Spectrum48 && port & 0xC002 == 0xC000 then Fetched(Ay.ReadRegister(b.ay), b)
    else FloatingBus(b)
  }

  /** The border stripes after a border change at scanline `from`: that
      scanline and every later one take the new colour. */
  function Stripe(lines: Lines, from: nat, colour: bv8): (r: Lines)
    requires from < 312
    ensures forall i :: 0 <= i < from ==> r[i] == lines[i]
    ensures forall i :: from <= i < 312 ==> r[i] == colour
  {
    seq(312, i requires 0 <= i < 312 => if i < from then lines[i] else colour)
  }

  /** The ULA port write: border colour from bits 0-2 and the beeper from
      bit 4; while the tape plays, a change of colour is painted from the
      current scanline to the end of the frame. */
  function UlaWrite(b: Board, v: bv8, tapeActive: bool): (r: Board)
    ensures r == b.(ula := r.ula)
    ensures r.ula == b.ula.(border := v & 0x07, beeper := v & 0x10 != 0, lines := r.ula.lines)
    ensures tapeActive && v & 0x07 != b.ula.border && b.tstates / 224 < 312 ==>
              r.ula.lines == Stripe(b.ula.lines, b.tstates / 224, v & 0x07)
    ensures !(tapeActive && v & 0x07 != b.ula.border) ==> r.ula.lines == b.ula.lines
  {
    b.(ula := b.ula.(border := v & 0x07, beeper := v & 0x10 != 0,
                     lines := if tapeActive && v & 0x07 != b.ula.border && b.tstates / 224 < 312
                              then Stripe(b.ula.lines, b.tstates / 224, v & 0x07) else b.ula.lines))
  }

  /** The paging port of the 128K machines: A15=0, A1=0, low byte 0xFD. */
  predicate PagingPort(model: Model, port: bv16)
  {
    model != Spectrum48 && port & 0x8002 == 0 && port & 0xFF == 0xFD
  }

  /** port_write: the ULA when address bit 0 is low; the paging latch
      (ignored once locked); the AY register select (A15=A14=1, A1=0) and
      data (A15=1, A14=0, A1=0) ports of the 128K machines; anything else
      is ignored. */
  function PortWrite(b: Board, port: bv16, v: bv8, tapeActive: bool): (r: Board)
    ensures port & 1 == 0 ==> r == UlaWrite(b, v, tapeActive)
    ensures PagingPort(b.model, port) && b.paging.locked ==> r == b
    ensures PagingPort(b.model, port) && !b.paging.locked ==>
              r == Remap(b.(paging := b.paging.(port := v, locked := v & 0x20 != 0)))
    ensures port & 1 != 0 && !PagingPort(b.model, port) ==> r.mem == b.mem && r.paging == b.paging && r.ula == b.ula
  {
    if port & 1 == 0 then UlaWrite(b, v, tapeActive)
    else if PagingPort(b.model, port) then
      if b.paging.locked then b
      else Remap(b.(paging := b.paging.(port := v, locked := v & 0x20 != 0)))
    else if b.model != Spectrum48 && port & 0x8002 == 0x8000 then
      if port & 0x4000 != 0 then b.(ay := b.ay.(selected := v & 0x0F))
      else b.(ay := Ay.WriteRegister(b.ay, v))
    else b
  }

  /** Every port write keeps the map wired to the latch. */
  lemma PortWriteWired(b: Board, port: bv16, v: bv8, tapeActive: bool)
    requires Wired(b)
    ensures Wired(PortWrite(b, port, v, tapeActive))
  {
  }

  /** A paging write with bit 5 set pages as asked and locks the latch. */
  lemma PagingWriteLocks(b: Board, port: bv16, v: bv8, tapeActive: bool)
    requires PagingPort(b.model, port) && !b.paging.locked && v & 0x20 != 0
    ensures PortWrite(b, port, v, tapeActive).paging.locked
    ensures PortWrite(b, port, v, tapeActive).mem.layout == MapFor(b.model, v)
  {
  }

  /** A run of port writes, in order. */
  function PortWrites(b: Board, ws: seq<(bv16, bv8)>, tapeActive: bool): Board
    decreases |ws|
  {
    if ws == [] then b else PortWrites(PortWrite(b, ws[0].0, ws[0].1, tapeActive), ws[1..], tapeActive)
  }

  /** Once locked, the latch, the map and the banks stay as they are through
      any number of port writes, to any ports. */
  lemma {:induction false} LockedThroughout(b: Board, ws: seq<(bv16, bv8)>, tapeActive: bool)
    requires b.paging.locked
    ensures PortWrites(b, ws, tapeActive).paging == b.paging
    ensures PortWrites(b, ws, tapeActive).mem == b.mem
    decreases |ws|
  {
    if ws != [] {
      var b1 := PortWrite(b, ws[0].0, ws[0].1, tapeActive);
      assert b1.paging == b.paging && b1.mem == b.mem;
      LockedThroughout(b1, ws[1..], tapeActive);
    }
  }

  /** An AY register selected through 0xFFFD reads back through 0xFFFD. */
  lemma AySelectReads(b: Board, k: bv8, tapeActive: bool, ear: bool)
    requires b.model != Spectrum48 && k <= 15
    ensures PortRead(PortWrite(b, 0xFFFD, k, tapeActive), 0xFFFD, ear).value == b.ay.regs[Ay.RegIndex(k)]
  {
  }

  /** A value written through 0xBFFD to a selected register reads back
      through 0xFFFD with the register's unused bits cleared. */
  lemma {:induction false} AyWriteReads(b: Board, k: bv8, v: bv8, tapeActive: bool, ear: bool)
    requires b.model != Spectrum48 && k <= 15
    ensures PortRead(PortWrite(PortWrite(b, 0xFFFD, k, tapeActive), 0xBFFD, v, tapeActive), 0xFFFD, ear).value ==
              v & Ay.RegMask(Ay.RegIndex(k))
  {
    var b1 := PortWrite(b, 0xFFFD, k, tapeActive);
    assert b1.ay.selected == k;
    var b2 := PortWrite(b1, 0xBFFD, v, tapeActive);
    assert b2.ay == Ay.WriteRegister(b1.ay, v);
  }

  // ---------------------------------------------------------------- create and reset

  /** zx_new: a cleared state with every key up, the floating bus and the
      IM2 vector at 0xFF, the chip's shift register at 1 and the map set up. */
  function New(model: Model): (r: Board)
    ensures Wired(r) && !r.paging.locked && !r.ula.dirty && r.tstates == 0
    ensures forall k :: 0 <= k < 8 ==> r.ula.rows[k] == 0xFF
  {
    Remap(Board(model, Blank(model), Paging(0, false, false),
                Ula(0, false, seq(8, _ => 0xFF), seq(312, _ => 0), false),
                Ay.Initial(), Vector(0xFF, false), 0xFF, 0))
  }

  /** The board part of zx_reset: the latch cleared and unlocked and the map
      rebuilt, the screen dirty, the beeper off, the IM2 vector and the
      floating bus back to 0xFF, the chip reset; memory contents, border and
      keyboard stay. */
  function Reset(b: Board): (r: Board)
    ensures Wired(r) && r.paging.port == 0 && !r.paging.locked
    ensures r.ula.dirty && !r.ula.beeper && r.tstates == 0
    ensures r.mem.ram == b.mem.ram && r.mem.rom == b.mem.rom
    ensures r.ay == Ay.Initial() && r.vector == Vector(0xFF, false) && r.lastBus == 0xFF
  {
    Remap(b.(paging := b.paging.(port := 0, locked := false),
             ula := b.ula.(beeper := false, dirty := true),
             vector := Vector(0xFF, false), lastBus := 0xFF, ay := Ay.Initial(), tstates := 0))
  }

  /** Reset lifts the paging lock: the next paging write takes effect. */
  lemma ResetUnlocks(b: Board, port: bv16, v: bv8, tapeActive: bool)
    requires PagingPort(b.model, port)
    ensures PortWrite(Reset(b), port, v, tapeActive).paging.port == v
    ensures PortWrite(Reset(b), port, v, tapeActive).mem.layout == MapFor(b.model, v)
  {
  }
}

=== FILE: calls.dfy ===
/** Partners for the stack and exchange instructions of the unprefixed
    table: what one instruction does, a second one undoes. CALL and RST are
    undone by RET, PUSH by POP of the same pair, EX DE,HL by itself. Each
    holds while the two bytes below SP are writable RAM; a stack in ROM
    loses what is pushed. */
module Calls {
  import opened Bits
  import opened Alu
  import opened Z80
  import opened Banks = Memory
  import opened Board
  import opened Ops
  import opened Base

  /** Storing a pair's own value back into it changes nothing; for AF the
      flags survive their packing into a byte. */
  lemma {:induction false} SetStackPairSame(c: Cpu, p: nat)
    requires p < 4
    ensures SetStackPair(c, p, StackPair(c, p)) == c
  {
    if p == 3 {
      FlagsRoundTrip(c.main.f, 0);
      assert SetAF(c.main, AF(c.main)) == c.main;
    } else if p == 0 {
      assert SetBC(c.main, BC(c.main)) == c.main;
    } else if p == 1 {
      assert SetDE(c.main, DE(c.main)) == c.main;
    } else if p == 2 {
      assert SetHL(c.main, HL(c.main)) == c.main;
    }
  }

  /** POP rr after PUSH rr of the same pair leaves the CPU as it was. */
  lemma {:induction false} PushThenPop(s: State, p: nat)
    requires p < 4 && StackWritable(s)
    ensures PopAndMore(PushOrCall(s, p, 0).s, p, 0).s.cpu == s.cpu
    ensures PopAndMore(PushOrCall(s, p, 0).s, p, 0).t == 10
  {
    var w := StackPair(s.cpu, p);
    PushIs(s, p);
    PushTop(s, w);
    PopIs(Push(s, w), p);
    SetStackPairSame(s.cpu, p);
  }

  /** PUSH rr is a push of the pair's value. */
  lemma PushIs(s: State, p: nat)
    requires p < 4
    ensures PushOrCall(s, p, 0).s == Push(s, StackPair(s.cpu, p))
  {
  }

  /** POP rr takes the top of the stack into the pair and SP up by two. */
  lemma PopIs(u: State, p: nat)
    requires p < 4
    ensures PopAndMore(u, p, 0).s.cpu == SetStackPair(u.cpu.(sp := u.cpu.sp + 2), p, Top(u))
  {
  }

  /** RET after a push of `ret` and a jump resumes at `ret` with SP where
      it was before the push. */
  lemma {:induction false} PushJumpReturn(k: State, ret: bv16, target: bv16)
    requires StackWritable(k)
    ensures Return(Jump(Push(k, ret), target), true, 10).s.cpu == k.cpu.(pc := ret)
  {
    var pushed := Push(k, ret);
    PushTop(k, ret);
    assert Top(Jump(pushed, target)) == Top(pushed);
  }

  /** RET after CALL nn resumes after the CALL's operand with SP where it
      was: the CPU is as if the call had been skipped. */
  lemma {:induction false} CallThenReturn(s: State)
    requires StackWritable(s)
    ensures Return(Call(s, true).s, true, 10).s.cpu == s.cpu.(pc := s.cpu.pc + 2)
  {
    var k := Skip(s, 2);
    StackMoves(s, k);
    assert Call(s, true).s == Jump(Push(k, s.cpu.pc + 2), Imm16(s));
    PushJumpReturn(k, s.cpu.pc + 2, Imm16(s));
  }

  /** RET after RST p resumes at the byte after the RST with SP where it was. */
  lemma {:induction false} RestartThenReturn(s: State, y: nat)
    requires y < 8 && StackWritable(s)
    ensures Return(Restart(s, y).s, true, 10).s.cpu == s.cpu
  {
    assert Restart(s, y).s == Jump(Push(s, s.cpu.pc), Byte(8 * y) as bv16);
    PushJumpReturn(s, s.cpu.pc, Byte(8 * y) as bv16);
  }

  /** Two registers that agree on all three pairs, A and F are the same. */
  lemma {:induction false} SameRegs(g: Regs, h: Regs)
    requires BC(g) == BC(h) && DE(g) == DE(h) && HL(g) == HL(h) && g.a == h.a && g.f == h.f
    ensures g == h
  {
    assert Hi(BC(g)) == g.b && Lo(BC(g)) == g.c;
    assert Hi(DE(g)) == g.d && Lo(DE(g)) == g.e;
    assert Hi(HL(g)) == g.h && Lo(HL(g)) == g.l;
  }

  /** EX DE,HL twice is the identity. */
  lemma {:induction false} ExDeHlTwice(s: State)
    ensures ExDeHl(ExDeHl(s).s).s == s
  {
    var once := ExDeHl(s).s;
    var twice := ExDeHl(once).s;
    SameRegs(twice.cpu.main, s.cpu.main);
  }
}

=== FILE: cbpage.dfy ===
/** execute_cb: the page of opcodes after the CB prefix. Bits 6-7 pick the
    kind (rotate or shift, BIT, RES, SET), bits 3-5 the operation or the bit
    number, bits 0-2 the operand (B, C, D, E, H, L, (HL), A). The second
    opcode byte is fetched without another refresh of R. */
module CbPage {
  import opened Bits
  import opened Alu
  import opened Z80
  import opened Banks = Memory
  import opened Board
  import opened Ops

  /** The opcode byte after CB, a refresh of R excepted: PC steps over it. */
  function Cb(s: State): (o: Out)
    ensures Plain(s, o) && o.s.cpu.pc == s.cpu.pc + 1
    ensures o == CbOp(Skip(s, 1), Code(Imm8(s)))
  {
    CbOp(Skip(s, 1), Code(Imm8(s)))
  }

  /** One CB operation: shifts set every flag from the result and store it
      back; BIT only sets flags; RES and SET store the changed byte. A
      register operand takes 8 T-states, (HL) 15 (BIT 12). */
  function CbOp(s: State, n: nat): (o: Out)
    requires n < 256
    ensures Plain(s, o) && o.s.cpu.pc == s.cpu.pc && o.s.cpu.sp == s.cpu.sp
    ensures o.t == (if Z(n) != 6 then 8 else if X(n) == 1 then 12 else 15)
    ensures X(n) == 1 ==> o.s == SetFlags(s, BitTest(Y(n), Operand(s, Z(n)), s.cpu.main.f))
    ensures X(n) == 0 ==> o.s.cpu.main.f == CbShift(Y(n), Operand(s, Z(n)), s.cpu.main.f).flags
    ensures X(n) != 1 ==> o.s == Store(SetFlags(s, o.s.cpu.main.f), Z(n), CbResult(n, Operand(s, Z(n)), s.cpu.main.f))
  {
    var y, k := Y(n), Z(n);
    match X(n)
    case 0 => Out(Store(SetFlags(s, CbShift(y, Operand(s, k), s.cpu.main.f).flags), k, CbShift(y, Operand(s, k), s.cpu.main.f).value),
                  if k == 6 then 15 else 8)
    case 1 => Out(SetFlags(s, BitTest(y, Operand(s, k), s.cpu.main.f)), if k == 6 then 12 else 8)
    case 2 => Out(Store(s, k, Res(y, Operand(s, k))), if k == 6 then 15 else 8)
    case _ => Out(Store(s, k, Set(y, Operand(s, k))), if k == 6 then 15 else 8)
  }

  /** The byte a shift, RES or SET stores. */
  function CbResult(n: nat, v: bv8, f: Flags): bv8
    requires n < 256 && X(n) != 1
  {
    match X(n)
    case 0 => CbShift(Y(n), v, f).value
    case 2 => Res(Y(n), v)
    case _ => Set(Y(n), v)
  }

  /** The opcodes of BIT, RES and SET for bit `b` of operand `k`. */
  function BitOp(b: nat, k: nat): (n: nat)
    requires b < 8 && k < 8
    ensures n < 256 && X(n) == 1 && Y(n) == b && Z(n) == k
  {
    0x40 + 8 * b + k
  }

  function ResOp(b: nat, k: nat): (n: nat)
    requires b < 8 && k < 8
    ensures n < 256 && X(n) == 2 && Y(n) == b && Z(n) == k
  {
    0x80 + 8 * b + k
  }

  function SetOp(b: nat, k: nat): (n: nat)
    requires b < 8 && k < 8
    ensures n < 256 && X(n) == 3 && Y(n) == b && Z(n) == k
  {
    0xC0 + 8 * b + k
  }

  /** The operand holds what was stored into it, unless it is (HL) in a
      region that ignores writes. */
  predicate Keeps(s: State, k: nat)
    requires k < 8
  {
    k != 6 || WritableOf(s.board.mem.layout, Region(HL(s.cpu.main)))
  }

  lemma {:induction false} StoreThenOperand(s: State, k: nat, v: bv8)
    requires k < 8 && Keeps(s, k)
    ensures Operand(Store(s, k, v), k) == v
  {
    if k == 6 {
      assert MemRead(MemWrite(s.board, HL(s.cpu.main), v), HL(s.cpu.main)) == v;
    }
  }

  /** BIT after SET on the same bit and operand finds it set (Z clear);
      after RES it finds it clear (Z set). */
  lemma {:induction false} SetThenBit(s: State, b: nat, k: nat)
    requires b < 8 && k < 8 && Keeps(s, k)
    ensures !CbOp(CbOp(s, SetOp(b, k)).s, BitOp(b, k)).s.cpu.main.f.z
  {
    var s1 := CbOp(s, SetOp(b, k)).s;
    StoreThenOperand(s, k, Set(b, Operand(s, k)));
    assert Operand(s1, k) == Set(b, Operand(s, k));
  }

  lemma {:induction false} ResThenBit(s: State, b: nat, k: nat)
    requires b < 8 && k < 8 && Keeps(s, k)
    ensures CbOp(CbOp(s, ResOp(b, k)).s, BitOp(b, k)).s.cpu.main.f.z
  {
    var s1 := CbOp(s, ResOp(b, k)).s;
    StoreThenOperand(s, k, Res(b, Operand(s, k)));
    assert Operand(s1, k) == Res(b, Operand(s, k));
  }

  /** A shift stores its result where it reads its operand, and the operand
      still keeps what is stored into it. */
  lemma {:induction false} ShiftStores(s: State, y: nat, k: nat)
    requires y < 8 && k < 8 && Keeps(s, k)
    ensures Operand(CbOp(s, 8 * y + k).s, k) == CbShiftValue(y, Operand(s, k), s.cpu.main.f.c)
    ensures Keeps(CbOp(s, 8 * y + k).s, k)
  {
    var r := CbShift(y, Operand(s, k), s.cpu.main.f);
    assert X(8 * y + k) == 0 && Y(8 * y + k) == y && Z(8 * y + k) == k;
    StoreThenOperand(SetFlags(s, r.flags), k, r.value);
  }

  /** RRC r undoes RLC r (opcodes 0x00-0x07 and 0x08-0x0F). */
  lemma {:induction false} RotateBack(s: State, k: nat)
    requires k < 8 && Keeps(s, k)
    ensures Operand(CbOp(CbOp(s, k).s, 8 + k).s, k) == Operand(s, k)
  {
    assert 8 * 0 + k == k && 8 * 1 + k == 8 + k;
    var s1 := CbOp(s, k).s;
    ShiftStores(s, 0, k);
    ShiftStores(s1, 1, k);
    var v1 := CbShiftValue(0, Operand(s, k), s.cpu.main.f.c);
    assert Operand(CbOp(s1, 8 + k).s, k) == CbShiftValue(1, v1, s1.cpu.main.f.c);
    CbRotateInverse(Operand(s, k), s.cpu.main.f);
  }
}

=== FILE: common.dfy ===
/** Helpers with no tie to any one component: an optional value, the
    smaller of two counts, and regrouping a concatenation. */
module Common {

  /** A value that may be missing: a failed decompression, a page number
      with no bank, a read past the end of a file. */
  datatype Option<T> = None | Some(value: T)

  function Min(a: nat, b: nat): nat
  {
    if a < b then a else b
  }

  /** Concatenation regroups. */
  lemma Regroup<T>(a: seq<T>, b: seq<T>, c: seq<T>)
    ensures a + b + c == a + (b + c)
  {
  }
}

=== FILE: edpage.dfy ===
/** execute_ed: the page of opcodes after the ED prefix. The quarter x = 1
    holds port I/O on (C), 16-bit ADC/SBC, 16-bit loads through memory, NEG,
    RETN/RETI, IM and the I/R/RRD/RLD column; the quarter x = 2 holds the
    block instructions (y >= 4, z <= 3). Every other opcode is an 8 T-state
    no-op. The second opcode byte is fetched without another refresh of R. */
module EdPage {
  import opened Bits
  import opened Alu
  import opened Z80
  import opened Banks = Memory
  import opened Board
  import opened Ops

  function Ed(s: State, io: Io): (o: Out)
    ensures o == EdOp(Skip(s, 1), Code(Imm8(s)), io)
  {
    EdOp(Skip(s, 1), Code(Imm8(s)), io)
  }

  /** One ED operation on the state after its second opcode byte. Only the
      control column (RETN, IM, LD I,A and LD R,A) changes the interrupt
      state, I or R. */
  function EdOp(s: State, n: nat, io: Io): (o: Out)
    requires n < 256
    ensures o.t >= 8 && o.s.board.model == s.board.model
    ensures Sound(s.board) ==> Sound(o.s.board)
    ensures !Controls(n) ==> Steady(s, o.s)
    ensures !(X(n) == 1 || (X(n) == 2 && Y(n) >= 4 && Z(n) <= 3)) ==> o == Out(s, 8)
  {
    if X(n) == 1 then
      match Z(n)
      case 0 => InC(s, Y(n), io)
      case 1 => OutC(s, Y(n), io)
      case 2 => AdcSbc(s, Y(n) / 2, Y(n) % 2 == 1)
      case 3 => PairMemory(s, Y(n) / 2, Y(n) % 2 == 1)
      case 4 => Out(SetAcc(s, Sub8(0, s.cpu.main.a, false)), 8)
      case 5 => ReturnN(s)
      case 6 => Out(WithMode(s, ModeOf(Y(n))), 8)
      case _ => Column7(s, Y(n))
    else if X(n) == 2 && Y(n) >= 4 && Z(n) <= 3 then Block(s, Y(n), Z(n), io)
    else Out(s, 8)
  }

  /** The opcodes that touch the interrupt state, I or R: RETN/RETI, IM,
      LD I,A and LD R,A. */
  predicate Controls(n: nat)
    requires n < 256
  {
    X(n) == 1 && (Z(n) == 5 || Z(n) == 6 || (Z(n) == 7 && Y(n) < 2))
  }

  // ---------------------------------------------------------------- x = 1

  /** IN r,(C): the byte read at port BC goes to register r (for y = 6 it
      only sets the flags); S, Z and parity from it, C kept. */
  function InC(s: State, y: nat, io: Io): (o: Out)
    requires y < 8
    ensures Plain(s, o) && o.t == 12 && o.s.cpu.pc == s.cpu.pc
    ensures o.s.cpu.main.f == Szp(In(s, BC(s.cpu.main), io).value).(c := s.cpu.main.f.c)
    ensures y != 6 ==> Get(o.s.cpu.main, y) == In(s, BC(s.cpu.main), io).value
  {
    Out(SetFlags(ToReg(In(s, BC(s.cpu.main), io).s, y, In(s, BC(s.cpu.main), io).value),
                 Szp(In(s, BC(s.cpu.main), io).value).(c := s.cpu.main.f.c)), 12)
  }

  /** A register takes a byte; field 6 names no register here. */
  function ToReg(s: State, y: nat, v: bv8): (r: State)
    requires y < 8
    ensures r.board == s.board
    ensures y != 6 ==> r.cpu == s.cpu.(main := Put(s.cpu.main, y, v))
    ensures y == 6 ==> r == s
  {
    if y == 6 then s else s.(cpu := s.cpu.(main := Put(s.cpu.main, y, v)))
  }

  /** OUT (C),r: register r to port BC; for y = 6 the byte 0. */
  function OutC(s: State, y: nat, io: Io): (o: Out)
    requires y < 8
    ensures Plain(s, o) && o.t == 12
    ensures o.s == Output(s, BC(s.cpu.main), if y == 6 then 0 else Get(s.cpu.main, y), io)
  {
    Out(Output(s, BC(s.cpu.main), if y == 6 then 0 else Get(s.cpu.main, y), io), 12)
  }

  /** SBC HL,rr (q = 0) and ADC HL,rr (q = 1). */
  function AdcSbc(s: State, p: nat, adc: bool): (o: Out)
    requires p < 4
    ensures Plain(s, o) && o.t == 15 && o.s.board == s.board
    ensures HL(o.s.cpu.main) == (if adc then AdcHl(HL(s.cpu.main), Pair(s.cpu, p), s.cpu.main.f).value
                                 else SbcHl(HL(s.cpu.main), Pair(s.cpu, p), s.cpu.main.f).value)
    ensures o.s.cpu.pc == s.cpu.pc && o.s.cpu.sp == s.cpu.sp
  {
    Out(WithWord(s, if adc then AdcHl(HL(s.cpu.main), Pair(s.cpu, p), s.cpu.main.f)
                    else SbcHl(HL(s.cpu.main), Pair(s.cpu, p), s.cpu.main.f)), 15)
  }

  function WithWord(s: State, w: WordOut): (r: State)
    ensures r.board == s.board && r.cpu == s.cpu.(main := SetHL(s.cpu.main, w.value).(f := w.flags))
  {
    s.(cpu := s.cpu.(main := SetHL(s.cpu.main, w.value).(f := w.flags)))
  }

  /** LD (nn),rr (q = 0) and LD rr,(nn) (q = 1). */
  function PairMemory(s: State, p: nat, load: bool): (o: Out)
    requires p < 4
    ensures Plain(s, o) && o.t == 20 && o.s.cpu.pc == s.cpu.pc + 2
    ensures !load ==> o.s.board.mem == WriteWord(s.board.mem, Imm16(s), Pair(s.cpu, p))
    ensures load ==> Pair(o.s.cpu, p) == RdWord(s, Imm16(s)) && o.s.board == s.board
  {
    if load then Out(Skip(s, 2).(cpu := SetPair(Skip(s, 2).cpu, p, RdWord(s, Imm16(s)))), 20)
    else Out(WrWord(Skip(s, 2), Imm16(s), Pair(s.cpu, p)), 20)
  }

  /** RETN and RETI (both act alike here): IFF1 takes IFF2 and PC is popped. */
  function ReturnN(s: State): (o: Out)
    ensures o.t == 14 && o.s.board == s.board
    ensures o.s.cpu == s.cpu.(pc := Top(s), sp := s.cpu.sp + 2, ctl := s.cpu.ctl.(iff1 := s.cpu.ctl.iff2))
  {
    Out(s.(cpu := s.cpu.(pc := Top(s), sp := s.cpu.sp + 2, ctl := s.cpu.ctl.(iff1 := s.cpu.ctl.iff2))), 14)
  }

  /** The interrupt mode IM sets, by the y field: 0, 0, 1, 2 and again
      0, 0, 1, 2 for the undocumented mirrors. */
  function ModeOf(y: nat): (m: bv8)
    requires y < 8
    ensures m == [0, 0, 1, 2][y % 4]
  {
    if y % 4 < 2 then 0 else if y % 4 == 2 then 1 else 2
  }

  function WithMode(s: State, m: bv8): (r: State)
    ensures r.board == s.board && r.cpu == s.cpu.(ctl := s.cpu.ctl.(im := m))
  {
    s.(cpu := s.cpu.(ctl := s.cpu.ctl.(im := m)))
  }

  /** z = 7: LD I,A, LD R,A, LD A,I, LD A,R (9 T-states), RRD, RLD (18);
      y = 6 and 7 are no-ops. LD A,I and LD A,R report IFF2 in PV. */
  function Column7(s: State, y: nat): (o: Out)
    requires y < 8
    ensures o.s.board.model == s.board.model && (Sound(s.board) ==> Sound(o.s.board))
    ensures y >= 2 ==> Steady(s, o.s)
    ensures y == 0 ==> o == Out(s.(cpu := s.cpu.(i := s.cpu.main.a)), 9)
    ensures y == 1 ==> o == Out(s.(cpu := s.cpu.(r := s.cpu.main.a)), 9)
    ensures y == 2 || y == 3 ==> o.s.cpu.main.a == (if y == 2 then s.cpu.i else s.cpu.r)
    ensures y == 2 || y == 3 ==> o.s.cpu.main.f.pv == s.cpu.ctl.iff2 && o.s.cpu.main.f.c == s.cpu.main.f.c
    ensures y >= 6 ==> o == Out(s, 8)
    ensures o.t >= 8
  {
    match y
    case 0 => Out(s.(cpu := s.cpu.(i := s.cpu.main.a)), 9)
    case 1 => Out(s.(cpu := s.cpu.(r := s.cpu.main.a)), 9)
    case 2 => Out(SetAcc(s, LoadSpecial(s.cpu.i, s.cpu.main.f, s.cpu.ctl.iff2)), 9)
    case 3 => Out(SetAcc(s, LoadSpecial(s.cpu.r, s.cpu.main.f, s.cpu.ctl.iff2)), 9)
    case 4 => Digits(s, false)
    case 5 => Digits(s, true)
    case _ => Out(s, 8)
  }

  /** LD A,I / LD A,R: S and Z from the value, PV from IFF2, C kept, the
      rest clear. */
  function LoadSpecial(v: bv8, f: Flags, iff2: bool): (r: ByteOut)
    ensures r.value == v && r.flags.pv == iff2 && r.flags.c == f.c
    ensures r.flags.z == (v == 0) && r.flags.s == Bit7(v) && !r.flags.h && !r.flags.n
  {
    ByteOut(v, Flags(v & 0x80 != 0, v == 0, false, false, false, iff2, false, f.c))
  }

  // ---------------------------------------------------------------- RRD and RLD

  /** RRD: A's low digit takes (HL)'s low digit; (HL) becomes A's old low
      digit followed by its own high digit. */
  function RrdA(a: bv8, m: bv8): bv8 { (a & 0xF0) | (m & 0x0F) }
  function RrdM(a: bv8, m: bv8): bv8 { (a << 4) | (m >> 4) }

  /** RLD: A's low digit takes (HL)'s high digit; (HL) becomes its own low
      digit followed by A's old low digit. */
  function RldA(a: bv8, m: bv8): bv8 { (a & 0xF0) | (m >> 4) }
  function RldM(a: bv8, m: bv8): bv8 { (m << 4) | (a & 0x0F) }

  /** The three digits A-low, (HL)-high, (HL)-low rotate one way under RLD
      and the other way under RRD, so each undoes the other; A's high digit
      never moves. */
  lemma DigitsRotate(a: bv8, m: bv8)
    ensures RldA(RrdA(a, m), RrdM(a, m)) == a && RldM(RrdA(a, m), RrdM(a, m)) == m
    ensures RrdA(RldA(a, m), RldM(a, m)) == a && RrdM(RldA(a, m), RldM(a, m)) == m
    ensures RrdA(a, m) & 0xF0 == a & 0xF0 && RldA(a, m) & 0xF0 == a & 0xF0
  {
  }

  function DigitA(rld: bool, a: bv8, m: bv8): bv8 { if rld then RldA(a, m) else RrdA(a, m) }
  function DigitM(rld: bool, a: bv8, m: bv8): bv8 { if rld then RldM(a, m) else RrdM(a, m) }

  /** RRD (rld false) and RLD on A and (HL): S, Z and parity from the new A,
      C kept. */
  function Digits(s: State, rld: bool): (o: Out)
    ensures Plain(s, o) && o.t == 18 && o.s.cpu.pc == s.cpu.pc
    ensures o.s.cpu.main.a == DigitA(rld, s.cpu.main.a, Rd(s, HL(s.cpu.main)))
    ensures o.s.board.mem == Write(s.board.mem, HL(s.cpu.main), DigitM(rld, s.cpu.main.a, Rd(s, HL(s.cpu.main))))
    ensures o.s.cpu.main.f == Szp(o.s.cpu.main.a).(c := s.cpu.main.f.c)
  {
    Out(SetAcc(Wr(s, HL(s.cpu.main), DigitM(rld, s.cpu.main.a, Rd(s, HL(s.cpu.main)))),
               ByteOut(DigitA(rld, s.cpu.main.a, Rd(s, HL(s.cpu.main))),
                       Szp(DigitA(rld, s.cpu.main.a, Rd(s, HL(s.cpu.main)))).(c := s.cpu.main.f.c))), 18)
  }

  // ---------------------------------------------------------------- block instructions

  /** One step of a block instruction and whether its repeating form goes
      round again. */
  datatype Moved = Moved(s: State, again: bool)

  /** HL (and DE) move up by one, or down for the odd y. */
  function Delta(down: bool): bv16 { if down then 0xFFFF else 1 }

  /** LDI/LDD: (HL) is copied to (DE), both move, BC counts down; PV tells
      whether BC is still nonzero, bits 3 and 5 come from A plus the byte. */
  function Copy(s: State, down: bool): (m: Moved)
    ensures m.s.board == Wr(s, DE(s.cpu.main), Rd(s, HL(s.cpu.main))).board
    ensures m.s.cpu == s.cpu.(main := CopyRegs(s.cpu.main, Rd(s, HL(s.cpu.main)), down))
    ensures m.again == (BC(s.cpu.main) - 1 != 0)
  {
    Moved(Wr(s, DE(s.cpu.main), Rd(s, HL(s.cpu.main))).(cpu := s.cpu.(main := CopyRegs(s.cpu.main, Rd(s, HL(s.cpu.main)), down))),
          BC(s.cpu.main) - 1 != 0)
  }

  function CopyRegs(g: Regs, v: bv8, down: bool): (r: Regs)
    ensures HL(r) == HL(g) + Delta(down) && DE(r) == DE(g) + Delta(down) && BC(r) == BC(g) - 1 && r.a == g.a
    ensures r.f == g.f.(pv := BC(g) - 1 != 0, h := false, n := false, f3 := Bit(g.a + v, 3), f5 := Bit(g.a + v, 5))
  {
    SetBC(SetDE(SetHL(g, HL(g) + Delta(down)), DE(g) + Delta(down)), BC(g) - 1)
      .(f := g.f.(pv := BC(g) - 1 != 0, h := false, n := false, f3 := (g.a + v) & 0x08 != 0, f5 := (g.a + v) & 0x20 != 0))
  }

  /** CPI/CPD: A is compared with (HL), HL moves, BC counts down; Z tells a
      match, PV whether BC is still nonzero; the repeating form stops at
      either. */
  function Compare(s: State, down: bool): (m: Moved)
    ensures m.s.board == s.board
    ensures m.s.cpu == s.cpu.(main := CompareRegs(s.cpu.main, Rd(s, HL(s.cpu.main)), down))
    ensures m.again == (BC(s.cpu.main) - 1 != 0 && s.cpu.main.a != Rd(s, HL(s.cpu.main)))
  {
    Moved(s.(cpu := s.cpu.(main := CompareRegs(s.cpu.main, Rd(s, HL(s.cpu.main)), down))),
          BC(s.cpu.main) - 1 != 0 && s.cpu.main.a - Rd(s, HL(s.cpu.main)) != 0)
  }

  function CompareRegs(g: Regs, v: bv8, down: bool): (r: Regs)
    ensures HL(r) == HL(g) + Delta(down) && BC(r) == BC(g) - 1 && r.a == g.a && DE(r) == DE(g)
    ensures r.f.z == (g.a == v) && r.f.n && r.f.c == g.f.c && r.f.pv == (BC(g) - 1 != 0)
    ensures r.f == Flags(Bit7(g.a - v), g.a - v == 0, false, g.a & 0x0F < v & 0x0F, false, BC(g) - 1 != 0, true, g.f.c)
  {
    SetBC(SetHL(g, HL(g) + Delta(down)), BC(g) - 1)
      .(f := Flags((g.a - v) & 0x80 != 0, g.a - v == 0, false, g.a & 0x0F < v & 0x0F, false, BC(g) - 1 != 0, true, g.f.c))
  }

  /** The flags INI/IND/OUTI/OUTD leave: Z when B reached zero, N, the rest
      clear. */
  function CountFlags(b: bv8): Flags
  {
    Flags(false, b == 0, false, false, false, false, true, false)
  }

  /** INI/IND: the byte at port BC is written to (HL), HL moves, B counts
      down. */
  function Input(s: State, down: bool, io: Io): (m: Moved)
    ensures m.s.board == Wr(In(s, BC(s.cpu.main), io).s, HL(s.cpu.main), In(s, BC(s.cpu.main), io).value).board
    ensures m.s.cpu == s.cpu.(main := CountRegs(s.cpu.main, down)) && m.again == (s.cpu.main.b - 1 != 0)
  {
    Moved(Wr(In(s, BC(s.cpu.main), io).s, HL(s.cpu.main), In(s, BC(s.cpu.main), io).value)
            .(cpu := s.cpu.(main := CountRegs(s.cpu.main, down))),
          s.cpu.main.b - 1 != 0)
  }

  /** OUTI/OUTD: B counts down first, then (HL) goes to port BC (with the
      new B), and HL moves. */
  function Emit(s: State, down: bool, io: Io): (m: Moved)
    ensures m.s.board == Output(s, Word(s.cpu.main.b - 1, s.cpu.main.c), Rd(s, HL(s.cpu.main)), io).board
    ensures m.s.cpu == s.cpu.(main := CountRegs(s.cpu.main, down)) && m.again == (s.cpu.main.b - 1 != 0)
  {
    Moved(Output(s, Word(s.cpu.main.b - 1, s.cpu.main.c), Rd(s, HL(s.cpu.main)), io)
            .(cpu := s.cpu.(main := CountRegs(s.cpu.main, down))),
          s.cpu.main.b - 1 != 0)
  }

  function CountRegs(g: Regs, down: bool): (r: Regs)
    ensures HL(r) == HL(g) + Delta(down) && r.b == g.b - 1 && r.f == CountFlags(g.b - 1)
    ensures r.c == g.c && r.a == g.a && DE(r) == DE(g)
  {
    SetHL(g, HL(g) + Delta(down)).(b := g.b - 1, f := CountFlags(g.b - 1))
  }

  /** One step of LDI, CPI, INI or OUTI (z = 0..3), going down for odd y. */
  function Transfer(s: State, z: nat, down: bool, io: Io): (m: Moved)
    requires z < 4
    ensures m.s.cpu.r == s.cpu.r && m.s.cpu.i == s.cpu.i && m.s.cpu.ctl == s.cpu.ctl
    ensures m.s.cpu.pc == s.cpu.pc && m.s.cpu.sp == s.cpu.sp && m.s.board.model == s.board.model
    ensures Sound(s.board) ==> Sound(m.s.board)
  {
    match z
    case 0 => Copy(s, down)
    case 1 => Compare(s, down)
    case 2 => Input(s, down, io)
    case _ => Emit(s, down, io)
  }

  /** The block instructions: y = 4, 5 are the single steps (16 T-states);
      y = 6, 7 the repeating forms, which step PC back onto their own ED
      prefix (21 T-states) while the step says to go round again. */
  function Block(s: State, y: nat, z: nat, io: Io): (o: Out)
    requires 4 <= y < 8 && z < 4
    ensures Plain(s, o)
    ensures y < 6 || !Transfer(s, z, y % 2 == 1, io).again ==> o == Out(Transfer(s, z, y % 2 == 1, io).s, 16)
    ensures y >= 6 && Transfer(s, z, y % 2 == 1, io).again ==>
              o == Out(Skip(Transfer(s, z, y % 2 == 1, io).s, 0xFFFE), 21)
  {
    if y >= 6 && Transfer(s, z, y % 2 == 1, io).again then Out(Skip(Transfer(s, z, y % 2 == 1, io).s, 0xFFFE), 21)
    else Out(Transfer(s, z, y % 2 == 1, io).s, 16)
  }

  /** LDIR moves one byte per pass and runs again, PC back on its ED
      prefix, exactly while BC has not reached zero. */
  lemma {:induction false} LdirPass(s: State, io: Io)
    requires WritableOf(s.board.mem.layout, Region(DE(s.cpu.main)))
    ensures var o := Block(s, 6, 0, io);
            Rd(o.s, DE(s.cpu.main)) == Rd(s, HL(s.cpu.main)) &&
            BC(o.s.cpu.main) == BC(s.cpu.main) - 1 &&
            (o.s.cpu.pc == s.cpu.pc - 2 <==> BC(s.cpu.main) != 1) &&
            (o.t == 21 <==> BC(s.cpu.main) != 1)
  {
    var m := Copy(s, false);
    assert MemRead(MemWrite(s.board, DE(s.cpu.main), Rd(s, HL(s.cpu.main))), DE(s.cpu.main)) == Rd(s, HL(s.cpu.main));
  }

  /** CPIR stops at the first byte equal to A: a match ends the loop
      whatever BC holds. */
  lemma CpirStopsOnMatch(s: State, io: Io)
    requires Rd(s, HL(s.cpu.main)) == s.cpu.main.a
    ensures Block(s, 6, 1, io).t == 16 && Block(s, 6, 1, io).s.cpu.main.f.z
  {
  }

  /** No ED opcode touches the halted flag, the pending EI or the saved
      opcode; only LD R,A (ED 4F) changes R, to the value of A. */
  lemma {:induction false} EdControl(s: State, n: nat, io: Io)
    requires n < 256
    ensures EdOp(s, n, io).s.cpu.ctl.lastOpcode == s.cpu.ctl.lastOpcode
    ensures EdOp(s, n, io).s.cpu.ctl.eiDelay == s.cpu.ctl.eiDelay
    ensures EdOp(s, n, io).s.cpu.ctl.halted == s.cpu.ctl.halted
    ensures EdOp(s, n, io).s.cpu.r == (if n == 0x4F then s.cpu.main.a else s.cpu.r)
  {
    FieldsCompose(n);
    if Controls(n) {
      if Z(n) == 5 {
        assert EdOp(s, n, io) == ReturnN(s);
      } else if Z(n) == 6 {
        assert EdOp(s, n, io) == Out(WithMode(s, ModeOf(Y(n))), 8);
      } else {
        assert EdOp(s, n, io) == Column7(s, Y(n));
      }
    }
  }
}

=== FILE: index.dfy ===
/** execute_index: the pages after the DD and FD prefixes, which run a
    subset of the unprefixed table with IX or IY in place of HL, the halves
    IXH/IXL (IYH/IYL) in place of H and L, and (IX+d)/(IY+d) in place of
    (HL), plus the DD CB / FD CB page. An opcode the page does not list
    steps PC back onto it, so the prefix acts as a 4 T-state no-op and the
    opcode runs on its own next. */
module IndexPage {
  import opened Bits
  import opened Alu
  import opened Z80
  import opened Banks = Memory
  import opened Board
  import opened Ops
  import Base

  /** The index register the prefix selects: IY for FD, IX for DD. */
  function Idx(c: Cpu, iy: bool): bv16
  {
    if iy then c.iy else c.ix
  }

  function SetIdx(c: Cpu, iy: bool, w: bv16): (r: Cpu)
    ensures Idx(r, iy) == w && Idx(r, !iy) == Idx(c, !iy)
    ensures r == c.(ix := r.ix, iy := r.iy)
  {
    if iy then c.(iy := w) else c.(ix := w)
  }

  /** The byte field with the index halves: 4 is the high half, 5 the low
      half, the other registers as usual (6, memory, is handled apart). */
  function Half(c: Cpu, iy: bool, k: nat): bv8
    requires k < 8 && k != 6
  {
    if k == 4 then Hi(Idx(c, iy)) else if k == 5 then Lo(Idx(c, iy)) else Get(c.main, k)
  }

  function SetHalf(c: Cpu, iy: bool, k: nat, v: bv8): (r: Cpu)
    requires k < 8 && k != 6
    ensures Half(r, iy, k) == v
    ensures k == 4 || k == 5 ==> r.main == c.main && Idx(r, !iy) == Idx(c, !iy)
    ensures k == 4 ==> Lo(Idx(r, iy)) == Lo(Idx(c, iy))
    ensures k == 5 ==> Hi(Idx(r, iy)) == Hi(Idx(c, iy))
    ensures k != 4 && k != 5 ==> r == c.(main := Put(c.main, k, v))
  {
    WordOfParts(Idx(c, iy));
    if k == 4 then SetIdx(c, iy, Word(v, Lo(Idx(c, iy))))
    else if k == 5 then SetIdx(c, iy, Word(Hi(Idx(c, iy)), v))
    else c.(main := Put(c.main, k, v))
  }

  /** The operand address (IX+d): the index register plus the signed
      displacement byte fetched at PC. */
  function Indexed(s: State, iy: bool): bv16
  {
    AddDisp(Idx(s.cpu, iy), Imm8(s))
  }

  function WithCpu(s: State, c: Cpu): (r: State)
    ensures r.cpu == c && r.board == s.board
  {
    s.(cpu := c)
  }

  /** The prefixed opcode byte is fetched (no refresh of R) and run; an
      unlisted one leaves the state as it was after the prefix. */
  function Index(s: State, iy: bool, io: Io): (o: Out)
    ensures Plain(s, o)
    ensures !Listed(Code(Imm8(s))) ==> o == Out(s, 4)
    ensures Listed(Code(Imm8(s))) ==> o == IndexOp(Skip(s, 1), iy, Code(Imm8(s)))
  {
    if Listed(Code(Imm8(s))) then IndexOp(Skip(s, 1), iy, Code(Imm8(s))) else Out(s, 4)
  }

  /** The opcodes the DD/FD page implements. */
  predicate Listed(n: nat)
    requires n < 256
  {
    match X(n)
    case 0 => n in {0x09, 0x19, 0x29, 0x39, 0x21, 0x22, 0x23, 0x24, 0x25, 0x26, 0x2A, 0x2B, 0x2C, 0x2D, 0x2E, 0x34, 0x35, 0x36}
    case 1 => n != 0x76 && (Z(n) == 6 || Y(n) == 6 || HalfPair(Y(n), Z(n)))
    case 2 => Z(n) == 4 || Z(n) == 5 || Z(n) == 6
    case _ => n in {0xCB, 0xE1, 0xE3, 0xE5, 0xE9, 0xF9}
  }

  /** LD r,r' forms with an index half on one side: the destination or the
      source is field 4 or 5, and neither is field 6. */
  predicate HalfPair(y: nat, z: nat)
  {
    y != 6 && z != 6 && (y == 4 || y == 5 || z == 4 || z == 5)
  }

  /** One listed DD/FD operation on the state after the second opcode byte. */
  function IndexOp(s: State, iy: bool, n: nat): (o: Out)
    requires n < 256 && Listed(n)
    ensures Plain(s, o)
  {
    match X(n)
    case 0 => Quarter0(s, iy, n)
    case 1 =>
      if Z(n) == 6 then Out(Skip(s, 1).(cpu := Skip(s, 1).cpu.(main := Put(s.cpu.main, Y(n), Rd(s, Indexed(s, iy))))), 19)
      else if Y(n) == 6 then Out(Wr(Skip(s, 1), Indexed(s, iy), Get(s.cpu.main, Z(n))), 19)
      else Out(WithCpu(s, SetHalf(s.cpu, iy, Y(n), Half(s.cpu, iy, Z(n)))), 8)
    case 2 =>
      if Z(n) == 6 then Out(SetAcc(Skip(s, 1), AluOp(Y(n), s.cpu.main.a, Rd(s, Indexed(s, iy)), s.cpu.main.f)), 19)
      else Out(SetAcc(s, AluOp(Y(n), s.cpu.main.a, Half(s.cpu, iy, Z(n)), s.cpu.main.f)), 8)
    case _ =>
      if n == 0xCB then IndexCb(s, iy) else Quarter3(s, iy, n)
  }

  /** The listed opcodes of the first quarter. */
  function Quarter0(s: State, iy: bool, n: nat): (o: Out)
    requires n < 256 && X(n) == 0 && Listed(n)
    ensures Plain(s, o)
    ensures Z(n) == 1 && Y(n) % 2 == 1 ==> o == AddIndex(s, iy, Y(n) / 2)
    ensures n in {0x21, 0x22, 0x2A, 0x23, 0x2B} ==> o == WordOp(s, iy, n)
  {
    if Z(n) == 1 && Y(n) % 2 == 1 then AddIndex(s, iy, Y(n) / 2)
    else if n in {0x21, 0x22, 0x2A, 0x23, 0x2B} then WordOp(s, iy, n)
    else if n == 0x24 || n == 0x2C then HalfStep(s, iy, Y(n), false)
    else if n == 0x25 || n == 0x2D then HalfStep(s, iy, Y(n), true)
    else if n == 0x26 || n == 0x2E then Out(WithCpu(Skip(s, 1), SetHalf(Skip(s, 1).cpu, iy, Y(n), Imm8(s))), 11)
    else if n == 0x36 then Out(Wr(Skip(s, 2), Indexed(s, iy), Imm8(Skip(s, 1))), 19)
    else MemoryStep(s, iy, n == 0x35)
  }

  /** ADD IX,rr: the flags as ADD HL,rr sets them (15 T-states). */
  function AddIndex(s: State, iy: bool, p: nat): (o: Out)
    requires p < 4
    ensures Plain(s, o) && o.t == 15 && o.s.board == s.board
    ensures Idx(o.s.cpu, iy) == Add16(Idx(s.cpu, iy), IndexPair(s.cpu, iy, p), s.cpu.main.f).value
    ensures o.s.cpu.main == s.cpu.main.(f := Add16(Idx(s.cpu, iy), IndexPair(s.cpu, iy, p), s.cpu.main.f).flags)
    ensures o.s.cpu == SetIdx(s.cpu, iy, Idx(o.s.cpu, iy)).(main := o.s.cpu.main)
  {
    Out(WithCpu(s, SetIdx(s.cpu, iy, Add16(Idx(s.cpu, iy), IndexPair(s.cpu, iy, p), s.cpu.main.f).value)
                     .(main := s.cpu.main.(f := Add16(Idx(s.cpu, iy), IndexPair(s.cpu, iy, p), s.cpu.main.f).flags))), 15)
  }

  /** LD IX,nn, LD (nn),IX, LD IX,(nn), INC IX and DEC IX: no flags change. */
  function WordOp(s: State, iy: bool, n: nat): (o: Out)
    requires n in {0x21, 0x22, 0x2A, 0x23, 0x2B}
    ensures Plain(s, o) && o.s.cpu.main == s.cpu.main
    ensures n == 0x21 ==> o.s.cpu == SetIdx(s.cpu, iy, Imm16(s)).(pc := s.cpu.pc + 2) && o.t == 14
    ensures n == 0x22 ==> o.s.board.mem == WriteWord(s.board.mem, Imm16(s), Idx(s.cpu, iy)) && o.t == 20
    ensures n == 0x2A ==> o.s.cpu == SetIdx(s.cpu, iy, RdWord(s, Imm16(s))).(pc := s.cpu.pc + 2) && o.t == 20
    ensures n == 0x23 ==> o.s.cpu == SetIdx(s.cpu, iy, Idx(s.cpu, iy) + 1) && o.t == 10
    ensures n == 0x2B ==> o.s.cpu == SetIdx(s.cpu, iy, Idx(s.cpu, iy) - 1) && o.t == 10
  {
    if n == 0x21 then Out(WithCpu(s, SetIdx(s.cpu, iy, Imm16(s)).(pc := s.cpu.pc + 2)), 14)
    else if n == 0x22 then Out(WrWord(Skip(s, 2), Imm16(s), Idx(s.cpu, iy)), 20)
    else if n == 0x2A then Out(WithCpu(s, SetIdx(s.cpu, iy, RdWord(s, Imm16(s))).(pc := s.cpu.pc + 2)), 20)
    else if n == 0x23 then Out(WithCpu(s, SetIdx(s.cpu, iy, Idx(s.cpu, iy) + 1)), 10)
    else Out(WithCpu(s, SetIdx(s.cpu, iy, Idx(s.cpu, iy) - 1)), 10)
  }

  /** ADD IX,rr adds BC, DE, IX itself or SP. */
  function IndexPair(c: Cpu, iy: bool, p: nat): bv16
    requires p < 4
  {
    if p == 2 then Idx(c, iy) else Pair(c, p)
  }

  /** INC and DEC on an index half (8 T-states). */
  function HalfStep(s: State, iy: bool, y: nat, dec: bool): (o: Out)
    requires y == 4 || y == 5
    ensures Plain(s, o) && o.t == 8 && o.s.board == s.board
    ensures Half(o.s.cpu, iy, y) == (if dec then Half(s.cpu, iy, y) - 1 else Half(s.cpu, iy, y) + 1)
  {
    Out(WithCpu(s, SetHalf(s.cpu, iy, y, Step(Half(s.cpu, iy, y), s.cpu.main.f, dec).value)
                     .(main := s.cpu.main.(f := Step(Half(s.cpu, iy, y), s.cpu.main.f, dec).flags))), 8)
  }

  function Step(v: bv8, f: Flags, dec: bool): (r: ByteOut)
    ensures r.value == (if dec then v - 1 else v + 1) && r.flags.c == f.c
  {
    if dec then Dec8(v, f) else Inc8(v, f)
  }

  /** INC (IX+d) and DEC (IX+d) (23 T-states). */
  function MemoryStep(s: State, iy: bool, dec: bool): (o: Out)
    ensures Plain(s, o) && o.t == 23 && o.s.cpu.pc == s.cpu.pc + 1
    ensures o.s.board.mem == Write(s.board.mem, Indexed(s, iy), Step(Rd(s, Indexed(s, iy)), s.cpu.main.f, dec).value)
  {
    Out(SetFlags(Wr(Skip(s, 1), Indexed(s, iy), Step(Rd(s, Indexed(s, iy)), s.cpu.main.f, dec).value),
                 Step(Rd(s, Indexed(s, iy)), s.cpu.main.f, dec).flags), 23)
  }

  /** The listed opcodes of the last quarter other than CB: POP, EX (SP),
      PUSH, JP (IX) and LD SP,IX. */
  function Quarter3(s: State, iy: bool, n: nat): (o: Out)
    requires n in {0xE1, 0xE3, 0xE5, 0xE9, 0xF9}
    ensures Plain(s, o)
    ensures n == 0xE1 ==> o == Out(WithCpu(s, SetIdx(s.cpu, iy, Top(s)).(sp := s.cpu.sp + 2)), 14)
    ensures n == 0xE5 ==> o == Out(Push(s, Idx(s.cpu, iy)), 15)
    ensures n == 0xE9 ==> o == Out(WithCpu(s, s.cpu.(pc := Idx(s.cpu, iy))), 8)
    ensures n == 0xF9 ==> o == Out(WithCpu(s, s.cpu.(sp := Idx(s.cpu, iy))), 10)
    ensures n == 0xE3 ==> Idx(o.s.cpu, iy) == Top(s) && o.s.board.mem == WriteWord(s.board.mem, s.cpu.sp, Idx(s.cpu, iy))
  {
    if n == 0xE1 then Out(WithCpu(s, SetIdx(s.cpu, iy, Top(s)).(sp := s.cpu.sp + 2)), 14)
    else if n == 0xE3 then Out(WithCpu(WrWord(s, s.cpu.sp, Idx(s.cpu, iy)), SetIdx(s.cpu, iy, Top(s))), 23)
    else if n == 0xE5 then Out(Push(s, Idx(s.cpu, iy)), 15)
    else if n == 0xE9 then Out(WithCpu(s, s.cpu.(pc := Idx(s.cpu, iy))), 8)
    else Out(WithCpu(s, s.cpu.(sp := Idx(s.cpu, iy))), 10)
  }

  /** POP IX after PUSH IX on a stack in RAM leaves the CPU as it was. */
  lemma {:induction false} PushThenPopIndex(s: State, iy: bool)
    requires StackWritable(s)
    ensures Quarter3(s, iy, 0xE5).t == 15
    ensures Quarter3(Quarter3(s, iy, 0xE5).s, iy, 0xE1).s.cpu == s.cpu
    ensures Quarter3(Quarter3(s, iy, 0xE5).s, iy, 0xE1).t == 14
  {
    var w := Idx(s.cpu, iy);
    var p := Push(s, w);
    PushTop(s, w);
    PopIndex(p, iy, w);
    assert p.cpu == s.cpu.(sp := s.cpu.sp - 2);
    if iy {
      assert p.cpu.(iy := w).(sp := p.cpu.sp + 2) == s.cpu;
    } else {
      assert p.cpu.(ix := w).(sp := p.cpu.sp + 2) == s.cpu;
    }
  }

  /** POP IX with `w` on top of the stack loads `w` and raises SP by two. */
  lemma PopIndex(p: State, iy: bool, w: bv16)
    requires Top(p) == w
    ensures Quarter3(p, iy, 0xE1).t == 14
    ensures iy ==> Quarter3(p, iy, 0xE1).s.cpu == p.cpu.(iy := w).(sp := p.cpu.sp + 2)
    ensures !iy ==> Quarter3(p, iy, 0xE1).s.cpu == p.cpu.(ix := w).(sp := p.cpu.sp + 2)
  {
  }

  /** With the index register holding HL's value, JP (IX), LD SP,IX and
      PUSH IX leave the state JP (HL), LD SP,HL and PUSH HL leave; only the
      T-states differ. */
  lemma IndexActsAsHl(s: State, iy: bool)
    requires Idx(s.cpu, iy) == HL(s.cpu.main)
    ensures Quarter3(s, iy, 0xE9).s == Base.PopAndMore(s, 2, 1).s
    ensures Quarter3(s, iy, 0xF9).s == Base.PopAndMore(s, 3, 1).s
    ensures Quarter3(s, iy, 0xE5).s == Base.PushOrCall(s, 2, 0).s
  {
  }

  /** DD CB d op: the displacement comes before the operation byte. Shifts
      write memory and copy the result into register z unless z is 6; BIT
      sets the flags without copying bits 3 and 5 (20 T-states); RES and SET
      write memory only; all but BIT take 23 T-states. */
  function IndexCb(s: State, iy: bool): (o: Out)
    ensures Plain(s, o) && o.s.cpu.pc == s.cpu.pc + 2
    ensures var n := Code(Imm8(Skip(s, 1))); var v := Rd(s, Indexed(s, iy));
            (X(n) == 1 ==> o.s.board == s.board && o.t == 20 &&
                           o.s.cpu.main.f == BitTest(Y(n), v, s.cpu.main.f).(f3 := false, f5 := false)) &&
            (X(n) == 0 ==> o.s.board.mem == Write(s.board.mem, Indexed(s, iy), CbShift(Y(n), v, s.cpu.main.f).value) && o.t == 23) &&
            (X(n) == 2 ==> o.s.board.mem == Write(s.board.mem, Indexed(s, iy), Res(Y(n), v)) && o.s.cpu == Skip(s, 2).cpu) &&
            (X(n) == 3 ==> o.s.board.mem == Write(s.board.mem, Indexed(s, iy), Set(Y(n), v)) && o.s.cpu == Skip(s, 2).cpu)
  {
    IndexCbOp(Skip(s, 2), Indexed(s, iy), Code(Imm8(Skip(s, 1))))
  }

  function IndexCbOp(s: State, addr: bv16, n: nat): (o: Out)
    requires n < 256
    ensures Plain(s, o) && o.s.cpu.pc == s.cpu.pc
    ensures X(n) == 1 ==> o == Out(SetFlags(s, BitTest(Y(n), Rd(s, addr), s.cpu.main.f).(f3 := false, f5 := false)), 20)
    ensures X(n) == 0 ==> o.s.board.mem == Write(s.board.mem, addr, CbShift(Y(n), Rd(s, addr), s.cpu.main.f).value) && o.t == 23
    ensures X(n) == 0 && Z(n) != 6 ==> o.s.cpu.main == Put(s.cpu.main, Z(n), CbShift(Y(n), Rd(s, addr), s.cpu.main.f).value)
                                                        .(f := CbShift(Y(n), Rd(s, addr), s.cpu.main.f).flags)
    ensures X(n) == 2 ==> o == Out(Wr(s, addr, Res(Y(n), Rd(s, addr))), 23)
    ensures X(n) == 3 ==> o == Out(Wr(s, addr, Set(Y(n), Rd(s, addr))), 23)
  {
    match X(n)
    case 0 => ShiftIndexed(s, addr, Y(n), Z(n), CbShift(Y(n), Rd(s, addr), s.cpu.main.f))
    case 1 => Out(SetFlags(s, BitTest(Y(n), Rd(s, addr), s.cpu.main.f).(f3 := false, f5 := false)), 20)
    case 2 => Out(Wr(s, addr, Res(Y(n), Rd(s, addr))), 23)
    case _ => Out(Wr(s, addr, Set(Y(n), Rd(s, addr))), 23)
  }

  function ShiftIndexed(s: State, addr: bv16, y: nat, k: nat, r: ByteOut): (o: Out)
    requires y < 8 && k < 8
    ensures Plain(s, o) && o.t == 23 && o.s.cpu.pc == s.cpu.pc
    ensures o.s.board.mem == Write(s.board.mem, addr, r.value)
    ensures k != 6 ==> o.s.cpu.main == Put(s.cpu.main, k, r.value).(f := r.flags)
    ensures k == 6 ==> o.s.cpu.main == s.cpu.main.(f := r.flags)
  {
    Out(SetFlags(if k == 6 then Wr(s, addr, r.value)
                 else WithCpu(Wr(s, addr, r.value), s.cpu.(main := Put(s.cpu.main, k, r.value))), r.flags), 23)
  }
}

=== FILE: interrupt.dfy ===
/** handle_interrupt: the maskable interrupt the ULA raises once a frame.
    It always ends a HALT; with interrupts enabled it is accepted in mode 0
    or 1 as RST 38h and in mode 2 as a jump through the table word the
    vector byte selects in page I. */
module Interrupts {
  import opened Bits
  import opened Z80
  import opened Banks = Memory
  import opened Board
  import opened Ops

  /** An accepted interrupt: IFF1 and any pending EI cleared, IFF2 kept. */
  function Accept(s: State): (r: State)
    ensures r.board == s.board
    ensures r.cpu == s.cpu.(ctl := s.cpu.ctl.(iff1 := false, eiDelay := false))
  {
    s.(cpu := s.cpu.(ctl := s.cpu.ctl.(iff1 := false, eiDelay := false)))
  }

  /** The IM 2 vector byte: the fixed value if one is set, else the
      floating bus (which latches what it reads). */
  function VectorByte(s: State): (g: Got)
    ensures g.s.cpu == s.cpu && g.s.board.model == s.board.model && g.s.board.mem == s.board.mem
    ensures Sound(s.board) ==> Sound(g.s.board)
    ensures s.board.vector.fixed ==> g == Got(s.board.vector.value, s)
  {
    if s.board.vector.fixed then Got(s.board.vector.value, s)
    else Got(FloatingBus(s.board).value, s.(board := FloatingBus(s.board).board))
  }

  /** The two table addresses IM 2 reads: I:vector and I:(vector + 1), the
      second wrapping inside the page so its high byte stays I. */
  function TableLow(i: bv8, vec: bv8): bv16 { Word(i, vec) }
  function TableHigh(i: bv8, vec: bv8): bv16 { Word(i, vec + 1) }

  /** The halted state ends. */
  function Wake(s: State): (r: State)
    ensures r.board == s.board && r.cpu == s.cpu.(ctl := s.cpu.ctl.(halted := false))
  {
    s.(cpu := s.cpu.(ctl := s.cpu.ctl.(halted := false)))
  }

  /** handle_interrupt: the halted state always ends; with IFF1 clear
      nothing else happens. Otherwise IFF1 and a pending EI are cleared,
      IFF2 is kept, and IM 0 and IM 1 push PC and jump to 0x0038 (13
      T-states) while IM 2 pushes PC and jumps through the table word at
      I:vector (19 T-states). A mode of 3 (only a snapshot can set one)
      accepts the interrupt but neither pushes nor jumps. */
  function Interrupt(s: State): (o: Out)
    ensures !o.s.cpu.ctl.halted && o.s.board.model == s.board.model
    ensures Sound(s.board) ==> Sound(o.s.board)
    ensures !s.cpu.ctl.iff1 ==> o == Out(Wake(s), 0)
    ensures s.cpu.ctl.iff1 ==>
              !o.s.cpu.ctl.iff1 && !o.s.cpu.ctl.eiDelay && o.s.cpu.ctl.iff2 == s.cpu.ctl.iff2 && o.s.cpu.ctl.im == s.cpu.ctl.im
    ensures s.cpu.ctl.iff1 && s.cpu.ctl.im <= 1 ==> o == Mode1(Accept(Wake(s)))
    ensures s.cpu.ctl.iff1 && s.cpu.ctl.im == 2 ==> o == Mode2(Push(Accept(Wake(s)), s.cpu.pc))
    ensures s.cpu.ctl.iff1 && s.cpu.ctl.im > 2 ==> o == Out(Accept(Wake(s)), 0)
  {
    if !s.cpu.ctl.iff1 then Out(Wake(s), 0)
    else if s.cpu.ctl.im <= 1 then Mode1(Accept(Wake(s)))
    else if s.cpu.ctl.im == 2 then Mode2(Push(Accept(Wake(s)), s.cpu.pc))
    else Out(Accept(Wake(s)), 0)
  }

  /** RST 38h: PC pushed, then 0x0038, 13 T-states. */
  function Mode1(s: State): (o: Out)
    ensures o.t == 13 && o.s.cpu == s.cpu.(pc := 0x0038, sp := s.cpu.sp - 2)
    ensures o.s.board.model == s.board.model && o.s.board.mem == WriteWord(s.board.mem, s.cpu.sp - 2, s.cpu.pc)
    ensures Sound(s.board) ==> Sound(o.s.board)
  {
    Out(Jump(Push(s, s.cpu.pc), 0x0038), 13)
  }

  function Jump(s: State, w: bv16): (r: State)
    ensures r.cpu == s.cpu.(pc := w) && r.board == s.board
  {
    s.(cpu := s.cpu.(pc := w))
  }

  /** The IM 2 jump, after the push: the vector byte is read, then the
      table word, low byte at I:vector and high byte at I:(vector + 1). */
  function Mode2(s: State): (o: Out)
    ensures o.t == 19 && o.s.board.model == s.board.model && o.s.board.mem == s.board.mem
    ensures o.s.cpu == s.cpu.(pc := o.s.cpu.pc)
    ensures Sound(s.board) ==> Sound(o.s.board)
    ensures o.s.cpu.pc == Word(Rd(o.s, TableHigh(s.cpu.i, VectorByte(s).value)), Rd(o.s, TableLow(s.cpu.i, VectorByte(s).value)))
  {
    var g := VectorByte(s);
    Out(Jump(g.s, Word(Rd(g.s, TableHigh(s.cpu.i, g.value)), Rd(g.s, TableLow(s.cpu.i, g.value)))), 19)
  }

  /** Both IM 2 table reads stay in page I: vector 0xFF takes its high byte
      from I:0x00, not from the next page. */
  lemma {:induction false} TableWraps(i: bv8, vec: bv8)
    ensures Hi(TableLow(i, vec)) == i && Hi(TableHigh(i, vec)) == i
    ensures Lo(TableHigh(i, vec)) == Lo(TableLow(i, vec)) + 1
    ensures vec == 0xFF ==> TableHigh(i, vec) == Word(i, 0)
  {
  }

  /** With the stack in writable memory, an accepted IM 1 interrupt leaves
      the interrupted PC on top of the stack, so the handler's RET resumes
      there; a halted CPU resumes after its HALT. */
  lemma {:induction false} InterruptReturns(s: State)
    requires s.cpu.ctl.iff1 && s.cpu.ctl.im <= 1 && StackWritable(s)
    ensures Top(Interrupt(s).s) == s.cpu.pc
    ensures Interrupt(s).s.cpu.pc == 0x0038 && !Interrupt(s).s.cpu.ctl.halted
  {
    var w := Accept(Wake(s));
    StackMoves(s, w);
    PushTop(w, s.cpu.pc);
    JumpKeepsTop(Push(w, s.cpu.pc), 0x0038);
  }

  /** The same for IM 2: the vector read does not touch memory, so the
      pushed PC is still on top of the stack when the handler starts. */
  lemma {:induction false} Mode2Returns(s: State)
    requires s.cpu.ctl.iff1 && s.cpu.ctl.im == 2 && StackWritable(s)
    ensures Top(Interrupt(s).s) == s.cpu.pc
  {
    var w := Accept(Wake(s));
    StackMoves(s, w);
    PushTop(w, s.cpu.pc);
    Mode2KeepsTop(Push(w, s.cpu.pc));
  }

  lemma JumpKeepsTop(s: State, w: bv16)
    ensures Top(Jump(s, w)) == Top(s)
  {
  }

  lemma Mode2KeepsTop(s: State)
    ensures Top(Mode2(s).s) == Top(s)
  {
    var o := Mode2(s);
    assert o.s.board.mem == s.board.mem && o.s.cpu.sp == s.cpu.sp;
  }
}

=== FILE: memory.dfy ===
/** Banked memory of the 48K, 128K and +2 machines: eight 16 KB RAM banks, two
    16 KB ROM banks and four 16 KB regions of the Z80 address space, each of
    which shows one bank. */
module Memory {
  import opened Bits

  const BankSize: nat := 16384

  /** One 16 KB bank. */
  type Bank = s: seq<bv8> | |s| == BankSize witness seq(16384, _ => 0 as bv8)

  type RamIndex = n: nat | n < 8
  type RomIndex = n: nat | n < 2

  /** The three machine types (MACHINE_48K, MACHINE_128K, MACHINE_PLUS2). */
  datatype Model = Spectrum48 | Spectrum128 | Plus2

  /** The bank a region shows. */
  datatype Page = Rom(rom: RomIndex) | Ram(ram: RamIndex)

  /** mem_map and mem_writable: the bank each of the four regions shows and
      whether writes to the region are honoured. */
  datatype Mapping = Mapping(p0: Page, p1: Page, p2: Page, p3: Page, w0: bool, w1: bool, w2: bool, w3: bool)

  datatype Memory = Memory(ram: seq<Bank>, rom: seq<Bank>, layout: Mapping)

  /** A bank of zero bytes. */
  function ZeroBank(): Bank
  {
    seq(16384, _ => 0 as bv8)
  }

  /** A map marks a region writable only when it shows a RAM bank. */
  predicate RomProtected(layout: Mapping)
  {
    (layout.w0 ==> layout.p0.Ram?) && (layout.w1 ==> layout.p1.Ram?) &&
    (layout.w2 ==> layout.p2.Ram?) && (layout.w3 ==> layout.p3.Ram?)
  }

  /** The bank arrays have their fixed sizes and the map protects ROM. */
  predicate Sized(m: Memory)
  {
    |m.ram| == 8 && |m.rom| == 2 && RomProtected(m.layout)
  }

  /** The region, 0-3, an address falls in (`addr >> 14`). */
  function Region(addr: bv16): (k: bv16)
    ensures k < 4
  {
    addr >> 14
  }

  /** The offset of an address inside its region (`addr & 0x3FFF`). */
  function Offset(addr: bv16): (o: bv16)
    ensures o < 0x4000
  {
    addr & 0x3FFF
  }

  /** An in-bank offset as a sequence index; the conversion loses nothing. */
  function Index(o: bv16): (n: nat)
    requires o < 0x4000
    ensures n < BankSize && n as bv16 == o
  {
    o as nat
  }

  function PageOf(layout: Mapping, k: bv16): Page
    requires k < 4
  {
    match k
    case 0 => layout.p0
    case 1 => layout.p1
    case 2 => layout.p2
    case _ => layout.p3
  }

  function WritableOf(layout: Mapping, k: bv16): bool
    requires k < 4
  {
    match k
    case 0 => layout.w0
    case 1 => layout.w1
    case 2 => layout.w2
    case _ => layout.w3
  }

  /** update_memory_mapping. The 48K machine has a fixed map (ROM 0, RAM 5,
      RAM 2, RAM 0); the 128K and +2 machines take the top RAM bank from bits
      0-2 of the last 0x7FFD write and the ROM from bit 4. */
  function MapFor(model: Model, port: bv8): (r: Mapping)
    ensures RomProtected(r)
    ensures r.p0.Rom? && !r.w0
    ensures r.w1 && r.w2 && r.w3
    ensures r.p1 == Ram(5) && r.p2 == Ram(2)
    ensures model == Spectrum48 ==> r.p0 == Rom(0) && r.p3 == Ram(0)
    ensures model != Spectrum48 ==> r.p3 == Ram((port & 0x07) as nat) && r.p0 == Rom(((port >> 4) & 1) as nat)
  {
    if model == Spectrum48 then
      Mapping(Rom(0), Ram(5), Ram(2), Ram(0), false, true, true, true)
    else
      Mapping(Rom(((port >> 4) & 1) as nat), Ram(5), Ram(2), Ram((port & 0x07) as nat), false, true, true, true)
  }

  /** The store a new machine starts with (zx_new clears the whole state):
      every bank zero, mapped as the given machine maps it after reset. */
  function Blank(model: Model): (m: Memory)
    ensures Sized(m) && m.layout == MapFor(model, 0)
  {
    Memory(seq(8, _ => ZeroBank()), seq(2, _ => ZeroBank()), MapFor(model, 0))
  }

  /** In every map a region is writable exactly when it shows a RAM bank. */
  lemma WritableIsRam(model: Model, port: bv8, k: bv16)
    requires k < 4
    ensures WritableOf(MapFor(model, port), k) <==> PageOf(MapFor(model, port), k).Ram?
  {
  }

  /** The cell of the bank store an address reaches through a map. */
  datatype Cell = Cell(page: Page, offset: bv16)

  function CellOf(layout: Mapping, addr: bv16): (c: Cell)
    ensures c.offset < 0x4000
  {
    Cell(PageOf(layout, Region(addr)), Offset(addr))
  }

  function BankAt(m: Memory, p: Page): Bank
    requires Sized(m)
  {
    match p
    case Rom(n) => m.rom[n]
    case Ram(n) => m.ram[n]
  }

  /** mem_read: the byte at the address's offset in the bank its region shows. */
  function Read(m: Memory, addr: bv16): (v: bv8)
    requires Sized(m)
    ensures v == BankAt(m, CellOf(m.layout, addr).page)[Index(CellOf(m.layout, addr).offset)]
  {
    BankAt(m, PageOf(m.layout, Region(addr)))[Index(Offset(addr))]
  }

  /** mem_write (the bank store only): a write to a read-only region is
      dropped; otherwise the one byte of the bank the region shows changes. */
  function Write(m: Memory, addr: bv16, v: bv8): (r: Memory)
    requires Sized(m)
    ensures Sized(r) && r.layout == m.layout && r.rom == m.rom
    ensures !WritableOf(m.layout, Region(addr)) ==> r == m
  {
    if !WritableOf(m.layout, Region(addr)) then m
    else
      m.(ram := m.ram[PageOf(m.layout, Region(addr)).ram := m.ram[PageOf(m.layout, Region(addr)).ram][Index(Offset(addr)) := v]])
  }

  /** A write to a writable region is read back. */
  lemma ReadAfterWrite(m: Memory, addr: bv16, v: bv8)
    requires Sized(m) && WritableOf(m.layout, Region(addr))
    ensures Read(Write(m, addr, v), addr) == v
  {
  }

  /** The bank store after a write to a writable region: one RAM bank changed at one index. */
  lemma WrittenBanks(m: Memory, addr: bv16, v: bv8)
    requires Sized(m) && WritableOf(m.layout, Region(addr))
    ensures PageOf(m.layout, Region(addr)).Ram?
    ensures Write(m, addr, v).ram ==
              m.ram[PageOf(m.layout, Region(addr)).ram := m.ram[PageOf(m.layout, Region(addr)).ram][Index(Offset(addr)) := v]]
    ensures Write(m, addr, v).rom == m.rom
  {
  }

  /** A write leaves every bank but the written one alone. */
  lemma {:induction false} WriteOtherBank(m: Memory, addr: bv16, v: bv8, p: Page)
    requires Sized(m) && p != PageOf(m.layout, Region(addr))
    ensures BankAt(Write(m, addr, v), p) == BankAt(m, p)
  {
    if WritableOf(m.layout, Region(addr)) {
      WrittenBanks(m, addr, v);
    }
  }

  /** Inside the written bank only the written index changes. */
  lemma {:induction false} WriteSameBank(m: Memory, addr: bv16, v: bv8, o: bv16)
    requires Sized(m) && WritableOf(m.layout, Region(addr)) && o < 0x4000
    ensures BankAt(Write(m, addr, v), PageOf(m.layout, Region(addr)))[Index(o)] ==
              if o == Offset(addr) then v else BankAt(m, PageOf(m.layout, Region(addr)))[Index(o)]
  {
    WrittenBanks(m, addr, v);
  }

  /** A write changes no cell but its own (an address whose region shows the
      same bank at the same offset sees the write, whatever its region). */
  lemma {:induction false} WriteFrame(m: Memory, addr: bv16, v: bv8, other: bv16)
    requires Sized(m)
    ensures CellOf(m.layout, other) != CellOf(m.layout, addr) ==> Read(Write(m, addr, v), other) == Read(m, other)
    ensures CellOf(m.layout, other) == CellOf(m.layout, addr) && WritableOf(m.layout, Region(addr)) ==>
              Read(Write(m, addr, v), other) == v
  {
    var c := CellOf(m.layout, addr);
    var d := CellOf(m.layout, other);
    if d.page != c.page {
      WriteOtherBank(m, addr, v, d.page);
    } else if WritableOf(m.layout, Region(addr)) {
      WriteSameBank(m, addr, v, d.offset);
    }
  }

  /** With RAM bank 5 paged in at the top, the screen at 0x4000 and the top
      region are the same bytes: a write through one is seen through the other. */
  lemma ScreenAlias(port: bv8, m: Memory, k: bv16, v: bv8)
    requires Sized(m) && m.layout == MapFor(Spectrum128, port) && port & 0x07 == 5
    requires k < 0x4000
    ensures Read(Write(m, 0x4000 + k, v), 0xC000 + k) == v
  {
    WriteFrame(m, 0x4000 + k, v, 0xC000 + k);
  }

  /** Two consecutive addresses never reach the same cell: either they share a
      region and differ in offset, or the first ends one region (offset 0x3FFF)
      and the second starts the next (offset 0). */
  lemma AdjacentCellsDiffer(layout: Mapping, addr: bv16)
    ensures CellOf(layout, addr + 1) != CellOf(layout, addr)
  {
  }

  /** mem_read16: a little-endian word; the second byte's address wraps at 0xFFFF. */
  function ReadWord(m: Memory, addr: bv16): (w: bv16)
    requires Sized(m)
    ensures Lo(w) == Read(m, addr) && Hi(w) == Read(m, addr + 1)
  {
    Word(Read(m, addr + 1), Read(m, addr))
  }

  /** mem_write16: low byte first, then the high byte at the next address. */
  function WriteWord(m: Memory, addr: bv16, w: bv16): (r: Memory)
    requires Sized(m)
    ensures Sized(r) && r.layout == m.layout && r.rom == m.rom
  {
    Write(Write(m, addr, Lo(w)), addr + 1, Hi(w))
  }

  /** Both bytes of the word at `addr` are in writable regions. */
  predicate WordWritable(layout: Mapping, addr: bv16)
  {
    WritableOf(layout, Region(addr)) && WritableOf(layout, Region(addr + 1))
  }

  /** A word written where both bytes are writable is read back whole. */
  lemma {:induction false} ReadWordAfterWriteWord(m: Memory, addr: bv16, w: bv16)
    requires Sized(m) && WordWritable(m.layout, addr)
    ensures ReadWord(WriteWord(m, addr, w), addr) == w
  {
    var m1 := Write(m, addr, Lo(w));
    AdjacentCellsDiffer(m.layout, addr);
    ReadAfterWrite(m1, addr + 1, Hi(w));
    WriteFrame(m1, addr + 1, Hi(w), addr);
    ReadAfterWrite(m, addr, Lo(w));
    WordOfParts(w);
  }
}

=== FILE: mixer.dfy ===
/** audio_tick: the sound the machine makes, sampled at 44100 Hz from the
    3.5 MHz clock. A phase accumulator gains 44100 per T-state and one sample
    is due each time it passes 3500000, so the rate is exact on average. A
    sample mixes the beeper (ULA bit 4), the AY chip and, when enabled, the
    tape signal, soft-clipped to +-24000; samples past the frame buffer's
    end are dropped. */
module Mixer {
  import opened Banks = Memory
  import Ay
  import opened Common

  const CpuClock: nat := 3500000
  const SampleRate: nat := 44100

  /** The frame buffer: the samples of a 128K frame plus 32 spare. */
  const SamplesPerFrame: nat := 70908 * SampleRate / CpuClock + 32

  /** The tape monitor's amplitude, and the soft-clip bound. */
  const TapeAmp: int := 6000
  const ClipLevel: int := 24000

  /** The phase accumulator and the samples of the current frame. */
  datatype Audio = Audio(accum: nat, samples: seq<int>)

  /** What a sample hears besides the AY chip: the beeper bit, the tape
      monitor switch, whether the tape plays, and its EAR level. */
  datatype Sources = Sources(beeper: bool, tapeAudio: bool, tapeActive: bool, ear: bool)

  /** The audio after a tick, and the AY chip the tick clocked. */
  datatype Mixed = Mixed(audio: Audio, ay: Ay.AyState)

  /** What the accumulator holds after `t` T-states, and the samples due. */
  function Phase(accum: nat, t: nat): nat
  {
    (accum + t * SampleRate) % CpuClock
  }

  function Due(accum: nat, t: nat): nat
  {
    (accum + t * SampleRate) / CpuClock
  }

  function BeeperLevel(on: bool): int
  {
    if on then 8192 else -8192
  }

  /** The tape monitor's contribution: +-6000 by EAR while it is enabled and
      the tape plays, silence otherwise. */
  function TapeLevel(src: Sources): (v: int)
    ensures -TapeAmp <= v <= TapeAmp
    ensures !(src.tapeAudio && src.tapeActive) ==> v == 0
  {
    if src.tapeAudio && src.tapeActive then (if src.ear then TapeAmp else -TapeAmp) else 0
  }

  function Clamp(x: int): int
  {
    if x > ClipLevel then ClipLevel else if x < -ClipLevel then -ClipLevel else x
  }

  /** One mixed sample. With the beeper at +-8192, the AY chip within
      0..6000 and the tape at +-6000 the sum stays inside +-20192, so the
      soft clip never engages and the sample is the plain sum. */
  function Sample(src: Sources, ay: int): (v: int)
    requires 0 <= ay <= 6000
    ensures v == BeeperLevel(src.beeper) + ay + TapeLevel(src)
    ensures -ClipLevel < v < ClipLevel
  {
    Clamp(BeeperLevel(src.beeper) + ay + TapeLevel(src))
  }

  /** The emission loop of audio_tick: while the accumulator reaches
      3500000, take 3500000 off and store the sample if the buffer has
      room. The samples already stored stay; every new one is `v`; the
      buffer grows by the samples due, up to its size. */
  function Drain(accum: nat, samples: seq<int>, v: int): (r: Audio)
    ensures r.accum == accum % CpuClock
    ensures |samples| <= |r.samples| && r.samples[..|samples|] == samples
    ensures forall i :: |samples| <= i < |r.samples| ==> r.samples[i] == v
    ensures |samples| <= SamplesPerFrame ==> |r.samples| == Min(|samples| + accum / CpuClock, SamplesPerFrame)
    ensures |samples| > SamplesPerFrame ==> r.samples == samples
    decreases accum
  {
    if accum < CpuClock then Audio(accum, samples)
    else
      var more := if |samples| < SamplesPerFrame then samples + [v] else samples;
      DrainStep(accum);
      Drain(accum - CpuClock, more, v)
  }

  /** Taking one clock period off leaves the remainder and removes one due sample. */
  lemma DrainStep(accum: nat)
    requires accum >= CpuClock
    ensures (accum - CpuClock) % CpuClock == accum % CpuClock
    ensures (accum - CpuClock) / CpuClock + 1 == accum / CpuClock
  {
  }

  /** audio_tick: clock the AY chip first, then emit the samples due, each
      mixing the beeper, the clocked chip and the tape. */
  function AudioTick(a: Audio, ay: Ay.AyState, model: Model, src: Sources, t: nat): (m: Mixed)
    requires Ay.GenOk(ay.gen)
    ensures m.ay == Ay.Tick(ay, model, t) && Ay.GenOk(m.ay.gen)
    ensures m.audio.accum == Phase(a.accum, t) && m.audio.accum < CpuClock
    ensures |a.samples| <= SamplesPerFrame ==>
              |m.audio.samples| == Min(|a.samples| + Due(a.accum, t), SamplesPerFrame)
    ensures |a.samples| <= |m.audio.samples| && m.audio.samples[..|a.samples|] == a.samples
    ensures forall i :: |a.samples| <= i < |m.audio.samples| ==>
              m.audio.samples[i] == Sample(src, Ay.GenerateSample(m.ay, model))
    ensures Extends(a.samples, m.audio.samples, Due(a.accum, t))
  {
    Ay.TickInvariant(ay, model, t);
    var clocked := Ay.Tick(ay, model, t);
    Mixed(Drain(a.accum + t * SampleRate, a.samples, Sample(src, Ay.GenerateSample(clocked, model))), clocked)
  }

  /** `r` is `a` with the samples for `d` more periods appended, as far as
      the buffer holds them, each inside the clip level. */
  predicate Extends(a: seq<int>, r: seq<int>, d: nat)
  {
    |a| <= |r| && r[..|a|] == a &&
    (|a| <= SamplesPerFrame ==> |r| == Min(|a| + d, SamplesPerFrame)) &&
    (|a| > SamplesPerFrame ==> r == a) &&
    forall i :: |a| <= i < |r| ==> -ClipLevel < r[i] < ClipLevel
  }

  /** Two extensions in a row are one extension by their sum. */
  lemma {:induction false} ExtendsTrans(a: seq<int>, mid: seq<int>, r: seq<int>, d1: nat, d2: nat)
    requires Extends(a, mid, d1) && Extends(mid, r, d2)
    ensures Extends(a, r, d1 + d2)
  {
    assert r[..|a|] == mid[..|mid|][..|a|];
    forall i | |a| <= i < |r|
      ensures -ClipLevel < r[i] < ClipLevel
    {
      if i < |mid| {
        assert r[i] == r[..|mid|][i];
      }
    }
  }

  /** Ticking in two pieces leaves the accumulator as one tick for the total,
      and the samples due add up: slicing time does not change the sample
      count. */
  lemma {:induction false} PhaseSplits(accum: nat, t1: nat, t2: nat)
    ensures Phase(Phase(accum, t1), t2) == Phase(accum, t1 + t2)
    ensures Due(accum, t1) + Due(Phase(accum, t1), t2) == Due(accum, t1 + t2)
  {
    var x := accum + t1 * SampleRate;
    var q, r := x / CpuClock, x % CpuClock;
    assert x == q * CpuClock + r;
    var y := r + t2 * SampleRate;
    assert accum + (t1 + t2) * SampleRate == q * CpuClock + y;
    ShiftPeriods(q, y);
  }

  /** Whole periods in front of `y` add to the quotient and leave the remainder. */
  lemma {:induction false} ShiftPeriods(q: nat, y: nat)
    ensures (q * CpuClock + y) / CpuClock == q + y / CpuClock
    ensures (q * CpuClock + y) % CpuClock == y % CpuClock
  {
    if q > 0 {
      ShiftPeriods(q - 1, y);
      DrainStep(q * CpuClock + y);
    }
  }

  /** The 32 spare samples are enough: from any accumulator a frame of the
      128K machine, overrun by the longest instruction and an interrupt,
      has fewer samples due than the buffer holds, so none is dropped. */
  lemma FrameFits(accum: nat, t: nat)
    requires accum < CpuClock && t <= 70908 + 23 + 19
    ensures Due(accum, t) < SamplesPerFrame
  {
  }
}

=== FILE: ops.dfy ===
/** The state an instruction works on (the CPU and the board) and the
    access steps instructions are built from: operand fetch, memory and
    port access, the 8-bit register field, and the stack. */
module Ops {
  import opened Bits
  import opened Alu
  import opened Z80
  import opened Banks = Memory
  import opened Board
  import Ay

  datatype State = State(cpu: Cpu, board: Board)

  /** What an instruction sees of the tape deck: the EAR level (port 0xFE
      bit 6) and whether the tape is playing (border stripes). */
  datatype Io = Io(ear: bool, tapeActive: bool)

  /** The state after an instruction and the T-states it took. */
  datatype Out = Out(s: State, t: nat)

  /** A byte read from a port, with the state the read leaves. */
  datatype Got = Got(value: bv8, s: State)

  /** The board invariant every step keeps: the map follows the latch and
      the AY generators are in range. */
  predicate Sound(b: Board)
  {
    Wired(b) && Ay.GenOk(b.ay.gen)
  }

  /** What an ordinary instruction leaves alone: R, I, the interrupt state
      and the last opcode, and the machine type. */
  predicate Steady(s: State, r: State)
  {
    r.cpu.r == s.cpu.r && r.cpu.i == s.cpu.i && r.cpu.ctl == s.cpu.ctl && r.board.model == s.board.model
  }

  /** An instruction's outcome keeps the board sound, takes at least four
      T-states and keeps what `Steady` names. */
  predicate Plain(s: State, o: Out)
  {
    o.t >= 4 && Steady(s, o.s) && (Sound(s.board) ==> Sound(o.s.board))
  }

  // ---------------------------------------------------------------- memory

  function Rd(s: State, addr: bv16): bv8
  {
    MemRead(s.board, addr)
  }

  function RdWord(s: State, addr: bv16): bv16
  {
    MemReadWord(s.board, addr)
  }

  /** mem_write on the state. */
  function Wr(s: State, addr: bv16, v: bv8): (r: State)
    ensures r.cpu == s.cpu && r.board.model == s.board.model
    ensures r.board.mem == Write(s.board.mem, addr, v)
    ensures Sound(s.board) ==> Sound(r.board)
  {
    WriteSound(s.board, addr, v);
    if WritableOf(s.board.mem.layout, Region(addr)) then s.(board := MemWrite(s.board, addr, v)) else s
  }

  lemma WriteSound(b: Board, addr: bv16, v: bv8)
    ensures Sound(b) ==> Sound(MemWrite(b, addr, v))
  {
    if Sound(b) {
      MemWriteWired(b, addr, v);
    }
  }

  /** mem_write16: low byte, then high byte at the next address. */
  function WrWord(s: State, addr: bv16, w: bv16): (r: State)
    ensures r.cpu == s.cpu && r.board.model == s.board.model
    ensures r.board.mem == WriteWord(s.board.mem, addr, w)
    ensures Sound(s.board) ==> Sound(r.board)
  {
    Wr(Wr(s, addr, Lo(w)), addr + 1, Hi(w))
  }

  /** fetch8 / fetch16 read at PC; `Skip` advances PC past what was read. */
  function Imm8(s: State): bv8 { Rd(s, s.cpu.pc) }
  function Imm16(s: State): bv16 { RdWord(s, s.cpu.pc) }

  function Skip(s: State, n: bv16): (r: State)
    ensures r.cpu == s.cpu.(pc := s.cpu.pc + n) && r.board == s.board
  {
    s.(cpu := s.cpu.(pc := s.cpu.pc + n))
  }

  /** The target of a relative jump whose displacement was fetched at PC:
      the address after the displacement plus its signed value. */
  function Relative(s: State): bv16
  {
    AddDisp(s.cpu.pc + 1, Imm8(s))
  }

  // ---------------------------------------------------------------- ports

  /** port_read on the state. */
  function In(s: State, port: bv16, io: Io): (g: Got)
    ensures g.s.cpu == s.cpu && g.s.board.model == s.board.model
    ensures Sound(s.board) ==> Sound(g.s.board)
  {
    Got(PortRead(s.board, port, io.ear).value, s.(board := PortRead(s.board, port, io.ear).board))
  }

  /** port_write on the state. */
  function Output(s: State, port: bv16, v: bv8, io: Io): (r: State)
    ensures r.cpu == s.cpu && r.board.model == s.board.model
    ensures Sound(s.board) ==> Sound(r.board)
  {
    PortWriteSound(s.board, port, v, io.tapeActive);
    s.(board := PortWrite(s.board, port, v, io.tapeActive))
  }

  /** Port writes keep the AY generators in range: only a shape write
      touches them, and it restarts the envelope at step 0. */
  lemma PortWriteSound(b: Board, port: bv16, v: bv8, tapeActive: bool)
    ensures Sound(b) ==> Sound(PortWrite(b, port, v, tapeActive))
  {
    if Sound(b) {
      PortWriteWired(b, port, v, tapeActive);
    }
  }

  // ---------------------------------------------------------------- 8-bit operand field

  /** get_reg: B, C, D, E, H, L, the byte at (HL), A. */
  function Operand(s: State, k: nat): bv8
    requires k < 8
  {
    if k == 6 then Rd(s, HL(s.cpu.main)) else Get(s.cpu.main, k)
  }

  /** set_reg: a register, or for field 6 the byte at (HL). */
  function Store(s: State, k: nat, v: bv8): (r: State)
    requires k < 8
    ensures Steady(s, r) && r.cpu.pc == s.cpu.pc && r.cpu.sp == s.cpu.sp && r.cpu.main.f == s.cpu.main.f
    ensures Sound(s.board) ==> Sound(r.board)
    ensures k != 6 ==> r.board == s.board && r.cpu.main == Put(s.cpu.main, k, v)
  {
    if k == 6 then Wr(s, HL(s.cpu.main), v) else s.(cpu := s.cpu.(main := Put(s.cpu.main, k, v)))
  }

  /** The flags register set, nothing else. */
  function SetFlags(s: State, f: Flags): (r: State)
    ensures r.cpu == s.cpu.(main := s.cpu.main.(f := f)) && r.board == s.board
  {
    s.(cpu := s.cpu.(main := s.cpu.main.(f := f)))
  }

  /** A new A and F, nothing else. */
  function SetAcc(s: State, o: ByteOut): (r: State)
    ensures r.cpu == s.cpu.(main := s.cpu.main.(a := o.value, f := o.flags)) && r.board == s.board
  {
    s.(cpu := s.cpu.(main := s.cpu.main.(a := o.value, f := o.flags)))
  }

  // ---------------------------------------------------------------- stack

  /** push16: SP drops by two, then the word is written there. */
  function Push(s: State, w: bv16): (r: State)
    ensures r.cpu == s.cpu.(sp := s.cpu.sp - 2) && r.board.model == s.board.model
    ensures r.board.mem == WriteWord(s.board.mem, s.cpu.sp - 2, w)
    ensures Sound(s.board) ==> Sound(r.board)
  {
    WrWord(s.(cpu := s.cpu.(sp := s.cpu.sp - 2)), s.cpu.sp - 2, w)
  }

  /** The word pop16 returns. */
  function Top(s: State): bv16
  {
    RdWord(s, s.cpu.sp)
  }

  /** pop16's effect on the state: SP up by two. */
  function Drop(s: State): (r: State)
    ensures r.cpu == s.cpu.(sp := s.cpu.sp + 2) && r.board == s.board
  {
    s.(cpu := s.cpu.(sp := s.cpu.sp + 2))
  }

  /** The two bytes below SP are in writable regions. */
  predicate StackWritable(s: State)
  {
    WordWritable(s.board.mem.layout, s.cpu.sp - 2)
  }

  /** Whether the stack is writable depends only on SP and the memory map. */
  lemma StackMoves(s: State, r: State)
    requires StackWritable(s) && r.cpu.sp == s.cpu.sp && r.board.mem.layout == s.board.mem.layout
    ensures StackWritable(r)
  {
  }

  /** A word pushed onto writable memory is the word on top of the stack. */
  lemma {:induction false} PushTop(s: State, w: bv16)
    requires StackWritable(s)
    ensures Top(Push(s, w)) == w
  {
    ReadWordAfterWriteWord(s.board.mem, s.cpu.sp - 2, w);
    TopIsRead(Push(s, w));
  }

  /** The top of the stack is the word at SP. */
  lemma TopIsRead(p: State)
    ensures Top(p) == ReadWord(p.board.mem, p.cpu.sp)
  {
  }

  /** A word pushed onto writable memory pops back, and the pop leaves the
      CPU as it was before the push. */
  lemma {:induction false} PushPop(s: State, w: bv16)
    requires StackWritable(s)
    ensures Top(Push(s, w)) == w
    ensures Drop(Push(s, w)).cpu == s.cpu
  {
    PushTop(s, w);
  }
}

=== FILE: ring.dfy ===
/** The audio output's userspace ring buffer: 8192 stereo frames of 16-bit
    samples between the emulator, which never waits, and the sound device,
    which takes what it can. It is a FIFO that drops its oldest frames to
    make room, so the newest audio always gets in. The state is the store
    and three counters in frames: the read position, the write position and
    the number of frames held. */
module Ring {
  import opened Common

  const Cap: nat := 8192

  /** The stereo frames one conversion chunk holds (a 4096-sample buffer). */
  const ChunkFrames: nat := 2048

  /** A 16-bit signed sample. */
  type Sample = x: int | -0x8000 <= x < 0x8000

  datatype Frame = Frame(left: Sample, right: Sample)

  type Store = s: seq<Frame> | |s| == Cap witness seq(8192, _ => Frame(0, 0))

  datatype Ring = Ring(buf: Store, rpos: nat, wpos: nat, count: nat)

  /** The counters agree: the write position is `count` frames past the
      read position, around the ring. */
  predicate Positioned(r: Ring)
  {
    r.rpos < Cap && r.wpos == (r.rpos + r.count) % Cap
  }

  /** ... and the ring holds no more frames than it has room for. */
  predicate Valid(r: Ring)
  {
    Positioned(r) && r.count <= Cap
  }

  /** The store index `i` frames past `rpos`, with the wrap written out. */
  function Slot(rpos: nat, i: nat): (k: nat)
    requires rpos < Cap && i <= Cap
    ensures k < Cap
    ensures k == (rpos + i) % Cap
  {
    if rpos + i < Cap then rpos + i else rpos + i - Cap
  }

  /** The frames the ring holds, oldest first. */
  function Contents(r: Ring): (s: seq<Frame>)
    requires Valid(r)
    ensures |s| == r.count
  {
    seq(r.count, i requires 0 <= i < r.count => r.buf[Slot(r.rpos, i)])
  }

  /** The last `n` elements of `s`, or all of `s` when it is shorter. */
  function Newest<T>(s: seq<T>, n: nat): (r: seq<T>)
    ensures |r| == if |s| <= n then |s| else n
    ensures r == s[|s| - |r|..]
  {
    if |s| <= n then s else s[|s| - n..]
  }

  // ---------------------------------------------------------------- reset and drop

  /** ring_reset: empty, both positions back to the start. */
  function Reset(r: Ring): (e: Ring)
    ensures Valid(e) && Contents(e) == [] && e.rpos == 0 && e.wpos == 0
  {
    r.(rpos := 0, wpos := 0, count := 0)
  }

  /** The read position moved past `n` of the frames held. */
  function Advance(r: Ring, n: nat): Ring
    requires Valid(r) && n <= r.count
  {
    r.(rpos := (r.rpos + n) % Cap, count := r.count - n)
  }

  /** Moving the read position past `n` frames forgets exactly the oldest
      `n` and keeps the rest in order. */
  lemma {:induction false} AdvanceContents(r: Ring, n: nat)
    requires Valid(r) && n <= r.count
    ensures Valid(Advance(r, n)) && Contents(Advance(r, n)) == Contents(r)[n..]
  {
    var a := Advance(r, n);
    assert a.wpos == (a.rpos + a.count) % Cap by {
      ModAdd(r.rpos + n, r.count - n);
    }
    forall i | 0 <= i < a.count
      ensures Contents(a)[i] == Contents(r)[n + i]
    {
      assert Slot(a.rpos, i) == Slot(r.rpos, n + i) by {
        ModAdd(r.rpos + n, i);
      }
    }
  }

  /** Adding after reducing modulo the capacity reduces the same. */
  lemma ModAdd(x: nat, y: nat)
    ensures (x % Cap + y) % Cap == (x + y) % Cap
  {
  }

  /** ring_drop_oldest: dropping at least what the ring holds resets it;
      otherwise the read position moves past the `n` oldest frames. */
  function DropOldest(r: Ring, n: nat): (d: Ring)
    requires Valid(r)
    ensures Valid(d) && Contents(d) == Contents(r)[Min(n, r.count)..]
    ensures n >= r.count ==> d.rpos == 0 && d.wpos == 0 && d.count == 0
    ensures n < r.count ==> d.rpos == (r.rpos + n) % Cap && d.count == r.count - n && d.wpos == r.wpos
  {
    if n >= r.count then Reset(r)
    else
      AdvanceContents(r, n);
      Advance(r, n)
  }

  // ---------------------------------------------------------------- write

  /** `data` copied into the store at `at`. */
  function Put(buf: Store, at: nat, data: seq<Frame>): (r: Store)
    requires at + |data| <= Cap
    ensures forall k :: 0 <= k < Cap && !(at <= k < at + |data|) ==> r[k] == buf[k]
    ensures forall j :: 0 <= j < |data| ==> r[at + j] == data[j]
  {
    buf[..at] + data + buf[at + |data|..]
  }

  /** One pass of the write loop: `data`, which fits before the wrap,
      copied at the write position, which moves past it. */
  function WriteChunk(r: Ring, data: seq<Frame>): Ring
    requires Positioned(r) && r.wpos + |data| <= Cap
  {
    r.(buf := Put(r.buf, r.wpos, data), wpos := (r.wpos + |data|) % Cap, count := r.count + |data|)
  }

  /** A chunk keeps the counters in step; when the ring has room for it,
      the chunk joins the frames held, after them, and none is overwritten. */
  lemma {:induction false} WriteChunkContents(r: Ring, data: seq<Frame>)
    requires Positioned(r) && r.wpos + |data| <= Cap
    ensures Positioned(WriteChunk(r, data))
    ensures r.count + |data| <= Cap ==> Valid(WriteChunk(r, data)) && Contents(WriteChunk(r, data)) == Contents(r) + data
  {
    var w := WriteChunk(r, data);
    ModAdd(r.rpos + r.count, |data|);
    if r.count + |data| <= Cap && |data| > 0 {
      forall i | 0 <= i < w.count
        ensures Contents(w)[i] == (Contents(r) + data)[i]
      {
        if i < r.count {
          SlotOutside(r, |data|, i);
        } else {
          assert Slot(r.rpos, i) == r.wpos + (i - r.count);
        }
      }
    }
  }

  /** A frame held lies outside the room the write is about to fill. */
  lemma SlotOutside(r: Ring, n: nat, i: nat)
    requires Valid(r) && r.count + n <= Cap && r.wpos + n <= Cap && i < r.count
    ensures !(r.wpos <= Slot(r.rpos, i) < r.wpos + n)
  {
  }

  /** ring_write_stereo_frames: when the frames do not fit the free room,
      drop the oldest to make it; then copy them in, in pieces that stop at
      the wrap. The counters always stay in step; when the frames are no
      more than the ring holds, it ends holding the newest frames of what it
      held followed by the new ones, as many as fit. */
  method WriteFrames(r: Ring, stereo: seq<Frame>) returns (w: Ring)
    requires Valid(r)
    ensures Positioned(w)
    ensures |stereo| <= Cap ==> Valid(w) && Contents(w) == Newest(Contents(r) + stereo, Cap)
  {
    if |stereo| == 0 {
      assert Contents(r) + stereo == Contents(r);
      return r;
    }
    w := r;
    var free := Cap - w.count;
    if |stereo| > free {
      w := DropOldest(w, |stereo| - free);
    }
    ghost var base := Contents(w);
    assert |stereo| <= Cap ==> base + stereo == Newest(Contents(r) + stereo, Cap) by {
      if |stereo| <= Cap {
        Dropped(Contents(r), stereo, base);
      }
    }
    var done := 0;
    while done < |stereo|
      invariant done <= |stereo| && Positioned(w)
      invariant w.count == |base| + done
      invariant |base| + |stereo| <= Cap ==> Valid(w) && Contents(w) == base + stereo[..done]
      decreases |stereo| - done
    {
      var chunk := Min(|stereo| - done, Cap - w.wpos);
      ChunkExtends(w, base, stereo, done, chunk);
      w := WriteChunk(w, stereo[done..done + chunk]);
      done := done + chunk;
    }
    assert stereo[..done] == stereo;
  }

  /** One pass of the write loop keeps its invariant: the frames held so
      far are followed by the next piece of the input. */
  lemma {:induction false} ChunkExtends(w: Ring, base: seq<Frame>, stereo: seq<Frame>, done: nat, chunk: nat)
    requires Positioned(w) && done + chunk <= |stereo| && w.wpos + chunk <= Cap
    requires w.count == |base| + done
    requires |base| + |stereo| <= Cap ==> Valid(w) && Contents(w) == base + stereo[..done]
    ensures Positioned(WriteChunk(w, stereo[done..done + chunk]))
    ensures WriteChunk(w, stereo[done..done + chunk]).count == |base| + done + chunk
    ensures |base| + |stereo| <= Cap ==>
              Valid(WriteChunk(w, stereo[done..done + chunk])) &&
              Contents(WriteChunk(w, stereo[done..done + chunk])) == base + stereo[..done + chunk]
  {
    var piece := stereo[done..done + chunk];
    WriteChunkContents(w, piece);
    assert stereo[..done] + piece == stereo[..done + chunk];
  }

  /** The drop before a write leaves exactly room for the new frames: what
      remains, followed by them, is the newest `Cap` frames. */
  lemma {:induction false} Dropped(held: seq<Frame>, stereo: seq<Frame>, base: seq<Frame>)
    requires |held| <= Cap && |stereo| <= Cap
    requires |stereo| > Cap - |held| ==> base == held[Min(|stereo| - (Cap - |held|), |held|)..]
    requires |stereo| <= Cap - |held| ==> base == held
    ensures base + stereo == Newest(held + stereo, Cap)
  {
    if |stereo| > Cap - |held| {
      var d := |stereo| - (Cap - |held|);
      assert (held + stereo)[d..] == held[d..] + stereo;
    }
  }

  // ---------------------------------------------------------------- read

  /** ring_read_contiguous_ptr: how many frames can be handed to the device
      in one piece, from the read position up to the wrap or the last
      frame held; none when empty. They are the oldest frames, in order. */
  function Contiguous(r: Ring): (n: nat)
    requires Valid(r)
    ensures n == 0 <==> r.count == 0
    ensures n <= r.count && r.rpos + n <= Cap
    ensures n == r.count || r.rpos + n == Cap
    ensures r.buf[r.rpos..r.rpos + n] == Contents(r)[..n]
  {
    if r.count == 0 then 0
    else
      var n := Min(r.count, Cap - r.rpos);
      assert forall i :: 0 <= i < n ==> Slot(r.rpos, i) == r.rpos + i;
      n
  }

  /** The consume step of audio_flush_nonblocking: after the device took
      `written` of the frames offered, the read position moves past them.
      Unlike a drop it never resets the positions. */
  function Consume(r: Ring, written: nat): (c: Ring)
    requires Valid(r) && written <= Contiguous(r)
    ensures Valid(c) && Contents(c) == Contents(r)[written..]
    ensures c.buf == r.buf && c.wpos == r.wpos
  {
    AdvanceContents(r, written);
    Advance(r, written)
  }

  /** Consuming everything offered, then everything offered after that,
      empties the ring: the frames reach the device in the order written. */
  lemma {:induction false} ConsumeTwiceEmpties(r: Ring)
    requires Valid(r)
    ensures Consume(Consume(r, Contiguous(r)), Contiguous(Consume(r, Contiguous(r)))).count == 0
  {
    var c := Consume(r, Contiguous(r));
    if c.count > 0 {
      assert r.rpos + Contiguous(r) == Cap;
      assert c.rpos == 0;
    }
  }

  // ---------------------------------------------------------------- mono to stereo

  /** The mono-to-stereo loop of zx_audio_write: sample i becomes the left
      and the right sample of frame i of the interleaved buffer. */
  method Duplicate(mono: seq<Sample>) returns (stereo: seq<Sample>)
    ensures |stereo| == 2 * |mono|
    ensures forall i :: 0 <= i < |mono| ==> stereo[2 * i] == mono[i] && stereo[2 * i + 1] == mono[i]
  {
    stereo := [];
    var i := 0;
    while i < |mono|
      invariant i <= |mono| && |stereo| == 2 * i
      invariant forall j :: 0 <= j < i ==> stereo[2 * j] == mono[j] && stereo[2 * j + 1] == mono[j]
    {
      stereo := stereo + [mono[i], mono[i]];
      i := i + 1;
    }
  }

  /** An interleaved buffer read as frames, left sample first. */
  function FramesOf(stereo: seq<Sample>): (f: seq<Frame>)
    requires |stereo| % 2 == 0
    ensures |f| == |stereo| / 2
    ensures forall i :: 0 <= i < |f| ==> f[i] == Frame(stereo[2 * i], stereo[2 * i + 1])
  {
    seq(|stereo| / 2, i requires 0 <= i < |stereo| / 2 => Frame(stereo[2 * i], stereo[2 * i + 1]))
  }

  /** The frames a mono signal plays as: the same sample on both sides. */
  function Both(mono: seq<Sample>): (f: seq<Frame>)
    ensures |f| == |mono| && forall i :: 0 <= i < |mono| ==> f[i] == Frame(mono[i], mono[i])
  {
    seq(|mono|, i requires 0 <= i < |mono| => Frame(mono[i], mono[i]))
  }

  /** Keeping the newest `Cap` twice is keeping them once. */
  lemma {:induction false} NewestTwice(a: seq<Frame>, b: seq<Frame>)
    requires |b| <= Cap
    ensures Newest(Newest(a, Cap) + b, Cap) == Newest(a + b, Cap)
  {
    if |a| > Cap {
      var k := |a| - Cap;
      assert a + b == a[..k] + (a[k..] + b);
      assert (a + b)[|a + b| - Min(|a + b|, Cap)..] == (a[k..] + b)[|a[k..] + b| - Min(|a[k..] + b|, Cap)..];
    }
  }

  /** Writing the next chunk of samples extends the written prefix. */
  lemma {:induction false} ChunkJoins(held: seq<Frame>, mono: seq<Sample>, done: nat, frames: nat)
    requires done + frames <= |mono| && frames <= Cap
    ensures Newest(Newest(held + Both(mono[..done]), Cap) + Both(mono[done..done + frames]), Cap) ==
            Newest(held + Both(mono[..done + frames]), Cap)
  {
    var f := Both(mono[done..done + frames]);
    NewestTwice(held + Both(mono[..done]), f);
    BothSplits(mono, done, frames);
    Regroup(held, Both(mono[..done]), f);
  }

  /** The frames of a longer prefix are those of the shorter one and then
      those of the samples between. */
  lemma BothSplits(mono: seq<Sample>, done: nat, frames: nat)
    requires done + frames <= |mono|
    ensures Both(mono[..done + frames]) == Both(mono[..done]) + Both(mono[done..done + frames])
  {
  }

  /** zx_audio_write on an open device, up to its closing non-blocking
      flush (zx.audio.c:447-448): the samples, converted to stereo in chunks
      of 2048 frames, each chunk written to the ring. Before that flush the
      ring holds the newest 8192 frames of what it held followed by every
      sample played on both sides, as if it had been written at once. A
      closed device takes nothing. */
  method AudioWrite(r: Ring, open: bool, mono: seq<Sample>) returns (w: Ring)
    requires Valid(r)
    ensures Valid(w)
    ensures open ==> Contents(w) == Newest(Contents(r) + Both(mono), Cap)
    ensures !open ==> w == r
  {
    w := r;
    if !open || |mono| == 0 {
      assert Contents(r) + Both(mono) == Contents(r) || !open;
      return;
    }
    var done := 0;
    while done < |mono|
      invariant done <= |mono| && Valid(w)
      invariant Contents(w) == Newest(Contents(r) + Both(mono[..done]), Cap)
      decreases |mono| - done
    {
      var frames := Min(|mono| - done, ChunkFrames);
      var stereo := Duplicate(mono[done..done + frames]);
      var f := FramesOf(stereo);
      assert f == Both(mono[done..done + frames]);
      w := WriteFrames(w, f);
      ChunkJoins(Contents(r), mono, done, frames);
      done := done + frames;
    }
    assert mono[..done] == mono;
  }
}

=== FILE: rle.dfy ===
/** The run-length coding of .z80 snapshots (z80_rle_decompress): the four
    bytes ED ED n v stand for n copies of v, every other byte for itself.
    Version 1 files end their single compressed block with 00 ED ED 00.
    Decompression fills a buffer of fixed size and succeeds only when the
    buffer is filled exactly; a run that overflows the buffer is cut short
    and input left over once it is full is ignored. */
module Rle {
  import opened Bits
  import opened Common

  /** The end marker of a version 1 stream starts at `i`. */
  predicate EndMarker(input: seq<bv8>, i: nat)
  {
    i + 3 < |input| && input[i] == 0x00 && input[i + 1] == 0xED && input[i + 2] == 0xED && input[i + 3] == 0x00
  }

  /** A run ED ED n v starts at `i`: the two escape bytes and both operands
      are present. */
  predicate RunAt(input: seq<bv8>, i: nat)
  {
    i + 3 < |input| && input[i] == 0xED && input[i + 1] == 0xED
  }

  function Fill(v: bv8, n: nat): (r: seq<bv8>)
    ensures |r| == n && forall k :: 0 <= k < n ==> r[k] == v
  {
    seq(n, _ => v)
  }

  /** The decompression loop from input position `i`, `out` holding what is
      decoded so far: stop at the end of the input, on a full buffer or (in a
      version 1 stream) at the end marker; expand a run, as far as the buffer
      has room; copy any other byte. What is decoded stays, and the buffer
      never overflows. */
  function Expand(input: seq<bv8>, i: nat, out: seq<bv8>, outLen: nat, v1: bool): (r: seq<bv8>)
    requires i <= |input| && |out| <= outLen
    ensures |out| <= |r| <= outLen && r[..|out|] == out
    decreases |input| - i
  {
    if i == |input| || |out| == outLen then out
    else if v1 && EndMarker(input, i) then out
    else if RunAt(input, i) then
      var more := out + Fill(input[i + 3], Min(input[i + 2] as nat, outLen - |out|));
      assert more[..|out|] == out;
      Expand(input, i + 4, more, outLen, v1)
    else
      assert (out + [input[i]])[..|out|] == out;
      Expand(input, i + 1, out + [input[i]], outLen, v1)
  }

  /** z80_rle_decompress: the decoded bytes when they fill the buffer
      exactly, nothing otherwise. */
  function Decompress(input: seq<bv8>, outLen: nat, v1: bool): (r: Option<seq<bv8>>)
    ensures r.Some? ==> |r.value| == outLen
  {
    var out := Expand(input, 0, [], outLen, v1);
    if |out| == outLen then Some(out) else None
  }

  // ---------------------------------------------------------------- a reference encoder

  /** How many copies of the first byte open `data`, at most 255. */
  function RunLength(data: seq<bv8>): (k: nat)
    requires |data| > 0
    ensures 1 <= k <= |data| && k <= 255
    ensures forall j :: 0 <= j < k ==> data[j] == data[0]
    decreases |data|
  {
    if |data| == 1 || data[1] != data[0] then 1
    else
      var k := RunLength(data[1..]);
      if k == 255 then 255 else k + 1
  }

  /** The same count as a byte. */
  function RunCount(data: seq<bv8>): (c: bv8)
    requires |data| > 0
    ensures c != 0
    decreases |data|
  {
    if |data| == 1 || data[1] != data[0] then 1
    else if RunCount(data[1..]) == 255 then 255
    else RunCount(data[1..]) + 1
  }

  lemma {:induction false} RunCountIsLength(data: seq<bv8>)
    requires |data| > 0
    ensures RunCount(data) as nat == RunLength(data)
    decreases |data|
  {
    if |data| > 1 && data[1] == data[0] {
      RunCountIsLength(data[1..]);
    }
  }

  /** The encoder of the format: runs of five or more, and every ED byte,
      become ED ED n v; the other bytes stand for themselves. It is not part
      of the emulator, which saves uncompressed blocks; it is the reference
      the decoder is checked against. */
  function Encode(data: seq<bv8>): seq<bv8>
    decreases |data|
  {
    if data == [] then []
    else if RunLength(data) >= 5 || data[0] == 0xED then
      [0xED, 0xED, RunCount(data), data[0]] + Encode(data[RunLength(data)..])
    else [data[0]] + Encode(data[1..])
  }

  /** The version 1 end marker. */
  function EndMark(): seq<bv8>
  {
    [0x00, 0xED, 0xED, 0x00]
  }

  /** An encoding placed anywhere in the input decodes to its data, once the
      data exactly fills the buffer. In a version 1 stream no encoded
      literal starts the end marker, provided what follows the encoding does
      not start with ED. */
  lemma {:induction false} ExpandEncode(pre: seq<bv8>, data: seq<bv8>, tail: seq<bv8>, out: seq<bv8>, outLen: nat, v1: bool)
    requires |out| + |data| == outLen
    requires |tail| == 0 || tail[0] != 0xED
    ensures Expand(pre + Encode(data) + tail, |pre|, out, outLen, v1) == out + data
    decreases |data|, 1
  {
    if data == [] {
      assert pre + Encode(data) + tail == pre + tail;
      assert out + data == out;
    } else if RunLength(data) >= 5 || data[0] == 0xED {
      EncodeRun(pre, data, tail, out, outLen, v1);
    } else {
      EncodeLiteral(pre, data, tail, out, outLen, v1);
    }
  }

  /** The step of ExpandEncode over a run. */
  lemma {:induction false} EncodeRun(pre: seq<bv8>, data: seq<bv8>, tail: seq<bv8>, out: seq<bv8>, outLen: nat, v1: bool)
    requires |out| + |data| == outLen && |data| > 0 && (RunLength(data) >= 5 || data[0] == 0xED)
    requires |tail| == 0 || tail[0] != 0xED
    ensures Expand(pre + Encode(data) + tail, |pre|, out, outLen, v1) == out + data
    decreases |data|, 0
  {
    var k := RunLength(data);
    var chunk: seq<bv8> := [0xED, 0xED, RunCount(data), data[0]];
    var input := pre + Encode(data) + tail;
    var mid := out + Fill(data[0], k);
    RunBytes(pre, data, tail);
    RunStep(input, |pre|, out, outLen, v1, data[0], k);
    RunChunk(pre, data, tail);
    ExpandEncode(pre + chunk, data[k..], tail, mid, outLen, v1);
    RunSplits(data, k);
    AppendSplit(out, Fill(data[0], k), data[k..], data);
  }

  /** The encoding of data that opens with a run. */
  lemma EncodeRunIs(data: seq<bv8>)
    requires |data| > 0 && (RunLength(data) >= 5 || data[0] == 0xED)
    ensures Encode(data) == [0xED, 0xED, RunCount(data), data[0]] + Encode(data[RunLength(data)..])
  {
  }

  /** Where the encoding writes a run, the input is the run's four bytes
      between what comes before and the encoding of the rest. */
  lemma RunChunk(pre: seq<bv8>, data: seq<bv8>, tail: seq<bv8>)
    requires |data| > 0 && (RunLength(data) >= 5 || data[0] == 0xED)
    ensures pre + Encode(data) + tail ==
              (pre + [0xED, 0xED, RunCount(data), data[0]]) + Encode(data[RunLength(data)..]) + tail
  {
    EncodeRunIs(data);
    Regroup(pre, [0xED, 0xED, RunCount(data), data[0]], Encode(data[RunLength(data)..]));
  }

  /** ... so a run starts there, with the run's length and byte. */
  lemma RunBytes(pre: seq<bv8>, data: seq<bv8>, tail: seq<bv8>)
    requires |data| > 0 && (RunLength(data) >= 5 || data[0] == 0xED)
    ensures RunAt(pre + Encode(data) + tail, |pre|)
    ensures (pre + Encode(data) + tail)[|pre| + 2] as nat == RunLength(data)
    ensures (pre + Encode(data) + tail)[|pre| + 3] == data[0]
  {
    EncodeRunIs(data);
    var e := Encode(data);
    Front4(0xED, 0xED, RunCount(data), data[0], Encode(data[RunLength(data)..]));
    RunCountIsLength(data);
    Inside(pre, e, tail, 0);
    Inside(pre, e, tail, 1);
    Inside(pre, e, tail, 2);
    Inside(pre, e, tail, 3);
  }

  /** The first four elements of a sequence that opens with four given ones. */
  lemma Front4<T>(a: T, b: T, c: T, d: T, rest: seq<T>)
    ensures |[a, b, c, d] + rest| >= 4
    ensures ([a, b, c, d] + rest)[0] == a && ([a, b, c, d] + rest)[1] == b
    ensures ([a, b, c, d] + rest)[2] == c && ([a, b, c, d] + rest)[3] == d
  {
  }

  /** An element of the middle part, found in the whole. */
  lemma Inside<T>(pre: seq<T>, e: seq<T>, tail: seq<T>, j: nat)
    requires j < |e|
    ensures (pre + e + tail)[|pre| + j] == e[j]
  {
  }

  /** Appending the two halves of `data` appends `data`. */
  lemma AppendSplit<T>(out: seq<T>, front: seq<T>, back: seq<T>, data: seq<T>)
    requires front + back == data
    ensures (out + front) + back == out + data
  {
  }

  /** The step of ExpandEncode over a literal. */
  lemma {:induction false} EncodeLiteral(pre: seq<bv8>, data: seq<bv8>, tail: seq<bv8>, out: seq<bv8>, outLen: nat, v1: bool)
    requires |out| + |data| == outLen && |data| > 0 && RunLength(data) < 5 && data[0] != 0xED
    requires |tail| == 0 || tail[0] != 0xED
    ensures Expand(pre + Encode(data) + tail, |pre|, out, outLen, v1) == out + data
    decreases |data|, 0
  {
    var chunk: seq<bv8> := [data[0]];
    var input := pre + Encode(data) + tail;
    assert Encode(data) == chunk + Encode(data[1..]);
    Regroup(pre, chunk, Encode(data[1..]));
    LiteralNotMarker(pre, data, tail);
    ExpandLiteral(input, |pre|, out, outLen, v1);
    ExpandEncode(pre + chunk, data[1..], tail, out + chunk, outLen, v1);
    assert chunk + data[1..] == data;
    AppendSplit(out, chunk, data[1..], data);
  }

  /** One pass of the loop over a run that is not the end marker. */
  lemma ExpandRun(input: seq<bv8>, i: nat, out: seq<bv8>, outLen: nat, v1: bool)
    requires i < |input| && |out| < outLen && RunAt(input, i)
    ensures Expand(input, i, out, outLen, v1) ==
              Expand(input, i + 4, out + Fill(input[i + 3], Min(input[i + 2] as nat, outLen - |out|)), outLen, v1)
  {
    assert !EndMarker(input, i);
  }

  /** A run of `k` copies of `v` that fits the buffer adds exactly those copies. */
  lemma RunStep(input: seq<bv8>, i: nat, out: seq<bv8>, outLen: nat, v1: bool, v: bv8, k: nat)
    requires i < |input| && |out| < outLen && RunAt(input, i)
    requires input[i + 2] as nat == k && input[i + 3] == v && |out| + k <= outLen
    ensures Expand(input, i, out, outLen, v1) == Expand(input, i + 4, out + Fill(v, k), outLen, v1)
  {
    ExpandRun(input, i, out, outLen, v1);
  }

  /** One pass of the loop over a byte that starts neither a run nor the end marker. */
  lemma ExpandLiteral(input: seq<bv8>, i: nat, out: seq<bv8>, outLen: nat, v1: bool)
    requires i < |input| && |out| < outLen && !RunAt(input, i) && !EndMarker(input, i)
    ensures Expand(input, i, out, outLen, v1) == Expand(input, i + 1, out + [input[i]], outLen, v1)
  {
  }

  /** A run's copies followed by the rest are the data. */
  lemma RunSplits(data: seq<bv8>, k: nat)
    requires 1 <= k <= |data| && forall j :: 0 <= j < k ==> data[j] == data[0]
    ensures Fill(data[0], k) + data[k..] == data
  {
    assert data[..k] == Fill(data[0], k);
    assert data[..k] + data[k..] == data;
  }

  /** Where the encoding writes a literal, the input holds that byte and
      neither a run nor the end marker starts there: a zero byte kept as a
      literal is followed by another literal, a run (whose count is not
      zero) or the tail. */
  lemma {:induction false} LiteralNotMarker(pre: seq<bv8>, data: seq<bv8>, tail: seq<bv8>)
    requires |data| > 0 && RunLength(data) < 5 && data[0] != 0xED
    requires |tail| == 0 || tail[0] != 0xED
    ensures |pre| < |pre + Encode(data) + tail| && (pre + Encode(data) + tail)[|pre|] == data[0]
    ensures !RunAt(pre + Encode(data) + tail, |pre|) && !EndMarker(pre + Encode(data) + tail, |pre|)
  {
    var input := pre + Encode(data) + tail;
    var rest := data[1..];
    assert input == pre + [data[0]] + Encode(rest) + tail;
    if |rest| == 0 {
      assert input == pre + [data[0]] + tail;
    } else if rest[0] == 0xED {
      var k := RunLength(rest);
      assert Encode(rest) == [0xED, 0xED, RunCount(rest), rest[0]] + Encode(rest[k..]);
      assert input[|pre| + 3] == RunCount(rest);
    } else if RunLength(rest) >= 5 {
      var k := RunLength(rest);
      assert Encode(rest) == [0xED, 0xED, RunCount(rest), rest[0]] + Encode(rest[k..]);
      assert input[|pre| + 3] == RunCount(rest);
    } else {
      assert Encode(rest) == [rest[0]] + Encode(rest[1..]);
      assert input[|pre| + 1] == rest[0];
    }
  }

  /** Decompression undoes the encoder, with or without the version 1 end
      marker after the encoding. */
  lemma {:induction false} DecompressEncode(data: seq<bv8>, v1: bool)
    ensures Decompress(Encode(data), |data|, v1) == Some(data)
    ensures Decompress(Encode(data) + EndMark(), |data|, v1) == Some(data)
  {
    DecompressFollowed(data, [], v1);
    assert Encode(data) + [] == Encode(data);
    DecompressFollowed(data, EndMark(), v1);
  }

  /** Decompression of the encoding followed by a version 1 end marker or
      by nothing. */
  lemma {:induction false} DecompressFollowed(data: seq<bv8>, tail: seq<bv8>, v1: bool)
    requires tail == [] || tail == EndMark()
    ensures Decompress(Encode(data) + tail, |data|, v1) == Some(data)
  {
    ExpandEncode([], data, tail, [], |data|, v1);
    assert [] + Encode(data) + tail == Encode(data) + tail;
  }

  /** A version 1 stream that starts with the end marker decodes nothing, so
      it fails unless the buffer is empty. */
  lemma MarkerStops(rest: seq<bv8>, outLen: nat)
    requires outLen > 0
    ensures Decompress(EndMark() + rest, outLen, true) == None
  {
    assert EndMarker(EndMark() + rest, 0);
  }

  /** A run longer than the room left is cut to fit: ED ED n v into a buffer
      of m < n bytes gives m copies of v. */
  lemma RunCut(n: bv8, v: bv8, m: nat, rest: seq<bv8>)
    requires m < n as nat
    ensures Decompress([0xED, 0xED, n, v] + rest, m, false) == Some(Fill(v, m))
  {
    var input := [0xED, 0xED, n, v] + rest;
    if m > 0 {
      assert RunAt(input, 0);
      assert Expand(input, 0, [], m, false) == Expand(input, 4, Fill(v, m), m, false);
    }
  }
}

=== FILE: snapshot.dfy ===
/** .z80 snapshots: zx_save_z80 writes a version 3 file (a 30-byte header
    with PC 0, a 54-byte extended header, and every RAM bank of the machine
    as an uncompressed 16 KB block); zx_load_z80 reads version 1 files (one
    48K image, raw or run-length coded) and version 2/3 files (extended
    header, then blocks keyed by page number). Loading changes the machine
    as it reads: an error part-way leaves the registers, and possibly some
    banks, already replaced. A successful load ends with
    zx_snapshot_cleanup_runtime. */
module Snapshot {
  import opened Bits
  import opened Alu
  import opened Z80
  import opened Banks = Memory
  import opened Hw = Board
  import Ay
  import opened Ops
  import Engine = Tape
  import Mixer
  import Emulator
  import Rle
  import opened Common

  /** How a load ends: success, or the error the loader reports. */
  datatype Outcome =
    | Loaded
    | TooSmall
    | V1DecompressFailed
    | V1Truncated
    | NoExtendedHeader
    | ExtendedHeaderTruncated
    | BlockTruncated
    | CompressedBlockTruncated
    | BlockDecompressFailed
    | NoBlocks

  /** The machine as a load leaves it, and how the load ended. */
  datatype Load = Load(m: Emulator.Machine, outcome: Outcome)

  /** The bank store after the block loop, whether any block landed in a
      bank, and whether the loop ended cleanly. */
  datatype Blocks = Blocks(mem: Mem, any: bool, outcome: Outcome)

  /** A bank store after z80_apply_page, and whether the page was taken. */
  datatype Applied = Applied(mem: Mem, applied: bool)

  const HeaderSize: nat := 30
  const ExtSize: nat := 54
  const Ram48Size: nat := 49152

  // ---------------------------------------------------------------- pages

  /** The RAM bank a block's page number stands for: on the 48K machine
      pages 8, 4 and 5 are banks 5, 2 and 0; on the 128K machines pages 3
      to 10 are banks 0 to 7. Any other page has no bank. */
  function PageBank(model: Model, page: bv8): (r: Option<RamIndex>)
    ensures model == Spectrum48 ==> (r.Some? <==> page == 8 || page == 4 || page == 5)
    ensures model != Spectrum48 ==> (r.Some? <==> 3 <= page <= 10)
    ensures model != Spectrum48 && r.Some? ==> r.value + 3 == page as int
  {
    if model == Spectrum48 then
      if page == 8 then Some(5) else if page == 4 then Some(2) else if page == 5 then Some(0) else None
    else if 3 <= page <= 10 then Some(page as nat - 3)
    else None
  }

  /** The page number the saver writes for a bank. */
  function BankPage(model: Model, bank: RamIndex): bv8
  {
    if model == Spectrum48 then (if bank == 5 then 8 else if bank == 2 then 4 else 5)
    else Byte(bank + 3)
  }

  /** The banks a save writes: three on the 48K machine, all eight otherwise. */
  predicate Saved(model: Model, bank: RamIndex)
  {
    model != Spectrum48 || bank == 5 || bank == 2 || bank == 0
  }

  /** The page the saver writes for a bank leads the loader back to that
      bank, and no two saved banks share a page. */
  lemma PageRoundTrip(model: Model, bank: RamIndex)
    requires Saved(model, bank)
    ensures PageBank(model, BankPage(model, bank)) == Some(bank)
  {
  }

  /** z80_apply_page: copy the block into the bank its page stands for;
      a page with no bank changes nothing. The map and the ROM never change. */
  function ApplyPage(mem: Mem, model: Model, page: bv8, blk: Bank): (r: Applied)
    ensures r.applied == PageBank(model, page).Some?
    ensures r.applied ==> r.mem == mem.(ram := mem.ram[PageBank(model, page).value := blk])
    ensures !r.applied ==> r.mem == mem
    ensures r.mem.layout == mem.layout && r.mem.rom == mem.rom
  {
    match PageBank(model, page)
    case None => Applied(mem, false)
    case Some(k) => Applied(mem.(ram := mem.ram[k := blk]), true)
  }

  // ---------------------------------------------------------------- save

  /** Byte 12 of the header: bit 7 of R in bit 0, the border in bits 1-3. */
  function Flags12(r: bv8, border: bv8): bv8
  {
    (r >> 7) | ((border & 0x07) << 1)
  }

  /** The 30-byte header: the registers, PC 0 (so a loader reads the
      extended header), R split over bytes 11 and 12. */
  function Header(c: Cpu, border: bv8): (h: seq<bv8>)
    ensures |h| == HeaderSize
  {
    seq(HeaderSize, i requires 0 <= i < HeaderSize => HeaderByte(c, border, i))
  }

  /** Byte `i` of the header. */
  function HeaderByte(c: Cpu, border: bv8, i: nat): bv8
    requires i < HeaderSize
  {
    match i
    case 0 => c.main.a
    case 1 => PackFlags(c.main.f)
    case 2 => c.main.c
    case 3 => c.main.b
    case 4 => c.main.l
    case 5 => c.main.h
    case 6 => 0
    case 7 => 0
    case 8 => Lo(c.sp)
    case 9 => Hi(c.sp)
    case 10 => c.i
    case 11 => c.r & 0x7F
    case 12 => Flags12(c.r, border)
    case 13 => c.main.e
    case 14 => c.main.d
    case 15 => c.alt.c
    case 16 => c.alt.b
    case 17 => c.alt.e
    case 18 => c.alt.d
    case 19 => c.alt.l
    case 20 => c.alt.h
    case 21 => c.alt.a
    case 22 => PackFlags(c.alt.f)
    case 23 => Lo(c.iy)
    case 24 => Hi(c.iy)
    case 25 => Lo(c.ix)
    case 26 => Hi(c.ix)
    case 27 => if c.ctl.iff1 then 1 else 0
    case 28 => if c.ctl.iff2 then 1 else 0
    case _ => c.ctl.im & 0x03
  }

  /** The hardware code of the extended header: 0 for 48K, 4 for 128K, 12
      for the +2. */
  function HwCode(model: Model): bv8
  {
    match model
    case Spectrum48 => 0
    case Spectrum128 => 4
    case Plus2 => 12
  }

  /** The 54-byte extended header: PC, the hardware code, the paging latch
      and the AY flag (both left zero on the 48K machine), the selected AY
      register and the sixteen AY registers; the rest zero. */
  function Ext(b: Hw.Board, pc: bv16): (e: seq<bv8>)
    ensures |e| == ExtSize
  {
    [Lo(pc), Hi(pc), HwCode(b.model), if b.model == Spectrum48 then 0 else b.paging.port, 0,
     if b.model == Spectrum48 then 0 else 0x04, b.ay.selected]
    + b.ay.regs + seq(31, _ => 0)
  }

  /** An uncompressed block: length FFFF, the page number, 16 KB of data. */
  function Block(page: bv8, bank: Bank): (s: seq<bv8>)
    ensures |s| == 3 + BankSize
  {
    [0xFF, 0xFF, page] + bank
  }

  /** The blocks of banks `k` to 7, each under its page number 3 + bank. */
  function Pages128(ram: seq<Bank>, k: nat): (s: seq<bv8>)
    requires |ram| == 8 && k <= 8
    ensures |s| == (8 - k) * (3 + BankSize)
    decreases 8 - k
  {
    if k == 8 then [] else Block(Byte(k + 3), ram[k]) + Pages128(ram, k + 1)
  }

  /** The blocks a save writes: banks 5, 2 and 0 on the 48K machine, every
      bank otherwise. */
  function SavedPages(model: Model, ram: seq<Bank>): (s: seq<bv8>)
    requires |ram| == 8
  {
    if model == Spectrum48 then Block(8, ram[5]) + Block(4, ram[2]) + Block(5, ram[0])
    else Pages128(ram, 0)
  }

  /** zx_save_z80: header, extended header length 54, extended header,
      blocks. The file announces version 2/3 (PC 0 in the header), and it
      holds one block per saved bank. */
  function Save(m: Emulator.Machine): (f: seq<bv8>)
    requires Sized(m.s.board.mem)
    ensures |f| == HeaderSize + 2 + ExtSize + (if m.s.board.model == Spectrum48 then 3 else 8) * (3 + BankSize)
    ensures f[6] == 0 && f[7] == 0
  {
    var b := m.s.board;
    HeaderPcZero(m.s.cpu, b.ula.border);
    Header(m.s.cpu, b.ula.border) + Bytes16(54) + Ext(b, m.s.cpu.pc) + SavedPages(b.model, b.mem.ram)
  }

  /** The header's PC field is zero, which marks a version 2 or 3 file. */
  lemma HeaderPcZero(c: Cpu, border: bv8)
    ensures Header(c, border)[6] == 0 && Header(c, border)[7] == 0
  {
  }

  // ---------------------------------------------------------------- load: the header

  /** Byte 12, with the value 255 some old files store read as 1. */
  function Flags12Of(h: seq<bv8>): bv8
    requires |h| >= HeaderSize
  {
    if h[12] == 255 then 1 else h[12]
  }

  /** The registers a header restores: everything but PC; R from byte 11
      and bit 0 of byte 12; interrupts from bytes 27-29; no EI pending, not
      halted. */
  function RestoreCpu(c: Cpu, h: seq<bv8>): (r: Cpu)
    requires |h| >= HeaderSize
    ensures r.pc == c.pc && r.ctl.lastOpcode == c.ctl.lastOpcode
    ensures !r.ctl.eiDelay && !r.ctl.halted && r.ctl.im < 4
  {
    c.(main := MainOf(h), alt := AltOf(h), sp := Le16Word(h, 8), i := h[10], r := RefreshOf(h),
       iy := Le16Word(h, 23), ix := Le16Word(h, 25),
       ctl := c.ctl.(iff1 := h[27] != 0, iff2 := h[28] != 0, im := h[29] & 0x03, eiDelay := false, halted := false))
  }

  /** A, F, BC, DE and HL from bytes 0-5, 13 and 14. */
  function MainOf(h: seq<bv8>): Regs
    requires |h| >= HeaderSize
  {
    Regs(h[0], UnpackFlags(h[1]), h[3], h[2], h[14], h[13], h[5], h[4])
  }

  /** The alternate set from bytes 15-22. */
  function AltOf(h: seq<bv8>): Regs
    requires |h| >= HeaderSize
  {
    Regs(h[21], UnpackFlags(h[22]), h[16], h[15], h[18], h[17], h[20], h[19])
  }

  /** R: bits 0-6 from byte 11, bit 7 from bit 0 of byte 12. */
  function RefreshOf(h: seq<bv8>): bv8
    requires |h| >= HeaderSize
  {
    (h[11] & 0x7F) | (if Flags12Of(h) & 0x01 != 0 then 0x80 else 0)
  }

  /** The board a header restores: the border from byte 12, the IM2 vector
      back to a floating FF, the AY chip cleared. */
  function RestoreBoard(b: Hw.Board, h: seq<bv8>): (r: Hw.Board)
    requires |h| >= HeaderSize
    ensures r == b.(ula := r.ula, vector := r.vector, ay := r.ay)
    ensures r.ula == b.ula.(border := r.ula.border) && r.ula.border < 8
    ensures r.vector == Vector(0xFF, false) && r.ay == Ay.Initial()
  {
    b.(ula := b.ula.(border := (Flags12Of(h) >> 1) & 0x07), vector := Vector(0xFF, false), ay := Ay.Initial())
  }

  function Restore(m: Emulator.Machine, h: seq<bv8>): (r: Emulator.Machine)
    requires |h| >= HeaderSize
  {
    m.(s := State(RestoreCpu(m.s.cpu, h), RestoreBoard(m.s.board, h)))
  }

  /** Restoring keeps a machine every step accepts: the map is not touched,
      and the cleared chip is a running one. */
  lemma RestoreGood(m: Emulator.Machine, h: seq<bv8>)
    requires |h| >= HeaderSize && Emulator.Good(m)
    ensures Emulator.Good(Restore(m, h))
    ensures Restore(m, h).tape == m.tape && Restore(m, h).audio == m.audio
    ensures Restore(m, h).s.board.model == m.s.board.model && Restore(m, h).s.board.mem == m.s.board.mem
  {
  }

  // ---------------------------------------------------------------- load: cleanup

  /** zx_snapshot_cleanup_runtime: the frame counter, the samples and the
      phase accumulator start again, the screen is dirty, the beeper off,
      the floating bus FF, the AY generators reset with the registers kept,
      and the deck rewound and stopped with its blocks kept. */
  function Cleanup(m: Emulator.Machine): (r: Emulator.Machine)
    ensures r.s.cpu == m.s.cpu && r.tapeAudio == m.tapeAudio
    ensures r.s.board.model == m.s.board.model && r.s.board.mem == m.s.board.mem && r.s.board.paging == m.s.board.paging
    ensures r.s.board.ay.regs == m.s.board.ay.regs && r.s.board.ay.selected == m.s.board.ay.selected
    ensures r.s.board.ay.gen == Ay.Initial().gen && r.s.board.ay.accum == 0
    ensures r.s.board.tstates == 0 && r.s.board.ula.dirty && !r.s.board.ula.beeper && r.s.board.lastBus == 0xFF
    ensures r.s.board.ula.border == m.s.board.ula.border && r.s.board.vector == m.s.board.vector
    ensures r.audio == Mixer.Audio(0, [])
    ensures r.tape.blocks == m.tape.blocks && r.tape.player.deck.loaded == (|m.tape.blocks| > 0)
    ensures !r.tape.player.deck.active && !r.tape.player.deck.playing && !r.tape.player.deck.autostarted
    ensures r.tape.player.head.blockIdx == 0 && r.tape.player.head.phase == Engine.Stop && r.tape.player.head.ear
    ensures Wired(m.s.board) ==> Emulator.Good(r)
  {
    var b := m.s.board;
    m.(s := m.s.(board := b.(tstates := 0, ula := b.ula.(dirty := true, beeper := false), lastBus := 0xFF,
                             ay := b.ay.(accum := 0, gen := Ay.Initial().gen))),
       audio := Mixer.Audio(0, []), tape := Emulator.ResetTape(m.tape))
  }

  /** Cleaning up twice is cleaning up once. */
  lemma CleanupIdempotent(m: Emulator.Machine)
    ensures Cleanup(Cleanup(m)) == Cleanup(m)
  {
  }

  // ---------------------------------------------------------------- load: version 1

  /** The 48K image of a version 1 file: banks 5, 2 and 0, in that order. */
  function Fill48(mem: Mem, ram48: seq<bv8>): (r: Mem)
    requires |ram48| == Ram48Size
    ensures r.layout == mem.layout && r.rom == mem.rom
    ensures r.ram[5] == ram48[..BankSize] && r.ram[2] == ram48[BankSize..2 * BankSize]
    ensures r.ram[0] == ram48[2 * BankSize..]
    ensures forall k :: 0 <= k < 8 && k != 5 && k != 2 && k != 0 ==> r.ram[k] == mem.ram[k]
  {
    mem.(ram := mem.ram[5 := ram48[..16384]][2 := ram48[16384..32768]][0 := ram48[32768..]])
  }

  /** A version 1 file: a 48K machine with paging unlocked, PC from the
      header, then the RAM image (run-length coded up to the end marker when
      bit 5 of byte 12 says so, 48 KB raw otherwise). */
  function LoadV1(m: Emulator.Machine, buf: seq<bv8>): (r: Load)
    requires |buf| >= HeaderSize && Emulator.Good(m)
    ensures r.m.tapeAudio == m.tapeAudio
    ensures r.outcome == Loaded ==> r.m.s.board.tstates == 0 && r.m.audio == Mixer.Audio(0, []) && !r.m.tape.player.deck.active
    ensures r.outcome != Loaded ==> r.m.tape == m.tape && r.m.audio == m.audio
    ensures Emulator.Good(r.m) && r.m.s.board.model == Spectrum48
    ensures r.outcome == Loaded || r.outcome == V1DecompressFailed || r.outcome == V1Truncated
    ensures r.m.s.cpu == m.s.cpu.(pc := Le16Word(buf, 6))
    ensures r.m.s.board.paging.port == 0 && !r.m.s.board.paging.locked
    ensures r.outcome == V1Truncated <==> Flags12Of(buf) & 0x20 == 0 && |buf| - HeaderSize < Ram48Size
    ensures r.outcome == V1DecompressFailed <==>
              Flags12Of(buf) & 0x20 != 0 && Rle.Decompress(buf[HeaderSize..], Ram48Size, true).None?
  {
    var b := m.s.board;
    var wired := Remap(b.(model := Spectrum48, paging := b.paging.(port := 0, locked := false)));
    var m1 := m.(s := State(m.s.cpu.(pc := Le16Word(buf, 6)), wired));
    var image := buf[HeaderSize..];
    if Flags12Of(buf) & 0x20 != 0 then
      match Rle.Decompress(image, Ram48Size, true)
      case None => Load(m1, V1DecompressFailed)
      case Some(ram48) => Load(Cleanup(m1.(s := m1.s.(board := wired.(mem := Fill48(wired.mem, ram48))))), Loaded)
    else if |image| < Ram48Size then Load(m1, V1Truncated)
    else Load(Cleanup(m1.(s := m1.s.(board := wired.(mem := Fill48(wired.mem, image[..Ram48Size]))))), Loaded)
  }

  // ---------------------------------------------------------------- load: version 2 and 3

  /** The machine a hardware code selects: 0 and 1 are the 48K machine, 12
      the +2, anything else counts as a 128K machine. */
  function ModelOf(hw: bv8): (model: Model)
    ensures model == Spectrum48 <==> hw == 0 || hw == 1
    ensures model == Plus2 <==> hw == 12
  {
    if hw == 0 || hw == 1 then Spectrum48 else if hw == 12 then Plus2 else Spectrum128
  }

  /** Each machine's own hardware code selects it again. */
  lemma ModelRoundTrip(model: Model)
    ensures ModelOf(HwCode(model)) == model
  {
  }

  /** PC as the loader reads it: the first two bytes after the extended
      header's length, whatever that length says; None stands for a read
      past the end of the file. */
  function PcAsWritten(buf: seq<bv8>): (r: Option<bv16>)
    ensures r.Some? <==> |buf| >= 34
  {
    if |buf| >= 34 then Some(Le16Word(buf, 32)) else None
  }

  /** PC read as intended: from the extended header when it holds two
      bytes, like the hardware code and latch fields, and 0 otherwise. */
  function ExtPc(ext: seq<bv8>): (pc: bv16)
    ensures |ext| < 2 ==> pc == 0
    ensures |ext| >= 2 ==> Lo(pc) == ext[0] && Hi(pc) == ext[1]
  {
    if |ext| >= 2 then Le16Word(ext, 0) else 0
  }

  /** PC as the loader takes it, kept inside the file: bytes 32 and 33
      whatever the extended header's length says, and 0 for a file that
      ends before them. */
  function LoadPc(buf: seq<bv8>): (pc: bv16)
    ensures |buf| >= 34 ==> Lo(pc) == buf[32] && Hi(pc) == buf[33]
    ensures |buf| < 34 ==> pc == 0
  {
    match PcAsWritten(buf)
    case Some(w) => w
    case None => 0
  }

  /** A 32-byte version 2 file whose extended header is empty passes both
      length checks, yet the loader reads PC from past the end of the file. */
  lemma PcReadPastEnd(buf: seq<bv8>)
    requires |buf| == 32 && buf[30] == 0 && buf[31] == 0
    ensures |buf| >= 32 + Le16(buf, 30)
    ensures PcAsWritten(buf) == None
  {
  }

  /** The corrected read is the loader's wherever that stays inside the file,
      so it is the extended header's PC field whenever the header holds one;
      only a file too short to hold PC, whose header is then shorter than two
      bytes, loads PC 0 instead of reading past its end. */
  lemma {:induction false} PcIntended(buf: seq<bv8>)
    requires |buf| >= 32 && |buf| >= 32 + Le16(buf, 30)
    ensures PcAsWritten(buf).Some? ==> LoadPc(buf) == PcAsWritten(buf).value
    ensures Le16(buf, 30) >= 2 ==> LoadPc(buf) == ExtPc(buf[32..32 + Le16(buf, 30)])
    ensures PcAsWritten(buf).None? ==> LoadPc(buf) == 0 && Le16(buf, 30) < 2
  {
    if Le16(buf, 30) >= 2 {
      var pc := ExtPc(buf[32..32 + Le16(buf, 30)]);
      var w := LoadPc(buf);
      WordOfParts(pc);
      WordOfParts(w);
    }
  }

  /** The board the extended header sets up before the blocks: the machine
      type, the latch and its lock bit (taken even on the 48K machine), the
      AY registers of a 128K machine whose header holds them, and the map. */
  function Configure(b: Hw.Board, ext: seq<bv8>): (r: Hw.Board)
    requires Ay.GenOk(b.ay.gen)
    ensures Wired(r) && Ay.GenOk(r.ay.gen) && r.mem.ram == b.mem.ram && r.mem.rom == b.mem.rom
    ensures r.model == ModelOf(if |ext| >= 3 then ext[2] else 0)
    ensures r.paging.port == (if |ext| >= 4 then ext[3] else 0)
    ensures r.paging.locked == (r.paging.port & 0x20 != 0)
    ensures r.model != Spectrum48 && |ext| >= 23 ==>
              r.ay == b.ay.(selected := ext[6] & 0x0F, regs := ext[7..23])
    ensures !(r.model != Spectrum48 && |ext| >= 23) ==> r.ay == b.ay
    ensures r.vector == b.vector && r.lastBus == b.lastBus && r.tstates == b.tstates
    ensures r.ula == b.ula.(dirty := r.ula.dirty) && r.ula.border == b.ula.border
  {
    var model := ModelOf(if |ext| >= 3 then ext[2] else 0);
    var port: bv8 := if |ext| >= 4 then ext[3] else 0;
    var ay := if model != Spectrum48 && |ext| >= 23 then b.ay.(selected := ext[6] & 0x0F, regs := ext[7..23]) else b.ay;
    Remap(b.(model := model, paging := b.paging.(port := port, locked := port & 0x20 != 0), ay := ay))
  }

  /** The block loop over what follows the extended header: while three
      bytes remain, read a length and a page; length FFFF is 16 KB raw,
      anything else that many run-length coded bytes, which must fill 16 KB
      exactly; each block goes to its page's bank at once. */
  function LoadBlocks(mem: Mem, model: Model, rest: seq<bv8>, any: bool): (r: Blocks)
    ensures r.mem.layout == mem.layout && r.mem.rom == mem.rom
    ensures any ==> r.any
    ensures r.outcome == Loaded || r.outcome == BlockTruncated ||
            r.outcome == CompressedBlockTruncated || r.outcome == BlockDecompressFailed
    ensures |rest| < 3 ==> r == Blocks(mem, any, Loaded)
    decreases |rest|
  {
    if |rest| < 3 then Blocks(mem, any, Loaded)
    else
      var blen := Le16(rest, 0);
      var page := rest[2];
      var body := rest[3..];
      if blen == 0xFFFF then
        if |body| < BankSize then Blocks(mem, any, BlockTruncated)
        else
          var a := ApplyPage(mem, model, page, body[..BankSize]);
          LoadBlocks(a.mem, model, body[BankSize..], any || a.applied)
      else if |body| < blen then Blocks(mem, any, CompressedBlockTruncated)
      else
        match Rle.Decompress(body[..blen], BankSize, false)
        case None => Blocks(mem, any, BlockDecompressFailed)
        case Some(blk) =>
          var a := ApplyPage(mem, model, page, blk);
          LoadBlocks(a.mem, model, body[blen..], any || a.applied)
  }

  /** A version 2/3 file: the extended header's length and the header
      itself must be present; then PC, the configured board, and the
      blocks. A file none of whose blocks lands in a bank is an error. */
  function LoadV2(m: Emulator.Machine, buf: seq<bv8>): (r: Load)
    requires |buf| >= HeaderSize && Emulator.Good(m)
    ensures r.m.tapeAudio == m.tapeAudio
    ensures r.outcome == Loaded ==> r.m.s.board.tstates == 0 && r.m.audio == Mixer.Audio(0, []) && !r.m.tape.player.deck.active
    ensures r.outcome != Loaded ==> r.m.tape == m.tape && r.m.audio == m.audio
    ensures Emulator.Good(r.m)
    ensures r.outcome == NoExtendedHeader <==> |buf| < 32
    ensures r.outcome == ExtendedHeaderTruncated <==> |buf| >= 32 && |buf| < 32 + Le16(buf, 30)
    ensures r.outcome == NoExtendedHeader || r.outcome == ExtendedHeaderTruncated ==> r.m == m
    ensures r.outcome != TooSmall && r.outcome != V1DecompressFailed && r.outcome != V1Truncated
    ensures r.outcome != NoExtendedHeader && r.outcome != ExtendedHeaderTruncated ==>
              r.m.s.cpu == m.s.cpu.(pc := LoadPc(buf))
  {
    if |buf| < 32 then Load(m, NoExtendedHeader)
    else
      var extLen := Le16(buf, 30);
      if |buf| < 32 + extLen then Load(m, ExtendedHeaderTruncated)
      else
        var ext := buf[32..32 + extLen];
        var b := Configure(m.s.board, ext);
        var m1 := m.(s := State(m.s.cpu.(pc := LoadPc(buf)), b));
        LoadRest(m1, buf[32 + extLen..])
  }

  /** The blocks and the end of a version 2/3 load: the banks as the loop
      leaves them, then the cleanup if it ended cleanly with a block taken. */
  function LoadRest(m: Emulator.Machine, rest: seq<bv8>): (r: Load)
    requires Emulator.Good(m)
    ensures r.m.tapeAudio == m.tapeAudio
    ensures r.outcome == Loaded ==> r.m.s.board.tstates == 0 && r.m.audio == Mixer.Audio(0, []) && !r.m.tape.player.deck.active
    ensures r.outcome != Loaded ==> r.m.tape == m.tape && r.m.audio == m.audio
    ensures Emulator.Good(r.m) && r.m.s.cpu == m.s.cpu && r.m.s.board.model == m.s.board.model
    ensures r.outcome == Loaded || r.outcome == NoBlocks || r.outcome == BlockTruncated ||
            r.outcome == CompressedBlockTruncated || r.outcome == BlockDecompressFailed
    ensures r.m.s.board.paging == m.s.board.paging
    ensures r.outcome != Loaded ==> r.m == m.(s := m.s.(board := m.s.board.(mem := r.m.s.board.mem)))
  {
    var blocks := LoadBlocks(m.s.board.mem, m.s.board.model, rest, false);
    var m2 := m.(s := m.s.(board := m.s.board.(mem := blocks.mem)));
    if blocks.outcome != Loaded then Load(m2, blocks.outcome)
    else if !blocks.any then Load(m2, NoBlocks)
    else Load(Cleanup(m2), Loaded)
  }

  /** zx_load_z80: a file shorter than the header changes nothing; otherwise
      the header's registers are restored at once, and a nonzero PC in the
      header selects version 1. Whatever the outcome, the machine is left in
      a state every step accepts, with the tape monitor switch as it was. */
  function LoadZ80(m: Emulator.Machine, buf: seq<bv8>): (r: Load)
    requires Emulator.Good(m)
    ensures Emulator.Good(r.m) && r.m.tapeAudio == m.tapeAudio
    ensures r.outcome == TooSmall <==> |buf| < HeaderSize
    ensures r.outcome == TooSmall ==> r.m == m
    ensures r.outcome == Loaded ==> r.m.s.board.tstates == 0 && r.m.audio == Mixer.Audio(0, []) && !r.m.tape.player.deck.active
    ensures r.outcome != Loaded ==> r.m.tape == m.tape && r.m.audio == m.audio
    ensures |buf| >= HeaderSize && Le16(buf, 6) != 0 ==>
              r.outcome == Loaded || r.outcome == V1DecompressFailed || r.outcome == V1Truncated
  {
    if |buf| < HeaderSize then Load(m, TooSmall)
    else
      var restored := Restore(m, buf[..HeaderSize]);
      RestoreGood(m, buf[..HeaderSize]);
      if Le16(buf, 6) != 0 then LoadV1(restored, buf) else LoadV2(restored, buf)
  }

  // ---------------------------------------------------------------- save then load

  /** Where the parts of a saved file lie: the header, the extended header
      length 54, the extended header, then the blocks. */
  lemma {:induction false} SaveLayout(m: Emulator.Machine)
    requires Sized(m.s.board.mem)
    ensures |Save(m)| >= 32 + ExtSize && Le16(Save(m), 6) == 0 && Le16(Save(m), 30) == ExtSize
    ensures Save(m)[..HeaderSize] == Header(m.s.cpu, m.s.board.ula.border)
    ensures Save(m)[32..32 + ExtSize] == Ext(m.s.board, m.s.cpu.pc)
    ensures Save(m)[32 + ExtSize..] == SavedPages(m.s.board.model, m.s.board.mem.ram)
  {
    var b := m.s.board;
    var h, e, p := Header(m.s.cpu, b.ula.border), Ext(b, m.s.cpu.pc), SavedPages(b.model, b.mem.ram);
    var len := Bytes16(54);
    assert len == [54, 0];
    var f := h + len + e + p;
    assert f == Save(m);
    assert f[..30] == h;
    assert f[30] == 54 && f[31] == 0;
    assert f[32..86] == e;
    assert f[86..] == p;
  }

  /** R comes back whole: bits 0-6 from byte 11, bit 7 from byte 12. */
  lemma RefreshRoundTrip(r: bv8, border: bv8)
    ensures Flags12(r, border) != 255
    ensures (r & 0x7F) | (if Flags12(r, border) & 0x01 != 0 then 0x80 else 0) == r
    ensures (Flags12(r, border) >> 1) & 0x07 == border & 0x07
  {
  }

  /** A 16-bit register comes back from its two bytes. */
  lemma WordRoundTrip(s: seq<bv8>, i: nat, w: bv16)
    requires i + 2 <= |s| && s[i] == Lo(w) && s[i + 1] == Hi(w)
    ensures Le16Word(s, i) == w
  {
    WordOfParts(w);
    WordOfParts(Le16Word(s, i));
  }

  /** The saved header restores every register but PC; IM comes back in
      its two low bits, and no EI is pending and the CPU does not halt. */
  lemma {:induction false} HeaderRoundTrip(c0: Cpu, c: Cpu, border: bv8)
    ensures RestoreCpu(c0, Header(c, border)) ==
              c.(pc := c0.pc, ctl := c.ctl.(im := c.ctl.im & 0x03, eiDelay := false, halted := false, lastOpcode := c0.ctl.lastOpcode))
  {
    RegsRoundTrip(c, border);
    PointersRoundTrip(c, border);
    ControlRoundTrip(c, border);
  }

  /** SP, IY, IX, I and R come back from the header. */
  lemma {:induction false} PointersRoundTrip(c: Cpu, border: bv8)
    ensures Le16Word(Header(c, border), 8) == c.sp && Le16Word(Header(c, border), 23) == c.iy
    ensures Le16Word(Header(c, border), 25) == c.ix && RefreshOf(Header(c, border)) == c.r && Header(c, border)[10] == c.i
  {
    var h := Header(c, border);
    SpRoundTrip(c, border);
    IndexRoundTrip(c, border);
    RefreshOfHeader(c, border);
  }

  lemma {:induction false} SpRoundTrip(c: Cpu, border: bv8)
    ensures Le16Word(Header(c, border), 8) == c.sp
  {
    WordRoundTrip(Header(c, border), 8, c.sp);
  }

  lemma {:induction false} IndexRoundTrip(c: Cpu, border: bv8)
    ensures Le16Word(Header(c, border), 23) == c.iy && Le16Word(Header(c, border), 25) == c.ix
  {
    WordRoundTrip(Header(c, border), 23, c.iy);
    WordRoundTrip(Header(c, border), 25, c.ix);
  }

  lemma {:induction false} RefreshOfHeader(c: Cpu, border: bv8)
    ensures RefreshOf(Header(c, border)) == c.r
  {
    RefreshRoundTrip(c.r, border);
    assert Flags12Of(Header(c, border)) == Flags12(c.r, border);
  }

  /** Both interrupt flip-flops and the interrupt mode come back. */
  lemma ControlRoundTrip(c: Cpu, border: bv8)
    ensures (Header(c, border)[27] != 0) == c.ctl.iff1 && (Header(c, border)[28] != 0) == c.ctl.iff2
    ensures Header(c, border)[29] & 0x03 == c.ctl.im & 0x03
  {
  }

  /** Both register sets come back from the header, F and F' through their
      packing into a byte. */
  lemma {:induction false} RegsRoundTrip(c: Cpu, border: bv8)
    ensures MainOf(Header(c, border)) == c.main && AltOf(Header(c, border)) == c.alt
  {
    MainRoundTrip(c, border);
    AltRoundTrip(c, border);
  }

  lemma {:induction false} MainRoundTrip(c: Cpu, border: bv8)
    ensures MainOf(Header(c, border)) == c.main
  {
    MainFromFields(Header(c, border), c.main);
  }

  lemma {:induction false} AltRoundTrip(c: Cpu, border: bv8)
    ensures AltOf(Header(c, border)) == c.alt
  {
    AltPairsSaved(c, border);
    AltAccumulatorSaved(c, border);
    AltFromFields(Header(c, border), c.alt);
  }

  /** Bytes 15-20 hold BC', DE' and HL'. */
  lemma AltPairsSaved(c: Cpu, border: bv8)
    ensures Header(c, border)[15] == c.alt.c && Header(c, border)[16] == c.alt.b
    ensures Header(c, border)[17] == c.alt.e && Header(c, border)[18] == c.alt.d
    ensures Header(c, border)[19] == c.alt.l && Header(c, border)[20] == c.alt.h
  {
  }

  /** Bytes 21 and 22 hold A' and F'. */
  lemma AltAccumulatorSaved(c: Cpu, border: bv8)
    ensures Header(c, border)[21] == c.alt.a && Header(c, border)[22] == PackFlags(c.alt.f)
  {
  }

  /** A register set whose bytes sit where the header keeps the main set. */
  lemma {:induction false} MainFromFields(h: seq<bv8>, g: Regs)
    requires |h| >= HeaderSize && h[0] == g.a && h[1] == PackFlags(g.f)
    requires h[2] == g.c && h[3] == g.b && h[4] == g.l && h[5] == g.h && h[13] == g.e && h[14] == g.d
    ensures MainOf(h) == g
  {
    FlagsRoundTrip(g.f, 0);
  }

  /** A register set whose bytes sit where the header keeps the alternate set. */
  lemma {:induction false} AltFromFields(h: seq<bv8>, g: Regs)
    requires |h| >= HeaderSize && h[21] == g.a && h[22] == PackFlags(g.f)
    requires h[15] == g.c && h[16] == g.b && h[17] == g.e && h[18] == g.d && h[19] == g.l && h[20] == g.h
    ensures AltOf(h) == g
  {
    FlagsRoundTrip(g.f, 0);
  }

  /** The border is restored from the header into any board. */
  lemma BorderRoundTrip(b: Hw.Board, c: Cpu, border: bv8)
    ensures RestoreBoard(b, Header(c, border)).ula.border == border & 0x07
  {
    RefreshRoundTrip(c.r, border);
    assert Flags12Of(Header(c, border)) == Flags12(c.r, border);
  }

  /** The saved extended header sets up the saved machine: its type, PC,
      its latch (zero on the 48K machine) and, on a 128K machine, its AY
      registers and selection. */
  lemma {:induction false} ExtRoundTrip(b0: Hw.Board, b: Hw.Board, pc: bv16)
    requires Ay.GenOk(b0.ay.gen)
    ensures ExtPc(Ext(b, pc)) == pc
    ensures Configure(b0, Ext(b, pc)).model == b.model
    ensures Configure(b0, Ext(b, pc)).paging.port == (if b.model == Spectrum48 then 0 else b.paging.port)
    ensures b.model != Spectrum48 ==>
              Configure(b0, Ext(b, pc)).ay == b0.ay.(selected := b.ay.selected & 0x0F, regs := b.ay.regs)
    ensures b.model == Spectrum48 ==> Configure(b0, Ext(b, pc)).ay == b0.ay
  {
    var e := Ext(b, pc);
    WordRoundTrip(e, 0, pc);
    ModelRoundTrip(b.model);
    assert e[2] == HwCode(b.model);
    assert e[7..23] == b.ay.regs;
  }

  /** One uncompressed block is read whole and applied, and the loop goes
      on with what follows it. */
  lemma {:induction false} BlockLoads(mem: Mem, model: Model, page: bv8, bank: Bank, rest: seq<bv8>, any: bool)
    ensures LoadBlocks(mem, model, Block(page, bank) + rest, any) ==
              LoadBlocks(ApplyPage(mem, model, page, bank).mem, model, rest, any || ApplyPage(mem, model, page, bank).applied)
  {
    var s := Block(page, bank) + rest;
    assert s[0] == 0xFF && s[1] == 0xFF && s[2] == page;
    assert Le16(s, 0) == 0xFFFF;
    assert s[3..][..BankSize] == bank;
    assert s[3..][BankSize..] == rest;
  }

  /** The eight blocks of a 128K save, loaded into a 128K machine whose
      banks below `k` already hold the saved ones, leave every bank as
      saved, with a block taken if there was one. */
  lemma {:induction false} Pages128Load(mem: Mem, model: Model, ram: seq<Bank>, k: nat, any: bool)
    requires model != Spectrum48 && |ram| == 8 && k <= 8
    requires forall j :: 0 <= j < k ==> mem.ram[j] == ram[j]
    ensures LoadBlocks(mem, model, Pages128(ram, k), any) == Blocks(mem.(ram := ram), any || k < 8, Loaded)
    decreases 8 - k, 1
  {
    if k == 8 {
      assert mem.ram == ram;
    } else {
      Pages128Next(mem, model, ram, k, any);
    }
  }

  /** The step of Pages128Load: bank k's block, then the rest. */
  lemma {:induction false} Pages128Next(mem: Mem, model: Model, ram: seq<Bank>, k: nat, any: bool)
    requires model != Spectrum48 && |ram| == 8 && k < 8
    requires forall j :: 0 <= j < k ==> mem.ram[j] == ram[j]
    ensures LoadBlocks(mem, model, Pages128(ram, k), any) == Blocks(mem.(ram := ram), true, Loaded)
    decreases 8 - k, 0
  {
    BlockLoads(mem, model, Byte(k + 3), ram[k], Pages128(ram, k + 1), any);
    var next := PageStep(mem, model, ram, k);
    Pages128Load(next, model, ram, k + 1, true);
  }

  /** Bank k's block, page k + 3, lands in bank k, and the banks up to k
      then hold the saved ones. */
  lemma PageStep(mem: Mem, model: Model, ram: seq<Bank>, k: nat) returns (next: Mem)
    requires model != Spectrum48 && |ram| == 8 && k < 8
    requires forall j :: 0 <= j < k ==> mem.ram[j] == ram[j]
    ensures ApplyPage(mem, model, Byte(k + 3), ram[k]) == Applied(next, true)
    ensures next == mem.(ram := next.ram)
    ensures forall j :: 0 <= j < k + 1 ==> next.ram[j] == ram[j]
  {
    next := mem.(ram := mem.ram[k := ram[k]]);
  }

  /** The three blocks of a 48K save restore banks 5, 2 and 0 and leave the
      other five as they were. */
  lemma {:induction false} Pages48Load(mem: Mem, ram: seq<Bank>)
    requires |ram| == 8
    ensures LoadBlocks(mem, Spectrum48, SavedPages(Spectrum48, ram), false) ==
              Blocks(mem.(ram := mem.ram[5 := ram[5]][2 := ram[2]][0 := ram[0]]), true, Loaded)
  {
    var b1, b2, b3 := Block(8, ram[5]), Block(4, ram[2]), Block(5, ram[0]);
    assert b1 + b2 + b3 == b1 + (b2 + (b3 + []));
    BlockLoads(mem, Spectrum48, 8, ram[5], b2 + (b3 + []), false);
    var m1 := mem.(ram := mem.ram[5 := ram[5]]);
    BlockLoads(m1, Spectrum48, 4, ram[2], b3 + [], true);
    var m2 := m1.(ram := m1.ram[2 := ram[2]]);
    BlockLoads(m2, Spectrum48, 5, ram[0], [], true);
  }

  /** The machine a load of Save(m) into `target` has set up when it
      reaches the blocks: the header's registers, the extended header's PC
      and board. */
  function Staged(target: Emulator.Machine, m: Emulator.Machine): (r: Emulator.Machine)
    requires Emulator.Good(target) && Sized(m.s.board.mem)
    ensures Emulator.Good(r)
  {
    var h := Header(m.s.cpu, m.s.board.ula.border);
    RestoreGood(target, h);
    var restored := Restore(target, h);
    restored.(s := State(restored.s.cpu.(pc := ExtPc(Ext(m.s.board, m.s.cpu.pc))),
                         Configure(restored.s.board, Ext(m.s.board, m.s.cpu.pc))))
  }

  /** A saved file is read as version 3 down to its blocks. */
  lemma {:induction false} LoadSavedStages(target: Emulator.Machine, m: Emulator.Machine)
    requires Emulator.Good(target) && Emulator.Good(m)
    ensures LoadZ80(target, Save(m)) == LoadRest(Staged(target, m), SavedPages(m.s.board.model, m.s.board.mem.ram))
  {
    var f := Save(m);
    SaveLayout(m);
    var h := Header(m.s.cpu, m.s.board.ula.border);
    PcIntended(f);
    assert LoadPc(f) == ExtPc(Ext(m.s.board, m.s.cpu.pc));
    assert LoadZ80(target, f) == LoadV2(Restore(target, h), f);
  }

  /** What the staged machine holds: the saved registers and PC, the saved
      machine type, latch, border and AY registers, and the target's banks. */
  lemma {:induction false} StagedHolds(target: Emulator.Machine, m: Emulator.Machine)
    requires Emulator.Good(target) && Emulator.Good(m)
    ensures Staged(target, m).s.cpu ==
              m.s.cpu.(ctl := m.s.cpu.ctl.(im := m.s.cpu.ctl.im & 0x03, eiDelay := false, halted := false,
                                           lastOpcode := target.s.cpu.ctl.lastOpcode))
    ensures Staged(target, m).s.board.model == m.s.board.model
    ensures Staged(target, m).s.board.paging.port == (if m.s.board.model == Spectrum48 then 0 else m.s.board.paging.port)
    ensures Staged(target, m).s.board.ula.border == m.s.board.ula.border & 0x07
    ensures m.s.board.model != Spectrum48 ==>
              Staged(target, m).s.board.ay.regs == m.s.board.ay.regs &&
              Staged(target, m).s.board.ay.selected == m.s.board.ay.selected & 0x0F
    ensures Staged(target, m).s.board.mem.ram == target.s.board.mem.ram
    ensures Staged(target, m).s.board.mem.rom == target.s.board.mem.rom
  {
    var c, b := m.s.cpu, m.s.board;
    var h := Header(c, b.ula.border);
    HeaderRoundTrip(target.s.cpu, c, b.ula.border);
    BorderRoundTrip(target.s.board, c, b.ula.border);
    ExtRoundTrip(RestoreBoard(target.s.board, h), b, c.pc);
  }

  /** The saved banks land where they were saved from; on the 48K machine
      the five banks a 48K save does not hold keep the target's contents. */
  lemma {:induction false} SavedBanksLoad(mem: Mem, model: Model, ram: seq<Bank>)
    requires |ram| == 8
    ensures LoadBlocks(mem, model, SavedPages(model, ram), false).outcome == Loaded
    ensures LoadBlocks(mem, model, SavedPages(model, ram), false).any
    ensures LoadBlocks(mem, model, SavedPages(model, ram), false).mem.layout == mem.layout
    ensures forall k :: 0 <= k < 8 ==>
              LoadBlocks(mem, model, SavedPages(model, ram), false).mem.ram[k] ==
              if Saved(model, k) then ram[k] else mem.ram[k]
  {
    if model == Spectrum48 {
      Pages48Load(mem, ram);
    } else {
      Pages128Load(mem, model, ram, 0, false);
    }
  }

  /** zx_load_z80 undoes zx_save_z80: loading a saved file into any
      machine succeeds and restores every register (IM in its two low bits,
      with no EI pending and the CPU not halted), the machine type, the
      paging latch and its lock, the border colour, on a 128K machine the
      AY registers, and every saved RAM bank; the banks a 48K save does not
      hold and the ROM stay the target's. */
  lemma {:induction false} SaveLoad(target: Emulator.Machine, m: Emulator.Machine)
    requires Emulator.Good(target) && Emulator.Good(m)
    requires m.s.board.model != Spectrum48 ==> m.s.board.paging.locked == (m.s.board.paging.port & 0x20 != 0)
    ensures LoadZ80(target, Save(m)).outcome == Loaded
    ensures LoadZ80(target, Save(m)).m.s.cpu ==
              m.s.cpu.(ctl := m.s.cpu.ctl.(im := m.s.cpu.ctl.im & 0x03, eiDelay := false, halted := false,
                                           lastOpcode := target.s.cpu.ctl.lastOpcode))
    ensures LoadZ80(target, Save(m)).m.s.board.model == m.s.board.model
    ensures m.s.board.model != Spectrum48 ==> LoadZ80(target, Save(m)).m.s.board.paging.port == m.s.board.paging.port
    ensures m.s.board.model != Spectrum48 ==> LoadZ80(target, Save(m)).m.s.board.paging.locked == m.s.board.paging.locked
    ensures m.s.board.model == Spectrum48 ==> LoadZ80(target, Save(m)).m.s.board.paging == Paging(0, false, false)
    ensures LoadZ80(target, Save(m)).m.s.board.ula.border == m.s.board.ula.border & 0x07
    ensures m.s.board.model != Spectrum48 ==>
              LoadZ80(target, Save(m)).m.s.board.ay.regs == m.s.board.ay.regs &&
              LoadZ80(target, Save(m)).m.s.board.ay.selected == m.s.board.ay.selected & 0x0F
    ensures forall k :: 0 <= k < 8 ==>
              LoadZ80(target, Save(m)).m.s.board.mem.ram[k] ==
              if Saved(m.s.board.model, k) then m.s.board.mem.ram[k] else target.s.board.mem.ram[k]
    ensures LoadZ80(target, Save(m)).m.s.board.mem.rom == target.s.board.mem.rom
  {
    var staged := Staged(target, m);
    LoadSavedStages(target, m);
    StagedHolds(target, m);
    SavedBanksLoad(staged.s.board.mem, staged.s.board.model, m.s.board.mem.ram);
  }

  /** A version 1 file whose 48K image is run-length coded and closed by
      the end marker loads that image into banks 5, 2 and 0 of a 48K
      machine, and starts it at the header's PC. */
  lemma {:induction false} V1CompressedLoads(target: Emulator.Machine, h: seq<bv8>, image: seq<bv8>)
    requires Emulator.Good(target) && |h| == HeaderSize && |image| == Ram48Size
    requires Le16(h, 6) != 0 && Flags12Of(h) & 0x20 != 0
    ensures LoadZ80(target, h + Rle.Encode(image) + Rle.EndMark()).outcome == Loaded
    ensures LoadZ80(target, h + Rle.Encode(image) + Rle.EndMark()).m.s.board.model == Spectrum48
    ensures LoadZ80(target, h + Rle.Encode(image) + Rle.EndMark()).m.s.cpu.pc == Le16Word(h, 6)
    ensures LoadZ80(target, h + Rle.Encode(image) + Rle.EndMark()).m.s.board.mem.ram[5] == image[..BankSize]
    ensures LoadZ80(target, h + Rle.Encode(image) + Rle.EndMark()).m.s.board.mem.ram[2] == image[BankSize..2 * BankSize]
    ensures LoadZ80(target, h + Rle.Encode(image) + Rle.EndMark()).m.s.board.mem.ram[0] == image[2 * BankSize..]
  {
    var buf := h + Rle.Encode(image) + Rle.EndMark();
    assert buf[..HeaderSize] == h && buf[HeaderSize..] == Rle.Encode(image) + Rle.EndMark();
    assert Le16(buf, 6) == Le16(h, 6) && Flags12Of(buf) == Flags12Of(h) && Le16Word(buf, 6) == Le16Word(h, 6);
    Rle.DecompressEncode(image, true);
    RestoreGood(target, h);
  }
}

=== FILE: step.dfy ===
/** The machine loop: execute_one_core (the opcode fetch, the refresh of R
    and the dispatch to the pages), execute_one (the T-states handed to the
    AY chip, the mixer and the tape in slices cut at tape pulse edges, then
    the EI delay), handle_interrupt, zx_run_frame and zx_reset. */
module Emulator {
  import opened Bits
  import opened Alu
  import opened Z80
  import opened Banks = Memory
  import opened Hw = Board
  import Ay
  import opened Ops
  import Base
  import CbPage
  import EdPage
  import IndexPage
  import Engine = Tape
  import Mixer
  import Timing
  import opened Interrupts

  /** The whole emulator: CPU and board, the tape deck, the audio of the
      current frame and the tape monitor switch. */
  datatype Machine = Machine(s: State, tape: Engine.Tape, audio: Mixer.Audio, tapeAudio: bool)

  /** A machine after an instruction and the T-states it took. */
  datatype Stepped = Stepped(m: Machine, t: nat)

  /** The machine after zx_run_frame, and whether the frame's interrupt fired. */
  datatype Framed = Framed(m: Machine, fired: bool)

  /** What every step keeps: a sound board, a well-formed tape, an
      accumulator below one clock period and a sample buffer within its
      size. */
  predicate Good(m: Machine)
  {
    Sound(m.s.board) && Engine.Ok(m.tape) &&
    m.audio.accum < Mixer.CpuClock && |m.audio.samples| <= Mixer.SamplesPerFrame
  }

  /** What an instruction sees of the deck: the EAR level and whether it plays. */
  function IoOf(m: Machine): Io
  {
    Io(m.tape.player.head.ear, m.tape.player.deck.active)
  }

  // ---------------------------------------------------------------- execute_one_core

  /** The opcode fetch: PC steps over the byte, R is refreshed and the byte
      is saved for the EI delay. */
  function Fetch(s: State): (r: State)
    ensures r.board == s.board
    ensures r.cpu == s.cpu.(pc := s.cpu.pc + 1, r := Refresh(s.cpu.r), ctl := s.cpu.ctl.(lastOpcode := Imm8(s)))
  {
    s.(cpu := s.cpu.(pc := s.cpu.pc + 1, r := Refresh(s.cpu.r), ctl := s.cpu.ctl.(lastOpcode := Imm8(s))))
  }

  /** The instruction at PC is LD R,A (ED 4F), the one that overwrites R. */
  predicate LoadsR(s: State)
  {
    Imm8(s) == 0xED && Rd(s, s.cpu.pc + 1) == 0x4F
  }

  /** The dispatch on the first opcode byte: the DD and FD pages, the CB
      page, the ED page, or the unprefixed table. None of them touches the
      saved opcode; only LD R,A changes R. */
  function Dispatch(s: State, op: bv8, io: Io): (o: Out)
    ensures o.t >= 4 && o.s.board.model == s.board.model
    ensures Sound(s.board) ==> Sound(o.s.board)
    ensures o.s.cpu.ctl.lastOpcode == s.cpu.ctl.lastOpcode
    ensures o.s.cpu.r == (if op == 0xED && Imm8(s) == 0x4F then s.cpu.main.a else s.cpu.r)
    ensures op != 0xF3 && op != 0xFB ==> o.s.cpu.ctl.eiDelay == s.cpu.ctl.eiDelay
    ensures op == 0xF3 ==> o.s.cpu.ctl == s.cpu.ctl.(iff1 := false, iff2 := false, eiDelay := false)
    ensures op == 0xFB ==> o.s.cpu.ctl == s.cpu.ctl.(eiDelay := true)
  {
    if op == 0xDD then IndexPage.Index(s, false, io)
    else if op == 0xFD then IndexPage.Index(s, true, io)
    else if op == 0xCB then CbPage.Cb(s)
    else if op == 0xED then EdDispatch(s, io)
    else UnprefixedDispatch(s, op, io)
  }

  /** The opcode byte read as a number is `k` exactly when the byte is `k`. */
  lemma CodeMatches(op: bv8, k: bv8)
    ensures (Code(op) == k as nat) == (op == k)
  {
  }

  function EdDispatch(s: State, io: Io): (o: Out)
    ensures o.t >= 4 && o.s.board.model == s.board.model
    ensures Sound(s.board) ==> Sound(o.s.board)
    ensures o.s.cpu.ctl.lastOpcode == s.cpu.ctl.lastOpcode && o.s.cpu.ctl.halted == s.cpu.ctl.halted
    ensures o.s.cpu.ctl.eiDelay == s.cpu.ctl.eiDelay
    ensures o.s.cpu.r == (if Imm8(s) == 0x4F then s.cpu.main.a else s.cpu.r)
  {
    CodeMatches(Imm8(s), 0x4F);
    EdPage.EdControl(Skip(s, 1), Code(Imm8(s)), io);
    EdPage.Ed(s, io)
  }

  function UnprefixedDispatch(s: State, op: bv8, io: Io): (o: Out)
    requires op != 0xCB && op != 0xED && op != 0xDD && op != 0xFD
    ensures o.t >= 4 && o.s.cpu.r == s.cpu.r && o.s.board.model == s.board.model
    ensures Sound(s.board) ==> Sound(o.s.board)
    ensures o.s.cpu.ctl.lastOpcode == s.cpu.ctl.lastOpcode
    ensures op != 0xF3 && op != 0xFB ==> o.s.cpu.ctl.eiDelay == s.cpu.ctl.eiDelay
    ensures op == 0xF3 ==> o.s.cpu.ctl == s.cpu.ctl.(iff1 := false, iff2 := false, eiDelay := false)
    ensures op == 0xFB ==> o.s.cpu.ctl == s.cpu.ctl.(eiDelay := true)
  {
    CodeMatches(op, 0xCB);
    CodeMatches(op, 0xED);
    CodeMatches(op, 0xDD);
    CodeMatches(op, 0xFD);
    CodeMatches(op, 0xF3);
    CodeMatches(op, 0xFB);
    Controls(s, Code(op), io);
    Base.Unprefixed(s, Code(op), io)
  }

  /** The unprefixed table never touches the saved opcode, and only DI and
      EI touch the pending enable. */
  lemma Controls(s: State, n: nat, io: Io)
    requires n < 256 && n != 0xCB && n != 0xED && n != 0xDD && n != 0xFD
    ensures Base.Unprefixed(s, n, io).s.cpu.ctl.lastOpcode == s.cpu.ctl.lastOpcode
    ensures n != 0xF3 && n != 0xFB ==> Base.Unprefixed(s, n, io).s.cpu.ctl.eiDelay == s.cpu.ctl.eiDelay
    ensures n == 0xF3 ==> Base.Unprefixed(s, n, io).s.cpu.ctl == s.cpu.ctl.(iff1 := false, iff2 := false, eiDelay := false)
    ensures n == 0xFB ==> Base.Unprefixed(s, n, io).s.cpu.ctl == s.cpu.ctl.(eiDelay := true)
  {
    if n == 0x76 {
      Base.Halt(s, io);
    } else if n == 0xF3 {
      Base.DisableInterrupts(s, io);
    } else if n == 0xFB {
      Base.EnableInterrupts(s, io);
    }
  }

  /** execute_one_core: a halted CPU only refreshes R for 4 T-states with PC
      left alone; otherwise the opcode is fetched (R refreshed, the byte
      saved) and dispatched. */
  function Core(s: State, io: Io): (o: Out)
    ensures o.t >= 4 && o.s.board.model == s.board.model
    ensures Sound(s.board) ==> Sound(o.s.board)
    ensures s.cpu.ctl.halted ==> o == Out(s.(cpu := s.cpu.(r := Refresh(s.cpu.r))), 4)
    ensures !s.cpu.ctl.halted ==> o == Execute(s, io)
  {
    if s.cpu.ctl.halted then Out(s.(cpu := s.cpu.(r := Refresh(s.cpu.r))), 4)
    else Execute(s, io)
  }

  /** An instruction from its fetch on: afterwards the saved opcode is its
      first byte, and R has advanced by exactly one refresh unless the
      instruction is LD R,A. */
  function Execute(s: State, io: Io): (o: Out)
    ensures o.t >= 4 && o.s.board.model == s.board.model
    ensures Sound(s.board) ==> Sound(o.s.board)
    ensures o.s.cpu.ctl.lastOpcode == Imm8(s)
    ensures o.s.cpu.r == (if LoadsR(s) then s.cpu.main.a else Refresh(s.cpu.r))
    ensures Imm8(s) != 0xF3 && Imm8(s) != 0xFB ==> o.s.cpu.ctl.eiDelay == s.cpu.ctl.eiDelay
    ensures Imm8(s) == 0xF3 ==>
              o.s.cpu.ctl == s.cpu.ctl.(lastOpcode := 0xF3, iff1 := false, iff2 := false, eiDelay := false)
    ensures Imm8(s) == 0xFB ==> o.s.cpu.ctl == s.cpu.ctl.(lastOpcode := 0xFB, eiDelay := true)
  {
    assert Imm8(Fetch(s)) == Rd(s, s.cpu.pc + 1);
    Dispatch(Fetch(s), Imm8(s), io)
  }

  // ---------------------------------------------------------------- execute_one

  /** The EI delay: a pending EI takes effect once an instruction other than
      EI itself has completed, setting both interrupt flip-flops. */
  function Settle(c: Control): (r: Control)
  {
    if c.eiDelay && c.lastOpcode != 0xFB then c.(iff1 := true, iff2 := true, eiDelay := false) else c
  }

  /** execute_one: the instruction, a first zero-length tape tick if the
      deck plays but has not started, the slices, and the EI delay. */
  function Step(m: Machine): (r: Stepped)
    requires Good(m)
    ensures Good(r.m) && r.t >= 4 && r.m.tapeAudio == m.tapeAudio
    ensures r.m.s.board.model == m.s.board.model
    ensures r.m.tape == Engine.Tick(m.tape, r.t)
    ensures r.m.audio.accum == Mixer.Phase(m.audio.accum, r.t)
    ensures Mixer.Extends(m.audio.samples, r.m.audio.samples, Mixer.Due(m.audio.accum, r.t))
    ensures r.m.s.cpu.r ==
              (if !m.s.cpu.ctl.halted && LoadsR(m.s) then m.s.cpu.main.a else Refresh(m.s.cpu.r))
  {
    Finish(m, Core(m.s, IoOf(m)))
  }

  /** What execute_one does once the instruction has run: the T-states go to
      the AY chip, the mixer and the tape, slice by slice, and the EI delay
      settles. The tape and the audio end as if ticked in one piece. */
  function Finish(m: Machine, o: Out): (r: Stepped)
    requires Good(m) && o.t >= 4 && Sound(o.s.board) && o.s.board.model == m.s.board.model
    ensures Good(r.m) && r.t == o.t && r.m.tapeAudio == m.tapeAudio
    ensures r.m.s.cpu == o.s.cpu.(ctl := Settle(o.s.cpu.ctl))
    ensures r.m.s.board == o.s.board.(ay := Ay.Tick(o.s.board.ay, o.s.board.model, o.t))
    ensures r.m.tape == Engine.Tick(m.tape, o.t)
    ensures r.m.audio.accum == Mixer.Phase(m.audio.accum, o.t)
    ensures Mixer.Extends(m.audio.samples, r.m.audio.samples, Mixer.Due(m.audio.accum, o.t))
  {
    var b := o.s.board;
    var sl := Timing.Slices(b.ay, b.model, b.ula.beeper, Timing.Prime(m.tape), m.audio, m.tapeAudio, o.t);
    Stepped(Machine(State(o.s.cpu.(ctl := Settle(o.s.cpu.ctl)), b.(ay := sl.ay)), sl.tape, sl.audio, m.tapeAudio), o.t)
  }

  // ---------------------------------------------------------------- the EI delay

  /** EI does not enable interrupts by itself: after the step that runs it
      IFF1 is what it was and the enable is pending, so an interrupt at the
      end of that step is refused when interrupts were off. */
  lemma {:induction false} EiWaits(m: Machine)
    requires Good(m) && !m.s.cpu.ctl.halted && Imm8(m.s) == 0xFB
    ensures Step(m).m.s.cpu.ctl.iff1 == m.s.cpu.ctl.iff1 && Step(m).m.s.cpu.ctl.eiDelay
    ensures !m.s.cpu.ctl.iff1 ==> Interrupt(Step(m).m.s).t == 0
  {
    assert Step(m) == Finish(m, Execute(m.s, IoOf(m)));
  }

  /** ... and the instruction after EI enables them: with an EI pending,
      any instruction but EI or DI ends with both flip-flops set and
      nothing pending. */
  lemma {:induction false} EiTakesEffect(m: Machine)
    requires Good(m) && !m.s.cpu.ctl.halted && m.s.cpu.ctl.eiDelay
    requires Imm8(m.s) != 0xFB && Imm8(m.s) != 0xF3
    ensures Step(m).m.s.cpu.ctl.iff1 && Step(m).m.s.cpu.ctl.iff2 && !Step(m).m.s.cpu.ctl.eiDelay
  {
    assert Step(m) == Finish(m, Execute(m.s, IoOf(m)));
  }

  /** DI cancels a pending EI: both flip-flops end clear. */
  lemma {:induction false} DiCancels(m: Machine)
    requires Good(m) && !m.s.cpu.ctl.halted && Imm8(m.s) == 0xF3
    ensures !Step(m).m.s.cpu.ctl.iff1 && !Step(m).m.s.cpu.ctl.iff2 && !Step(m).m.s.cpu.ctl.eiDelay
  {
    assert Step(m) == Finish(m, Execute(m.s, IoOf(m)));
  }

  // ---------------------------------------------------------------- zx_run_frame

  /** The interrupt point: scanline 64, 64 * 224 T-states into the frame. */
  const IntT: nat := 64 * 224

  /** One pass of the loop of zx_run_frame: a step, its T-states added to
      the frame counter, then the interrupt if the counter has reached the
      interrupt point and it has not fired yet; its T-states count too.
      The counter grows by at least four, and once it is at or past the
      interrupt point the interrupt has fired. */
  function Advance(m: Machine, fired: bool): (r: Framed)
    requires Good(m)
    ensures Good(r.m) && r.m.s.board.model == m.s.board.model && r.m.tapeAudio == m.tapeAudio
    ensures r.m.s.board.tstates >= m.s.board.tstates + 4
    ensures fired ==> r.fired
    ensures r.m.s.board.tstates >= IntT ==> r.fired
  {
    var st := Step(m);
    var m1 := st.m.(s := st.m.s.(board := st.m.s.board.(tstates := m.s.board.tstates + st.t)));
    if !fired && m1.s.board.tstates >= IntT then Framed(Raise(m1), true)
    else Framed(m1, fired)
  }

  /** The frame's interrupt, its T-states added to the frame counter; the
      deck and the audio do not see them. */
  function Raise(m: Machine): (r: Machine)
    requires Good(m)
    ensures Good(r) && r.s.board.model == m.s.board.model && r.tapeAudio == m.tapeAudio
    ensures r.s.board.tstates >= m.s.board.tstates
    ensures r.tape == m.tape && r.audio == m.audio
  {
    var o := Interrupt(m.s);
    m.(s := o.s.(board := o.s.board.(tstates := m.s.board.tstates + o.t)))
  }

  /** The loop of zx_run_frame: passes while the frame counter is below the
      frame length. Every pass takes at least four T-states, so the loop
      ends; it ends at or past the frame length, and the interrupt has
      fired if the counter started before the interrupt point or it had
      already fired. */
  function FrameLoop(m: Machine, fired: bool): (r: Framed)
    requires Good(m)
    ensures Good(r.m) && r.m.s.board.model == m.s.board.model && r.m.tapeAudio == m.tapeAudio
    ensures r.m.s.board.tstates >= FrameLength(m.s.board.model)
    ensures fired ==> r.fired
    ensures m.s.board.tstates < IntT ==> r.fired
    ensures m.s.board.tstates >= FrameLength(m.s.board.model) ==> r == Framed(m, fired)
    decreases FrameLength(m.s.board.model) - m.s.board.tstates
  {
    if m.s.board.tstates >= FrameLength(m.s.board.model) then Framed(m, fired)
    else
      var a := Advance(m, fired);
      FrameLoop(a.m, a.fired)
  }

  /** zx_run_frame: the counter, the dirty flag and the sample buffer start
      afresh, the border stripes start in the border colour while a tape
      plays, then the loop runs. The interrupt fires exactly once and the
      frame ends at or past its length. */
  function RunFrame(m: Machine): (r: Framed)
    requires Good(m)
    ensures Good(r.m) && r.fired && r.m.s.board.model == m.s.board.model
    ensures r.m.s.board.tstates >= FrameLength(m.s.board.model)
    ensures |r.m.audio.samples| <= Mixer.SamplesPerFrame
  {
    var b := m.s.board;
    var ula := b.ula.(dirty := false, lines := if m.tape.player.deck.active then seq(312, _ => b.ula.border) else b.ula.lines);
    var start := m.(s := m.s.(board := b.(tstates := 0, ula := ula)), audio := m.audio.(samples := []));
    FrameLoop(start, false)
  }

  // ---------------------------------------------------------------- zx_reset

  /** zx_reset on the CPU: PC 0, SP 0xFFFF, A and F 0xFF, interrupts off
      in mode 0, nothing pending, not halted; the other registers stay. */
  function ResetCpu(c: Cpu): (r: Cpu)
    ensures r.pc == 0 && r.sp == 0xFFFF && r.main.a == 0xFF && PackFlags(r.main.f) & 0x01 != 0
    ensures !r.ctl.iff1 && !r.ctl.iff2 && r.ctl.im == 0 && !r.ctl.eiDelay && !r.ctl.halted
    ensures r.main == c.main.(a := 0xFF, f := UnpackFlags(0xFF)) && r.alt == c.alt && r.ix == c.ix && r.iy == c.iy
    ensures r.i == c.i && r.r == c.r
  {
    c.(pc := 0, sp := 0xFFFF, main := c.main.(a := 0xFF, f := UnpackFlags(0xFF)),
       ctl := c.ctl.(iff1 := false, iff2 := false, im := 0, eiDelay := false, halted := false))
  }

  /** zx_reset on the deck: the blocks stay, playback is rewound and
      stopped, EAR reads high, and the deck counts as loaded when it holds
      blocks. */
  function ResetTape(t: Engine.Tape): (r: Engine.Tape)
    ensures Engine.Ok(r) && Timing.Primed(r) && r.blocks == t.blocks
    ensures !r.player.deck.active && !r.player.deck.playing && r.player.deck.loaded == (|t.blocks| > 0)
    ensures r.player.head.blockIdx == 0 && r.player.head.phase == Engine.Stop && r.player.head.ear
  {
    var p := Engine.Rewind(t.player);
    Engine.Tape(t.blocks, p.(deck := p.deck.(loaded := |t.blocks| > 0, playing := false, active := false, autostarted := false)))
  }

  /** zx_reset: CPU, board, deck and audio reset. Whatever state the
      machine was in, the reset machine is one every step accepts, provided
      the memory is of the machine's shape. */
  function Reset(m: Machine): (r: Machine)
    ensures Good(r) && r.s.board.model == m.s.board.model
    ensures r.s.cpu == ResetCpu(m.s.cpu) && r.s.board == Hw.Reset(m.s.board)
    ensures r.audio == Mixer.Audio(0, []) && r.tape == ResetTape(m.tape)
  {
    Machine(State(ResetCpu(m.s.cpu), Hw.Reset(m.s.board)), ResetTape(m.tape), Mixer.Audio(0, []), m.tapeAudio)
  }

  // ---------------------------------------------------------------- zx_new

  /** zx_new: everything zero (the CPU included, so PC 0 with interrupts
      off), the board of the chosen model, an empty rewound deck with EAR
      high, no audio and the tape monitor on. The new machine is one every
      step accepts. */
  function New(model: Model): (r: Machine)
    ensures Good(r) && r.s.board.model == model && r.tapeAudio
    ensures r.s.cpu.pc == 0 && !r.s.cpu.ctl.iff1 && !r.s.cpu.ctl.halted && r.s.board.tstates == 0
    ensures r.tape.blocks == [] && !r.tape.player.deck.active && r.tape.player.head.ear
    ensures r.audio == Mixer.Audio(0, [])
  {
    var zero := Regs(0, UnpackFlags(0), 0, 0, 0, 0, 0, 0);
    var cpu := Cpu(zero, zero, 0, 0, 0, 0, 0, 0, Control(false, false, 0, false, false, 0));
    Machine(State(cpu, Hw.New(model)), Engine.Empty(), Mixer.Audio(0, []), true)
  }
}

=== FILE: tape.dfy ===
/** The tape deck: a list of blocks played back as EAR pulses. Each block runs
    through the phases pilot, sync 1, sync 2, data (two pulses per bit, most
    significant bit first) and pause; `Run` consumes T-states across as many
    pulse boundaries as they cover. */
module Tape {
  import Alu

  /** A 16-bit unsigned field of a block. */
  type U16 = n: nat | n < 0x1_0000

  /** One parsed block: its bytes and its timing parameters in T-states. */
  datatype Block = Block(
    data: seq<bv8>,
    hasPilotSync: bool,
    isTurbo: bool,
    usedBitsLast: bv8,
    pauseDefined: bool,
    pauseMs: U16,
    pilotLen: U16,
    sync1Len: U16,
    sync2Len: U16,
    bit0Len: U16,
    bit1Len: U16,
    pilotPulses: U16,
    startLevelSet: bool,
    startLevel: bool)

  datatype Phase = Stop | Pilot | Sync1 | Sync2 | Data | Pause

  /** The playback position: block, byte and bit, the phase, whether the
      first pulse of the current bit is done, the T-states left in the
      current pulse or pause, the pilot pulses left and the EAR level. */
  datatype Head = Head(
    blockIdx: nat,
    byteIdx: nat,
    bitIdx: nat,
    phase: Phase,
    pulseInBit: bool,
    rem: int,
    pilotRem: int,
    ear: bool)

  /** The deck's switches; `active` caches `loaded && playing`. */
  datatype Deck = Deck(loaded: bool, playing: bool, active: bool, autostarted: bool)

  /** What playback changes: the switches and the head. */
  datatype Player = Player(deck: Deck, head: Head)

  datatype Tape = Tape(blocks: seq<Block>, player: Player)

  /** The default pilot pulse counts of the ROM loader's header and data blocks. */
  const HeaderPilotPulses: int := 8063
  const DataPilotPulses: int := 3223

  /** T-states per millisecond of pause (3.5 MHz clock). */
  const TstatesPerMs: int := 3500

  /** A block parameter, or its standard value when the block leaves it zero. */
  function OrDefault(v: U16, d: nat): (r: nat)
    ensures v == 0 ==> r == d
    ensures v != 0 ==> r == v
  {
    if v == 0 then d else v
  }

  /** A pulse phase: the EAR line is toggled at the end of each of its pulses. */
  predicate IsPulse(p: Phase)
  {
    p == Pilot || p == Sync1 || p == Sync2 || p == Data
  }

  /** The deck after playback stops by itself. */
  function Stopped(d: Deck): (r: Deck)
    ensures !r.active && !r.playing && r.loaded == d.loaded && r.autostarted == d.autostarted
  {
    d.(playing := false, active := false)
  }

  // ---------------------------------------------------------------- positions

  /** The number of bits played from the last byte, as the source computes it:
      zero means eight, any other value is taken as it stands. */
  function UsedBitsAsWritten(b: Block): nat
  {
    if b.usedBitsLast == 0 then 8 else b.usedBitsLast as nat
  }

  /** The number of bits played from the last byte, limited to the 1..8 the
      block format allows: zero and values above eight mean eight. */
  function UsedBits(b: Block): (n: nat)
    ensures 1 <= n <= 8
    ensures b.usedBitsLast <= 8 ==> n == UsedBitsAsWritten(b)
  {
    if b.usedBitsLast == 0 || b.usedBitsLast > 8 then 8 else b.usedBitsLast as nat
  }

  /** tape_block_at_end for a block, given the bit count of its last byte. */
  predicate AtEndWith(b: Block, used: nat, byteIdx: nat, bitIdx: nat)
  {
    |b.data| == 0 || byteIdx > |b.data| - 1 || (byteIdx == |b.data| - 1 && bitIdx >= used)
  }

  /** A bit position inside a block: at most one past the last byte, and the
      bit index below 8 except at the very end. */
  predicate PosOk(b: Block, byteIdx: nat, bitIdx: nat)
  {
    byteIdx <= |b.data| && bitIdx <= 8 && (byteIdx + 1 < |b.data| ==> bitIdx < 8)
  }

  predicate Positioned(blocks: seq<Block>, h: Head)
  {
    h.blockIdx < |blocks| ==> PosOk(blocks[h.blockIdx], h.byteIdx, h.bitIdx)
  }

  /** The invariant of the playback position: a playing phase has a block, a
      pause has a non-negative remainder, pilot and sync come before the first
      bit of a non-empty block, and data has a byte under the head. */
  predicate Valid(blocks: seq<Block>, h: Head)
  {
    h.blockIdx <= |blocks| &&
    (h.phase != Stop ==> h.blockIdx < |blocks|) &&
    (h.phase == Pause ==> h.rem >= 0) &&
    Positioned(blocks, h) &&
    (h.phase == Pilot || h.phase == Sync1 || h.phase == Sync2 ==>
       h.byteIdx == 0 && h.bitIdx == 0 && |blocks[h.blockIdx].data| > 0) &&
    (h.phase == Data ==> h.byteIdx < |blocks[h.blockIdx].data|)
  }

  /** tape_block_at_end: past the last block, or past the last bit of the block. */
  predicate AtEnd(blocks: seq<Block>, h: Head)
  {
    h.blockIdx >= |blocks| ||
    AtEndWith(blocks[h.blockIdx], UsedBits(blocks[h.blockIdx]), h.byteIdx, h.bitIdx)
  }

  /** A position that is not at the end names a bit of a byte of the block. */
  lemma {:induction false} InsideBlock(blocks: seq<Block>, h: Head)
    requires Positioned(blocks, h) && !AtEnd(blocks, h)
    ensures h.byteIdx < |blocks[h.blockIdx].data| && h.bitIdx < 8
  {
    var b := blocks[h.blockIdx];
    assert h.byteIdx <= |b.data| - 1;
    if h.byteIdx == |b.data| - 1 {
      assert h.bitIdx < UsedBits(b);
    }
  }

  /** tape_current_bit: the bit under the head, most significant first; 0 at the end. */
  function CurrentBit(blocks: seq<Block>, h: Head): (bit: bool)
    requires Positioned(blocks, h)
    ensures AtEnd(blocks, h) ==> !bit
    ensures !AtEnd(blocks, h) ==>
              (h.bitIdx < 8 && h.byteIdx < |blocks[h.blockIdx].data| &&
               bit == Alu.Bit(blocks[h.blockIdx].data[h.byteIdx], 7 - h.bitIdx))
  {
    if AtEnd(blocks, h) then false
    else
      InsideBlock(blocks, h);
      Alu.Bit(blocks[h.blockIdx].data[h.byteIdx], 7 - h.bitIdx)
  }

  /** The length of each of the two pulses of a data bit. */
  function BitPulse(b: Block, bit: bool): (len: nat)
    ensures len > 0
    ensures bit ==> len == OrDefault(b.bit1Len, 1710)
    ensures !bit ==> len == OrDefault(b.bit0Len, 855)
  {
    if bit then OrDefault(b.bit1Len, 1710) else OrDefault(b.bit0Len, 855)
  }

  // ---------------------------------------------------------------- as written

  /** The end test as written counts a last-byte bit count above 8 as it
      stands, so it lets through a position whose shift count `7 - bit_idx`
      is negative: a one-byte block with bit count 9 (a value the TZX loader
      keeps) is not at its end at bit 8. With the count limited to 8 that
      position is the end of the block. */
  lemma UsedBitsCounterexample(b: Block)
    requires |b.data| == 1 && b.usedBitsLast == 9
    ensures !AtEndWith(b, UsedBitsAsWritten(b), 0, 8) && 7 - 8 < 0
    ensures AtEndWith(b, UsedBits(b), 0, 8)
  {
  }

  /** The correction matters only for a count above 8: for every block whose
      count is in the 0..8 the TZX format allows (and for every TAP block),
      the end test is tape_block_at_end as written. */
  lemma AtEndAsWritten(blocks: seq<Block>, h: Head)
    requires h.blockIdx < |blocks| ==> blocks[h.blockIdx].usedBitsLast <= 8
    ensures AtEnd(blocks, h) <==>
              h.blockIdx >= |blocks| ||
              AtEndWith(blocks[h.blockIdx], UsedBitsAsWritten(blocks[h.blockIdx]), h.byteIdx, h.bitIdx)
  {
  }

  /** With the corrected count, every position before the end has a bit index
      a shift can use. */
  lemma {:induction false} UsedBitsIntended(b: Block, byteIdx: nat, bitIdx: nat)
    requires PosOk(b, byteIdx, bitIdx) && !AtEndWith(b, UsedBits(b), byteIdx, bitIdx)
    ensures 0 <= 7 - bitIdx <= 7 && byteIdx < |b.data|
  {
    assert byteIdx <= |b.data| - 1;
    if byteIdx == |b.data| - 1 {
      assert bitIdx < UsedBits(b);
    }
  }

  // ---------------------------------------------------------------- start

  /** The pilot pulses a block with pilot and sync starts with: the block's own
      count for turbo blocks, otherwise 8063 for a header (flag byte below
      0x80) and 3223 for data. */
  function PilotCount(b: Block): (n: int)
    requires |b.data| > 0
    ensures !b.isTurbo ==> (n == HeaderPilotPulses <==> b.data[0] < 0x80)
    ensures !b.isTurbo ==> (n == DataPilotPulses <==> b.data[0] >= 0x80)
    ensures b.isTurbo ==> n == b.pilotPulses
  {
    if b.isTurbo then b.pilotPulses else if b.data[0] < 0x80 then HeaderPilotPulses else DataPilotPulses
  }

  /** The head at the first bit of the current block, EAR at the block's start
      level (high unless the block sets one). */
  function Rewound(h: Head, b: Block): (r: Head)
    ensures r.blockIdx == h.blockIdx && r.byteIdx == 0 && r.bitIdx == 0 && !r.pulseInBit
    ensures r.ear == (!b.startLevelSet || b.startLevel)
  {
    h.(byteIdx := 0, bitIdx := 0, pulseInBit := false, ear := if b.startLevelSet then b.startLevel else true)
  }

  /** The head of tape_start_block once it is at the block's first bit: an
      empty block with a pause is a pause with EAR low; an empty block without
      one stops with EAR high; a block without pilot goes straight to data;
      otherwise the pilot tone starts, or sync 1 when the pilot count is zero. */
  function StartIn(blocks: seq<Block>, h: Head): (r: Head)
    requires h.blockIdx < |blocks| && h.byteIdx == 0 && h.bitIdx == 0
    ensures Valid(blocks, r) && r.blockIdx == h.blockIdx
    ensures r.phase == Stop <==> |blocks[h.blockIdx].data| == 0 && blocks[h.blockIdx].pauseMs == 0
    ensures r.phase == Stop ==> r.ear
    ensures r.phase == Pause <==> |blocks[h.blockIdx].data| == 0 && blocks[h.blockIdx].pauseMs > 0
    ensures r.phase == Pause ==> !r.ear && r.rem == blocks[h.blockIdx].pauseMs * TstatesPerMs
  {
    var b := blocks[h.blockIdx];
    if |b.data| == 0 && b.pauseMs > 0 then
      h.(phase := Pause, ear := false, rem := b.pauseMs * TstatesPerMs)
    else if |b.data| == 0 then
      h.(phase := Stop, ear := true)
    else if !b.hasPilotSync then
      h.(phase := Data, pulseInBit := false, rem := BitPulse(b, CurrentBit(blocks, h)))
    else if PilotCount(b) <= 0 then
      h.(pilotRem := PilotCount(b), phase := Sync1, rem := OrDefault(b.sync1Len, 667))
    else
      h.(pilotRem := PilotCount(b), phase := Pilot, rem := OrDefault(b.pilotLen, 2168))
  }

  /** The head of tape_start_block: past the last block it stops with EAR high. */
  function StartHead(blocks: seq<Block>, h: Head): (r: Head)
    ensures r.blockIdx == h.blockIdx
    ensures h.blockIdx <= |blocks| ==> Valid(blocks, r)
    ensures h.blockIdx >= |blocks| ==> r.phase == Stop && r.ear
  {
    if h.blockIdx >= |blocks| then h.(phase := Stop, ear := true)
    else StartIn(blocks, Rewound(h, blocks[h.blockIdx]))
  }

  /** tape_start_block: start the current block; when that stops the deck
      (past the last block, or an empty block without pause) playback is
      switched off. */
  function StartBlock(blocks: seq<Block>, p: Player): (r: Player)
    ensures r.head == StartHead(blocks, p.head)
    ensures r.head.phase == Stop ==> r.deck == Stopped(p.deck)
    ensures r.head.phase != Stop ==> r.deck == p.deck
  {
    if StartHead(blocks, p.head).phase == Stop then Player(Stopped(p.deck), StartHead(blocks, p.head))
    else p.(head := StartHead(blocks, p.head))
  }

  /** A stop is a fixed point of starting the block again. */
  lemma StopIsFixed(blocks: seq<Block>, p: Player)
    requires StartBlock(blocks, p).head.phase == Stop
    ensures StartBlock(blocks, StartBlock(blocks, p)) == StartBlock(blocks, p)
  {
  }

  // ---------------------------------------------------------------- pulses

  /** The bit position after the second pulse of a bit: the next bit, the next
      byte after bit 7, and one past the last byte once its used bits are played. */
  function NextBit(b: Block, byteIdx: nat, bitIdx: nat): (p: (nat, nat))
    requires byteIdx < |b.data| && PosOk(b, byteIdx, bitIdx)
    ensures PosOk(b, p.0, p.1)
    ensures p.0 == byteIdx || p.0 == byteIdx + 1
    ensures p.0 == byteIdx ==> p.1 == bitIdx + 1
  {
    if byteIdx == |b.data| - 1 then
      (if bitIdx + 1 >= UsedBits(b) then (byteIdx + 1, UsedBits(b)) else (byteIdx, bitIdx + 1))
    else
      (if bitIdx + 1 >= 8 then (byteIdx + 1, 0) else (byteIdx, bitIdx + 1))
  }

  /** The pause after the last pulse of a block: a defined pause of `pauseMs`
      (EAR low if it is nonzero), or for TAP blocks EAR low and a short gap,
      one second after the final block. */
  function EnterPause(count: nat, h: Head, b: Block): (r: Head)
    ensures r.phase == Pause && r.rem >= 0
    ensures r.blockIdx == h.blockIdx && r.byteIdx == h.byteIdx && r.bitIdx == h.bitIdx
    ensures b.pauseDefined ==> r.rem == b.pauseMs * TstatesPerMs
    ensures b.pauseDefined ==> (r.ear <==> b.pauseMs == 0 && h.ear)
    ensures !b.pauseDefined ==> !r.ear && (r.rem == 200000 <==> h.blockIdx + 1 < count)
    ensures !b.pauseDefined && h.blockIdx + 1 >= count ==> r.rem == 3500000
  {
    if b.pauseDefined then
      h.(phase := Pause, ear := if b.pauseMs > 0 then false else h.ear, rem := b.pauseMs * TstatesPerMs)
    else
      h.(phase := Pause, ear := false, rem := if h.blockIdx + 1 < count then 200000 else 3500000)
  }

  /** The end of a pilot pulse: one fewer left, and sync 1 once none are. */
  function AfterPilot(b: Block, h: Head): (r: Head)
    ensures r.pilotRem == h.pilotRem - 1
    ensures r.phase == (if h.pilotRem - 1 <= 0 then Sync1 else h.phase)
    ensures r == h.(pilotRem := r.pilotRem, phase := r.phase, rem := r.rem) && r.rem > 0
  {
    if h.pilotRem - 1 <= 0 then h.(pilotRem := h.pilotRem - 1, phase := Sync1, rem := OrDefault(b.sync1Len, 667))
    else h.(pilotRem := h.pilotRem - 1, rem := OrDefault(b.pilotLen, 2168))
  }

  /** The end of the second pulse of a bit: on to the next bit, or into the
      pause once the block's last bit is sent. */
  function AfterBit(blocks: seq<Block>, h: Head): (r: Head)
    requires Valid(blocks, h) && h.phase == Data
    ensures Valid(blocks, r) && r.blockIdx == h.blockIdx && !r.pulseInBit
    ensures r.phase == Data || r.phase == Pause
    ensures r.phase == Data ==> r.ear == h.ear && r.rem > 0
  {
    if NextBit(blocks[h.blockIdx], h.byteIdx, h.bitIdx).0 >= |blocks[h.blockIdx].data| then
      EnterPause(|blocks|, h.(pulseInBit := false, byteIdx := NextBit(blocks[h.blockIdx], h.byteIdx, h.bitIdx).0,
                              bitIdx := NextBit(blocks[h.blockIdx], h.byteIdx, h.bitIdx).1), blocks[h.blockIdx])
    else
      AtNextBit(blocks, h, NextBit(blocks[h.blockIdx], h.byteIdx, h.bitIdx))
  }

  /** The first pulse of the bit at position `p`. */
  function AtNextBit(blocks: seq<Block>, h: Head, p: (nat, nat)): (r: Head)
    requires Valid(blocks, h) && h.phase == Data
    requires p.0 < |blocks[h.blockIdx].data| && PosOk(blocks[h.blockIdx], p.0, p.1)
    ensures Valid(blocks, r) && r.blockIdx == h.blockIdx && r.phase == Data && !r.pulseInBit
    ensures r.ear == h.ear && r.rem > 0 && r.byteIdx == p.0 && r.bitIdx == p.1
  {
    h.(pulseInBit := false, byteIdx := p.0, bitIdx := p.1,
       rem := BitPulse(blocks[h.blockIdx], CurrentBit(blocks, h.(byteIdx := p.0, bitIdx := p.1))))
  }

  /** tape_advance_after_pulse: what follows the pulse that just ended. */
  function Advance(blocks: seq<Block>, h: Head): (r: Head)
    requires Valid(blocks, h) && IsPulse(h.phase)
    ensures Valid(blocks, r) && r.phase != Stop && r.blockIdx == h.blockIdx
    ensures r.phase != Pause ==> r.ear == h.ear && r.rem > 0
  {
    match h.phase
    case Pilot => AfterPilot(blocks[h.blockIdx], h)
    case Sync1 => h.(phase := Sync2, rem := OrDefault(blocks[h.blockIdx].sync2Len, 735))
    case Sync2 => h.(phase := Data, pulseInBit := false, rem := BitPulse(blocks[h.blockIdx], CurrentBit(blocks, h)))
    case Data =>
      if !h.pulseInBit then h.(pulseInBit := true, rem := BitPulse(blocks[h.blockIdx], CurrentBit(blocks, h)))
      else AfterBit(blocks, h)
  }

  /** Every bit is sent as two pulses of the same length: the first pulse of a
      bit is followed by the second, at the same position. */
  lemma TwoPulsesPerBit(blocks: seq<Block>, h: Head)
    requires Valid(blocks, h) && h.phase == Data && !h.pulseInBit
    ensures Advance(blocks, h).phase == Data && Advance(blocks, h).pulseInBit
    ensures Advance(blocks, h).byteIdx == h.byteIdx && Advance(blocks, h).bitIdx == h.bitIdx
    ensures Advance(blocks, h).rem == BitPulse(blocks[h.blockIdx], CurrentBit(blocks, h))
  {
  }

  /** The pilot tone ends into sync 1 exactly when its count runs out. */
  lemma PilotEnds(blocks: seq<Block>, h: Head)
    requires Valid(blocks, h) && h.phase == Pilot
    ensures Advance(blocks, h).pilotRem == h.pilotRem - 1
    ensures Advance(blocks, h).phase == Sync1 <==> h.pilotRem <= 1
    ensures Advance(blocks, h).phase == Pilot <==> h.pilotRem > 1
  {
  }

  // ---------------------------------------------------------------- tick

  /** The length of the current pulse as tape_tick uses it (a non-positive
      remainder is recovered as one T-state). */
  function PulseLeft(h: Head): (n: int)
    ensures n >= 1
    ensures h.rem >= 1 ==> n == h.rem
  {
    if h.rem <= 0 then 1 else h.rem
  }

  /** The player after a pulse ends: EAR toggles and the head advances. */
  function Edge(blocks: seq<Block>, p: Player): (r: Player)
    requires Valid(blocks, p.head) && IsPulse(p.head.phase)
    ensures Valid(blocks, r.head) && r.deck == p.deck
    ensures r.head.blockIdx == p.head.blockIdx && r.head.phase != Stop
    ensures r.head.phase != Pause ==> r.head.ear == !p.head.ear
  {
    p.(head := Advance(blocks, p.head.(rem := 0, ear := !p.head.ear)))
  }

  /** The player after a pause ends: on to the next block. */
  function NextBlock(blocks: seq<Block>, p: Player): (r: Player)
    requires Valid(blocks, p.head) && p.head.phase == Pause
    ensures Valid(blocks, r.head) && r.head.blockIdx == p.head.blockIdx + 1
    ensures r == StartBlock(blocks, p.(head := p.head.(rem := 0, blockIdx := p.head.blockIdx + 1)))
  {
    StartBlock(blocks, p.(head := p.head.(rem := 0, blockIdx := p.head.blockIdx + 1)))
  }

  /** The deck either keeps its switches or was stopped by a block start. */
  predicate DeckFollows(p: Player, r: Player)
  {
    r.deck == p.deck || r.deck == Stopped(p.deck)
  }

  /** The loop of tape_tick: consume `n` T-states, crossing every pulse and
      pause boundary they reach. */
  function Run(blocks: seq<Block>, p: Player, n: int): (r: Player)
    requires Valid(blocks, p.head)
    ensures Valid(blocks, r.head) && DeckFollows(p, r)
    ensures n <= 0 ==> r == p
    decreases n, |blocks| - p.head.blockIdx, if p.head.phase == Stop then 1 else 0, 1
  {
    if n <= 0 then p else Loop(blocks, p, n)
  }

  /** One pass of the loop body with T-states left, then the rest of the loop.
      A stopped deck starts its block first and gives up if that leaves it
      stopped; a pause or pulse longer than what is left is shortened;
      otherwise the pause ends or the pulse ends with an edge. */
  function Loop(blocks: seq<Block>, p: Player, n: int): (r: Player)
    requires Valid(blocks, p.head) && n > 0
    ensures Valid(blocks, r.head) && DeckFollows(p, r)
    decreases n, |blocks| - p.head.blockIdx, if p.head.phase == Stop then 1 else 0, 0
  {
    if p.head.phase == Stop then
      if StartBlock(blocks, p).head.phase == Stop then StartBlock(blocks, p) else Run(blocks, StartBlock(blocks, p), n)
    else if p.head.phase == Pause then
      if n < p.head.rem then p.(head := p.head.(rem := p.head.rem - n))
      else Run(blocks, NextBlock(blocks, p), n - p.head.rem)
    else
      if n < PulseLeft(p.head) then p.(head := p.head.(rem := PulseLeft(p.head) - n))
      else Run(blocks, Edge(blocks, p), n - PulseLeft(p.head))
  }

  /** The player a tick runs on: the first tick after play starts the current
      block if the deck is stopped. */
  function Autostart(blocks: seq<Block>, p: Player): (r: Player)
    requires Valid(blocks, p.head)
    ensures Valid(blocks, r.head) && r.deck.autostarted && r.deck.loaded == p.deck.loaded
    ensures p.deck.active ==> r.deck.active || StartBlock(blocks, r) == r
    ensures p.deck.autostarted ==> r == p
  {
    if p.deck.autostarted then p
    else if p.head.phase == Stop then StartBlock(blocks, p.(deck := p.deck.(autostarted := true)))
    else p.(deck := p.deck.(autostarted := true))
  }

  /** tape_tick: nothing happens unless the tape is active. */
  function TickPlayer(blocks: seq<Block>, p: Player, n: int): (r: Player)
    requires Valid(blocks, p.head)
    ensures Valid(blocks, r.head)
    ensures !p.deck.active ==> r == p
    ensures p.deck.active ==> r.deck.autostarted
  {
    if !p.deck.active then p else Run(blocks, Autostart(blocks, p), n)
  }

  /** The tape is well formed when its head is. */
  predicate Ok(t: Tape)
  {
    Valid(t.blocks, t.player.head)
  }

  /** tape_tick on the whole deck: the blocks never change. */
  function Tick(t: Tape, n: int): (r: Tape)
    requires Ok(t)
    ensures Ok(r) && r.blocks == t.blocks
    ensures !t.player.deck.active ==> r == t
  {
    Tape(t.blocks, TickPlayer(t.blocks, t.player, n))
  }

  /** A stopped deck whose block does not start stays as the start left it. */
  lemma RunStalls(blocks: seq<Block>, p: Player, n: int)
    requires Valid(blocks, p.head) && n > 0 && p.head.phase == Stop && StartBlock(blocks, p).head.phase == Stop
    ensures Run(blocks, p, n) == StartBlock(blocks, p)
  {
    assert Run(blocks, p, n) == Loop(blocks, p, n);
  }

  /** A stopped deck whose block starts goes on with all the T-states. */
  lemma RunStarts(blocks: seq<Block>, p: Player, n: int)
    requires Valid(blocks, p.head) && n > 0 && p.head.phase == Stop && StartBlock(blocks, p).head.phase != Stop
    ensures Run(blocks, p, n) == Run(blocks, StartBlock(blocks, p), n)
  {
    assert Run(blocks, p, n) == Loop(blocks, p, n);
  }

  /** Inside a pause only the time left shrinks. */
  lemma RunWithinPause(blocks: seq<Block>, p: Player, n: int)
    requires Valid(blocks, p.head) && p.head.phase == Pause && 0 < n < p.head.rem
    ensures Run(blocks, p, n) == p.(head := p.head.(rem := p.head.rem - n))
  {
    assert Run(blocks, p, n) == Loop(blocks, p, n);
  }

  /** At the end of a pause the next block starts with what is left. */
  lemma RunPauseEnds(blocks: seq<Block>, p: Player, n: int)
    requires Valid(blocks, p.head) && p.head.phase == Pause && 0 < n && p.head.rem <= n
    ensures Run(blocks, p, n) == Run(blocks, NextBlock(blocks, p), n - p.head.rem)
  {
    assert Run(blocks, p, n) == Loop(blocks, p, n);
  }

  /** Inside a pulse no edge happens: only the time left shrinks. */
  lemma RunWithinPulse(blocks: seq<Block>, p: Player, n: int)
    requires Valid(blocks, p.head) && IsPulse(p.head.phase) && 0 < n < PulseLeft(p.head)
    ensures Run(blocks, p, n) == p.(head := p.head.(rem := PulseLeft(p.head) - n))
    ensures Run(blocks, p, n).head.ear == p.head.ear
  {
    assert Run(blocks, p, n) == Loop(blocks, p, n);
  }

  /** At the end of a pulse EAR toggles and the head advances. */
  lemma RunEdge(blocks: seq<Block>, p: Player, n: int)
    requires Valid(blocks, p.head) && IsPulse(p.head.phase) && n >= PulseLeft(p.head)
    ensures Run(blocks, p, n) == Run(blocks, Edge(blocks, p), n - PulseLeft(p.head))
  {
    assert Run(blocks, p, n) == Loop(blocks, p, n);
  }

  /** Reaching the end of a pulse toggles EAR once; when the T-states end
      inside the next pulse, its length is reduced by what is left. */
  lemma {:induction false} RunOneEdge(blocks: seq<Block>, p: Player, n: int)
    requires Valid(blocks, p.head) && IsPulse(p.head.phase) && n >= PulseLeft(p.head)
    requires IsPulse(Edge(blocks, p).head.phase) && n - PulseLeft(p.head) < PulseLeft(Edge(blocks, p).head)
    ensures Run(blocks, p, n).head.ear == !p.head.ear
    ensures n > PulseLeft(p.head) ==>
              Run(blocks, p, n).head.rem == Edge(blocks, p).head.rem - (n - PulseLeft(p.head))
  {
    RunEdge(blocks, p, n);
    if n > PulseLeft(p.head) {
      RunWithinPulse(blocks, Edge(blocks, p), n - PulseLeft(p.head));
    }
  }

  /** Consuming T-states in two pieces is consuming them at once: the loop
      picks up exactly where it left off. */
  lemma {:induction false} RunSplits(blocks: seq<Block>, p: Player, a: int, b: int)
    requires Valid(blocks, p.head) && a >= 0 && b >= 0
    ensures Run(blocks, Run(blocks, p, a), b) == Run(blocks, p, a + b)
    decreases a, |blocks| - p.head.blockIdx, if p.head.phase == Stop then 1 else 0, 1
  {
    if a == 0 {
    } else if b == 0 {
    } else if p.head.phase == Stop {
      StartSplits(blocks, p, a, b);
    } else if p.head.phase == Pause {
      if a >= p.head.rem {
        PauseEndSplits(blocks, p, a, b);
      } else {
        PauseSplits(blocks, p, a, b);
      }
    } else if a >= PulseLeft(p.head) {
      EdgeSplits(blocks, p, a, b);
    } else {
      PulseSplits(blocks, p, a, b);
    }
  }

  /** A split of a run that starts at a stopped deck. */
  lemma {:induction false} StartSplits(blocks: seq<Block>, p: Player, a: int, b: int)
    requires Valid(blocks, p.head) && a > 0 && b > 0 && p.head.phase == Stop
    ensures Run(blocks, Run(blocks, p, a), b) == Run(blocks, p, a + b)
    decreases a, |blocks| - p.head.blockIdx, 1, 0
  {
    if StartBlock(blocks, p).head.phase == Stop {
      RunStalls(blocks, p, a);
      RunStalls(blocks, p, a + b);
      StopIsFixed(blocks, p);
      RunStalls(blocks, StartBlock(blocks, p), b);
    } else {
      RunStarts(blocks, p, a);
      RunStarts(blocks, p, a + b);
      RunSplits(blocks, StartBlock(blocks, p), a, b);
    }
  }

  /** A split of a run whose first piece outlasts the pause. */
  lemma {:induction false} PauseEndSplits(blocks: seq<Block>, p: Player, a: int, b: int)
    requires Valid(blocks, p.head) && b > 0 && p.head.phase == Pause && 0 < a && p.head.rem <= a
    ensures Run(blocks, Run(blocks, p, a), b) == Run(blocks, p, a + b)
    decreases a, |blocks| - p.head.blockIdx, 0, 0
  {
    var q, m := NextBlock(blocks, p), a - p.head.rem;
    calc {
      Run(blocks, Run(blocks, p, a), b);
      { RunPauseEnds(blocks, p, a); }
      Run(blocks, Run(blocks, q, m), b);
      { RunSplits(blocks, q, m, b); }
      Run(blocks, q, m + b);
      { RunPauseEnds(blocks, p, a + b); }
      Run(blocks, p, a + b);
    }
  }

  /** A split of a run whose first piece outlasts the pulse. */
  lemma {:induction false} EdgeSplits(blocks: seq<Block>, p: Player, a: int, b: int)
    requires Valid(blocks, p.head) && b > 0 && IsPulse(p.head.phase) && a >= PulseLeft(p.head)
    ensures Run(blocks, Run(blocks, p, a), b) == Run(blocks, p, a + b)
    decreases a, |blocks| - p.head.blockIdx, 0, 0
  {
    var q, m := Edge(blocks, p), a - PulseLeft(p.head);
    calc {
      Run(blocks, Run(blocks, p, a), b);
      { RunEdge(blocks, p, a); }
      Run(blocks, Run(blocks, q, m), b);
      { RunSplits(blocks, q, m, b); }
      Run(blocks, q, m + b);
      { RunEdge(blocks, p, a + b); }
      Run(blocks, p, a + b);
    }
  }

  /** A split inside a pause: the second piece starts with the pause shortened. */
  lemma {:induction false} PauseSplits(blocks: seq<Block>, p: Player, a: int, b: int)
    requires Valid(blocks, p.head) && p.head.phase == Pause && 0 < a < p.head.rem && b > 0
    ensures Run(blocks, Run(blocks, p, a), b) == Run(blocks, p, a + b)
  {
    var p1 := p.(head := p.head.(rem := p.head.rem - a));
    RunWithinPause(blocks, p, a);
    if a + b < p.head.rem {
      RunWithinPause(blocks, p, a + b);
      RunWithinPause(blocks, p1, b);
    } else {
      RunPauseEnds(blocks, p, a + b);
      RunPauseEnds(blocks, p1, b);
      assert NextBlock(blocks, p1) == NextBlock(blocks, p);
    }
  }

  /** A split inside a pulse: the second piece starts with the pulse shortened. */
  lemma {:induction false} PulseSplits(blocks: seq<Block>, p: Player, a: int, b: int)
    requires Valid(blocks, p.head) && IsPulse(p.head.phase) && 0 < a < PulseLeft(p.head) && b > 0
    ensures Run(blocks, Run(blocks, p, a), b) == Run(blocks, p, a + b)
  {
    var p1 := p.(head := p.head.(rem := PulseLeft(p.head) - a));
    RunWithinPulse(blocks, p, a);
    if a + b < PulseLeft(p.head) {
      RunWithinPulse(blocks, p, a + b);
      RunWithinPulse(blocks, p1, b);
    } else {
      RunEdge(blocks, p, a + b);
      RunEdge(blocks, p1, b);
      assert Edge(blocks, p1) == Edge(blocks, p);
    }
  }

  /** A run that switches an active deck off ends stopped, at a point where
      starting the block again changes nothing. */
  lemma {:induction false} StoppedIsFixed(blocks: seq<Block>, p: Player, a: int)
    requires Valid(blocks, p.head) && a > 0 && p.deck.active && !Run(blocks, p, a).deck.active
    ensures Run(blocks, p, a).head.phase == Stop
    ensures StartBlock(blocks, Run(blocks, p, a)) == Run(blocks, p, a)
    decreases a, |blocks| - p.head.blockIdx, if p.head.phase == Stop then 1 else 0
  {
    if p.head.phase == Stop {
      if StartBlock(blocks, p).head.phase == Stop {
        RunStalls(blocks, p, a);
        StopIsFixed(blocks, p);
      } else {
        RunStarts(blocks, p, a);
        StoppedIsFixed(blocks, StartBlock(blocks, p), a);
      }
    } else if p.head.phase == Pause {
      if a < p.head.rem {
        RunWithinPause(blocks, p, a);
      } else {
        RunPauseEnds(blocks, p, a);
        var q := NextBlock(blocks, p);
        if q.deck.active {
          if a - p.head.rem > 0 {
            StoppedIsFixed(blocks, q, a - p.head.rem);
          }
        } else {
          StopIsFixed(blocks, p.(head := p.head.(rem := 0, blockIdx := p.head.blockIdx + 1)));
          if a - p.head.rem > 0 {
            RunStalls(blocks, q, a - p.head.rem);
          }
        }
      }
    } else if a < PulseLeft(p.head) {
      RunWithinPulse(blocks, p, a);
    } else {
      RunEdge(blocks, p, a);
      if a > PulseLeft(p.head) {
        StoppedIsFixed(blocks, Edge(blocks, p), a - PulseLeft(p.head));
      }
    }
  }

  /** tape_tick in pieces is tape_tick at once: running the machine in
      shorter slices does not change what the tape plays. */
  lemma {:induction false} TickSplits(t: Tape, a: int, b: int)
    requires Ok(t) && a >= 0 && b >= 0
    ensures Tick(Tick(t, a), b) == Tick(t, a + b)
  {
    var blocks := t.blocks;
    var p := t.player;
    if p.deck.active {
      var u := Autostart(blocks, p);
      RunSplits(blocks, u, a, b);
      var r := Run(blocks, u, a);
      if !u.deck.active {
        assert StartBlock(blocks, u) == u && u.head.phase == Stop;
        if b > 0 {
          RunStalls(blocks, u, a + b);
        }
        if a > 0 {
          RunStalls(blocks, u, a);
        }
      } else if !r.deck.active {
        if a > 0 && b > 0 {
          StoppedIsFixed(blocks, u, a);
          RunStalls(blocks, r, b);
        }
      }
    }
  }

  // ---------------------------------------------------------------- deck control

  /** tape_rewind: back to the first block, stopped, EAR high. */
  function Rewind(p: Player): (r: Player)
    ensures r.head.blockIdx == 0 && r.head.phase == Stop && r.head.ear
    ensures r.deck == p.deck.(autostarted := false)
    ensures forall blocks: seq<Block> :: Valid(blocks, r.head)
  {
    Player(p.deck.(autostarted := false), Head(0, 0, 0, Stop, false, 0, 0, true))
  }

  /** The deck of a new machine: no blocks, rewound. */
  function Empty(): (r: Tape)
    ensures Ok(r) && r.blocks == [] && !r.player.deck.active && !r.player.deck.loaded
  {
    Tape([], Rewind(Player(Deck(false, false, false, false), Head(0, 0, 0, Stop, false, 0, 0, false))))
  }

  /** zx_tape_play: set playing and recompute the active flag; starting
      playback starts the current block if stopped, stopping it sets EAR high. */
  function Play(blocks: seq<Block>, p: Player, play: bool): (r: Player)
    requires Valid(blocks, p.head)
    ensures Valid(blocks, r.head)
    ensures !play ==> !r.deck.active && !r.deck.playing && r.head == p.head.(ear := true)
    ensures play && p.head.phase != Stop ==> r.deck.active == p.deck.loaded && r.head == p.head
    ensures play && p.head.phase == Stop ==> r.head == StartHead(blocks, p.head)
  {
    if !play then Player(p.deck.(playing := false, active := false), p.head.(ear := true))
    else if p.head.phase == Stop then StartBlock(blocks, Player(p.deck.(playing := true, active := p.deck.loaded), p.head))
    else Player(p.deck.(playing := true, active := p.deck.loaded), p.head)
  }
}

=== FILE: tapefile.dfy ===
/** The tape file loaders: TAP (a list of length-prefixed blocks) and TZX
    (a header followed by typed blocks, of which the standard, turbo, pure
    data and pause blocks become tape blocks, pure tone, pulse sequence and
    signal level blocks shape the next one, and the rest are skipped). Both
    parsers work on the bytes that remain, so a position in the file is a
    suffix of it. */
module TapeFile {
  import opened Bits
  import opened Engine = Tape

  // ---------------------------------------------------------------- TAP

  /** A TAP block: the standard ROM timings, pilot and sync, no pause of its own. */
  function TapBlock(data: seq<bv8>): (b: Block)
    ensures b.data == data && b.hasPilotSync && !b.isTurbo && !b.pauseDefined && !b.startLevelSet
  {
    Block(data, true, false, 8, false, 0, 2168, 667, 735, 855, 1710, 0, false, true)
  }

  /** The length field of the record at the start of `buf`. */
  function RecordLen(buf: seq<bv8>): (n: nat)
    requires |buf| >= 2
    ensures n < 0x1_0000
  {
    Le16(buf, 0)
  }

  /** The blocks of a TAP file: records `[length lo, length hi, bytes...]`
      until fewer than two bytes remain or a record runs past the end,
      which ends the list without an error. */
  function ParseTap(buf: seq<bv8>): (r: seq<Block>)
    ensures forall i :: 0 <= i < |r| ==> |r[i].data| < 0x1_0000 && r[i] == TapBlock(r[i].data)
    decreases |buf|
  {
    if |buf| < 2 || 2 + RecordLen(buf) > |buf| then []
    else [TapBlock(buf[2..2 + RecordLen(buf)])] + ParseTap(buf[2 + RecordLen(buf)..])
  }

  /** Two little-endian bytes of a 16-bit value. */
  function U16Bytes(n: U16): (s: seq<bv8>)
    ensures |s| == 2 && Le16(s, 0) == n
  {
    [Byte(n % 256), Byte(n / 256)]
  }

  /** The TAP file holding the given block contents, in order. */
  function EncodeTap(ds: seq<seq<bv8>>): (buf: seq<bv8>)
    requires forall i :: 0 <= i < |ds| ==> |ds[i]| < 0x1_0000
  {
    if ds == [] then [] else U16Bytes(|ds[0]|) + ds[0] + EncodeTap(ds[1..])
  }

  function TapBlocks(ds: seq<seq<bv8>>): (r: seq<Block>)
    ensures |r| == |ds|
  {
    if ds == [] then [] else [TapBlock(ds[0])] + TapBlocks(ds[1..])
  }

  /** One record is read as one block, and reading goes on after it. */
  lemma {:induction false} TapRecord(d: seq<bv8>, rest: seq<bv8>)
    requires |d| < 0x1_0000
    ensures ParseTap(U16Bytes(|d|) + d + rest) == [TapBlock(d)] + ParseTap(rest)
  {
    var buf := U16Bytes(|d|) + d + rest;
    assert RecordLen(buf) == |d|;
    assert buf[2..2 + |d|] == d;
    assert buf[2 + |d|..] == rest;
  }

  /** Reading an encoded TAP file gives back its blocks, followed by whatever
      the bytes after them hold. */
  lemma {:induction false} TapRoundTrip(ds: seq<seq<bv8>>, tail: seq<bv8>)
    requires forall i :: 0 <= i < |ds| ==> |ds[i]| < 0x1_0000
    ensures ParseTap(EncodeTap(ds) + tail) == TapBlocks(ds) + ParseTap(tail)
  {
    if ds == [] {
      assert EncodeTap(ds) + tail == tail;
    } else {
      var rest := EncodeTap(ds[1..]) + tail;
      EncodeTapCons(ds, tail);
      TapRecord(ds[0], rest);
      TapRoundTrip(ds[1..], tail);
      TapBlocksCons(ds, ParseTap(tail));
    }
  }

  lemma EncodeTapCons(ds: seq<seq<bv8>>, tail: seq<bv8>)
    requires ds != [] && forall i :: 0 <= i < |ds| ==> |ds[i]| < 0x1_0000
    ensures EncodeTap(ds) + tail == U16Bytes(|ds[0]|) + ds[0] + (EncodeTap(ds[1..]) + tail)
  {
  }

  lemma TapBlocksCons(ds: seq<seq<bv8>>, more: seq<Block>)
    requires ds != []
    ensures TapBlocks(ds) + more == [TapBlock(ds[0])] + (TapBlocks(ds[1..]) + more)
  {
  }

  /** A trailing record that is cut short adds no block. */
  lemma TapTruncatedTail(tail: seq<bv8>)
    requires |tail| < 2 || 2 + Le16(tail, 0) > |tail|
    ensures ParseTap(tail) == []
  {
  }

  // ---------------------------------------------------------------- TZX blocks

  /** Why a load fails. */
  datatype LoadError = InvalidHeader | OutOfMemory | Unsupported(id: bv8)

  /** What the pure tone (0x12), pulse sequence (0x13) and signal level (0x2B)
      blocks leave for the next data block. */
  datatype Pending = Pending(
    havePilot: bool, pilotLen: U16, pilotPulses: U16,
    haveSync: bool, sync1: U16, sync2: U16,
    levelSet: bool, level: bool)

  /** The pending state at the start of a file. */
  const NoPending := Pending(false, 0, 0, false, 0, 0, false, true)

  /** The pending state with nothing to apply. */
  predicate Idle(pend: Pending)
  {
    !pend.havePilot && !pend.haveSync && !pend.levelSet
  }

  /** A block as tzx_append_block creates it: ROM timings and a defined pause of 0. */
  function TzxBlock(data: seq<bv8>): (b: Block)
    ensures b.data == data && b.pauseDefined && b.hasPilotSync && !b.isTurbo && !b.startLevelSet
  {
    Block(data, true, false, 8, true, 0, 2168, 667, 735, 855, 1710, 0, false, true)
  }

  /** A pending signal level becomes the block's start level and is used up. */
  function WithLevel(b: Block, pend: Pending): (r: Block)
    ensures pend.levelSet ==> r == b.(startLevelSet := true, startLevel := pend.level)
    ensures !pend.levelSet ==> r == b
  {
    if pend.levelSet then b.(startLevelSet := true, startLevel := pend.level) else b
  }

  /** The last-byte bit count of a turbo or pure data block: 0 means 8. */
  function UsedField(v: bv8): (r: bv8)
    ensures r != 0
    ensures v != 0 ==> r == v
  {
    if v == 0 then 8 else v
  }

  /** The result of one block of the TZX loop: the bytes it used, the pending
      state after it and the tape block it produced, if any; the end of the
      loop (a block cut short); or a failed load. */
  datatype Step = Next(used: nat, pend: Pending, out: seq<Block>) | End | Fail(err: LoadError)

  /** The well-formed results of a block handler for `n` bytes of input. */
  predicate StepOk(s: Step, n: nat)
  {
    s.Next? ==> 1 <= s.used <= n && |s.out| <= 1
  }

  /** ID 0x10, standard speed data: pause, length, bytes. */
  function Standard(body: seq<bv8>, pend: Pending): (s: Step)
    ensures StepOk(s, |body|)
    ensures s.Next? ==> s.pend == pend.(havePilot := false, haveSync := false, levelSet := false)
  {
    if |body| < 4 || 4 + Le16(body, 2) > |body| then End
    else
      Next(4 + Le16(body, 2), pend.(havePilot := false, haveSync := false, levelSet := false),
           [WithLevel(TzxBlock(body[4..4 + Le16(body, 2)]).(pauseMs := Le16(body, 0)), pend)])
  }

  /** ID 0x11, turbo speed data: every timing given, 24-bit length. */
  function Turbo(body: seq<bv8>, pend: Pending): (s: Step)
    ensures StepOk(s, |body|)
    ensures s == Fail(OutOfMemory) <==> |body| >= 0x12 && 0x12 + Le24(body, 0x0F) <= |body| && Le24(body, 0x0F) > 0xFFFF
  {
    if |body| < 0x12 || 0x12 + Le24(body, 0x0F) > |body| then End
    else if Le24(body, 0x0F) > 0xFFFF then Fail(OutOfMemory)
    else
      Next(0x12 + Le24(body, 0x0F), pend.(havePilot := false, haveSync := false, levelSet := false),
           [WithLevel(TzxBlock(body[0x12..0x12 + Le24(body, 0x0F)]).(
              pauseMs := Le16(body, 0x0D), isTurbo := true, usedBitsLast := UsedField(body[0x0C]),
              pilotLen := Le16(body, 0), sync1Len := Le16(body, 2), sync2Len := Le16(body, 4),
              bit0Len := Le16(body, 6), bit1Len := Le16(body, 8), pilotPulses := Le16(body, 0x0A)), pend)])
  }

  /** The pure data block's own fields, before pending tone and sync are applied. */
  function PureBlock(body: seq<bv8>): (b: Block)
    requires |body| >= 0x0A && 0x0A + Le24(body, 7) <= |body|
    ensures !b.hasPilotSync && b.isTurbo && b.pauseDefined
  {
    TzxBlock(body[0x0A..0x0A + Le24(body, 7)]).(
      pauseMs := Le16(body, 5), hasPilotSync := false, isTurbo := true, usedBitsLast := UsedField(body[4]),
      bit0Len := Le16(body, 0), bit1Len := Le16(body, 2))
  }

  /** A preceding pure tone and pulse sequence turn a pure data block into a
      full pilot, sync and data block. */
  function WithPreamble(b: Block, pend: Pending): (r: Block)
    ensures pend.havePilot || pend.haveSync ==> r.hasPilotSync
    ensures !pend.havePilot && !pend.haveSync ==> r == b
    ensures pend.havePilot ==> r.pilotLen == pend.pilotLen && r.pilotPulses == pend.pilotPulses && r.isTurbo
    ensures pend.haveSync ==> r.sync1Len == pend.sync1 && r.sync2Len == pend.sync2
    ensures r.data == b.data && r.pauseMs == b.pauseMs && r.bit0Len == b.bit0Len && r.bit1Len == b.bit1Len
  {
    if !pend.havePilot && !pend.haveSync then b
    else
      WithSync(if pend.havePilot then b.(hasPilotSync := true, pilotLen := pend.pilotLen, pilotPulses := pend.pilotPulses, isTurbo := true)
               else b.(hasPilotSync := true), pend)
  }

  function WithSync(b: Block, pend: Pending): (r: Block)
    ensures pend.haveSync ==> r == b.(sync1Len := pend.sync1, sync2Len := pend.sync2)
    ensures !pend.haveSync ==> r == b
  {
    if pend.haveSync then b.(sync1Len := pend.sync1, sync2Len := pend.sync2) else b
  }

  /** ID 0x14, pure data: bit timings, 24-bit length, no pilot or sync of its own. */
  function PureData(body: seq<bv8>, pend: Pending): (s: Step)
    ensures StepOk(s, |body|)
    ensures s == Fail(OutOfMemory) <==> |body| >= 0x0A && 0x0A + Le24(body, 7) <= |body| && Le24(body, 7) > 0xFFFF
    ensures s.Next? ==> Idle(s.pend)
  {
    if |body| < 0x0A || 0x0A + Le24(body, 7) > |body| then End
    else if Le24(body, 7) > 0xFFFF then Fail(OutOfMemory)
    else
      Next(0x0A + Le24(body, 7), pend.(havePilot := false, haveSync := false, levelSet := false),
           [WithLevel(WithPreamble(PureBlock(body), pend), pend)])
  }

  /** ID 0x20, a pause: an empty block; it also drops every pending setting. */
  function PauseBlock(body: seq<bv8>, pend: Pending): (s: Step)
    ensures StepOk(s, |body|)
    ensures s.Next? ==> s.used == 2 && Idle(s.pend) && |s.out| == 1 && s.out[0].data == [] && s.out[0].pauseMs == Le16(body, 0)
  {
    if |body| < 2 then End
    else Next(2, pend.(havePilot := false, haveSync := false, levelSet := false),
              [TzxBlock([]).(pauseMs := Le16(body, 0), hasPilotSync := false, isTurbo := false)])
  }

  /** ID 0x12, a pure tone: remembered as the pilot of the next pure data block. */
  function PureTone(body: seq<bv8>, pend: Pending): (s: Step)
    ensures StepOk(s, |body|)
    ensures s.Next? ==> s.out == [] && s.pend.havePilot
  {
    if |body| < 4 then End
    else Next(4, pend.(havePilot := true, pilotLen := Le16(body, 0), pilotPulses := Le16(body, 2)), [])
  }

  /** ID 0x13, a pulse sequence: its first two pulses are remembered as the
      sync of the next pure data block (one pulse serves as both). */
  function PulseSequence(body: seq<bv8>, pend: Pending): (s: Step)
    ensures StepOk(s, |body|)
    ensures s.Next? ==> s.out == [] && (s.pend.haveSync <==> body[0] > 0)
  {
    if |body| < 1 || 1 + 2 * body[0] as nat > |body| then End
    else
      Next(1 + 2 * body[0] as nat,
           pend.(haveSync := body[0] > 0,
                 sync1 := if body[0] >= 1 then Le16(body, 1) else pend.sync1,
                 sync2 := if body[0] >= 2 then Le16(body, 3) else if body[0] >= 1 then Le16(body, 1) else pend.sync1),
           [])
  }

  /** ID 0x2B, set signal level: the next block starts at that level. */
  function SetLevel(body: seq<bv8>, pend: Pending): (s: Step)
    ensures StepOk(s, |body|)
    ensures s.Next? ==> s.out == []
  {
    if |body| < 4 || 4 + Le32(body, 0) > |body| then End
    else if Le32(body, 0) >= 1 then Next(4 + Le32(body, 0), pend.(levelSet := true, level := body[4] != 0), [])
    else Next(4, pend, [])
  }

  // ---------------------------------------------------------------- skipped blocks

  /** What skipping a block found. */
  datatype Skip = Skipped(used: nat) | Truncated | Unknown

  /** The block IDs tzx_skip_block knows how to step over. */
  predicate Skippable(id: bv8)
  {
    id == 0x12 || id == 0x13 || id == 0x15 || id == 0x18 || id == 0x19 || id == 0x20 || id == 0x21 ||
    id == 0x22 || id == 0x23 || id == 0x24 || id == 0x25 || id == 0x26 || id == 0x27 || id == 0x28 ||
    id == 0x2A || id == 0x2B || id == 0x30 || id == 0x31 || id == 0x32 || id == 0x33 || id == 0x35 || id == 0x5A
  }

  /** The fixed part of a skipped block: the bytes that must be present
      before its length can be read. */
  function HeadLen(id: bv8): (h: nat)
    requires Skippable(id)
    ensures h <= 20
  {
    if id == 0x12 then 4
    else if id == 0x13 || id == 0x21 || id == 0x30 || id == 0x33 then 1
    else if id == 0x15 then 8
    else if id == 0x18 || id == 0x19 || id == 0x2A || id == 0x2B then 4
    else if id == 0x20 || id == 0x23 || id == 0x24 || id == 0x26 || id == 0x28 || id == 0x32 || id == 0x31 then 2
    else if id == 0x22 || id == 0x25 || id == 0x27 then 0
    else if id == 0x35 then 20
    else 9
  }

  /** The bytes of a skipped block after its fixed part, read from that part
      (a count of bytes, of 2-byte pulses or of 3-byte selections, or a
      24- or 32-bit length). */
  function Extra(head: seq<bv8>, id: bv8): nat
    requires Skippable(id) && |head| == HeadLen(id)
  {
    if id == 0x13 then 2 * head[0] as nat
    else if id == 0x21 || id == 0x30 then head[0] as nat
    else if id == 0x33 then 3 * head[0] as nat
    else if id == 0x15 then Le24(head, 5)
    else if id == 0x18 || id == 0x19 || id == 0x2A || id == 0x2B then Le32(head, 0)
    else if id == 0x26 then 2 * Le16(head, 0)
    else if id == 0x28 || id == 0x32 then Le16(head, 0)
    else if id == 0x31 then head[1] as nat
    else if id == 0x35 then Le32(head, 16)
    else 0
  }

  /** tzx_skip_block: the length of a block the loader steps over, read from
      its fixed part; a block cut short ends the load and an unknown ID
      stops it with an error. */
  function SkipBlock(body: seq<bv8>, id: bv8): (s: Skip)
    ensures s == Unknown <==> !Skippable(id)
    ensures s.Skipped? ==> HeadLen(id) <= s.used <= |body|
    ensures s.Skipped? ==> s.used == HeadLen(id) + Extra(body[..HeadLen(id)], id)
  {
    if !Skippable(id) then Unknown
    else if |body| < HeadLen(id) || HeadLen(id) + Extra(body[..HeadLen(id)], id) > |body| then Truncated
    else Skipped(HeadLen(id) + Extra(body[..HeadLen(id)], id))
  }

  /** The text description block (ID 0x30): a length byte and the text. */
  lemma TextSkipped(text: seq<bv8>, rest: seq<bv8>)
    requires |text| < 256
    ensures SkipBlock([Byte(|text|)] + text + rest, 0x30) == Skipped(1 + |text|)
  {
    assert ([Byte(|text|)] + text + rest)[..1] == [Byte(|text|)];
  }

  /** A skipped block is read from its own bytes only: whatever follows it,
      it is skipped the same way. */
  lemma {:induction false} SkipReadsOnlyTheBlock(body: seq<bv8>, id: bv8, rest: seq<bv8>)
    requires SkipBlock(body, id).Skipped?
    ensures SkipBlock(body[..SkipBlock(body, id).used] + rest, id) == SkipBlock(body, id)
  {
    var n := SkipBlock(body, id).used;
    var h := HeadLen(id);
    assert (body[..n] + rest)[..h] == body[..h];
  }

  /** A skippable block cut short anywhere ends the load quietly. */
  lemma {:induction false} SkipCutShort(body: seq<bv8>, id: bv8, k: nat)
    requires SkipBlock(body, id).Skipped? && k < SkipBlock(body, id).used
    ensures SkipBlock(body[..k], id) == Truncated
  {
    var h := HeadLen(id);
    if k >= h {
      assert body[..k][..h] == body[..h];
    }
  }

  // ---------------------------------------------------------------- TZX loop

  /** One pass of the TZX loop on the bytes from an ID onwards. */
  function TzxStep(buf: seq<bv8>, pend: Pending): (s: Step)
    requires |buf| > 0
    ensures StepOk(s, |buf|)
    ensures s.Fail? ==> s.err != InvalidHeader
    ensures s == Fail(Unsupported(buf[0])) <==> !Skippable(buf[0]) && buf[0] != 0x10 && buf[0] != 0x11 && buf[0] != 0x14
  {
    var id := buf[0];
    var body := buf[1..];
    if id == 0x10 then Shift(Standard(body, pend))
    else if id == 0x11 then Shift(Turbo(body, pend))
    else if id == 0x14 then Shift(PureData(body, pend))
    else if id == 0x20 then Shift(PauseBlock(body, pend))
    else if id == 0x12 then Shift(PureTone(body, pend))
    else if id == 0x13 then Shift(PulseSequence(body, pend))
    else if id == 0x2B then Shift(SetLevel(body, pend))
    else
      match SkipBlock(body, id)
      case Unknown => Fail(Unsupported(id))
      case Truncated => End
      case Skipped(n) => Next(1 + n, pend, [])
  }

  /** A handler's result counted from the ID byte. */
  function Shift(s: Step): (r: Step)
    ensures r.Next? <==> s.Next?
    ensures s.Next? ==> r == s.(used := s.used + 1)
    ensures !s.Next? ==> r == s
  {
    if s.Next? then s.(used := s.used + 1) else s
  }

  /** The outcome of parsing: the blocks, or the reason the load failed. */
  datatype Parsed = Parsed(blocks: seq<Block>) | Failed(err: LoadError)

  /** The TZX block loop: blocks are collected until the input ends or a
      block is cut short; a failing block fails the whole load. */
  function ParseTzx(buf: seq<bv8>, pend: Pending): (r: Parsed)
    ensures r.Failed? ==> r.err != InvalidHeader
    decreases |buf|
  {
    if |buf| == 0 then Parsed([])
    else
      match TzxStep(buf, pend)
      case End => Parsed([])
      case Fail(e) => Failed(e)
      case Next(n, p2, out) =>
        match ParseTzx(buf[n..], p2)
        case Parsed(bs) => Parsed(out + bs)
        case Failed(e) => Failed(e)
  }

  // ---------------------------------------------------------------- TZX encoding

  /** The signature at the start of every TZX file: "ZXTape!" and 0x1A. */
  const Signature: seq<bv8> := [0x5A, 0x58, 0x54, 0x61, 0x70, 0x65, 0x21, 0x1A]

  /** The header test: at least ten bytes, starting with the signature (the
      two version bytes are not checked). */
  predicate HeaderOk(buf: seq<bv8>)
  {
    |buf| >= 10 && buf[..8] == Signature
  }

  /** A standard speed data block (ID 0x10) with the given pause and bytes. */
  function EncodeStandard(pauseMs: U16, d: seq<bv8>): (buf: seq<bv8>)
    requires |d| < 0x1_0000
    ensures |buf| == 5 + |d|
  {
    [0x10] + U16Bytes(pauseMs) + U16Bytes(|d|) + d
  }

  /** The block a standard speed data block loads as. */
  function StandardBlock(pauseMs: U16, d: seq<bv8>): (b: Block)
    ensures b.data == d && b.pauseMs == pauseMs && b.hasPilotSync && !b.isTurbo && b.pauseDefined
  {
    TzxBlock(d).(pauseMs := pauseMs)
  }

  /** A standard speed data block is read back as one block and nothing else
      of the input. */
  lemma {:induction false} StandardRoundTrip(pauseMs: U16, d: seq<bv8>, rest: seq<bv8>, pend: Pending)
    requires |d| < 0x1_0000 && Idle(pend)
    ensures TzxStep(EncodeStandard(pauseMs, d) + rest, pend) == Next(5 + |d|, pend, [StandardBlock(pauseMs, d)])
  {
    var buf := EncodeStandard(pauseMs, d) + rest;
    var body := U16Bytes(pauseMs) + U16Bytes(|d|) + (d + rest);
    assert buf[0] == 0x10;
    assert buf[1..] == body;
    StandardBody(pauseMs, d, rest, pend);
  }

  /** The body of a standard speed block (after its ID) reads back. */
  lemma {:induction false} StandardBody(pauseMs: U16, d: seq<bv8>, rest: seq<bv8>, pend: Pending)
    requires |d| < 0x1_0000 && Idle(pend)
    ensures Standard(U16Bytes(pauseMs) + U16Bytes(|d|) + (d + rest), pend) == Next(4 + |d|, pend, [StandardBlock(pauseMs, d)])
  {
    var body := U16Bytes(pauseMs) + U16Bytes(|d|) + (d + rest);
    assert Le16(body, 0) == pauseMs;
    assert Le16(body, 2) == |d|;
    assert body[4..4 + |d|] == d;
  }

  /** A file body of standard speed blocks only. */
  function EncodeStandards(items: seq<(U16, seq<bv8>)>): (buf: seq<bv8>)
    requires forall i :: 0 <= i < |items| ==> |items[i].1| < 0x1_0000
  {
    if items == [] then [] else EncodeStandard(items[0].0, items[0].1) + EncodeStandards(items[1..])
  }

  function StandardBlocks(items: seq<(U16, seq<bv8>)>): (r: seq<Block>)
    ensures |r| == |items|
    ensures forall i :: 0 <= i < |items| ==> r[i] == StandardBlock(items[i].0, items[i].1)
  {
    if items == [] then [] else [StandardBlock(items[0].0, items[0].1)] + StandardBlocks(items[1..])
  }

  /** A TZX body of standard speed blocks loads as exactly those blocks. */
  lemma {:induction false} StandardsRoundTrip(items: seq<(U16, seq<bv8>)>, pend: Pending)
    requires forall i :: 0 <= i < |items| ==> |items[i].1| < 0x1_0000
    requires Idle(pend)
    ensures ParseTzx(EncodeStandards(items), pend) == Parsed(StandardBlocks(items))
  {
    if items != [] {
      var buf := EncodeStandards(items);
      var first := EncodeStandard(items[0].0, items[0].1);
      var rest := EncodeStandards(items[1..]);
      StandardRoundTrip(items[0].0, items[0].1, rest, pend);
      assert buf[|first|..] == rest;
      StandardsRoundTrip(items[1..], pend);
    }
  }

  // ---------------------------------------------------------------- loading

  /** The outcome a load reports: whether a tape is now loaded, or the error. */
  datatype Outcome = Loaded(loaded: bool) | Error(err: LoadError)

  /** A load's result: the tape drive afterwards and the outcome. */
  datatype Load = Load(tape: Engine.Tape, outcome: Outcome)

  /** The drive with the given blocks, stopped at the first, EAR low; it is
      loaded when there is at least one block, and never playing. */
  function Fresh(blocks: seq<Block>): (r: Engine.Tape)
    ensures Ok(r) && r.blocks == blocks
    ensures r.player.deck.loaded <==> |blocks| > 0
    ensures !r.player.deck.playing && !r.player.deck.active && !r.player.deck.autostarted
    ensures r.player.head.phase == Stop && r.player.head.blockIdx == 0 && !r.player.head.ear
  {
    Engine.Tape(blocks, Player(Deck(|blocks| > 0, false, false, false), Head(0, 0, 0, Stop, false, 0, 0, false)))
  }

  /** The drive after tape_free_state and tape_rewind: no blocks, nothing
      loaded, EAR high; the playing switch is left as it was. */
  function Emptied(t: Engine.Tape): (r: Engine.Tape)
    ensures Ok(r) && r.blocks == [] && !r.player.deck.loaded && !r.player.deck.active
    ensures r.player.deck.playing == t.player.deck.playing
  {
    Engine.Tape([], Rewind(Player(t.player.deck.(loaded := false, active := false), t.player.head)))
  }

  /** zx_load_tap: replace the tape with the file's blocks. */
  function LoadTap(buf: seq<bv8>): (r: Load)
    ensures r.outcome == Loaded(|ParseTap(buf)| > 0)
    ensures r.tape == Fresh(ParseTap(buf))
  {
    Load(Fresh(ParseTap(buf)), Loaded(|ParseTap(buf)| > 0))
  }

  /** Loading a TAP file made of records puts exactly those records on a
      fresh deck, and reports a load exactly when there is at least one. */
  lemma {:induction false} LoadTapEncoded(ds: seq<seq<bv8>>)
    requires forall i :: 0 <= i < |ds| ==> |ds[i]| < 0x1_0000
    ensures LoadTap(EncodeTap(ds)).tape.blocks == TapBlocks(ds)
    ensures LoadTap(EncodeTap(ds)).outcome == Loaded(|ds| > 0)
  {
    TapRoundTrip(ds, []);
    assert EncodeTap(ds) + [] == EncodeTap(ds);
  }

  /** zx_load_tzx: a file without the header is refused and the tape kept;
      otherwise the tape is replaced by the file's blocks, or emptied when a
      block fails. */
  function LoadTzx(t: Engine.Tape, buf: seq<bv8>): (r: Load)
    ensures r.outcome == Error(InvalidHeader) <==> !HeaderOk(buf)
    ensures !HeaderOk(buf) ==> r.tape == t
    ensures r.outcome.Error? && HeaderOk(buf) ==> r.tape == Emptied(t)
    ensures r.outcome.Loaded? ==> r.tape == Fresh(r.tape.blocks)
    ensures Ok(r.tape) || r.tape == t
  {
    if !HeaderOk(buf) then Load(t, Error(InvalidHeader))
    else
      match ParseTzx(buf[10..], NoPending)
      case Parsed(bs) => Load(Fresh(bs), Loaded(|bs| > 0))
      case Failed(e) => Load(Emptied(t), Error(e))
  }

  /** A block with an ID the loader does not know fails the whole load and
      leaves the drive empty, whatever came before it. */
  lemma UnknownIdFails(t: Engine.Tape, header: seq<bv8>, id: bv8, rest: seq<bv8>)
    requires |header| == 10 && HeaderOk(header)
    requires !Skippable(id) && id != 0x10 && id != 0x11 && id != 0x14
    ensures LoadTzx(t, header + [id] + rest) == Load(Emptied(t), Error(Unsupported(id)))
  {
    var buf := header + [id] + rest;
    assert buf[..8] == header[..8];
    assert buf[10..] == [id] + rest;
  }

  /** A TZX file of standard speed blocks loads exactly those blocks. */
  lemma {:induction false} LoadStandards(t: Engine.Tape, header: seq<bv8>, items: seq<(U16, seq<bv8>)>)
    requires |header| == 10 && HeaderOk(header)
    requires forall i :: 0 <= i < |items| ==> |items[i].1| < 0x1_0000
    ensures LoadTzx(t, header + EncodeStandards(items)) ==
              Load(Fresh(StandardBlocks(items)), Loaded(|items| > 0))
  {
    var buf := header + EncodeStandards(items);
    assert buf[..8] == header[..8];
    assert buf[10..] == EncodeStandards(items);
    StandardsRoundTrip(items, NoPending);
  }

  /** A pure tone block (ID 0x12). */
  function EncodeTone(pilotLen: U16, pulses: U16): (buf: seq<bv8>)
    ensures |buf| == 5
  {
    [0x12 as bv8] + U16Bytes(pilotLen) + U16Bytes(pulses)
  }

  /** A pulse sequence block (ID 0x13) of two pulses. */
  function EncodeSync(s1: U16, s2: U16): (buf: seq<bv8>)
    ensures |buf| == 6
  {
    [0x13 as bv8, 2] + U16Bytes(s1) + U16Bytes(s2)
  }

  /** A pure tone is remembered as the next block's pilot. */
  lemma {:induction false} ToneStep(pilotLen: U16, pulses: U16, rest: seq<bv8>, pend: Pending)
    ensures TzxStep(EncodeTone(pilotLen, pulses) + rest, pend) ==
              Next(5, pend.(havePilot := true, pilotLen := pilotLen, pilotPulses := pulses), [])
  {
    var body := (EncodeTone(pilotLen, pulses) + rest)[1..];
    assert body == U16Bytes(pilotLen) + (U16Bytes(pulses) + rest);
    assert Le16(body, 0) == pilotLen;
    assert body[2..] == U16Bytes(pulses) + rest;
    assert Le16(body, 2) == Le16(body[2..], 0);
  }

  /** A two-pulse sequence is remembered as the next block's sync. */
  lemma {:induction false} SyncStep(s1: U16, s2: U16, rest: seq<bv8>, pend: Pending)
    ensures TzxStep(EncodeSync(s1, s2) + rest, pend) ==
              Next(6, pend.(haveSync := true, sync1 := s1, sync2 := s2), [])
  {
    var body := (EncodeSync(s1, s2) + rest)[1..];
    assert body == [2 as bv8] + U16Bytes(s1) + (U16Bytes(s2) + rest);
    assert body[1..] == U16Bytes(s1) + (U16Bytes(s2) + rest);
    assert Le16(body, 1) == Le16(body[1..], 0) == s1;
    assert body[3..] == U16Bytes(s2) + rest;
    assert Le16(body, 3) == Le16(body[3..], 0) == s2;
  }

  /** A pure tone, a two-pulse sequence and a pure data block load as one
      block played with that pilot and sync and the data block's own bits. */
  lemma {:induction false} PreambleApplies(pilotLen: U16, pulses: U16, s1: U16, s2: U16, body: seq<bv8>, pend: Pending)
    requires |body| >= 0x0A && |body| == 0x0A + Le24(body, 7) && Le24(body, 7) <= 0xFFFF
    requires Idle(pend)
    ensures ParseTzx(EncodeTone(pilotLen, pulses) + EncodeSync(s1, s2) + [0x14 as bv8] + body, pend) ==
              Parsed([PureBlock(body).(hasPilotSync := true, pilotLen := pilotLen, pilotPulses := pulses,
                                       sync1Len := s1, sync2Len := s2)])
  {
    var pure := [0x14 as bv8] + body;
    var buf1 := EncodeSync(s1, s2) + pure;
    var buf := EncodeTone(pilotLen, pulses) + buf1;
    assert EncodeTone(pilotLen, pulses) + EncodeSync(s1, s2) + [0x14 as bv8] + body == buf;
    ToneStep(pilotLen, pulses, buf1, pend);
    var p1 := pend.(havePilot := true, pilotLen := pilotLen, pilotPulses := pulses);
    assert buf[5..] == buf1;
    SyncStep(s1, s2, pure, p1);
    var p2 := p1.(haveSync := true, sync1 := s1, sync2 := s2);
    assert buf1[6..] == pure;
    assert pure[1..] == body;
    var b := PureBlock(body).(hasPilotSync := true, pilotLen := pilotLen, pilotPulses := pulses, sync1Len := s1, sync2Len := s2);
    assert TzxStep(pure, p2) == Next(|pure|, p2.(havePilot := false, haveSync := false), [b]);
    assert pure[|pure|..] == [];
    assert ParseTzx(pure, p2) == Parsed([b]);
    assert ParseTzx(buf1, p1) == ParseTzx(pure, p2);
  }
}

=== FILE: timing.dfy ===
/** The slice loop of execute_one: the T-states of an instruction are
    handed to audio_tick (the AY chip and the samples) and then to
    tape_tick, in slices cut where the playing tape's current pulse or
    pause ends, so that each sample hears the EAR level of its own slice. */
module Timing {
  import opened Banks = Memory
  import Ay
  import Engine = Tape
  import Mixer

  /** The AY chip, the deck and the audio after a run of T-states. */
  datatype Slice = Slice(ay: Ay.AyState, tape: Engine.Tape, audio: Mixer.Audio)

  /** A deck that plays has already had its first tick, which starts the
      current block. */
  predicate Primed(t: Engine.Tape)
  {
    t.player.deck.active ==> t.player.deck.autostarted
  }

  /** The length of the next slice: the whole remainder, or less when the
      tape plays and its current pulse or pause ends sooner. */
  function Chunk(tape: Engine.Tape, rem: nat): (c: nat)
    requires rem > 0
    ensures 0 < c <= rem
    ensures tape.player.deck.active && 0 < tape.player.head.rem < rem ==> c == tape.player.head.rem
  {
    if tape.player.deck.active && 0 < tape.player.head.rem < rem then tape.player.head.rem as nat else rem
  }

  /** The signals a sample mixes, as they stand at the start of a slice. */
  function SourcesOf(beeper: bool, tape: Engine.Tape, tapeAudio: bool): Mixer.Sources
  {
    Mixer.Sources(beeper, tapeAudio, tape.player.deck.active, tape.player.head.ear)
  }

  /** The loop over the slices. Sliced or not, the tape and the AY chip end
      where one tick for the whole run would leave them. */
  function Slices(ay: Ay.AyState, model: Model, beeper: bool, tape: Engine.Tape, audio: Mixer.Audio, tapeAudio: bool, rem: nat): (r: Slice)
    requires rem > 0 && Engine.Ok(tape) && Primed(tape) && Ay.GenOk(ay.gen)
    ensures Ay.GenOk(r.ay.gen)
    ensures r.tape == Engine.Tick(tape, rem)
    ensures r.ay == Ay.Tick(ay, model, rem)
    ensures r.audio.accum == Mixer.Phase(audio.accum, rem)
    ensures Mixer.Extends(audio.samples, r.audio.samples, Mixer.Due(audio.accum, rem))
    decreases rem
  {
    var c := Chunk(tape, rem);
    var mixed := Mixer.AudioTick(audio, ay, model, SourcesOf(beeper, tape, tapeAudio), c);
    var after := Engine.Tick(tape, c);
    if c == rem then Slice(mixed.ay, after, mixed.audio)
    else
      TickPrimes(tape, c);
      Engine.TickSplits(tape, c, rem - c);
      Ay.TickSplits(ay, model, c, rem - c);
      Mixer.PhaseSplits(audio.accum, c, rem - c);
      var rest := Slices(mixed.ay, model, beeper, after, mixed.audio, tapeAudio, rem - c);
      Mixer.ExtendsTrans(audio.samples, mixed.audio.samples, rest.audio.samples,
                         Mixer.Due(audio.accum, c), Mixer.Due(mixed.audio.accum, rem - c));
      rest
  }

  /** Ticking keeps a started deck started (or stops it). */
  lemma TickPrimes(tape: Engine.Tape, n: int)
    requires Engine.Ok(tape) && Primed(tape)
    ensures Primed(Engine.Tick(tape, n))
  {
  }

  /** The first tick of execute_one, of no T-states, starts a deck that
      plays but has not started; the slices' ticks then run as if it had
      not been there. */
  function Prime(t: Engine.Tape): (r: Engine.Tape)
    requires Engine.Ok(t)
    ensures Engine.Ok(r) && Primed(r) && r.blocks == t.blocks
    ensures forall n: nat {:trigger Engine.Tick(r, n)} :: Engine.Tick(r, n) == Engine.Tick(t, n)
  {
    if t.player.deck.active && !t.player.deck.autostarted then
      PrimeSplits(t);
      Engine.Tick(t, 0)
    else t
  }

  lemma PrimeSplits(t: Engine.Tape)
    requires Engine.Ok(t)
    ensures forall n: nat {:trigger Engine.Tick(Engine.Tick(t, 0), n)} :: Engine.Tick(Engine.Tick(t, 0), n) == Engine.Tick(t, n)
  {
    forall n: nat
      ensures Engine.Tick(Engine.Tick(t, 0), n) == Engine.Tick(t, n)
    {
      Engine.TickSplits(t, 0, n);
    }
  }
}

=== FILE: z80.dfy ===
/** The Z80 register file: the main and alternate register sets, the index
    registers, SP, PC, I and R, and the interrupt flip-flops, together with
    the register-level operations every instruction group shares. */
module Z80 {
  import opened Bits
  import opened Alu

  /** One register set: A, the flags register F (as its eight bits) and
      B, C, D, E, H, L. */
  datatype Regs = Regs(a: bv8, f: Flags, b: bv8, c: bv8, d: bv8, e: bv8, h: bv8, l: bv8)

  /** Interrupt and sequencing state: IFF1 and IFF2, the interrupt mode, the
      pending EI (`ei_delay`, which the code only ever sets to 0 or 1), HALT,
      and the opcode the last instruction started with. */
  datatype Control = Control(iff1: bool, iff2: bool, im: bv8, eiDelay: bool, halted: bool, lastOpcode: bv8)

  /** The CPU: `main` is the visible register set, `alt` the shadow set
      that EX AF,AF' and EXX swap in. */
  datatype Cpu = Cpu(main: Regs, alt: Regs, ix: bv16, iy: bv16, sp: bv16, pc: bv16, i: bv8, r: bv8, ctl: Control)

  // ---------------------------------------------------------------- register pairs

  function BC(g: Regs): bv16 { Word(g.b, g.c) }
  function DE(g: Regs): bv16 { Word(g.d, g.e) }
  function HL(g: Regs): bv16 { Word(g.h, g.l) }

  /** AF: A high, the packed flags low. */
  function AF(g: Regs): bv16 { Word(g.a, PackFlags(g.f)) }

  /** SET_BC: B takes the high byte, C the low one; nothing else changes. */
  function SetBC(g: Regs, w: bv16): (r: Regs)
    ensures BC(r) == w && r.(b := g.b, c := g.c) == g
  {
    WordOfParts(w);
    g.(b := Hi(w), c := Lo(w))
  }

  function SetDE(g: Regs, w: bv16): (r: Regs)
    ensures DE(r) == w && r.(d := g.d, e := g.e) == g
  {
    WordOfParts(w);
    g.(d := Hi(w), e := Lo(w))
  }

  function SetHL(g: Regs, w: bv16): (r: Regs)
    ensures HL(r) == w && r.(h := g.h, l := g.l) == g
  {
    WordOfParts(w);
    g.(h := Hi(w), l := Lo(w))
  }

  /** SET_AF (POP AF): A from the high byte, the flags unpacked from the low one. */
  function SetAF(g: Regs, w: bv16): (r: Regs)
    ensures AF(r) == w && r.(a := g.a, f := g.f) == g
  {
    FlagsRoundTrip(g.f, Lo(w));
    WordOfParts(w);
    g.(a := Hi(w), f := UnpackFlags(Lo(w)))
  }

  /** The register pair an instruction's `p` field (bits 4-5) names in the
      LD rr,nn / INC rr / ADD HL,rr columns: BC, DE, HL, SP. */
  function Pair(c: Cpu, p: nat): bv16
    requires p < 4
  {
    match p
    case 0 => BC(c.main)
    case 1 => DE(c.main)
    case 2 => HL(c.main)
    case _ => c.sp
  }

  function SetPair(c: Cpu, p: nat, w: bv16): (r: Cpu)
    requires p < 4
    ensures Pair(r, p) == w
    ensures forall q :: 0 <= q < 4 && q != p ==> Pair(r, q) == Pair(c, q)
    ensures r.main.a == c.main.a && r.main.f == c.main.f
    ensures r.(main := c.main, sp := c.sp) == c
  {
    match p
    case 0 => c.(main := SetBC(c.main, w))
    case 1 => c.(main := SetDE(c.main, w))
    case 2 => c.(main := SetHL(c.main, w))
    case _ => c.(sp := w)
  }

  /** The pair the PUSH/POP column names: BC, DE, HL, AF. */
  function StackPair(c: Cpu, p: nat): bv16
    requires p < 4
  {
    if p == 3 then AF(c.main) else Pair(c, p)
  }

  function SetStackPair(c: Cpu, p: nat, w: bv16): (r: Cpu)
    requires p < 4
    ensures StackPair(r, p) == w
    ensures r.sp == c.sp && r.pc == c.pc
  {
    if p == 3 then c.(main := SetAF(c.main, w)) else SetPair(c, p, w)
  }

  // ---------------------------------------------------------------- 8-bit registers

  /** The register an instruction's 3-bit field names, 6 (the byte at (HL))
      excepted: B, C, D, E, H, L, -, A. */
  function Get(g: Regs, k: nat): bv8
    requires k < 8 && k != 6
  {
    match k
    case 0 => g.b
    case 1 => g.c
    case 2 => g.d
    case 3 => g.e
    case 4 => g.h
    case 5 => g.l
    case _ => g.a
  }

  /** set_reg for a register: that register changes and no other. */
  function Put(g: Regs, k: nat, v: bv8): (r: Regs)
    requires k < 8 && k != 6
    ensures Get(r, k) == v && r.f == g.f
    ensures forall j :: 0 <= j < 8 && j != 6 && j != k ==> Get(r, j) == Get(g, j)
  {
    match k
    case 0 => g.(b := v)
    case 1 => g.(c := v)
    case 2 => g.(d := v)
    case 3 => g.(e := v)
    case 4 => g.(h := v)
    case 5 => g.(l := v)
    case _ => g.(a := v)
  }

  // ---------------------------------------------------------------- exchanges

  /** EX AF,AF': A and F trade places with the shadow A' and F'. */
  function ExAf(c: Cpu): (r: Cpu)
    ensures r.main.a == c.alt.a && r.main.f == c.alt.f && r.alt.a == c.main.a && r.alt.f == c.main.f
    ensures BC(r.main) == BC(c.main) && DE(r.main) == DE(c.main) && HL(r.main) == HL(c.main)
  {
    c.(main := c.main.(a := c.alt.a, f := c.alt.f), alt := c.alt.(a := c.main.a, f := c.main.f))
  }

  /** EXX: BC, DE and HL trade places with their shadows; A and F stay. */
  function Exx(c: Cpu): (r: Cpu)
    ensures BC(r.main) == BC(c.alt) && DE(r.main) == DE(c.alt) && HL(r.main) == HL(c.alt)
    ensures BC(r.alt) == BC(c.main) && DE(r.alt) == DE(c.main) && HL(r.alt) == HL(c.main)
    ensures r.main.a == c.main.a && r.main.f == c.main.f && r.alt.a == c.alt.a && r.alt.f == c.alt.f
  {
    c.(main := c.alt.(a := c.main.a, f := c.main.f), alt := c.main.(a := c.alt.a, f := c.alt.f))
  }

  /** Both exchanges undo themselves, and they commute. */
  lemma ExchangesInvolutive(c: Cpu)
    ensures ExAf(ExAf(c)) == c && Exx(Exx(c)) == c
    ensures ExAf(Exx(c)) == Exx(ExAf(c))
  {
  }

  // ---------------------------------------------------------------- opcode fields

  /** An opcode as a number. */
  function Code(op: bv8): (n: nat)
    ensures n < 256 && Byte(n) == op
  {
    op as nat
  }

  /** The fields the opcode tables are laid out by: `x` (bits 6-7), `y`
      (bits 3-5), `z` (bits 0-2), and `y` split into `p` (bits 4-5) and `q`
      (bit 3). */
  function X(n: nat): (x: nat)
    requires n < 256
    ensures x < 4
  {
    n / 64
  }

  function Y(n: nat): (y: nat)
    ensures y < 8
  {
    (n / 8) % 8
  }

  function Z(n: nat): (z: nat)
    ensures z < 8
  {
    n % 8
  }

  /** The fields put back together give the opcode. */
  lemma FieldsCompose(n: nat)
    requires n < 256
    ensures n == 64 * X(n) + 8 * Y(n) + Z(n)
  {
  }

  // ---------------------------------------------------------------- R

  /** The refresh step each instruction fetch applies to R: the low seven
      bits count up modulo 128, bit 7 is left alone. */
  function Refresh(r: bv8): (n: bv8)
    ensures n & 0x80 == r & 0x80
    ensures n & 0x7F == (r + 1) & 0x7F
  {
    (r & 0x80) | ((r + 1) & 0x7F)
  }

  /** `n` refresh steps in a row. */
  function Refreshes(r: bv8, n: nat): bv8
  {
    if n == 0 then r else Refresh(Refreshes(r, n - 1))
  }

  /** The low seven bits of R. */
  function Counter(r: bv8): (k: nat)
    ensures k < 128
  {
    (r & 0x7F) as nat
  }

  /** One refresh step adds one to the 7-bit counter, wrapping at 128. */
  lemma RefreshCounts(r: bv8)
    ensures Counter(Refresh(r)) == (Counter(r) + 1) % 128
  {
  }

  /** After `n` instruction fetches bit 7 of R is what it was and the low
      seven bits have advanced by `n` modulo 128; so 128 fetches bring R back. */
  lemma {:induction false} RefreshesCount(r: bv8, n: nat)
    ensures Refreshes(r, n) & 0x80 == r & 0x80
    ensures Counter(Refreshes(r, n)) == (Counter(r) + n) % 128
  {
    if n > 0 {
      RefreshesCount(r, n - 1);
      RefreshCounts(Refreshes(r, n - 1));
    }
  }

  /** R is determined by its bit 7 and its counter. */
  lemma SameR(x: bv8, y: bv8)
    requires x & 0x80 == y & 0x80 && Counter(x) == Counter(y)
    ensures x == y
  {
    assert x & 0x7F == y & 0x7F;
  }

  lemma ModCycle(k: nat)
    ensures (k + 128) % 128 == k % 128
  {
    var q, m := k / 128, k % 128;
    assert k + 128 == 128 * (q + 1) + m;
  }

  /** R repeats with period 128: `n + 128` fetches leave it as `n` do. */
  lemma {:induction false} RefreshPeriod(r: bv8, n: nat)
    ensures Refreshes(r, n + 128) == Refreshes(r, n)
  {
    var x, y := Refreshes(r, n + 128), Refreshes(r, n);
    RefreshesCount(r, n + 128);
    RefreshesCount(r, n);
    ModCycle(Counter(r) + n);
    assert Counter(x) == Counter(y);
    SameR(x, y);
  }
}
